=== FILE: README.md ===
# Black T-Shirt storefront: a Dafny model of the store, cart, checkout and orders core

This project models the logic of a small storefront in Dafny and proves properties about it.
The storefront has three parts:

- a browser store;
- an admin dashboard;
- an orders API that writes submitted orders into the published store document.

The model covers the following:

- **The local data store** (`assets/js/store.js`):
  - `get` and `set` over browser storage, with `set` failing when the quota refuses a value;
  - `ensureDefaults`;
  - the data-file URL;
  - merging remote orders with local ones (`mergeOrders`);
  - pulling a published document (`applyRemoteData`) and building one for publishing (`getPayloadForSync`);
  - the orders-API URL and WhatsApp number settings;
  - `addOrder`, the look-ups by id, `getVisibleProducts` and `getTotalStock`.
- **The cart** (`assets/js/cart.js`): line ids, adding, merging, removing, updating and clearing, and the quantity buttons.
- **The admin dashboard** (`admin/admin.js`):
  - the per-colour inventory tally;
  - size slugs and saving sizes;
  - saving and deleting products;
  - the GitHub sync settings;
  - the Google Maps link parser and the map-field validator.
- **The storefront** (`assets/js/storefront.js`): the discount badge, size ordering and size labels.
- **The floating contact button** (`assets/js/floating-contact.js`).
- **The checkout page** (`assets/js/order.js`): form validation, the order payload, the WhatsApp message, and the submit handler with its WhatsApp hand-off.
- **The Next.js order client** (`next-app/lib/submitOrder.js`, `next-app/pages/order.js`).
- **The orders API handler** (`next-app/pages/api/orders.js`): CORS, body parsing, validation, HTML escaping and the read-modify-write of the document.

JavaScript values are modelled by the `JsonValue.Json` datatype, which covers `undefined`, `null`, booleans, integers, strings, arrays and objects. An object is a sequence of entries in creation order. `Object.values` and `Object.entries` enumerate it through `OwnKeys.PropertyOrder`: keys that are array indices come first in ascending order, and the other keys follow in creation order, as section 10.1.11.1 of ECMAScript 2024 requires. JavaScript's truthiness, `String(x)`, `Number(x)`, `trim`, `parseInt` and `parseFloat` are defined once, in `JsonValue`, `JsText` and `NumParse`.

Several things are not computed inside the model. Each is passed in as a parameter or as a step of a state machine:

- browser storage is a `map<string, Json>`, and its quota is a predicate deciding whether a `set` fits;
- the clock, `JSON.parse`, `encodeURIComponent`, `fetch`, the GitHub API and the mail service.

A `TypeError` the source would throw is modelled as `None` or `Failure`. The one exception is `getTotalStock`, whose `+` never throws: a sum that meets a string turns into text, which `Store.PlusValue` models as a number or a text.

## Model

| member | source | states |
|---|---|---|
| StoreData.Get | assets/js/store.js:170-177 | a read never yields `undefined`; a missing key yields the default, or `null` when there is no default |
| StoreData.Set | assets/js/store.js:179-186 | `set` reports success exactly when the quota admits the value; on success only that key changes, on failure storage is untouched |
| StoreData.GetAfterSet | assets/js/store.js:170-186 | reading back a key just stored returns the stored value, whatever the default |
| StoreData.GetOtherAfterSet | assets/js/store.js:170-186 | storing under one key leaves every other key's read unchanged |
| StoreData.EnsureDefaults | assets/js/store.js:188-201 | no existing value is replaced, and the only keys added are the seven default keys |
| StoreData.FillMissingAllFit | assets/js/store.js:190-200 | with room for everything, every listed key ends up present, keeping its old value or else taking its default |
| StoreData.DefaultKeysDistinct | assets/js/store.js:190-200 | the seven keys `ensureDefaults` fills are pairwise distinct, so no later default undoes an earlier one |
| StoreData.EnsureDefaultsFresh | assets/js/store.js:188-201 | on empty storage with room to spare, exactly the seven default keys end up stored, each holding its default |
| StoreData.FirstSegment | assets/js/store.js:205-207 | the first path segment, when there is one, is non-empty and contains no `/` |
| StoreData.BasePath | assets/js/store.js:205-210 | the base path is `/` exactly when the first segment is missing, is `admin`, `assets` or `data`, or contains a `.`; otherwise it is `/<first segment>/` |
| StoreData.StoreDataUrl | assets/js/store.js:204-214 | the URL is the origin, the base path and `data/store-data.json`, followed by `?t=<now>` exactly when cache-busting is asked for and by nothing otherwise |
| StoreData.BasePathOfDataPath | assets/js/store.js:204-214 | the data file's own path resolves to the same base path as the page that fetched it |
| StoreData.DataPathAtRoot | assets/js/store.js:204-214 | at the site root the data file resolves to the root |
| StoreData.DataPathUnderShop | assets/js/store.js:205-210 | a data file under a shop directory (not `admin`, `assets` or `data`, no `.`) resolves to that directory |
| StoreData.ShopDirectoryUrl | assets/js/store.js:204-214 | any page under a shop directory fetches that directory's data file, with no cache-busting suffix when it is not asked for |
| Store.RemoteOrders | assets/js/store.js:237 | the remote orders handed to the merge are always an array |
| Store.WritesDistinct | assets/js/store.js:233-247 | the eight keys `applyRemoteData` writes are distinct published keys, whatever the values |
| Store.WriteAllSlot | assets/js/store.js:233-247 | writing distinct keys in turn leaves each key either as it was or holding its own pending value |
| Store.WriteAllFit | assets/js/store.js:233-247 | with room for everything, every pending value is stored and every other key is unchanged |
| Store.ApplyRemoteData | assets/js/store.js:233-234 | a document that is not an object changes nothing |
| Store.ApplyRemoteOutside | assets/js/store.js:233-247 | keys outside the eight published ones keep their values |
| Store.ApplyRemoteSlot | assets/js/store.js:233-247 | each published key keeps its value or takes the one the document supplies for it |
| Store.ApplyRemoteAllFit | assets/js/store.js:233-247 | with room for everything, each published field that passes its guard is stored under its key |
| Store.ApplyRemoteOrdersAsWritten | assets/js/store.js:217-240 | when the `orders` check does not throw and no remote or local order id names an `Object.prototype` member or `__proto__`, the orders the pull stores are exactly what `mergeOrders` computes as written |
| Store.ApplyRemoteThrows | assets/js/store.js:235-236 | when `orders` is not an array and the document has its own `hasOwnProperty` field, the `TypeError` of `data.hasOwnProperty('orders')` leaves every key but the products as it was, and the products that pass their guard are stored |
| Store.ApplyRemoteKeepsLocalOrder | assets/js/store.js:236-240 | pulling a document with an `orders` field never loses a local order whose id the remote does not already have, including when the `orders` check throws |
| Store.PayloadForSync | assets/js/store.js:289-300 | publishing fails exactly when the stored URL or number is a non-string truthy value; otherwise the payload is an object |
| Store.PayloadOmitsAdmin | assets/js/store.js:289-300 | the published document never carries the admin record |
| Store.PayloadNeverThrows | assets/js/store.js:289-300 | a published document has no `hasOwnProperty` field, so pulling it never throws at the `orders` check |
| Store.PayloadIgnoresAdmin | assets/js/store.js:289-300 | what is published does not depend on the admin record |
| Store.PayloadUrl | assets/js/store.js:297 | the published URL is `undefined` exactly when the orders-API URL reads `null`, and otherwise it is that URL |
| Store.PayloadNumber | assets/js/store.js:298 | the published number is `undefined` when the stored number has no digits, and otherwise it is those digits |
| Store.PayloadFields | assets/js/store.js:289-300 | the published document's fields read back as the stored products, orders, content, design, contact and sizes |
| Store.PublishThenPullProducts | assets/js/store.js:233-300 | publishing, then pulling into another browser, carries the product list over unchanged |
| Store.PublishThenPullContent | assets/js/store.js:233-300 | publishing, then pulling, carries over the site content when it is an object |
| Store.PublishThenPullDesign | assets/js/store.js:233-300 | publishing, then pulling, carries over the design settings when they are an object |
| Store.PublishThenPullContact | assets/js/store.js:233-300 | publishing, then pulling, carries over the floating contact settings when they are an object |
| Store.PublishThenPullSizes | assets/js/store.js:233-300 | publishing, then pulling, carries over the size list |
| Store.PublishThenPullUrl | assets/js/store.js:233-304 | after publishing and pulling, the other browser reads the same non-blank orders-API URL |
| Store.PublishThenPullNumber | assets/js/store.js:233-312 | after publishing and pulling, the other browser reads the same WhatsApp number when it has digits |
| Store.OrdersApiUrl | assets/js/store.js:301-304 | the URL is `null` or a non-blank trimmed string, and the read fails exactly when the stored value is a truthy non-string |
| Store.SetOrdersApiUrl | assets/js/store.js:317-319 | setting fails exactly on a truthy non-string, and no other key changes |
| Store.OrdersApiUrlRoundTrip | assets/js/store.js:301-319 | setting a URL and reading it back gives its trimmed form, or `null` when it is blank |
| Store.WhatsappNumber | assets/js/store.js:305-312 | the read fails exactly when the stored number is a truthy non-string; the number is all digits; the stored number's digits win when there are any, and otherwise the admin record's number is used |
| Store.AdminNumber | assets/js/store.js:309-311 | the fallback is the empty string without an admin record or without a truthy `whatsapp` in it, and the digits of that `whatsapp` when it is a string |
| Store.SetWhatsappNumber | assets/js/store.js:313-316 | setting the number changes no other key, and the number key either keeps its value or holds an all-digit string |
| Store.WhatsappNumberRoundTrip | assets/js/store.js:305-316 | a number with digits reads back as exactly those digits |
| Store.WhatsappNumberClearedFallsBack | assets/js/store.js:305-316 | setting a falsy, blank or digit-free number clears it, so the number read back is the admin record's fallback |
| Store.FindById | assets/js/store.js:357-358 | a found element is in the list and has the id; "not found" means every element is present and lacks the id; a throw means some element is `null` or `undefined` |
| Store.FindByIdStopsAt | assets/js/store.js:357-358 | the search stops at the first element that is `null`/`undefined` (and throws) or has the id (and returns it), so the first match wins |
| Store.OrderById | assets/js/store.js:358 | the look-up throws when the stored orders are not an array |
| Store.ProductById | assets/js/store.js:357 | the look-up throws when the stored products are not an array |
| Store.PlacedOrder | assets/js/store.js:327-328 | the stored order carries the new id and `pending` status, and every other field as the caller gave it |
| Store.OrderId | assets/js/store.js:327 | order ids start with `ord-` |
| Store.OrderIdsDiffer | assets/js/store.js:327 | orders placed at different milliseconds get different ids |
| Store.AddOrder | assets/js/store.js:325-332 | `addOrder` throws exactly when the stored orders are not an array; it returns the new id, changes no other key, and puts the order first when it fits |
| Store.AddOrderThenFind | assets/js/store.js:325-358 | an order just placed is found again by its id and carries that id as its merge key |
| Store.VisibleIndices | assets/js/store.js:344 | exactly the visible products, each once, in catalog order |
| Store.Picks | assets/js/store.js:348 | every pinned pick is a visible product |
| Store.PicksNamed | assets/js/store.js:348 | a product is picked exactly when some listed id names it first among the visible products |
| Store.PicksInListOrder | assets/js/store.js:348 | the picks follow the listed order: the picks of two lists in a row are the first list's picks followed by the second's |
| Store.Rest | assets/js/store.js:350 | the products not pinned are exactly the visible ones not picked, still in catalog order |
| Store.ProductOrder | assets/js/store.js:346 | there is no pinned order exactly when the design, its `productOrder` or that list's length is falsy |
| Store.KeepCategory | assets/js/store.js:352-354 | the category filter keeps exactly the listed products of that category |
| Store.VisibleOrder | assets/js/store.js:343-356 | the storefront lists exactly the visible products of the category, whatever the pinned order |
| Store.VisibleProducts | assets/js/store.js:343-356 | every product listed is a stored product that is visible and in the category, and every such product is listed |
| Store.UnpinnedKeepsCatalogOrder | assets/js/store.js:344-356 | without a pinned order the list is the visible catalog in catalog order, each product once |
| Store.KeepCategoryOrdered | assets/js/store.js:352-354 | filtering by category keeps the catalog order |
| Store.PinnedComeFirst | assets/js/store.js:346-351 | with a pinned order and no category, the pinned products come first in the pinned order, followed by the rest in catalog order |
| Store.InventoryValues | assets/js/store.js:361 | an object's values are exactly the values of its entries, one per entry, listed in property order (array-index keys ascending, then the rest in creation order) |
| Store.InventoryValuesNoIndex | assets/js/store.js:361 | an inventory whose keys are colour names, none an array index, lists its values in the order the cells were written |
| Store.Plus | assets/js/store.js:361 | `a + b` yields text exactly when the running value or the added value is a string, array or object |
| Store.SumValues | assets/js/store.js:361 | the `reduce` from 0 stays a number exactly when no value is a string, array or object |
| Store.SumOfNumbers | assets/js/store.js:361 | over numbers the `reduce` is their arithmetic total |
| Store.SumTurnsToText | assets/js/store.js:361 | from the first text-like value on, the sum is the number summed so far followed by the text of every later value |
| Store.TextQuantityConcatenates | assets/js/store.js:361 | an inventory cell holding the string `"5"` makes the stock total the string `"05"` |
| Store.TotalStock | assets/js/store.js:359-362 | no product or no inventory gives 0; the total is a number exactly when no inventory value is a string, array or object, and is text otherwise |
| OrdersMerge.OrderKey | assets/js/store.js:221-223 | only a truthy object with a truthy id gets a merge key |
| OrdersMerge.IndexRemoteLookup | assets/js/store.js:221 | after the remote pass each id holds the last remote order with that id, and ids no remote order has are untouched |
| OrdersMerge.IndexLocalLookup | assets/js/store.js:222-224 | after the local pass ids already present keep their order, and a new id holds the first local order with it |
| OrdersMerge.ByIdContents | assets/js/store.js:220-224 | the index has one entry per id some order carries, holding the last remote order for it, or else the first local one |
| OrdersMerge.ListingContents | assets/js/store.js:220-225 | listing the index in property order changes only the order: one entry per id some order carries, holding the chosen order |
| OrdersMerge.SortByDate | assets/js/store.js:225-229 | the sort is a permutation of its input and lists newest first |
| OrdersMerge.SortStable | assets/js/store.js:225-229 | orders with the same date keep the order `Object.values` gave them |
| OrdersMerge.StableSortUnique | assets/js/store.js:225-229 | two newest-first lists that agree on the order within each date are equal, so any stable sort with this comparator gives the same list |
| OrdersMerge.MergeOrders | assets/js/store.js:217-230 | without a remote array the local array (or `[]`) comes back; without a local array the remote one comes back; otherwise the result lists newest first |
| OrdersMerge.MergeKeepsOnlyChosen | assets/js/store.js:217-230 | every merged order has an id and is the order chosen for that id |
| OrdersMerge.MergeKeepsEveryChosen | assets/js/store.js:217-230 | every id some order carries appears in the merge |
| OrdersMerge.MergeKeysDistinct | assets/js/store.js:217-230 | no id appears twice in the merge |
| OrdersMerge.RemoteWins | assets/js/store.js:217-230 | the remote list has the last word: its last order for an id is the one order kept for that id |
| OrdersMerge.LocalKept | assets/js/store.js:217-230 | a local order whose id the remote list lacks survives the merge |
| OrdersMerge.MergeOrdersStable | assets/js/store.js:225-229 | merged orders with equal dates appear in the order `Object.values` lists the index: array-index ids ascending, then the other ids in the order they were first written |
| OrdersMerge.Assign | assets/js/store.js:221-223 | `byId[k] = o` writes an own property for every key but `__proto__` |
| OrdersMerge.MergeOrdersAsWritten | assets/js/store.js:217-230 | the merge with an ordinary `{}` as the index agrees with the corrected merge whenever either argument is not an array |
| OrdersMerge.MergeAgreesOffPrototype | assets/js/store.js:217-230 | while no id names an Object.prototype member, the merge as written and the corrected merge are equal |
| OrdersMerge.InheritedIdLost | assets/js/store.js:222-223 | a browser-only order with id `toString` is dropped as written, and kept by the corrected merge |
| OrdersMerge.ProtoIdLost | assets/js/store.js:221 | a published order with id `__proto__` is missing as written, and kept by the corrected merge |
| Cart.LineId | assets/js/cart.js:23-24 | the line id starts with `productId-color`, and ends with `-size` exactly when a size is chosen |
| Cart.LineOf | assets/js/cart.js:26-36 | the new line carries the selection's id, quantity, price and colour, and has a size exactly when one was chosen |
| Cart.LineJsonFields | assets/js/cart.js:26-36 | the stored line object reads back as the line's name, colour, size, size name, quantity and price |
| Cart.IndexOf | assets/js/cart.js:39-41 | the result is -1 exactly when no line has the id, and otherwise the first line with it |
| Cart.AddItem | assets/js/cart.js:18-52 | for an integer quantity, a selection is refused exactly when it has no colour or a quantity below 1, and a refused one leaves the cart alone; a known line grows by the quantity while every other line is kept; a new one is appended |
| Cart.AddFromField | assets/js/cart.js:18-21 | with the quantity read by `parseInt` from the field, a selection is refused exactly when it has no colour or the quantity is `NaN` or below 1; a refusal leaves the cart as it is, and an integer quantity adds as `addItem` does |
| Cart.CountAfterAsWritten | assets/js/cart.js:75-76 | appending a line adds its quantity to the item count |
| Cart.EmptyQuantityAccepted | assets/js/cart.js:18-21 | an empty quantity field (`NaN`) passes the guard as written and turns the item count into `NaN`, while the corrected check refuses it |
| Cart.GuardsAgreeOnNumbers | assets/js/cart.js:18-21 | for an integer quantity the guard as written and the corrected check agree |
| Cart.AddItemCounts | assets/js/cart.js:18-52 | an accepted add raises the item count by the quantity, and the total by price times quantity when the prices agree |
| Cart.AddItemMerges | assets/js/cart.js:43-44 | merging into an existing line raises the total at that line's price |
| Cart.AddItemAppends | assets/js/cart.js:45-46 | appending a new line raises the count by its quantity and the total by its price times its quantity |
| Cart.AddItemTwice | assets/js/cart.js:38-47 | adding the same selection twice leaves one line holding both quantities |
| Cart.RemoveItem | assets/js/cart.js:54-57 | the lines left are exactly those with another id |
| Cart.RemoveItemAppend | assets/js/cart.js:54-57 | removing keeps the surviving lines in order: it distributes over concatenation |
| Cart.UpdateQuantity | assets/js/cart.js:59-69 | an unknown id changes nothing; a quantity of 0 or less removes the line; otherwise only the first matching line's quantity changes |
| Cart.TotalsAppend | assets/js/cart.js:71-77 | the total and the item count are additive over concatenation |
| Cart.TotalsUpdate | assets/js/cart.js:71-77 | replacing one line changes the total and the count by exactly the difference it makes |
| Cart.ClearCart | assets/js/cart.js:79-82 | a cleared cart has nothing to pay and no items |
| Cart.ChangeQuantity | assets/js/cart.js:226-233 | the value read (1 when the field is empty, unparsable or 0) moved by `change`, and exactly 1 whenever that would drop below 1 |
| Cart.ChangeQuantityMonotone | assets/js/cart.js:226-233 | a bigger step never gives a smaller quantity, and the quantities differ by at most the difference of the steps |
| Cart.ChangeQuantityUpDown | assets/js/cart.js:226-233 | pressing plus then minus leaves the value a zero step gives, which is the value read when it is at least 1 |
| Admin.ColorOf | admin/admin.js:605 | the colour is the prefix of the key before its first pipe character, or the whole key when it has none |
| Admin.ColorOfComposed | admin/admin.js:605-640 | a colour-pipe-size key written by the inventory matrix decodes back to its colour |
| Admin.Qty | admin/admin.js:606 | a number counts as itself, a string as the integer `parseInt` reads from it or else 0, and `undefined`, `null`, a boolean or an object as 0 |
| Admin.TallyAt | admin/admin.js:604-607 | the running totals hold each colour's starting amount plus the sum of the quantities of every key naming that colour |
| Admin.InventoryByColor | admin/admin.js:601-609 | a non-object inventory gives no colours; otherwise exactly the colours some key names, each with the sum of that colour's quantities |
| Admin.InventoryOfColorCells | admin/admin.js:601-644 | collapsing the size cells of one colour leaves that colour alone, with the sum of its cells |
| Admin.RegroupByColor | admin/admin.js:603-607 | when every key's colour is listed once, the colour totals add up to the total of all quantities |
| Admin.QtyTotalOfNumbers | admin/admin.js:606 | over numeric cells the quantities total the numbers themselves |
| Admin.TotalStockByColor | assets/js/store.js:359-362 | for an inventory of numbers, the storefront's stock total equals the sum of the per-colour totals the admin dashboard shows, each colour taken once |
| Admin.HyphenateSpaces | admin/admin.js:882 | no white space is left after replacing white-space runs |
| Admin.HyphenateNoSpaces | admin/admin.js:882 | text without white space goes through unchanged |
| Admin.KeepSlugChars | admin/admin.js:882 | the result uses only `[a-z0-9-]`, is no longer than the input, and a slug is kept whole |
| Admin.SizeSlug | admin/admin.js:882 | a size id is a non-empty slug of at most 30 characters |
| Admin.SlugOfSlug | admin/admin.js:882 | a name that already is a short slug is its own id |
| Admin.SizeSlugIdempotent | admin/admin.js:882 | deriving an id from an id changes nothing, whatever the clock says |
| Admin.SizeRecord | admin/admin.js:888 | the size record reads back as its id and name |
| Admin.FindIndex | admin/admin.js:886 | a found index holds the first entry with that id, the same one `find` returns; not found and the `TypeError` agree with `find` |
| Admin.EditSize | admin/admin.js:884-890 | editing keeps the list's length and every id; only the first entry with the id changes, to the new record, and every other entry stays; with no such entry the list is unchanged |
| Admin.AddSize | admin/admin.js:891-894 | adding appends exactly one record, under the slug or under the slug with the time appended, and keeps the earlier ones |
| Admin.SaveSize | admin/admin.js:872-895 | the form is refused exactly when the trimmed name is blank, and that is its only refusal |
| Admin.NewSizeFound | admin/admin.js:891-894 | a size added under a free slug is found under that slug afterwards, at the end, with its name |
| Admin.FreeSlugAdds | admin/admin.js:891-894 | with the slug free and no hidden id, the form appends the record under that slug |
| Admin.EditedSizeFound | admin/admin.js:884-890 | editing a size that exists puts the new name on it and keeps its id |
| Admin.Kept | admin/admin.js:723-734 | a truthy field of the existing product is kept; anything else gives the fallback |
| Admin.ProductPayload | admin/admin.js:720-735 | the saved product carries the new id and the trimmed name, and keeps an existing Arabic name |
| Admin.UpsertProduct | admin/admin.js:717-741 | the search fails exactly when the form has an id and the search over the list throws; with a match the list is the old one with exactly the first match replaced by the payload built on it; otherwise, or without an id, the payload with a fresh id is appended |
| Admin.SaveProduct | admin/admin.js:670-742 | the save is refused for a blank name, then for a bad price, then for no images, each exactly when it applies; otherwise the catalogue is updated |
| Admin.SavedProductFound | admin/admin.js:717-742 | what is saved is found again under the saved id, with the saved name |
| Admin.WithoutIdKeepsOthers | admin/admin.js:766 | the filter fails exactly on a null entry; otherwise it keeps precisely the entries whose id differs |
| Admin.WithoutIdAppend | admin/admin.js:766 | the filter distributes over concatenation, so it keeps the order |
| Admin.DeleteProduct | admin/admin.js:760-767 | deleting succeeds exactly on an array without null entries and keeps precisely the products with another id |
| Admin.DeleteProductIdempotent | admin/admin.js:766 | deleting twice is deleting once, and the product is no longer found |
| Admin.SyncTargetOf | admin/admin.js:119-125 | the check fails on null settings, refuses exactly when a trimmed token, owner or repo is blank, and otherwise yields trimmed non-blank fields, with `main` as the default branch |
| Admin.SyncConfigRoundTrip | admin/admin.js:96-125 | settings saved for a target with trimmed, non-blank fields are read back as that target |
| OwnKeys.IndexEntries | assets/js/store.js:225 | the array-index entries are exactly the object's entries whose keys are array indices |
| OwnKeys.NamedEntries | assets/js/store.js:225 | the named entries are exactly the object's entries whose keys are not array indices |
| OwnKeys.PropertyOrder | assets/js/store.js:225 | `Object.values` lists exactly the object's entries (section 10.1.11.1 of ECMAScript 2024) |
| OwnKeys.PropertyOrderShape | assets/js/store.js:225 | the listing puts the array-index keys first, ascending by their value, and then the other keys exactly in creation order |
| OwnKeys.PropertyOrderLength | assets/js/store.js:361 | every entry is listed once: the listing is as long as the object |
| OwnKeys.PropertyOrderDistinct | assets/js/store.js:225 | listing an object never repeats a key |
| OwnKeys.PropertyOrderNoIndex | admin/admin.js:604 | an object with no array-index key is listed in creation order |
| OwnKeys.PipeKeyNotIndex | admin/admin.js:605 | a colour-pipe-size key is never an array index |
| MapsUrl.ClampZoom | admin/admin.js:219 | the zoom lands in `[1, 21]`, unchanged when it is already there, and at the nearer bound otherwise |
| MapsUrl.NumberAtText | admin/admin.js:189-192 | the text a number pattern consumes is exactly its token's text, and `parseFloat` reads that text as the token's numeral |
| MapsUrl.NumberAtToken | admin/admin.js:189 | a number token followed by a delimiter is exactly what `-?\d+\.?\d*` takes |
| MapsUrl.AtMatch | admin/admin.js:189 | a place-pattern match captures two number tokens and a run of digits |
| MapsUrl.QueryMatch | admin/admin.js:197 | a query-pattern match captures two number tokens and no zoom |
| MapsUrl.EmbedMatch | admin/admin.js:206 | an embed-pattern match captures two number tokens and no zoom |
| MapsUrl.EmbedZoomMatch | admin/admin.js:211 | the `!2d` pattern captures a run of digits |
| MapsUrl.Locate | admin/admin.js:188-215 | a located link always yields two number tokens, and a zoom only as a run of digits |
| MapsUrl.ParseGoogleMapsUrl | admin/admin.js:182-222 | a non-string or blank link gives `null`, and every point read lies on the globe with a zoom in `[1, 21]` |
| MapsUrl.ParseGoogleMapsUrlAsWritten | admin/admin.js:182-222 | the same bounds hold for the reader with the query pattern as written |
| MapsUrl.ParseOfLocate | admin/admin.js:216-221 | a link whose patterns yield coordinates and a zoom reads as those coordinates with the zoom clamped, or `null` off the globe |
| MapsUrl.Expected | admin/admin.js:216-221 | a point comes back exactly when both coordinates are on the globe, carrying them and the clamped zoom |
| MapsUrl.AtLinkGroups | admin/admin.js:189-194 | the place pattern picks out exactly the two coordinates and the zoom a place link names |
| MapsUrl.AtLinkRoundTrip | admin/admin.js:182-222 | a place link `@lat,lng,NNz` reads back, by both readers, as the coordinates it names with the zoom clamped, or `null` off the globe |
| MapsUrl.QueryLinkGroups | admin/admin.js:197 | the query pattern picks out the two coordinates of a query link, and as written loses the longitude's fraction when `&` follows |
| MapsUrl.QueryLinkRoundTrip | admin/admin.js:195-221 | a query link `?q=lat,lng` reads back as the coordinates it names at zoom 17; as written it agrees unless `&` follows the longitude |
| MapsUrl.QueryFractionDropped | admin/admin.js:197 | the link `?q=1,2.5&z=3` reads longitude 2 as written and 2.5 when corrected |
| MapsUrl.QueryLinkIntegerAmp | admin/admin.js:197 | as written, a query link whose integer longitude meets `&` yields no query match, unless the rest of the link holds another query |
| MapsUrl.QueryIntegerRejected | admin/admin.js:197 | the link `?q=1,2&z=3` finds nothing as written, because an integer longitude cannot end before `&`, and reads longitude 2 when corrected |
| MapsUrl.EmbedLinkCoords | admin/admin.js:206 | the embed pattern picks out the two coordinates of an embed link |
| MapsUrl.EmbedLinkZoom | admin/admin.js:210-213 | the zoom pattern finds the `!2d` digits of an embed link, and nothing when it has none |
| MapsUrl.EmbedLinkRoundTrip | admin/admin.js:204-221 | an embed link reads back, by both readers, as the coordinates it names with the `!2d` zoom clamped, or 17 without one |
| MapsUrl.ValidateMapFields | admin/admin.js:224-232 | accepted fields have numeric coordinates and an integer zoom in `[1, 21]` |
| MapsUrl.ValidateTokens | admin/admin.js:224-232 | fields typed as number tokens and digits pass exactly when the coordinates lie on the globe and the zoom is in `[1, 21]` |
| MapsUrl.ValidateAgreesWithAtLink | admin/admin.js:182-232 | the fields of a place link pass validation exactly when the link itself parses and its zoom needed no clamping |
| NumParse.ParseInt | admin/admin.js:606 | `parseInt` gives a number exactly when, after leading white space and an optional sign, a digit follows |
| NumParse.ParseIntOfIntToString | admin/admin.js:606 | `parseInt(String(i))` is `i` |
| NumParse.ParseIntOfDigits | admin/admin.js:193 | a run of digits reads as its decimal value |
| NumParse.ParseUnsigned | admin/admin.js:191-192 | an unsigned decimal is read exactly when the text starts with a digit, or with `.` and a digit |
| NumParse.ParseFloatOfToken | admin/admin.js:191-192 | `parseFloat` reads a number token's text as that token's numeral |
| JsText.Trim | assets/js/store.js:302 | the trimmed text has no white space at either end, and is empty exactly when the text is all white space |
| JsText.TrimIsInfix | assets/js/store.js:302 | trimming removes only white space, from the two ends |
| JsText.TrimOfTrimmed | assets/js/store.js:302 | trimming leaves a text unchanged exactly when it has no white space at either end |
| JsText.Digits | assets/js/store.js:307 | `replace(/\D/g, '')` keeps exactly the digits, each as often as it occurs |
| JsText.DigitsAppend | assets/js/store.js:307 | stripping non-digits distributes over concatenation |
| JsText.DigitsOfDigits | assets/js/store.js:307 | an all-digit text is its own digits |
| JsText.DigitsOfTrim | assets/js/store.js:307 | trimming first does not change the digits |
| JsText.NatToStringRoundTrip | assets/js/store.js:327 | the decimal text of a number reads back as that number |
| JsText.NatToStringInjective | assets/js/store.js:327 | different numbers have different decimal texts |
| JsText.SplitJoin | assets/js/order.js:211 | joining lines with a separator none of them holds and splitting again gives the lines back |
| JsonValue.Or | assets/js/store.js:302 | `x pipe-pipe y` is `x` when `x` is truthy and `y` otherwise |
| JsonValue.Lookup | assets/js/store.js:223 | a missing property reads as `undefined`, and a present one as the value of an entry with that key |
| JsonValue.SetEntry | assets/js/store.js:221 | writing a property makes it read back, leaves every other property's read alone, and appends a new key at the end |
| JsonValue.RemoveEntry | next-app/pages/api/orders.js:238 | deleting a property makes it absent and leaves every other property's read alone |
| JsonValue.TrimmedOrEmpty | assets/js/store.js:302 | `(x pipe-pipe '').trim()` is the empty string for a falsy value, the trimmed text of a string, and fails exactly on a truthy non-string |
| JsonValue.ToNumber | assets/js/order.js:209 | the operand of `*` is the number itself for a number, 0 for `null` and `[]`, 0 or 1 for a boolean, `NaN` for `undefined` and a plain object, what `Number` reads from text, and what `Number` reads from an array's joined text |
| JsonValue.StringToNumber | next-app/pages/order.js:18 | blank or all-white-space text reads as 0 (the other texts are fixed by the lemmas below) |
| JsonValue.FloatValue | assets/js/order.js:209 | a numeral gives a number of the model only when its exact value is that integer |
| JsonValue.StringToNumberOfInteger | assets/js/order.js:209 | an optional sign and digits read as that integer |
| JsonValue.ToNumberOfIntToString | assets/js/order.js:209 | a rendered integer reads back as itself |
| JsonValue.StringToNumberOfRadix | assets/js/order.js:209 | a `0x`, `0o` or `0b` literal reads as its value in that base |
| JsonValue.StringToNumberOfWholeFraction | assets/js/order.js:209 | digits, a point and zeros read as the integer before the point |
| JsonValue.StringToNumberOfExponent | assets/js/order.js:209 | digits with an exponent read as the digits times that power of ten |
| JsonValue.OnePointZero | assets/js/order.js:209 | `"1.0"` reads as 1 |
| JsonValue.OneEThree | assets/js/order.js:209 | `"1e3"` reads as 1000 |
| JsonValue.HexOneF | assets/js/order.js:209 | `"0x1F"` reads as 31 |
| JsonValue.ArrayOfFive | assets/js/order.js:209 | `[5]` reads as 5 |
| JsonValue.ArrayOfSevenText | assets/js/order.js:209 | `["7"]` reads as 7 |
| NumParse.NumericLiteral | assets/js/order.js:209 | a radix literal reads as its value, and a finite numeral is well formed |
| NumParse.DecimalLiteral | assets/js/order.js:209 | a whole decimal literal is well formed, keeps its sign, and starts with a digit or a point |
| NumParse.DecimalLiteralIsParseUnsigned | assets/js/order.js:209 | a whole decimal literal is exactly the numeral `parseFloat`'s unsigned reader takes from the same text |
| NumParse.NumericLiteralIsParseFloat | assets/js/order.js:209 | where `Number` reads a decimal literal, `parseFloat` reads the same numeral |
| NumParse.IntegerLiteral | assets/js/order.js:209 | a sign and digits are read as that integer numeral |
| NumParse.FractionLiteral | assets/js/order.js:209 | `digits.digits` is read whole |
| NumParse.ExponentLiteral | assets/js/order.js:209 | `digits` `e` `digits` is read whole, with that exponent |
| JsonValue.Add | assets/js/order.js:209 | a sum is a number exactly when both operands are |
| JsonValue.Mul | assets/js/order.js:209 | a product is a number exactly when both operands are |
| Storefront.Round | assets/js/storefront.js:61 | `Math.round` gives the integer within half of the value, halves going up |
| Storefront.DiscountPercent | assets/js/storefront.js:59-63 | the percentage is 0 exactly when there is no regular price or no saving; otherwise it is the saving rounded to the nearest percent, within `[1, 100]` |
| Storefront.DiscountPercentMonotone | assets/js/storefront.js:59-63 | a deeper discount never shows a smaller percentage |
| Storefront.EffectivePrice | assets/js/storefront.js:108 | a card charges the discount price whenever one is set, and the regular price otherwise |
| Storefront.BadgePercent | assets/js/storefront.js:109-111 | a card without a discount shows no badge, and a badge is between 0 and 100 |
| Storefront.BadgeShown | assets/js/storefront.js:108-111 | a badge appears exactly when the discount price is set, below the regular price, and the regular price is positive; such a card charges less than the regular price |
| Storefront.Rank | assets/js/storefront.js:118-122 | the rank is the position of the id in the canonical size list, or -1 exactly when it is not there |
| Storefront.SizeLessTotal | assets/js/storefront.js:119-127 | the size comparator orders any two different ids one way or the other |
| Storefront.SizeNotLessTransitive | assets/js/storefront.js:119-127 | the comparator is consistent: "not after" is transitive |
| Storefront.SortSizeIds | assets/js/storefront.js:119-128 | the sorted ids are a permutation of the ids, in comparator order |
| Storefront.SortedUnique | assets/js/storefront.js:119-128 | only one arrangement of the ids is sorted, so any sort algorithm with this comparator gives the same list |
| Storefront.SortedSizeOrder | assets/js/storefront.js:119-127 | in the sorted ids the canonical sizes come first by rank, and the other ids follow in string order |
| Storefront.SizeLabel | assets/js/storefront.js:134-135 | the first size with that id (what `find` returns) gives its name when the name is non-empty, and the id otherwise; an id no size carries is shown as itself |
| Storefront.SizeLabelSkipsOthers | assets/js/storefront.js:134-135 | inserting a size with another id anywhere in the list never changes the label |
| Storefront.CardColors | assets/js/storefront.js:114 | a card offers the product's own colour list when it has one, and a single "Deep Black" otherwise |
| FloatingContact.PhoneDigits | assets/js/floating-contact.js:20-22 | the phone digits are all digits, empty for a falsy number and the digits of a string number |
| FloatingContact.PhoneDigitsIdempotent | assets/js/floating-contact.js:20-22 | extracting the digits of the digits changes nothing |
| FloatingContact.ButtonType | assets/js/floating-contact.js:25 | the button type is always truthy, and `whatsapp` when none is configured |
| FloatingContact.MessageText | assets/js/floating-contact.js:30 | the message is the configured one when it is a non-empty string, and the fixed greeting when none is configured |
| FloatingContact.BuildHref | assets/js/floating-contact.js:24-41 | the link fails exactly for an instagram button with a truthy non-string URL; an instagram link is the trimmed URL or `#`; every other link is its prefix, the phone digits and the message query |
| FloatingContact.Query | assets/js/floating-contact.js:31-40 | no query for a phone link, or for whatsapp and telegram with an empty encoded message; otherwise `?text=` and the message |
| FloatingContact.HrefDialsPhone | assets/js/floating-contact.js:29-40 | every phone-style link dials exactly the configured number's digits: the query never runs into them |
| FloatingContact.Label | assets/js/floating-contact.js:53 | the button always has a non-empty label |
| FloatingContact.RenderFab | assets/js/floating-contact.js:43-60 | nothing is drawn exactly when the button is disabled, an instagram URL is blank, or another button has no number; a drawn button links to the built link, sits left only for `left`, and carries its type's label |
| FloatingContact.InstagramButtonLinksProfile | assets/js/floating-contact.js:44-51 | a drawn instagram button links to the trimmed, non-blank profile URL |
| Checkout.CheckoutItems | assets/js/order.js:60-63 | a missing or empty session slot reads as `[]`, parsable text as what it parses to, and unparsable text as `[]` |
| Checkout.Entered | assets/js/order.js:36-42 | an entered value is trimmed, and is the trimmed input when the input exists |
| Checkout.Validate | assets/js/order.js:32-69 | a form passes exactly when it exists with a name, a phone matching `^[0-9+\s-]+$`, a city and a non-empty cart; a missing form and a blank name are reported exactly when they occur, and an empty cart only once the phone passes |
| Checkout.Payload | assets/js/order.js:71-97 | the payload carries the checkout items, the cart total and the timestamp; name, phone and city as the form holds them (untrimmed, `null` for a missing input), or `""` each without a form; the typed notes, or `""` |
| Checkout.ItemLine | assets/js/order.js:207-210 | an item's line throws exactly for a `null`/`undefined` item, and otherwise starts with its name and ` - Color: ` and ends in ` MAD` |
| Checkout.ItemLines | assets/js/order.js:206-211 | the lines are produced exactly when no item is missing, one per item, each the item's own line |
| Checkout.FormatOrderItems | assets/js/order.js:205-212 | a falsy item list gives the empty text, a truthy non-array throws, and an array formats exactly when every item does |
| Checkout.ItemsTextSplits | assets/js/order.js:205-212 | splitting the items text at newlines gives back one line per item |
| Checkout.ItemLineOfCartLine | assets/js/order.js:207-210 | a stored cart line appears as its name, its colour or a dash, its size name or size, its quantity and its line price |
| Checkout.MessageLinesFiltered | assets/js/order.js:100-117 | dropping the blank entries of the message array leaves exactly the heading, contact lines, notes when present, items heading, items text when not empty, and total when present |
| Checkout.NotesText | assets/js/order.js:107 | a notes line appears exactly when the notes are truthy |
| Checkout.TotalText | assets/js/order.js:112-115 | a total line appears exactly when the total is not `null` or `undefined` |
| Checkout.BuildOrderMessage | assets/js/order.js:100-117 | the message is built exactly when the items format, and is then those reference lines joined by newlines |
| Checkout.Submit | assets/js/order.js:141-168 | a submit in progress is ignored; otherwise the page goes busy exactly when the form validates, holding the payload as the pending order, and a refused form shows the alert of its first failing check (a page without the form changes nothing); nothing is saved, cleared or opened |
| Checkout.WhatsappUrl | assets/js/order.js:184 | the link starts with `https://wa.me/`, the digits and `?text=`, and ends with the encoded message |
| Checkout.DialledNumber | assets/js/order.js:171-172 | the dialled number is all digits, and reading it fails exactly when the store's number read fails |
| Checkout.Resume | assets/js/order.js:169-198 | every path clears the busy flag; without a sendable order nothing is saved, cleared or opened and an alert shows; a sendable order is saved when it fits, the carts are cleared and the browser goes to the WhatsApp link |
| Checkout.HandlersKeepConsistent | assets/js/order.js:141-198 | both handlers keep the busy flag and the pending order in step |
| Checkout.DoubleSubmitIgnored | assets/js/order.js:144-147 | a second submit before the store answers changes nothing |
| Checkout.SubmitThenSend | assets/js/order.js:141-189 | a valid form with a configured number leaves the payload findable in the stored orders under its new id, the cart totalling nothing and the page idle |
| Checkout.NoNumberNoEffects | assets/js/order.js:173-181 | without a number the only change is the not-configured alert and the end of the submission |
| SubmitOrder.ClientDevice | next-app/lib/submitOrder.js:22-26 | the device is `unknown` exactly without a browser, and `mobile` exactly when the user agent names a mobile platform |
| SubmitOrder.StripTrailingSlash | next-app/lib/submitOrder.js:35 | at most one trailing slash is removed, and one always is when present |
| SubmitOrder.OrderEndpoint | next-app/lib/submitOrder.js:33-40 | the endpoint always ends in `/api/orders`, and is exactly that path without a base |
| SubmitOrder.EndpointBase | next-app/lib/submitOrder.js:33-37 | the base read back from an endpoint is the given base, less at most one slash |
| SubmitOrder.EndpointKeepsSecondSlash | next-app/lib/submitOrder.js:35 | a base ending in two slashes keeps one of them |
| SubmitOrder.OrderPayload | next-app/lib/submitOrder.js:47-55 | the body is the order's fields, plus `_debugDevice` only when `includeDebug` is exactly `true` |
| SubmitOrder.OrderConfig | next-app/lib/submitOrder.js:61-67 | the request sends and accepts JSON, with a 20000 ms timeout unless one is given |
| SubmitOrder.FromThrown | next-app/lib/submitOrder.js:122-128 | a thrown `null`/`undefined` rejects; anything else fails with a truthy message, which is the timeout message exactly for an abort |
| SubmitOrder.SubmitResult | next-app/lib/submitOrder.js:96-128 | success exactly for an ok reply whose body has a truthy `success` and `id`, carrying that id; every failure carries a truthy error: for a non-ok reply the body's `error`, else its `detail`, else `Request failed (<status>)`; for an ok reply that is not a success the body's `error`, else the not-saved message |
| SubmitOrder.PageAcceptsExactlySuccess | next-app/lib/submitOrder.js:109-115 | a successful result always carries a truthy id, so the page's own test accepts exactly the successes |
| OrdersApi.CorsHeaders | next-app/pages/api/orders.js:24-32 | four CORS headers, allowing the given origin or any origin when none is given |
| OrdersApi.ResponseOrigin | next-app/pages/api/orders.js:157 | the reply's origin is the `Origin` header, else the referer's origin, else `*`; it throws exactly when there is no `Origin` header and the `Referer` is not a valid URL |
| OrdersApi.ServerDevice | next-app/pages/api/orders.js:158-159 | the logged device is `mobile` exactly when the user agent names a mobile platform |
| OrdersApi.NoAgentIsDesktop | next-app/pages/api/orders.js:158-159 | a request without a user agent is logged as a desktop |
| OrdersApi.EscapeTextIsEach | next-app/pages/api/orders.js:125-134 | with `&` replaced first, the chain of replacements escapes each character on its own, never an entity twice |
| OrdersApi.EscapeEachSafe | next-app/pages/api/orders.js:125-134 | escaped text contains no `<`, `>`, `"` or `'` |
| OrdersApi.UnescapeEscape | next-app/pages/api/orders.js:125-134 | escaping loses nothing: the entities read back to the original text |
| OrdersApi.EscapeHtml | next-app/pages/api/orders.js:125-134 | `null` and `undefined` escape to the empty string, and no escaped text contains an HTML-special character |
| OrdersApi.ParseBody | next-app/pages/api/orders.js:137-154 | no body gives `null`, an object is kept, a blank string gives `{}`, other strings parse or fail as invalid JSON, and arrays and other values are unsupported |
| OrdersApi.Branch | next-app/pages/api/orders.js:198 | the branch is trimmed and non-empty, and is the configured one when that is not blank |
| OrdersApi.Complete | next-app/pages/api/orders.js:227-228 | a truthy id and status are kept, missing ones become `ord-<now>` and `pending`, and every other field is unchanged |
| OrdersApi.ForDb | next-app/pages/api/orders.js:237-238 | the stored copy has every field of the order but `_debugDevice` |
| OrdersApi.AddToDocument | next-app/pages/api/orders.js:242-243 | adding fails exactly on a document that is not an object; an object gets the order first in `orders`, every other field unchanged; an array is written back unchanged |
| OrdersApi.Admit | next-app/pages/api/orders.js:167-228 | `OPTIONS` gets 204, other non-`POST` verbs 405, a non-JSON content type 415 and missing configuration 500, each exactly when it applies |
| OrdersApi.Handle | next-app/pages/api/orders.js:156-268 | the handler throws before any check exactly when the response origin throws; a refusal at the checks is the reply; an order that passes the checks is accepted exactly when the stored document is read, takes the order and is written back, with the order's id and the written document, and the reply is otherwise a failure |
| OrdersApi.GoodOrderAccepted | next-app/pages/api/orders.js:156-256 | a JSON POST with a contact field, under a configured repository whose document is an object and is written back, is accepted with the new order's id, and the order is put first in the stored list |
| OrdersApi.AcceptedOrder | next-app/pages/api/orders.js:206-256 | an accepted body was an object with a name or a phone, and the reply's id is the client's truthy id, else `ord-<now>` |
| OrdersApi.EitherContactAdmitted | next-app/pages/api/orders.js:221-228 | with the configuration present, a JSON object with a name or a phone passes the checks as the completed order |
| OrdersApi.ConfigBeforeBody | next-app/pages/api/orders.js:195-213 | with a variable missing every body gets the same 500, whatever it holds |
| OrdersApi.BadBodyIs400 | next-app/pages/api/orders.js:206-219 | every body that does not parse to an object ends in a 400 |
| OrdersApi.WrittenDocument | next-app/pages/api/orders.js:237-245 | the document written has the stored order first in `orders`, without `_debugDevice`, and every other field as it was |
| OrdersApi.AcceptedIdTruthy | next-app/pages/api/orders.js:227-254 | an accepted order always has a truthy id |
| OrdersApi.RefusalsAreErrors | next-app/pages/api/orders.js:174-225 | every refusal is a 4xx or 5xx with a non-empty message |
| OrdersApi.ClientSeesSaved | next-app/pages/api/orders.js:254-256 | a saved order is reported saved by the client, with the id the server gave it |
| OrdersApi.ClientSeesThrow | next-app/pages/api/orders.js:157 | a request with an unparsable `Referer` and no `Origin` header reaches the client as `Request failed (500)`, whatever its verb |
| OrdersApi.ClientSeesRefusal | next-app/lib/submitOrder.js:100-107 | a refused request is reported failed by the client, with the server's message |
| OrderPage.CartFromStorage | next-app/pages/order.js:8-16 | without a browser the cart is `[]`; otherwise it is the session copy read as the static checkout page reads it |
| OrderPage.SumFromFails | next-app/pages/order.js:18-20 | the reduction throws exactly when some item is `null` or `undefined` |
| OrderPage.CartTotal | next-app/pages/order.js:18-20 | a falsy cart totals 0 and a truthy non-array throws |
| OrderPage.CartTotalOfStoredCart | next-app/pages/order.js:18-20 | the page's total of a stored cart is the cart's own total, so the two checkout pages agree on what is owed |
| OrderPage.Initial | next-app/pages/order.js:24-28 | the first render has an empty cart, nothing in flight and no error |
| OrderPage.Mount | next-app/pages/order.js:30-39 | mounting reads the session cart and its total, and fails exactly when totalling throws |
| OrderPage.Entered | next-app/pages/order.js:45-48 | an entered value is trimmed, and is the trimmed input when the input exists |
| OrderPage.TotalJson | next-app/pages/order.js:72 | an integer total is sent as itself and `NaN` as `null` |
| OrderPage.OrderData | next-app/pages/order.js:66-74 | the order sent has the trimmed contact fields and notes, the mounted items and total, and the date, in that order |
| OrderPage.Submit | next-app/pages/order.js:41-64 | a submit in flight is ignored; a missing contact field sets the fields error; a bad phone sets the phone error; an empty cart sets the empty-cart error; a valid form with items clears the error and goes in flight with the order; reading the length of a missing cart throws |
| OrderPage.RequestBody | next-app/pages/order.js:82-85 | the request carries every field of the order plus the client's device |
| OrderPage.Finish | next-app/pages/order.js:90-103 | every outcome ends the submission; a success with an id clears the session copy and goes home; any other result or a rejection shows its error and keeps the cart |
| OrderPage.SettledOf | next-app/pages/order.js:82-103 | a client result resolves the submission and a client rejection rejects it with the engine's message |
| OrderPage.SecondSubmitIgnored | next-app/pages/order.js:43 | a second submit while one is in flight changes nothing |
| OrderPage.HandlersKeepConsistent | next-app/pages/order.js:41-103 | the page is in flight exactly when it holds an order to send, before and after each handler |
| OrderPage.AcceptedOrderGoesHome | next-app/pages/order.js:90-96 | any order the server accepts sends the customer home with the session copy cleared |
| OrderPage.RefusalShown | next-app/pages/order.js:98 | a refusal from the server is shown word for word, and the cart stays |

## Left out

- IndexRemoteLookup: states the index of the corrected, prototype-free merge; the index as written inherits `Object.prototype`, so a remote id `__proto__` goes to the prototype setter instead of the index (see Findings).
- IndexLocalLookup: states the corrected index; as written, a local order whose id names an inherited member such as `toString` is taken as already indexed and is dropped (see Findings).
- ByIdContents: states the corrected index; as written it has neither inherited-name ids nor a `__proto__` id (see Findings).
- MergeKeepsEveryChosen: holds for the corrected merge; as written it fails for ids that name `Object.prototype` members or `__proto__` (see Findings, `OrdersMerge.InheritedIdLost`).
- RemoteWins: holds for the corrected merge; as written a remote order with id `__proto__` is not listed (see Findings, `OrdersMerge.ProtoIdLost`).
- LocalKept: holds for the corrected merge; as written a local order with an inherited-name id is lost (see Findings).
- ApplyRemoteSlot: the orders slot takes the corrected `MergeOrders`, not the prototype-backed index of assets/js/store.js:220-224; `Store.ApplyRemoteOrdersAsWritten` shows the two agree when no id names an `Object.prototype` member or `__proto__`.
- ApplyRemoteAllFit: when the `orders` check throws (see `Store.ApplyRemoteThrows`) only the products are pending, which the lemma covers; otherwise the stored orders are the corrected merge, which differs from the source for orders whose ids name `Object.prototype` members or `__proto__` (see the Findings row for assets/js/store.js:220-224).
- ApplyRemoteKeepsLocalOrder: relies on the corrected merge, so it does not cover local orders whose ids name `Object.prototype` members or `__proto__`.
- InventoryByColor: the tally is a plain association list. In the source `byColor = {}` has a prototype, so a colour `constructor` adds onto the inherited function as a string and a colour `__proto__` vanishes; these colours are not modelled.
- InventoryOfColorCells: carries the same prototype-free tally, so the colours `constructor`, `__proto__` and the other inherited names are outside it.
- Label: `LABELS[type]` for a button type that names an `Object.prototype` member, such as `constructor`, reads the inherited function in the source; the model gives the WhatsApp label. The SVG icon table is not modelled.
- DiscountPercent: computes with exact reals, not IEEE doubles. Regular price 40 with discount 17 gives 57 in the source and 58 in the model, because `(23 / 40) * 100` rounds down to 57.49999999999999 in floating point.
- SizeSlug: `ToLowerAscii` lowercases ASCII letters only, where `toLowerCase` follows Unicode. A size named with the Kelvin sign gives the slug `k` in the source and `size-<now>` in the model (admin/admin.js:882).
- AddOrder: orders are values here. The source writes `id` and `status` into the caller's object before `unshift` can throw on a non-array list (assets/js/store.js:327-329), so the caller sees a changed order even when nothing is stored.
- Cart.AddItem: the selection's quantity is an integer, so `NaN` cannot reach it. The field reading that produces `NaN` is modelled by `Cart.AddFromField` and `Cart.EmptyQuantityAccepted`.
- Numbers are integers or `NaN`; fractional prices, `Infinity` and `-0` are not modelled. Coordinates in the map reader are exact decimals.
- ToNumber: text or an array whose numeric literal has a value that is not an integer (`"1.5"`, `"1e-3"`) reads as `NaN` rather than a fraction; `"Infinity"` reads as `NaN`; a literal too large for a double (`"1e400"`) reads as its exact integer rather than `Infinity`.
- The DOM: rendering, event wiring, modals, translations and CSS are not modelled. Only the values the handlers compute and store are.
- `JSON.stringify` formatting and `JSON.parse` are parameters; a parse is a function from text to an optional value.
- `refreshFromRemote`, the GitHub contents API calls (`getFile`, `putFile`) and the e-mail notification (`notifyAdminByEmail`) are I/O. `Handle` takes the fetched document and whether the write succeeded as parameters.
- When the handler throws outside its `try` (the `Referer` parse of next-app/pages/api/orders.js:157), the answer comes from the framework, not from the source. `OrdersApi.Threw` takes it to be a 500 whose body is not JSON.
- `Store.ready` is a promise in the source; the model passes whether it has settled as a boolean.
- `main.js`, `lang.js` and `index.js` are page glue and translations outside this core.
- Concurrency between two browser tabs or two API requests writing the same document is not modelled.

## Findings

| source | as written | input that shows it | evidently intended | confidence | as-written member | corrected member |
|---|---|---|---|---|---|---|
| assets/js/store.js:220-224 | `const byId = {}` inherits `Object.prototype`: `!byId[id]` is false for an id naming an inherited member, and `byId["__proto__"] = o` hits the prototype setter | local orders `[{id:"toString"}]` with no remote orders give `[]`; remote orders `[{id:"__proto__"}]` give `[]` | an index without a prototype (`Object.create(null)` or a `Map`), so every order with a truthy id is kept | not executed | OrdersMerge.MergeOrdersAsWritten, with OrdersMerge.InheritedIdLost and OrdersMerge.ProtoIdLost | OrdersMerge.MergeOrders, with OrdersMerge.MergeKeepsEveryChosen and OrdersMerge.MergeAgreesOffPrototype (the two agree whenever no id names a prototype member) |
| assets/js/cart.js:18-21 | the guard `product.quantity < 1` is false for `NaN`, so the line is accepted and `getItemCount` and `getTotal` become `NaN` | an empty quantity field: `parseInt("")` is `NaN` (assets/js/cart.js:122, 164) | refuse a quantity that is not a number of at least 1 | not executed | Cart.EmptyQuantityAccepted | Cart.AddFromField (agrees with the guard on every integer, Cart.GuardsAgreeOnNumbers) |
| admin/admin.js:197 | the lookahead `(?:[^&\d]pipe$)` after the longitude fails at `&`, so the engine backtracks into the number and ends it before its fraction | `?q=1,2.5&z=3` reads longitude 2 | longitude 2.5; the corrected reader also accepts `?q=1,2&z=3`, which the pattern as written rejects because an integer longitude cannot backtrack to a shorter match before `&` | not executed | MapsUrl.ParseGoogleMapsUrlAsWritten, with MapsUrl.QueryFractionDropped and MapsUrl.QueryIntegerRejected | MapsUrl.ParseGoogleMapsUrl, with MapsUrl.QueryLinkRoundTrip |

=== FILE: admin.dfy ===
/** The admin dashboard's own logic: the per-colour inventory view, the size and product forms,
    product deletion and the GitHub sync settings. Rendering, toasts, modals, confirmation
    dialogs and the network are outside the model. */
module Admin {
  import opened Wrappers
  import opened JsText
  import opened JsonValue
  import opened NumParse
  import opened OwnKeys
  import Store

  // Inventory keys

  /** The key of a colour-and-size inventory cell. */
  function ComposeKey(color: string, sid: string): string {
    color + "|" + sid
  }

  /** `key.indexOf('|') >= 0 ? key.split('|')[0] : key`: the text before the first `|`. */
  function ColorOf(key: string): (c: string)
    ensures '|' !in c && StartsWith(key, c)
    ensures c == key || key[|c|] == '|'
    ensures '|' !in key ==> c == key
  {
    if key == [] || key[0] == '|' then [] else [key[0]] + ColorOf(key[1..])
  }

  /** A colour-and-size key decodes to its colour, for a colour name without `|`. */
  lemma {:induction false} ColorOfComposed(color: string, sid: string)
    requires '|' !in color
    ensures ColorOf(ComposeKey(color, sid)) == color
  {
    if color != [] {
      assert ComposeKey(color, sid)[0] == color[0];
      assert ComposeKey(color, sid)[1..] == ComposeKey(color[1..], sid);
      ColorOfComposed(color[1..], sid);
    }
  }

  /** `parseInt(qty, 10) || 0`: the integer the text of `qty` starts with, or 0. A number counts
      as itself, a string as the integer it starts with, and `undefined`, `null`, a boolean or an
      object (whose texts start with no digit) as 0. */
  function Qty(v: Json): (n: int)
    ensures v.JNum? ==> n == v.n
    ensures v.JStr? && ParseInt(v.s).Some? ==> n == ParseInt(v.s).value
    ensures v.JStr? && ParseInt(v.s).None? ==> n == 0
    ensures v.JUndef? || v.JNull? || v.JBool? || v.JObj? ==> n == 0
  {
    assert v.JNum? ==> ParseInt(ToJsString(v)) == Some(v.n) by {
      if v.JNum? {
        ParseIntOfIntToString(v.n);
      }
    }
    ParseInt(ToJsString(v)).GetOr(0)
  }

  /** `Object.entries(inventory)` for the values `inventoryByColor` accepts: an object's own
      entries in property order, or an array's elements under their indices. */
  function InventoryEntries(inventory: Json): seq<(string, Json)> {
    match inventory
    case JObj(entries) => PropertyOrder(entries)
    case JArr(items) => seq(|items|, i requires 0 <= i < |items| => (NatToString(i), items[i]))
    case _ => []
  }

  /** The reference sum: the quantities of every entry whose key names colour `c`. */
  function ColorTotal(entries: seq<(string, Json)>, c: string): int {
    if entries == [] then 0
    else (if ColorOf(entries[0].0) == c then Qty(entries[0].1) else 0) + ColorTotal(entries[1..], c)
  }

  predicate NamesColor(entries: seq<(string, Json)>, c: string) {
    exists i :: 0 <= i < |entries| && ColorOf(entries[i].0) == c
  }

  /** The `forEach` of `inventoryByColor`, adding each entry to the running total of its colour. */
  function Tally(acc: map<string, int>, entries: seq<(string, Json)>): map<string, int>
    decreases |entries|
  {
    if entries == [] then acc
    else Tally(AddTo(acc, ColorOf(entries[0].0), Qty(entries[0].1)), entries[1..])
  }

  /** `byColor[c] = (byColor[c] || 0) + q`. */
  function AddTo(acc: map<string, int>, c: string, q: int): map<string, int> {
    acc[c := (if c in acc then acc[c] else 0) + q]
  }

  lemma NamesColorCons(entries: seq<(string, Json)>, c: string)
    requires entries != []
    ensures NamesColor(entries, c) <==> ColorOf(entries[0].0) == c || NamesColor(entries[1..], c)
  {
    if NamesColor(entries[1..], c) {
      var i :| 0 <= i < |entries[1..]| && ColorOf(entries[1..][i].0) == c;
      assert entries[i + 1] == entries[1..][i];
    }
    if NamesColor(entries, c) && ColorOf(entries[0].0) != c {
      var i :| 0 <= i < |entries| && ColorOf(entries[i].0) == c;
      assert i > 0 && entries[1..][i - 1] == entries[i];
    }
    if ColorOf(entries[0].0) == c {
      assert 0 < |entries| && ColorOf(entries[0].0) == c;
    }
  }

  /** The running totals hold each colour's starting amount plus its reference sum. */
  lemma {:induction false} TallyAt(acc: map<string, int>, entries: seq<(string, Json)>, c: string)
    ensures var r := Tally(acc, entries);
      (c in r <==> c in acc || NamesColor(entries, c))
      && (c in r ==> r[c] == (if c in acc then acc[c] else 0) + ColorTotal(entries, c))
    decreases |entries|
  {
    if entries == [] {
      assert !NamesColor(entries, c);
    } else {
      var c0 := ColorOf(entries[0].0);
      var q := Qty(entries[0].1);
      var next := AddTo(acc, c0, q);
      assert Tally(acc, entries) == Tally(next, entries[1..]);
      assert ColorTotal(entries, c) == (if c0 == c then q else 0) + ColorTotal(entries[1..], c);
      TallyAt(next, entries[1..], c);
      NamesColorCons(entries, c);
      assert c in next <==> c in acc || c0 == c;
      assert c in next ==> next[c] == (if c in acc then acc[c] else 0) + (if c0 == c then q else 0);
    }
  }

  /** `inventoryByColor(inventory)`: each colour named by some key, with the sum of the
      quantities of its keys; a non-numeric quantity counts as 0. Anything but an object or
      array gives `{}`. */
  function InventoryByColor(inventory: Json): (r: map<string, int>)
    ensures !IsObject(inventory) ==> r == map[]
    ensures forall c :: c in r <==> NamesColor(InventoryEntries(inventory), c)
    ensures forall c :: c in r ==> r[c] == ColorTotal(InventoryEntries(inventory), c)
  {
    var entries := InventoryEntries(inventory);
    var r := Tally(map[], entries);
    assert forall c :: (c in r <==> NamesColor(entries, c)) && (c in r ==> r[c] == ColorTotal(entries, c)) by {
      forall c ensures (c in r <==> NamesColor(entries, c)) && (c in r ==> r[c] == ColorTotal(entries, c)) {
        TallyAt(map[], entries, c);
      }
    }
    r
  }

  /** The cells the per-colour-and-size form writes for one colour. */
  function ColorCells(color: string, sids: seq<string>, qs: seq<int>): seq<(string, Json)>
    requires |sids| == |qs|
  {
    seq(|sids|, i requires 0 <= i < |sids| => (ComposeKey(color, sids[i]), JNum(qs[i])))
  }

  function Sum(qs: seq<int>): int {
    if qs == [] then 0 else qs[0] + Sum(qs[1..])
  }

  lemma {:induction false} CellsTotal(color: string, sids: seq<string>, qs: seq<int>, c: string)
    requires '|' !in color && |sids| == |qs|
    ensures ColorTotal(ColorCells(color, sids, qs), c) == (if c == color then Sum(qs) else 0)
    ensures NamesColor(ColorCells(color, sids, qs), c) <==> c == color && sids != []
    decreases |sids|
  {
    var cells := ColorCells(color, sids, qs);
    if sids != [] {
      assert cells[1..] == ColorCells(color, sids[1..], qs[1..]);
      ColorOfComposed(color, sids[0]);
      CellsTotal(color, sids[1..], qs[1..], c);
      NamesColorCons(cells, c);
    }
  }

  /** Collapsing the size cells of one colour leaves that colour with the sum of its
      quantities, and no other colour. */
  lemma InventoryOfColorCells(color: string, sids: seq<string>, qs: seq<int>)
    requires '|' !in color && |sids| == |qs| && sids != []
    ensures InventoryByColor(JObj(ColorCells(color, sids, qs))) == map[color := Sum(qs)]
  {
    var cells := ColorCells(color, sids, qs);
    assert InventoryEntries(JObj(cells)) == cells by {
      ColorCellsListed(color, sids, qs);
    }
    var r := InventoryByColor(JObj(cells));
    forall c ensures (c in r <==> c == color) && (c in r ==> r[c] == Sum(qs)) {
      CellsTotal(color, sids, qs, c);
    }
    SingleColor(r, color, Sum(qs));
  }

  lemma SingleColor(r: map<string, int>, color: string, n: int)
    requires forall c :: (c in r <==> c == color) && (c in r ==> r[c] == n)
    ensures r == map[color := n]
  {
  }

  /** The cells of one colour have no array-index key, so they are listed as written. */
  lemma ColorCellsListed(color: string, sids: seq<string>, qs: seq<int>)
    requires '|' !in color && |sids| == |qs|
    ensures PropertyOrder(ColorCells(color, sids, qs)) == ColorCells(color, sids, qs)
  {
    var cells := ColorCells(color, sids, qs);
    forall i | 0 <= i < |cells| ensures !IsArrayIndex(cells[i].0) {
      assert cells[i].0[|color|] == '|';
      PipeKeyNotIndex(cells[i].0);
    }
    PropertyOrderNoIndex(cells);
  }

  // Stock totals

  /** The sum of the per-colour totals of a list of colours. */
  function ColorSum(r: map<string, int>, cs: seq<string>): int
    requires forall c :: c in cs ==> c in r
  {
    if cs == [] then 0 else r[cs[0]] + ColorSum(r, cs[1..])
  }

  predicate NoDuplicates(cs: seq<string>) {
    forall i, j :: 0 <= i < j < |cs| ==> cs[i] != cs[j]
  }

  /** The reference sums behind the regrouping: every quantity, and the colour totals of a list
      of colours. */
  function QtyTotal(entries: seq<(string, Json)>): int {
    if entries == [] then 0 else Qty(entries[0].1) + QtyTotal(entries[1..])
  }

  function ColorTotals(entries: seq<(string, Json)>, cs: seq<string>): int {
    if cs == [] then 0 else ColorTotal(entries, cs[0]) + ColorTotals(entries, cs[1..])
  }

  /** `q` counted once for each colour of `cs` equal to `c0`. */
  function CountedFor(c0: string, q: int, cs: seq<string>): int {
    if cs == [] then 0 else (if cs[0] == c0 then q else 0) + CountedFor(c0, q, cs[1..])
  }

  lemma {:induction false} CountedOnce(c0: string, q: int, cs: seq<string>)
    requires NoDuplicates(cs)
    ensures CountedFor(c0, q, cs) == if c0 in cs then q else 0
  {
    if cs != [] {
      assert NoDuplicates(cs[1..]) by {
        forall i, j | 0 <= i < j < |cs[1..]| ensures cs[1..][i] != cs[1..][j] {
          assert cs[1..][i] == cs[i + 1] && cs[1..][j] == cs[j + 1];
        }
      }
      CountedOnce(c0, q, cs[1..]);
      if cs[0] == c0 {
        assert c0 !in cs[1..] by {
          forall i | 0 <= i < |cs[1..]| ensures cs[1..][i] != c0 {
            assert cs[1..][i] == cs[i + 1];
          }
        }
      }
      assert c0 in cs <==> cs[0] == c0 || c0 in cs[1..];
    }
  }

  /** Peeling the first entry off every colour total at once. */
  lemma {:induction false} ColorTotalsCons(entries: seq<(string, Json)>, cs: seq<string>)
    requires entries != []
    ensures ColorTotals(entries, cs)
         == CountedFor(ColorOf(entries[0].0), Qty(entries[0].1), cs) + ColorTotals(entries[1..], cs)
  {
    if cs != [] {
      ColorTotalsCons(entries, cs[1..]);
    }
  }

  /** Regrouping: when every key's colour is listed once, the colour totals add up to the total
      of all quantities. */
  lemma {:induction false} RegroupByColor(entries: seq<(string, Json)>, cs: seq<string>)
    requires NoDuplicates(cs) && forall i :: 0 <= i < |entries| ==> ColorOf(entries[i].0) in cs
    ensures ColorTotals(entries, cs) == QtyTotal(entries)
  {
    if entries == [] {
      NoColorTotals(cs);
    } else {
      assert forall i :: 0 <= i < |entries[1..]| ==> entries[1..][i] == entries[i + 1];
      RegroupByColor(entries[1..], cs);
      ColorTotalsCons(entries, cs);
      assert ColorOf(entries[0].0) in cs;
      CountedOnce(ColorOf(entries[0].0), Qty(entries[0].1), cs);
    }
  }

  lemma {:induction false} NoColorTotals(cs: seq<string>)
    ensures ColorTotals([], cs) == 0
  {
    if cs != [] {
      NoColorTotals(cs[1..]);
    }
  }

  lemma {:induction false} ColorSumIsTotals(r: map<string, int>, entries: seq<(string, Json)>, cs: seq<string>)
    requires forall c :: c in cs ==> c in r && r[c] == ColorTotal(entries, c)
    ensures ColorSum(r, cs) == ColorTotals(entries, cs)
  {
    if cs != [] {
      ColorSumIsTotals(r, entries, cs[1..]);
    }
  }

  /** Over numbers, `parseInt` reads each value back, so the quantities total the numbers. */
  lemma {:induction false} QtyTotalOfNumbers(entries: seq<(string, Json)>)
    requires forall i :: 0 <= i < |entries| ==> entries[i].1.JNum?
    ensures QtyTotal(entries) == Store.NumberTotal(Values(entries))
  {
    if entries != [] {
      assert Values(entries)[1..] == Values(entries[1..]);
      assert forall i :: 0 <= i < |entries[1..]| ==> entries[1..][i] == entries[i + 1];
      QtyTotalOfNumbers(entries[1..]);
    }
  }

  /** The listed cells of such an inventory hold numbers, under keys whose colours are listed. */
  lemma ListedCells(inv: Json, cs: seq<string>)
    requires inv.JObj? && forall i :: 0 <= i < |inv.entries| ==> inv.entries[i].1.JNum?
    requires forall c :: c in InventoryByColor(inv) <==> c in cs
    ensures var listed := PropertyOrder(inv.entries);
      forall i :: 0 <= i < |listed| ==> listed[i].1.JNum? && ColorOf(listed[i].0) in cs
  {
    var e := inv.entries;
    var listed := PropertyOrder(e);
    assert InventoryEntries(inv) == listed;
    forall i | 0 <= i < |listed| ensures listed[i].1.JNum? && ColorOf(listed[i].0) in cs {
      assert listed[i] in e;
      var j :| 0 <= j < |e| && e[j] == listed[i];
      assert NamesColor(listed, ColorOf(listed[i].0));
    }
  }

  /** `getTotalStock` agrees with the per-colour view: for an inventory of numbers, the store's
      total is the sum of the colour totals `inventoryByColor` shows, taking each colour once. */
  lemma TotalStockByColor(product: Json, cs: seq<string>)
    requires Field(product, "inventory").JObj?
    requires var e := Field(product, "inventory").entries; forall i :: 0 <= i < |e| ==> e[i].1.JNum?
    requires NoDuplicates(cs) && forall c :: c in InventoryByColor(Field(product, "inventory")) <==> c in cs
    ensures Store.TotalStock(product) == Store.Numeric(Int(ColorSum(InventoryByColor(Field(product, "inventory")), cs)))
  {
    var inv := Field(product, "inventory");
    var listed := PropertyOrder(inv.entries);
    var r := InventoryByColor(inv);
    ListedCells(inv, cs);
    assert Truthy(product) && Truthy(inv);
    assert Store.InventoryValues(inv) == Values(listed);
    Store.SumOfNumbers(Values(listed));
    QtyTotalOfNumbers(listed);
    RegroupByColor(listed, cs);
    ColorSumIsTotals(r, listed, cs);
  }

  // Size ids

  predicate SlugChar(c: char) {
    ('a' <= c <= 'z') || ('0' <= c <= '9') || c == '-'
  }

  predicate IsSlug(s: string) {
    forall i :: 0 <= i < |s| ==> SlugChar(s[i])
  }

  /** `.replace(/\s+/g, '-')`: every run of white space becomes one hyphen. */
  function HyphenateSpaces(s: string): (r: string)
    ensures forall i :: 0 <= i < |r| ==> !IsSpace(r[i])
    decreases |s|
  {
    if s == [] then []
    else if IsSpace(s[0]) then
      var rest := TrimStart(s);
      assert |rest| < |s| by {
        assert TrimStart(s) == TrimStart(s[1..]);
      }
      "-" + HyphenateSpaces(rest)
    else [s[0]] + HyphenateSpaces(s[1..])
  }

  /** Text without white space goes through unchanged. */
  lemma {:induction false} HyphenateNoSpaces(s: string)
    requires forall i :: 0 <= i < |s| ==> !IsSpace(s[i])
    ensures HyphenateSpaces(s) == s
  {
    if s != [] {
      assert forall i :: 0 <= i < |s[1..]| ==> s[1..][i] == s[i + 1];
      HyphenateNoSpaces(s[1..]);
    }
  }

  /** `.replace(/[^a-z0-9-]/g, '')`. */
  function KeepSlugChars(s: string): (r: string)
    ensures IsSlug(r) && |r| <= |s|
    ensures IsSlug(s) ==> r == s
  {
    if s == [] then []
    else
      assert forall i :: 0 <= i < |s[1..]| ==> s[1..][i] == s[i + 1];
      (if SlugChar(s[0]) then [s[0]] else []) + KeepSlugChars(s[1..])
  }

  const MaxSizeIdLength: nat := 30

  /** The id a new size gets from its trimmed name: lower-cased, white-space runs turned into
      hyphens, everything but `[a-z0-9-]` dropped, `size-<now>` when nothing is left, and cut to
      30 characters. */
  function SizeSlug(name: string, now: nat): (id: string)
    ensures 1 <= |id| <= MaxSizeIdLength && IsSlug(id)
  {
    var base := KeepSlugChars(HyphenateSpaces(ToLowerAscii(name)));
    var id := if base != "" then base else "size-" + NatToString(now);
    if |id| <= MaxSizeIdLength then id else id[..MaxSizeIdLength]
  }

  /** A name that already is a short slug is its own id. */
  lemma SlugOfSlug(name: string, now: nat)
    requires name != "" && |name| <= MaxSizeIdLength && IsSlug(name)
    ensures SizeSlug(name, now) == name
  {
    assert ToLowerAscii(name) == name;
    assert forall i :: 0 <= i < |name| ==> !IsSpace(name[i]);
    HyphenateNoSpaces(name);
  }

  /** Deriving an id from an id changes nothing, whatever the clock says. */
  lemma SizeSlugIdempotent(name: string, now: nat, later: nat)
    ensures SizeSlug(SizeSlug(name, now), later) == SizeSlug(name, now)
  {
    SlugOfSlug(SizeSlug(name, now), later);
  }

  /** The `{ id, name }` record of a size. */
  function SizeRecord(id: string, name: string): (s: Json)
    ensures Field(s, "id") == JStr(id) && Field(s, "name") == JStr(name)
  {
    var e := [("id", JStr(id)), ("name", JStr(name))];
    ProductKeysDiffer();
    assert e == [("id", JStr(id))] + [("name", JStr(name))];
    LookupCons(("id", JStr(id)), [("name", JStr(name))], "name");
    JObj(e)
  }

  /** `items.findIndex(s => s.id === id)`: `Some(None)` for -1, `None` for the `TypeError` a
      `null` or `undefined` entry raises before a match is found. */
  function FindIndex(items: seq<Json>, id: Json): (r: Option<Option<nat>>)
    ensures r.Some? && r.value.Some? ==>
      r.value.value < |items| && StrictEq(Field(items[r.value.value], "id"), id)
      && Store.FindById(items, id) == Some(Some(items[r.value.value]))
    ensures r.Some? && r.value.Some? ==>
      forall j :: 0 <= j < r.value.value ==> !IsNullish(items[j]) && !StrictEq(Field(items[j], "id"), id)
    ensures r == Some(None) <==> Store.FindById(items, id) == Some(None)
    ensures r.None? <==> Store.FindById(items, id).None?
  {
    if items == [] then Some(None)
    else if IsNullish(items[0]) then None
    else if StrictEq(Field(items[0], "id"), id) then Some(Some(0))
    else
      match FindIndex(items[1..], id)
      case None => None
      case Some(None) => Some(None)
      case Some(Some(j)) => Some(Some(j + 1))
  }

  /** Why a form submit changed nothing: one of the three validation messages, or an exception
      caught by the handler's `try`. */
  datatype SaveError = NameRequired | BadPrice | NoImages | Threw

  /** Editing a size: the first size with the id becomes `{ id, name }`; without one nothing
      changes. `None` is the `TypeError` of a `null` entry met by the search. Every id stays. */
  function EditSize(sizes: seq<Json>, id: string, name: string): (r: Option<seq<Json>>)
    ensures r.None? <==> FindIndex(sizes, JStr(id)).None?
    ensures r.Some? ==> |r.value| == |sizes|
    ensures r.Some? ==> forall i :: 0 <= i < |sizes| ==> Field(r.value[i], "id") == Field(sizes[i], "id")
    ensures r.Some? ==> forall i :: 0 <= i < |sizes| && r.value[i] != sizes[i] ==> r.value[i] == SizeRecord(id, name)
    ensures FindIndex(sizes, JStr(id)) == Some(None) ==> r == Some(sizes)
    ensures forall k :: FindIndex(sizes, JStr(id)) == Some(Some(k)) ==>
      r.Some? && r.value[k] == SizeRecord(id, name) && forall j :: 0 <= j < |sizes| && j != k ==> r.value[j] == sizes[j]
  {
    match FindIndex(sizes, JStr(id))
    case None => None
    case Some(None) => Some(sizes)
    case Some(Some(i)) => Some(sizes[i := SizeRecord(id, name)])
  }

  /** Adding a size: appended under the slug of its name, or under the slug with `-<now>`
      appended when a size already has the slug. */
  function AddSize(sizes: seq<Json>, name: string, now: nat): (r: Option<seq<Json>>)
    ensures r.None? <==> FindIndex(sizes, JStr(SizeSlug(name, now))).None?
    ensures r.Some? ==> |r.value| == |sizes| + 1 && r.value[..|sizes|] == sizes
    ensures r.Some? ==>
      var slug := SizeSlug(name, now);
      r.value[|sizes|] == SizeRecord(slug, name) || r.value[|sizes|] == SizeRecord(slug + "-" + NatToString(now), name)
  {
    var newId := SizeSlug(name, now);
    match FindIndex(sizes, JStr(newId))
    case None => None
    case Some(found) =>
      var finalId := if found.Some? then newId + "-" + NatToString(now) else newId;
      Some(sizes + [SizeRecord(finalId, name)])
  }

  /** The size form's submit handler: a blank name is refused; a non-blank hidden id edits that
      size, otherwise a size is added. `None` is the uncaught `TypeError` of a `null` entry. */
  function SaveSize(sizes: seq<Json>, nameInput: string, idInput: string, now: nat): (r: Option<Result<seq<Json>, SaveError>>)
    ensures r == Some(Failure(NameRequired)) <==> Trim(nameInput) == ""
    ensures r.Some? && r.value.Failure? ==> r.value.error == NameRequired
  {
    var name := Trim(nameInput);
    var existingId := Trim(idInput);
    if name == "" then Some(Failure(NameRequired))
    else
      var saved := if existingId != "" then EditSize(sizes, existingId, name) else AddSize(sizes, name, now);
      match saved
      case None => None
      case Some(r) => Some(Success(r))
  }

  /** The empty hidden id means adding. */
  lemma TrimEmptyString()
    ensures Trim("") == ""
  {
    assert AllSpace("");
  }

  /** A size added under a free slug is found under that slug afterwards, at the end. */
  lemma NewSizeFound(sizes: seq<Json>, nameInput: string, now: nat)
    requires Trim(nameInput) != ""
    requires FindIndex(sizes, JStr(SizeSlug(Trim(nameInput), now))) == Some(None)
    ensures var r := SaveSize(sizes, nameInput, "", now);
      var id := SizeSlug(Trim(nameInput), now);
      r.Some? && r.value.Success?
      && FindIndex(r.value.value, JStr(id)) == Some(Some(|sizes|))
      && Field(r.value.value[|sizes|], "name") == JStr(Trim(nameInput))
  {
    var name := Trim(nameInput);
    var id := SizeSlug(name, now);
    var x := SizeRecord(id, name);
    FreeSlugAdds(sizes, nameInput, now);
    SizeRecordMatches(id, name);
    FindIndexAppend(sizes, x, JStr(id));
    assert (sizes + [x])[|sizes|] == x;
  }

  lemma SizeRecordMatches(id: string, name: string)
    ensures !IsNullish(SizeRecord(id, name)) && StrictEq(Field(SizeRecord(id, name), "id"), JStr(id))
  {
  }

  /** With the slug free and no hidden id, the form appends the record under that slug. */
  lemma FreeSlugAdds(sizes: seq<Json>, nameInput: string, now: nat)
    requires Trim(nameInput) != ""
    requires FindIndex(sizes, JStr(SizeSlug(Trim(nameInput), now))) == Some(None)
    ensures SaveSize(sizes, nameInput, "", now)
         == Some(Success(sizes + [SizeRecord(SizeSlug(Trim(nameInput), now), Trim(nameInput))]))
  {
    TrimEmptyString();
    assert AddSize(sizes, Trim(nameInput), now)
        == Some(sizes + [SizeRecord(SizeSlug(Trim(nameInput), now), Trim(nameInput))]);
  }

  /** Searching past a list with no match reaches the appended record. */
  lemma {:induction false} FindIndexAppend(items: seq<Json>, x: Json, id: Json)
    requires FindIndex(items, id) == Some(None) && !IsNullish(x) && StrictEq(Field(x, "id"), id)
    ensures FindIndex(items + [x], id) == Some(Some(|items|))
  {
    if items != [] {
      assert (items + [x])[1..] == items[1..] + [x];
      FindIndexAppend(items[1..], x, id);
    }
  }

  /** Editing a size that exists puts the new name on it and keeps its id. */
  lemma EditedSizeFound(sizes: seq<Json>, nameInput: string, idInput: string, now: nat, i: nat)
    requires Trim(nameInput) != "" && Trim(idInput) != ""
    requires FindIndex(sizes, JStr(Trim(idInput))) == Some(Some(i))
    ensures var r := SaveSize(sizes, nameInput, idInput, now);
      r.Some? && r.value.Success?
      && r.value.value[i] == SizeRecord(Trim(idInput), Trim(nameInput))
      && Field(r.value.value[i], "id") == Field(sizes[i], "id")
  {
    assert EditSize(sizes, Trim(idInput), Trim(nameInput)) == Some(sizes[i := SizeRecord(Trim(idInput), Trim(nameInput))]);
  }

  // Products

  /** The values the product form's fields hold when it is submitted. `category` is `None` when
      the field is absent. */
  datatype ProductForm = ProductForm(
    id: string, name: string, regularPrice: string, discountPrice: string, category: Option<string>,
    description: string, visible: bool, images: seq<string>, colors: Json, sizeIds: seq<string>,
    inventoryInputs: seq<(string, string)>)

  /** `existing && existing[k] ? existing[k] : fallback`. */
  function Kept(existing: Option<Json>, k: string, fallback: Json): (v: Json)
    ensures existing.Some? && Truthy(Field(existing.value, k)) ==> v == Field(existing.value, k)
    ensures !(existing.Some? && Truthy(Field(existing.value, k))) ==> v == fallback
  {
    if existing.Some? && Truthy(Field(existing.value, k)) then Field(existing.value, k) else fallback
  }

  /** The inventory inputs, each non-empty key set to `parseInt(value, 10) || 0`. */
  function FormInventory(acc: seq<(string, Json)>, inputs: seq<(string, string)>): seq<(string, Json)>
    decreases |inputs|
  {
    if inputs == [] then acc
    else
      var next := if inputs[0].0 != "" then SetEntry(acc, inputs[0].0, JNum(ParseInt(inputs[0].1).GetOr(0))) else acc;
      FormInventory(next, inputs[1..])
  }

  /** `parseInt(raw, 10)` of a non-blank discount field, or `null`. A discount that does not parse
      is `NaN`, which the store's JSON encoding writes as `null`. */
  function DiscountOf(raw: string): Json {
    var t := Trim(raw);
    if t == "" then JNull
    else match ParseInt(t) case None => JNull case Some(n) => JNum(n)
  }

  /** An array of strings. */
  function StringArray(xs: seq<string>): Json {
    JArr(seq(|xs|, i requires 0 <= i < |xs| => JStr(xs[i])))
  }

  /** The fields of the product object the form saves, in the order the handler writes them. */
  function ProductEntries(f: ProductForm, newId: string, existing: Option<Json>): seq<(string, Json)> {
    var name := Trim(f.name);
    var description := Trim(f.description);
    var category := if f.category.Some? && Trim(f.category.value) != "" then JStr(Trim(f.category.value)) else JUndef;
    [("id", JStr(newId)), ("name", JStr(name)), ("nameAr", Kept(existing, "nameAr", JStr(name)))]
    + [("regularPrice", JNum(ParseInt(f.regularPrice).GetOr(0))),
     ("discountPrice", DiscountOf(f.discountPrice)),
     ("category", category),
     ("description", JStr(description)),
     ("descriptionAr", Kept(existing, "descriptionAr", JStr(description))),
     ("images", StringArray(f.images)),
     ("colors", f.colors),
     ("sizes", if f.sizeIds != [] then StringArray(f.sizeIds) else JUndef),
     ("inventory", JObj(FormInventory([], f.inventoryInputs))),
     ("visible", JBool(f.visible)),
     ("meta", Kept(existing, "meta", JArr([])))]
  }

  lemma ProductKeysDiffer()
    ensures "id" != "name" && "id" != "nameAr" && "name" != "nameAr"
  {
    assert |"name"| != |"nameAr"|;
  }

  /** The product object the form saves. `nameAr`, `descriptionAr` and `meta` are carried over
      from the product being edited when it has them. */
  function ProductPayload(f: ProductForm, newId: string, existing: Option<Json>): (p: Json)
    ensures p.JObj?
    ensures Field(p, "id") == JStr(newId) && Field(p, "name") == JStr(Trim(f.name))
    ensures Field(p, "nameAr") == Kept(existing, "nameAr", JStr(Trim(f.name)))
  {
    var e := ProductEntries(f, newId, existing);
    var name := Trim(f.name);
    var nameAr := Kept(existing, "nameAr", JStr(name));
    var rest := e[3..];
    assert e == [("id", JStr(newId)), ("name", JStr(name)), ("nameAr", nameAr)] + rest;
    ProductKeysDiffer();
    Lookup3("id", JStr(newId), "name", JStr(name), "nameAr", nameAr, rest, "id");
    Lookup3("id", JStr(newId), "name", JStr(name), "nameAr", nameAr, rest, "name");
    Lookup3("id", JStr(newId), "name", JStr(name), "nameAr", nameAr, rest, "nameAr");
    JObj(e)
  }

  /** The id a new product without one gets. */
  function NewProductId(now: nat): string {
    "p-" + NatToString(now)
  }

  /** The id a save stores the product under: the form's own, else a fresh one. */
  function SavedId(f: ProductForm, now: nat): string {
    if Trim(f.id) != "" then Trim(f.id) else NewProductId(now)
  }

  /** The price check: `parseInt` must give a number that is not negative. */
  predicate PriceOk(raw: string) {
    ParseInt(raw).Some? && ParseInt(raw).value >= 0
  }

  /** Storing a validated product in the catalogue: the first product with the form's non-blank
      id is replaced in place, otherwise the product is appended under its saved id. `None` is the
      `TypeError` of a `null` product met by the search. */
  function UpsertProduct(items: seq<Json>, f: ProductForm, now: nat): (r: Option<seq<Json>>)
    ensures r.Some? && |r.value| == |items| ==>
      Trim(f.id) != ""
      && forall i :: 0 <= i < |items| && r.value[i] != items[i] ==> StrictEq(Field(items[i], "id"), JStr(Trim(f.id)))
    ensures r.Some? && |r.value| != |items| ==> r.value == items + [ProductPayload(f, SavedId(f, now), None)]
    ensures Trim(f.id) == "" ==> r.Some?
    ensures r.None? <==> Trim(f.id) != "" && FindIndex(items, JStr(Trim(f.id))).None?
    ensures forall k :: Trim(f.id) != "" && FindIndex(items, JStr(Trim(f.id))) == Some(Some(k)) ==>
      r == Some(items[k := ProductPayload(f, Trim(f.id), Some(items[k]))])
    ensures Trim(f.id) == "" || FindIndex(items, JStr(Trim(f.id))) == Some(None) ==>
      r == Some(items + [ProductPayload(f, SavedId(f, now), None)])
  {
    var id := Trim(f.id);
    var found := if id != "" then FindIndex(items, JStr(id)) else Some(None);
    match found
    case None => None
    case Some(None) => Some(items + [ProductPayload(f, SavedId(f, now), None)])
    case Some(Some(i)) => Some(items[i := ProductPayload(f, id, Some(items[i]))])
  }

  /** The product form's submit handler on the stored catalogue. Validation runs first: a blank
      name, a price that is `NaN` or negative, and an empty image list are refused in that
      order. `Threw` is the `TypeError` of a catalogue that is not an array or of a `null` product
      met by the search; the handler catches it and stores nothing. */
  function SaveProduct(products: Json, f: ProductForm, now: nat): (r: Result<seq<Json>, SaveError>)
    ensures r == Failure(NameRequired) <==> Trim(f.name) == ""
    ensures r == Failure(BadPrice) <==> Trim(f.name) != "" && !PriceOk(f.regularPrice)
    ensures r == Failure(NoImages) <==> Trim(f.name) != "" && PriceOk(f.regularPrice) && f.images == []
    ensures r.Success? ==> products.JArr? && Some(r.value) == UpsertProduct(products.items, f, now)
  {
    if Trim(f.name) == "" then Failure(NameRequired)
    else if !PriceOk(f.regularPrice) then Failure(BadPrice)
    else if f.images == [] then Failure(NoImages)
    else if !products.JArr? then Failure(Threw)
    else
      match UpsertProduct(products.items, f, now)
      case None => Failure(Threw)
      case Some(r) => Success(r)
  }

  /** What is saved can be looked up again: the product found under the saved id carries that id
      and the trimmed name. A fresh `p-<now>` id must not be in use already. */
  lemma SavedProductFound(items: seq<Json>, f: ProductForm, now: nat)
    requires UpsertProduct(items, f, now).Some?
    requires Trim(f.id) != "" || Store.FindById(items, JStr(NewProductId(now))) == Some(None)
    ensures var found := Store.FindById(UpsertProduct(items, f, now).value, JStr(SavedId(f, now)));
      found.Some? && found.value.Some?
      && Field(found.value.value, "id") == JStr(SavedId(f, now))
      && Field(found.value.value, "name") == JStr(Trim(f.name))
  {
    var id := SavedId(f, now);
    var r := UpsertProduct(items, f, now).value;
    var found := if Trim(f.id) != "" then FindIndex(items, JStr(Trim(f.id))) else Some(None);
    assert found.Some?;
    if found.value.Some? {
      var i := found.value.value;
      var p := ProductPayload(f, id, Some(items[i]));
      assert r == items[i := p];
      SavedReplaced(items, i, p, JStr(id), r);
    } else {
      var p := ProductPayload(f, id, None);
      assert r == items + [p];
      SavedAppended(items, p, JStr(id), r);
    }
  }

  lemma SavedReplaced(items: seq<Json>, i: nat, p: Json, id: Json, r: seq<Json>)
    requires FindIndex(items, id) == Some(Some(i)) && p.JObj? && Field(p, "id") == id && id.JStr?
    requires r == items[i := p]
    ensures Store.FindById(r, id) == Some(Some(p))
  {
    FindIndexReplace(items, i, p, id);
  }

  lemma SavedAppended(items: seq<Json>, p: Json, id: Json, r: seq<Json>)
    requires FindIndex(items, id) == Some(None) && p.JObj? && Field(p, "id") == id && id.JStr?
    requires r == items + [p]
    ensures Store.FindById(r, id) == Some(Some(p))
  {
    FindIndexAppend(items, p, id);
    assert r[|items|] == p;
  }

  /** Replacing the first match by another match keeps it the first match. */
  lemma {:induction false} FindIndexReplace(items: seq<Json>, i: nat, x: Json, id: Json)
    requires FindIndex(items, id) == Some(Some(i)) && !IsNullish(x) && StrictEq(Field(x, "id"), id)
    ensures FindIndex(items[i := x], id) == Some(Some(i))
  {
    if i > 0 {
      assert items[i := x][1..] == items[1..][i - 1 := x];
      FindIndexReplace(items[1..], i - 1, x, id);
    }
  }

  /** `filter(p => p.id !== id)` over a list; `None` for the `TypeError` of a `null` entry. */
  function WithoutId(items: seq<Json>, id: Json): Option<seq<Json>> {
    if items == [] then Some([])
    else if IsNullish(items[0]) then None
    else
      match WithoutId(items[1..], id)
      case None => None
      case Some(rest) => Some(if StrictEq(Field(items[0], "id"), id) then rest else [items[0]] + rest)
  }

  /** The filter fails exactly on a `null` entry; otherwise it keeps precisely the entries whose
      id differs. */
  lemma {:induction false} WithoutIdKeepsOthers(items: seq<Json>, id: Json)
    ensures var r := WithoutId(items, id);
      && (r.Some? <==> forall x :: x in items ==> !IsNullish(x))
      && (r.Some? ==> forall x :: x in r.value ==> x in items && !StrictEq(Field(x, "id"), id))
      && (r.Some? ==> forall x :: x in items && !StrictEq(Field(x, "id"), id) ==> x in r.value)
  {
    if items != [] {
      WithoutIdKeepsOthers(items[1..], id);
      assert items == [items[0]] + items[1..];
    }
  }

  /** The filter works element by element, so it keeps the order of what it keeps. */
  lemma {:induction false} WithoutIdAppend(a: seq<Json>, b: seq<Json>, id: Json)
    requires WithoutId(a, id).Some? && WithoutId(b, id).Some?
    ensures WithoutId(a + b, id) == Some(WithoutId(a, id).value + WithoutId(b, id).value)
  {
    if a == [] {
      assert a + b == b;
      assert [] + WithoutId(b, id).value == WithoutId(b, id).value;
    } else {
      WithoutIdAppend(a[1..], b, id);
      WithoutIdAppendStep(a, b, id, WithoutId(a[1..], id).value, WithoutId(b, id).value);
    }
  }

  /** One step of the filter over the concatenation, with the filtered tails as plain values. */
  lemma WithoutIdAppendStep(a: seq<Json>, b: seq<Json>, id: Json, ta: seq<Json>, tb: seq<Json>)
    requires a != [] && !IsNullish(a[0])
    requires WithoutId(a[1..], id) == Some(ta) && WithoutId(b, id) == Some(tb)
    requires WithoutId(a[1..] + b, id) == Some(ta + tb)
    ensures WithoutId(a + b, id) == Some(WithoutId(a, id).value + tb)
  {
    assert (a + b)[0] == a[0] && (a + b)[1..] == a[1..] + b;
    if StrictEq(Field(a[0], "id"), id) {
      WithoutIdAppendDrop(a, b, id, ta, tb);
    } else {
      WithoutIdAppendKeep(a, b, id, ta, tb);
    }
  }

  lemma WithoutIdAppendDrop(a: seq<Json>, b: seq<Json>, id: Json, ta: seq<Json>, tb: seq<Json>)
    requires a != [] && !IsNullish(a[0]) && StrictEq(Field(a[0], "id"), id)
    requires (a + b)[0] == a[0] && (a + b)[1..] == a[1..] + b
    requires WithoutId(a[1..], id) == Some(ta) && WithoutId(a[1..] + b, id) == Some(ta + tb)
    ensures WithoutId(a, id) == Some(ta) && WithoutId(a + b, id) == Some(ta + tb)
  {
  }

  lemma WithoutIdAppendKeep(a: seq<Json>, b: seq<Json>, id: Json, ta: seq<Json>, tb: seq<Json>)
    requires a != [] && !IsNullish(a[0]) && !StrictEq(Field(a[0], "id"), id)
    requires (a + b)[0] == a[0] && (a + b)[1..] == a[1..] + b
    requires WithoutId(a[1..], id) == Some(ta) && WithoutId(a[1..] + b, id) == Some(ta + tb)
    ensures WithoutId(a, id) == Some([a[0]] + ta) && WithoutId(a + b, id) == Some(([a[0]] + ta) + tb)
  {
    assert [a[0]] + (ta + tb) == ([a[0]] + ta) + tb;
  }

  /** `deleteProduct(id)` on the stored catalogue: every product with that id goes, all others
      stay. `None` is the caught `TypeError` of a catalogue that is not an array or holds `null`. */
  function DeleteProduct(products: Json, id: string): (r: Option<seq<Json>>)
    ensures r.Some? <==> products.JArr? && forall x :: x in products.items ==> !IsNullish(x)
    ensures r.Some? ==> forall x :: x in r.value ==> x in products.items && !StrictEq(Field(x, "id"), JStr(id))
    ensures r.Some? ==> forall x :: x in products.items && !StrictEq(Field(x, "id"), JStr(id)) ==> x in r.value
  {
    if products.JArr? then WithoutIdKeepsOthers(products.items, JStr(id)); WithoutId(products.items, JStr(id)) else None
  }

  /** Deleting twice is deleting once, and the product can no longer be found. */
  lemma DeleteProductIdempotent(products: Json, id: string)
    requires DeleteProduct(products, id).Some?
    ensures var r := DeleteProduct(products, id).value;
      DeleteProduct(JArr(r), id) == Some(r) && Store.FindById(r, JStr(id)) == Some(None)
  {
    var r := DeleteProduct(products, id).value;
    WithoutIdNoMatch(r, JStr(id));
    NoMatchNotFound(r, JStr(id));
  }

  lemma {:induction false} WithoutIdNoMatch(items: seq<Json>, id: Json)
    requires forall x :: x in items ==> !IsNullish(x) && !StrictEq(Field(x, "id"), id)
    ensures WithoutId(items, id) == Some(items)
  {
    if items != [] {
      assert items[0] in items;
      assert forall x :: x in items[1..] ==> x in items;
      WithoutIdNoMatch(items[1..], id);
      WithoutIdKeeps(items, id, items[1..]);
    }
  }

  /** One step of the filter over an entry it keeps. */
  lemma WithoutIdKeeps(items: seq<Json>, id: Json, rest: seq<Json>)
    requires items != [] && rest == items[1..] && WithoutId(rest, id) == Some(rest)
    requires !IsNullish(items[0]) && !StrictEq(Field(items[0], "id"), id)
    ensures WithoutId(items, id) == Some(items)
  {
    assert [items[0]] + rest == items;
  }

  lemma {:induction false} NoMatchNotFound(items: seq<Json>, id: Json)
    requires forall x :: x in items ==> !IsNullish(x) && !StrictEq(Field(x, "id"), id)
    ensures Store.FindById(items, id) == Some(None)
  {
    if items != [] {
      assert forall x :: x in items[1..] ==> x in items;
      NoMatchNotFound(items[1..], id);
    }
  }

  // GitHub sync settings

  /** Where `syncToGitHub` pushes the store document. */
  datatype SyncTarget = SyncTarget(token: string, owner: string, repo: string, branch: string)

  /** The settings check at the start of `syncToGitHub`. Token, owner and repo are trimmed and
      must all be non-blank (`Some(None)` is the early `false`); the branch is trimmed and falls
      back to `main`. `None` is the `TypeError` of reading a property of a `null` settings value
      or of `.trim()` on a truthy non-string. */
  function SyncTargetOf(config: Json): (r: Option<Option<SyncTarget>>)
    ensures IsNullish(config) ==> r.None?
    ensures r.Some? && r.value.Some? ==>
      var t := r.value.value;
      t.token != "" && t.owner != "" && t.repo != "" && t.branch != ""
      && Trimmed(t.token) && Trimmed(t.owner) && Trimmed(t.repo) && Trimmed(t.branch)
    ensures r == Some(None) <==>
      !IsNullish(config)
      && TrimmedOrEmpty(Field(config, "token")).Some? && TrimmedOrEmpty(Field(config, "owner")).Some?
      && TrimmedOrEmpty(Field(config, "repo")).Some? && TrimmedOrEmpty(Or(Field(config, "branch"), JStr("main"))).Some?
      && (TrimmedOrEmpty(Field(config, "token")).value == "" || TrimmedOrEmpty(Field(config, "owner")).value == ""
          || TrimmedOrEmpty(Field(config, "repo")).value == "")
    ensures r.Some? && r.value.Some? && !Truthy(Field(config, "branch")) ==> r.value.value.branch == "main"
  {
    if IsNullish(config) then None
    else
      var token := TrimmedOrEmpty(Field(config, "token"));
      var owner := TrimmedOrEmpty(Field(config, "owner"));
      var repo := TrimmedOrEmpty(Field(config, "repo"));
      var branch := TrimmedOrEmpty(Or(Field(config, "branch"), JStr("main")));
      if token.None? || owner.None? || repo.None? || branch.None? then None
      else if token.value == "" || owner.value == "" || repo.value == "" then Some(None)
      else
        var b := if branch.value == "" then "main" else branch.value;
        MainTrimmed();
        Some(Some(SyncTarget(token.value, owner.value, repo.value, b)))
  }

  lemma MainTrimmed()
    ensures Trimmed("main") && "main" != ""
  {
    assert "main"[0] == 'm' && "main"[3] == 'n';
  }

  /** The settings object `setGitHubSyncConfig` stores for a target. */
  function SyncConfig(t: SyncTarget): Json {
    JObj([("token", JStr(t.token)), ("owner", JStr(t.owner)), ("repo", JStr(t.repo)), ("branch", JStr(t.branch))])
  }

  lemma SyncKeysDiffer()
    ensures "token" != "owner" && "token" != "repo" && "token" != "branch"
    ensures "owner" != "repo" && "owner" != "branch" && "repo" != "branch"
  {
    assert "token"[0] == 't' && "owner"[0] == 'o' && "repo"[0] == 'r' && "branch"[0] == 'b';
  }

  /** Settings saved for a target with trimmed, non-blank fields are read back as that target. */
  lemma SyncConfigRoundTrip(t: SyncTarget)
    requires t.token != "" && t.owner != "" && t.repo != "" && t.branch != ""
    requires Trimmed(t.token) && Trimmed(t.owner) && Trimmed(t.repo) && Trimmed(t.branch)
    ensures SyncTargetOf(SyncConfig(t)) == Some(Some(t))
  {
    SyncConfigFields(t);
    SyncTargetOfFields(SyncConfig(t), t);
  }

  lemma SyncConfigFields(t: SyncTarget)
    ensures Field(SyncConfig(t), "token") == JStr(t.token) && Field(SyncConfig(t), "owner") == JStr(t.owner)
    ensures Field(SyncConfig(t), "repo") == JStr(t.repo) && Field(SyncConfig(t), "branch") == JStr(t.branch)
  {
    var e := SyncConfig(t).entries;
    var rest := [("branch", JStr(t.branch))];
    assert e == [("token", JStr(t.token)), ("owner", JStr(t.owner)), ("repo", JStr(t.repo))] + rest;
    SyncKeysDiffer();
    Lookup3("token", JStr(t.token), "owner", JStr(t.owner), "repo", JStr(t.repo), rest, "token");
    Lookup3("token", JStr(t.token), "owner", JStr(t.owner), "repo", JStr(t.repo), rest, "owner");
    Lookup3("token", JStr(t.token), "owner", JStr(t.owner), "repo", JStr(t.repo), rest, "repo");
    Lookup3("token", JStr(t.token), "owner", JStr(t.owner), "repo", JStr(t.repo), rest, "branch");
    LookupCons(rest[0], [], "branch");
  }

  /** A settings value whose four fields hold a target's trimmed, non-blank strings. */
  lemma SyncTargetOfFields(config: Json, t: SyncTarget)
    requires !IsNullish(config)
    requires Field(config, "token") == JStr(t.token) && Field(config, "owner") == JStr(t.owner)
    requires Field(config, "repo") == JStr(t.repo) && Field(config, "branch") == JStr(t.branch)
    requires t.token != "" && t.owner != "" && t.repo != "" && t.branch != ""
    requires Trimmed(t.token) && Trimmed(t.owner) && Trimmed(t.repo) && Trimmed(t.branch)
    ensures SyncTargetOf(config) == Some(Some(t))
  {
    TrimOfTrimmed(t.token);
    TrimOfTrimmed(t.owner);
    TrimOfTrimmed(t.repo);
    TrimOfTrimmed(t.branch);
    assert Or(Field(config, "branch"), JStr("main")) == JStr(t.branch);
    var r := SyncTargetOf(config);
    assert r.Some? && r.value.Some?;
    assert r.value.value == t;
  }
}

=== FILE: cart.dfy ===
/** The storefront's shopping cart: a list of lines keyed by a composite id, with add-or-merge,
    remove, update-or-remove and totals, as pure transitions on the list of lines. */
module Cart {
  import opened Wrappers
  import opened JsText
  import opened JsonValue

  /** What the product page hands to `addItem`; an absent size is the empty string. */
  datatype Selection = Selection(
    productId: string, name: string, color: string, size: string, sizeName: string,
    quantity: int, price: int, image: string)

  /** One stored cart line. */
  datatype Line = Line(
    id: string, productId: string, name: string, color: string,
    size: Option<string>, sizeName: Option<string>, quantity: int, price: int, image: string)

  /** `productId-color`, followed by `-size` only when a size is chosen. */
  function LineId(productId: string, color: string, size: string): (id: string)
    ensures StartsWith(id, productId + "-" + color)
    ensures size == "" ==> |id| == |productId| + 1 + |color|
    ensures size != "" ==> EndsWith(id, "-" + size) && |id| == |productId| + |color| + |size| + 2
  {
    var id := productId + "-" + color + (if size != "" then "-" + size else "");
    assert id[..|productId + "-" + color|] == productId + "-" + color;
    id
  }

  /** The line `addItem` builds from a selection: empty size and size name become `null`. */
  function LineOf(sel: Selection): (l: Line)
    ensures l.id == LineId(sel.productId, sel.color, sel.size)
    ensures l.quantity == sel.quantity && l.price == sel.price && l.color == sel.color
    ensures l.size.Some? <==> sel.size != ""
  {
    Line(LineId(sel.productId, sel.color, sel.size), sel.productId, sel.name, sel.color,
         if sel.size != "" then Some(sel.size) else None,
         if sel.sizeName != "" then Some(sel.sizeName) else None,
         sel.quantity, sel.price, sel.image)
  }

  /** The line with its quantity replaced. */
  function WithQuantity(l: Line, quantity: int): Line {
    l.(quantity := quantity)
  }

  predicate HasId(cart: seq<Line>, id: string) {
    exists i :: 0 <= i < |cart| && cart[i].id == id
  }

  /** `findIndex` on the id: the first matching position, or -1. */
  function IndexOf(cart: seq<Line>, id: string): (i: int)
    ensures -1 <= i < |cart|
    ensures i == -1 <==> !HasId(cart, id)
    ensures i >= 0 ==> cart[i].id == id && forall j :: 0 <= j < i ==> cart[j].id != id
  {
    if cart == [] then -1
    else if cart[0].id == id then 0
    else
      var k := IndexOf(cart[1..], id);
      assert forall j :: 1 <= j < |cart| ==> cart[j] == cart[1..][j - 1];
      if k == -1 then -1 else k + 1
  }

  /** `addItem`: a selection without a colour or with a quantity below 1 is refused and the cart is
      left as it is; otherwise the quantity is added to the line with the same id, or a new line is
      appended at the end. */
  function AddItem(cart: seq<Line>, sel: Selection): (r: (seq<Line>, bool))
    ensures !r.1 <==> sel.color == "" || sel.quantity < 1
    ensures !r.1 ==> r.0 == cart
    ensures r.1 && HasId(cart, LineOf(sel).id) ==>
      var i := IndexOf(cart, LineOf(sel).id);
      |r.0| == |cart| && r.0[i] == WithQuantity(cart[i], cart[i].quantity + sel.quantity)
      && forall j :: 0 <= j < |cart| && j != i ==> r.0[j] == cart[j]
    ensures r.1 && !HasId(cart, LineOf(sel).id) ==> r.0 == cart + [LineOf(sel)]
  {
    if sel.color == "" || sel.quantity < 1 then (cart, false)
    else
      var line := LineOf(sel);
      var i := IndexOf(cart, line.id);
      if i >= 0 then (cart[i := WithQuantity(cart[i], cart[i].quantity + line.quantity)], true)
      else (cart + [line], true)
  }

  /** The product page reads the quantity field with `parseInt`, which gives `NaN` for an empty
      field. Corrected, a quantity that is not a number is refused like one below 1; a number
      goes on to `addItem`. */
  function AddFromField(cart: seq<Line>, sel: Selection, quantity: Num): (r: (seq<Line>, bool))
    ensures !r.1 <==> sel.color == "" || quantity.NaN? || quantity.i < 1
    ensures !r.1 ==> r.0 == cart
    ensures quantity.Int? ==> r == AddItem(cart, sel.(quantity := quantity.i))
  {
    if quantity.NaN? then (cart, false) else AddItem(cart, sel.(quantity := quantity.i))
  }

  /** `product.quantity < 1`: any comparison with `NaN` is false. */
  predicate BelowOne(quantity: Num) {
    quantity.Int? && quantity.i < 1
  }

  /** The guard of `addItem` as written: `!product.color || product.quantity < 1` refuses. */
  predicate AcceptsAsWritten(color: string, quantity: Num) {
    !(color == "" || BelowOne(quantity))
  }

  /** `getItemCount()` as written once a line of the given quantity has been appended: the
      running `count + item.quantity` ends in that quantity. */
  function CountAfterAsWritten(cart: seq<Line>, quantity: Num): (r: Num)
    ensures quantity.Int? ==> r == Int(ItemCount(cart) + quantity.i)
  {
    Add(Int(ItemCount(cart)), quantity)
  }

  /** An empty quantity field passes the guard as written and turns the item count into `NaN`;
      the corrected check refuses it and leaves the cart as it is. */
  lemma EmptyQuantityAccepted(cart: seq<Line>, sel: Selection)
    requires sel.color != ""
    ensures AcceptsAsWritten(sel.color, NaN) && CountAfterAsWritten(cart, NaN) == NaN
    ensures AddFromField(cart, sel, NaN) == (cart, false)
  {
  }

  /** For a quantity that is a number the guard as written and the corrected check agree. */
  lemma GuardsAgreeOnNumbers(cart: seq<Line>, sel: Selection, q: int)
    ensures AcceptsAsWritten(sel.color, Int(q)) <==> AddFromField(cart, sel, Int(q)).1
  {
  }

  /** `removeItem`: every line with that id goes. */
  function RemoveItem(cart: seq<Line>, id: string): (r: seq<Line>)
    ensures !HasId(r, id)
    ensures forall l :: l in r <==> l in cart && l.id != id
    ensures |r| <= |cart|
  {
    if cart == [] then []
    else
      assert forall l :: l in cart <==> l == cart[0] || l in cart[1..];
      (if cart[0].id == id then [] else [cart[0]]) + RemoveItem(cart[1..], id)
  }

  /** Removing keeps the surviving lines in their order: it distributes over concatenation. */
  lemma {:induction false} RemoveItemAppend(a: seq<Line>, b: seq<Line>, id: string)
    ensures RemoveItem(a + b, id) == RemoveItem(a, id) + RemoveItem(b, id)
  {
    if a == [] {
      assert a + b == b;
    } else {
      assert (a + b)[1..] == a[1..] + b;
      RemoveItemAppend(a[1..], b, id);
    }
  }

  /** `updateQuantity`: an unknown id changes nothing; a quantity of 0 or less removes the line;
      otherwise the first line with that id gets exactly that quantity. */
  function UpdateQuantity(cart: seq<Line>, id: string, quantity: int): (r: seq<Line>)
    ensures !HasId(cart, id) ==> r == cart
    ensures HasId(cart, id) && quantity <= 0 ==> !HasId(r, id) && r == RemoveItem(cart, id)
    ensures HasId(cart, id) && quantity > 0 ==>
      |r| == |cart| && r[IndexOf(cart, id)].quantity == quantity
      && forall j :: 0 <= j < |cart| && j != IndexOf(cart, id) ==> r[j] == cart[j]
  {
    var i := IndexOf(cart, id);
    if i < 0 then cart
    else if quantity <= 0 then RemoveItem(cart, id)
    else cart[i := WithQuantity(cart[i], quantity)]
  }

  /** `getTotal`: the sum of price × quantity. */
  function Total(cart: seq<Line>): int {
    if cart == [] then 0 else cart[0].price * cart[0].quantity + Total(cart[1..])
  }

  /** `getItemCount`: the sum of the quantities. */
  function ItemCount(cart: seq<Line>): int {
    if cart == [] then 0 else cart[0].quantity + ItemCount(cart[1..])
  }

  lemma {:induction false} TotalsAppend(a: seq<Line>, b: seq<Line>)
    ensures Total(a + b) == Total(a) + Total(b)
    ensures ItemCount(a + b) == ItemCount(a) + ItemCount(b)
  {
    if a == [] {
      assert a + b == b;
    } else {
      assert (a + b)[1..] == a[1..] + b;
      TotalsAppend(a[1..], b);
    }
  }

  /** Replacing one line changes the totals by the difference it makes. */
  lemma {:induction false} TotalsUpdate(cart: seq<Line>, i: nat, l: Line)
    requires i < |cart|
    ensures ItemCount(cart[i := l]) == ItemCount(cart) - cart[i].quantity + l.quantity
    ensures Total(cart[i := l]) == Total(cart) - cart[i].price * cart[i].quantity + l.price * l.quantity
  {
    if i > 0 {
      assert cart[i := l][1..] == cart[1..][i - 1 := l];
      TotalsUpdate(cart[1..], i - 1, l);
    } else {
      assert cart[i := l][1..] == cart[1..];
    }
  }

  /** An accepted `addItem` raises the item count by exactly the quantity added, and the total by
      its price times that quantity when it appends, or merges into a line of the same price. */
  lemma AddItemCounts(cart: seq<Line>, sel: Selection)
    requires sel.color != "" && sel.quantity >= 1
    ensures ItemCount(AddItem(cart, sel).0) == ItemCount(cart) + sel.quantity
    ensures !HasId(cart, LineOf(sel).id) || cart[IndexOf(cart, LineOf(sel).id)].price == sel.price ==>
      Total(AddItem(cart, sel).0) == Total(cart) + sel.price * sel.quantity
  {
    var i := IndexOf(cart, LineOf(sel).id);
    if i >= 0 {
      AddItemMerges(cart, sel);
    } else {
      AddItemAppends(cart, sel);
    }
  }

  lemma AddItemMerges(cart: seq<Line>, sel: Selection)
    requires sel.color != "" && sel.quantity >= 1 && HasId(cart, LineOf(sel).id)
    ensures ItemCount(AddItem(cart, sel).0) == ItemCount(cart) + sel.quantity
    ensures Total(AddItem(cart, sel).0) == Total(cart) + cart[IndexOf(cart, LineOf(sel).id)].price * sel.quantity
  {
    var line := LineOf(sel);
    var i := IndexOf(cart, line.id);
    var r := AddItem(cart, sel).0;
    assert line.quantity == sel.quantity;
    assert r == cart[i := WithQuantity(cart[i], cart[i].quantity + sel.quantity)];
    MergeCounts(cart, i, sel.quantity, r);
  }

  lemma AddItemAppends(cart: seq<Line>, sel: Selection)
    requires sel.color != "" && sel.quantity >= 1 && IndexOf(cart, LineOf(sel).id) < 0
    ensures ItemCount(AddItem(cart, sel).0) == ItemCount(cart) + sel.quantity
    ensures Total(AddItem(cart, sel).0) == Total(cart) + sel.price * sel.quantity
  {
    var line := LineOf(sel);
    assert AddItem(cart, sel).0 == cart + [line];
    AppendCounts(cart, line);
  }

  lemma AppendCounts(cart: seq<Line>, l: Line)
    ensures ItemCount(cart + [l]) == ItemCount(cart) + l.quantity
    ensures Total(cart + [l]) == Total(cart) + l.price * l.quantity
  {
    TotalsAppend(cart, [l]);
    assert [l][1..] == [];
  }

  lemma MergeCounts(cart: seq<Line>, i: nat, q: int, r: seq<Line>)
    requires i < |cart| && r == cart[i := WithQuantity(cart[i], cart[i].quantity + q)]
    ensures ItemCount(r) == ItemCount(cart) + q
    ensures Total(r) == Total(cart) + cart[i].price * q
  {
    var l := WithQuantity(cart[i], cart[i].quantity + q);
    assert l.quantity == cart[i].quantity + q && l.price == cart[i].price;
    TotalsUpdate(cart, i, l);
    MergeTotal(Total(cart), cart[i], l, q, Total(r));
  }

  lemma MergeTotal(total: int, old_line: Line, l: Line, q: int, t: int)
    requires l.quantity == old_line.quantity + q && l.price == old_line.price
    requires t == total - old_line.price * old_line.quantity + l.price * l.quantity
    ensures t == total + old_line.price * q
  {
    MergeArithmetic(total, old_line.price, old_line.quantity, q, t);
  }

  /** `total - p·n + p·(n + q)` is `total + p·q`. */
  lemma MergeArithmetic(total: int, p: int, n: int, q: int, t: int)
    requires t == total - p * n + p * (n + q)
    ensures t == total + p * q
  {
    Distribute(p, n, q);
  }

  lemma Distribute(p: int, n: int, q: int)
    ensures p * (n + q) == p * n + p * q
  {
  }

  /** Adding the same selection twice leaves one line for it, holding both quantities. */
  lemma AddItemTwice(cart: seq<Line>, sel: Selection)
    requires AddItem(cart, sel).1
    ensures var once := AddItem(cart, sel).0;
      var twice := AddItem(once, sel).0;
      |twice| == |once| && HasId(once, LineOf(sel).id)
      && twice[IndexOf(once, LineOf(sel).id)].quantity == once[IndexOf(once, LineOf(sel).id)].quantity + sel.quantity
  {
    var once := AddItem(cart, sel).0;
    var id := LineOf(sel).id;
    if HasId(cart, id) {
      var i := IndexOf(cart, id);
      assert once[i].id == id;
    } else {
      assert once[|cart|].id == id;
    }
  }

  /** `clearCart`: nothing left to pay or count. */
  function ClearCart(cart: seq<Line>): (r: seq<Line>)
    ensures Total(r) == 0 && ItemCount(r) == 0 && !HasId(r, "")
  {
    []
  }

  /** `changeQuantity`: the field's integer value (1 when it has none or reads 0) moved by `change`,
      never below 1. */
  function ChangeQuantity(field: Option<int>, change: int): (r: int)
    ensures r >= 1
    ensures field.Some? && field.value != 0 && field.value + change >= 1 ==> r == field.value + change
    ensures field.Some? && field.value != 0 && field.value + change < 1 ==> r == 1
    ensures (field.None? || field.value == 0) && change >= 0 ==> r == 1 + change
    ensures (field.None? || field.value == 0) && change < 0 ==> r == 1
  {
    var current := if field.None? || field.value == 0 then 1 else field.value;
    if current + change < 1 then 1 else current + change
  }

  /** A bigger step never gives a smaller quantity. */
  lemma ChangeQuantityMonotone(field: Option<int>, smaller: int, bigger: int)
    requires smaller <= bigger
    ensures ChangeQuantity(field, smaller) <= ChangeQuantity(field, bigger)
    ensures ChangeQuantity(field, bigger) - ChangeQuantity(field, smaller) <= bigger - smaller
  {
  }

  /** Pressing `+` and then `-` leaves the field where a zero step would: the value read, raised
      to at least 1. */
  lemma ChangeQuantityUpDown(field: Option<int>)
    ensures ChangeQuantity(Some(ChangeQuantity(field, 1)), -1) == ChangeQuantity(field, 0)
    ensures field.Some? && field.value >= 1 ==> ChangeQuantity(field, 0) == field.value
  {
  }

  /** A missing size is stored as `null`. */
  function OptionalText(o: Option<string>): Json {
    if o.Some? then JStr(o.value) else JNull
  }

  /** The object `saveCart` serialises for one line, with its keys in the order `addItem` writes
      them. */
  function LineJson(l: Line): Json {
    JObj([("id", JStr(l.id)), ("productId", JStr(l.productId)), ("name", JStr(l.name))]
       + ([("color", JStr(l.color)), ("size", OptionalText(l.size)), ("sizeName", OptionalText(l.sizeName))]
       + [("quantity", JNum(l.quantity)), ("price", JNum(l.price)), ("image", JStr(l.image))]))
  }

  /** The stored object gives back the fields the checkout reads. */
  lemma LineJsonFields(l: Line)
    ensures Field(LineJson(l), "name") == JStr(l.name)
    ensures Field(LineJson(l), "color") == JStr(l.color)
    ensures Field(LineJson(l), "size") == OptionalText(l.size)
    ensures Field(LineJson(l), "sizeName") == OptionalText(l.sizeName)
    ensures Field(LineJson(l), "quantity") == JNum(l.quantity)
    ensures Field(LineJson(l), "price") == JNum(l.price)
  {
    var tail := [("quantity", JNum(l.quantity)), ("price", JNum(l.price)), ("image", JStr(l.image))];
    var mid := [("color", JStr(l.color)), ("size", OptionalText(l.size)), ("sizeName", OptionalText(l.sizeName))];
    var head := [("id", JStr(l.id)), ("productId", JStr(l.productId)), ("name", JStr(l.name))];
    ChunkField(head, mid, tail, "name");
    ChunkField(head, mid, tail, "color");
    ChunkField(head, mid, tail, "size");
    ChunkField(head, mid, tail, "sizeName");
    ChunkField(head, mid, tail, "quantity");
    ChunkField(head, mid, tail, "price");
  }

  /** Reading a field of an object written as three runs of three entries. */
  lemma ChunkField(head: seq<(string, Json)>, mid: seq<(string, Json)>, tail: seq<(string, Json)>, k: string)
    requires |head| == 3 && |mid| == 3 && |tail| == 3
    ensures Lookup(head + (mid + tail), k) ==
      if head[0].0 == k then head[0].1 else if head[1].0 == k then head[1].1 else if head[2].0 == k then head[2].1
      else if mid[0].0 == k then mid[0].1 else if mid[1].0 == k then mid[1].1 else if mid[2].0 == k then mid[2].1
      else Lookup(tail, k)
  {
    assert head == [head[0], head[1], head[2]];
    assert mid == [mid[0], mid[1], mid[2]];
    Lookup3(head[0].0, head[0].1, head[1].0, head[1].1, head[2].0, head[2].1, mid + tail, k);
    Lookup3(mid[0].0, mid[0].1, mid[1].0, mid[1].1, mid[2].0, mid[2].1, tail, k);
  }
}

=== FILE: checkout.dfy ===
/** The static site's checkout page: form validation, the order payload, the WhatsApp message and
    the submit flow that saves the order locally, clears the cart and opens a `wa.me` link. The
    page's mutable state is a value, and each handler is a transition on it. */
module Checkout {
  import opened Wrappers
  import opened JsText
  import opened JsonValue
  import opened StoreData
  import Store
  import Cart

  const NameAlert: string := "Please enter your full name"
  const PhoneAlert: string := "Please enter your phone number"
  const PhoneInvalidAlert: string := "Please enter a valid phone number"
  const CityAlert: string := "Please enter your city"
  const CartEmptyAlert: string := "Your cart is empty. Please add products before checkout."
  const NotConfiguredAlert: string :=
    "WhatsApp number is not set. Please ask the store owner to set it in the Admin Dashboard."
  const SomethingWrongAlert: string := "Something went wrong. Please try again."
  const WaPrefix: string := "https://wa.me/"

  /** The items of the `checkoutCart` session slot: a missing or empty slot reads as `'[]'`, and text
      that does not parse leaves the empty list in place. `parse` is `JSON.parse`, `None` when it
      throws. */
  function CheckoutItems(slot: Option<string>, parse: string -> Option<Json>): (items: Json)
    ensures slot.None? || slot == Some("") ==> items == JArr([])
    ensures slot.Some? && slot.value != "" && parse(slot.value).Some? ==> items == parse(slot.value).value
    ensures slot.Some? && slot.value != "" && parse(slot.value).None? ==> items == JArr([])
  {
    if slot.None? || slot.value == "" then JArr([])
    else parse(slot.value).GetOr(JArr([]))
  }

  /** `!items || items.length === 0`. */
  predicate CartEmpty(items: Json) {
    !Truthy(items) || Store.JsLength(items) == JNum(0)
  }

  /** One character the phone pattern `^[0-9+\s-]+$` accepts. */
  predicate PhoneChar(c: char) {
    IsDigit(c) || c == '+' || c == '-' || IsSpace(c)
  }

  /** The whole of `s` matches `^[0-9+\s-]+$`. */
  predicate PhoneLike(s: string) {
    s != [] && forall i :: 0 <= i < |s| ==> PhoneChar(s[i])
  }

  /** The inputs of the order form; an input that is not on the page is `None`. */
  datatype Form = Form(fullName: Option<string>, phone: Option<string>, city: Option<string>, notes: Option<string>)

  /** `(input || {}).value`, then `value ? value.trim() : ''`. */
  function Entered(field: Option<string>): (r: string)
    ensures Trimmed(r)
    ensures field.Some? ==> r == Trim(field.value)
  {
    if field.None? || field.value == "" then ""
    else
      TrimOfTrimmed(field.value);
      Trim(field.value)
  }

  datatype FormError = NoForm | NameMissing | PhoneMissing | PhoneInvalid | CityMissing | EmptyCart

  /** The alert a refused form shows; a page without the form refuses silently. */
  function AlertOf(e: FormError): Option<string> {
    match e
    case NoForm => None
    case NameMissing => Some(NameAlert)
    case PhoneMissing => Some(PhoneAlert)
    case PhoneInvalid => Some(PhoneInvalidAlert)
    case CityMissing => Some(CityAlert)
    case EmptyCart => Some(CartEmptyAlert)
  }

  /** `validateOrderForm`: the first failing check, in the order name, phone, phone pattern, city,
      cart. */
  function Validate(form: Option<Form>, items: Json): (r: Option<FormError>)
    ensures r.None? <==>
      form.Some? && Entered(form.value.fullName) != "" && PhoneLike(Entered(form.value.phone))
      && Entered(form.value.city) != "" && !CartEmpty(items)
    ensures r == Some(NoForm) <==> form.None?
    ensures r == Some(NameMissing) <==> form.Some? && Entered(form.value.fullName) == ""
    ensures r == Some(PhoneInvalid) ==> Entered(form.value.phone) != ""
    ensures r == Some(EmptyCart) ==> form.Some? && PhoneLike(Entered(form.value.phone))
  {
    match form
    case None => Some(NoForm)
    case Some(f) =>
      var name := Entered(f.fullName);
      var phone := Entered(f.phone);
      var city := Entered(f.city);
      if name == "" then Some(NameMissing)
      else if phone == "" then Some(PhoneMissing)
      else if !PhoneLike(phone) then Some(PhoneInvalid)
      else if city == "" then Some(CityMissing)
      else if CartEmpty(items) then Some(EmptyCart)
      else None
  }

  /** `formData.get(name)`: the untrimmed text, or `null` for a missing input. */
  function FormValue(field: Option<string>): (j: Json)
    ensures j.JStr? <==> field.Some?
  {
    if field.Some? then JStr(field.value) else JNull
  }

  /** `buildOrderPayload`: the form's fields as entered, notes defaulting to the empty string, the
      checkout items, the cart total and the timestamp. Without a form the three contact fields are
      empty strings. */
  function Payload(form: Option<Form>, items: Json, cart: seq<Cart.Line>, date: string): (order: seq<(string, Json)>)
    ensures Lookup(order, "items") == items
    ensures Lookup(order, "total") == JNum(Cart.Total(cart))
    ensures Lookup(order, "date") == JStr(date)
    ensures form.Some? ==> Lookup(order, "fullName") == FormValue(form.value.fullName)
    ensures form.Some? ==> Lookup(order, "phone") == FormValue(form.value.phone)
    ensures form.Some? ==> Lookup(order, "city") == FormValue(form.value.city)
    ensures form.None? ==> Lookup(order, "fullName") == Lookup(order, "phone") == Lookup(order, "city") == JStr("")
    ensures Truthy(Lookup(order, "notes")) <==> form.Some? && form.value.notes.Some? && form.value.notes.value != ""
    ensures Lookup(order, "notes") == if form.Some? && form.value.notes.Some? then JStr(form.value.notes.value) else JStr("")
  {
    var f := if form.Some? then form.value else Form(Some(""), Some(""), Some(""), None);
    var notes := if f.notes.Some? && f.notes.value != "" then JStr(f.notes.value) else JStr("");
    var order := [("fullName", FormValue(f.fullName)), ("phone", FormValue(f.phone)), ("city", FormValue(f.city))]
      + ([("notes", notes), ("items", items), ("total", JNum(Cart.Total(cart)))] + [("date", JStr(date))]);
    PayloadField(f, items, cart, date, notes, "fullName");
    PayloadField(f, items, cart, date, notes, "phone");
    PayloadField(f, items, cart, date, notes, "city");
    PayloadField(f, items, cart, date, notes, "notes");
    PayloadField(f, items, cart, date, notes, "items");
    PayloadField(f, items, cart, date, notes, "total");
    PayloadField(f, items, cart, date, notes, "date");
    order
  }

  lemma PayloadField(f: Form, items: Json, cart: seq<Cart.Line>, date: string, notes: Json, k: string)
    ensures Lookup([("fullName", FormValue(f.fullName)), ("phone", FormValue(f.phone)), ("city", FormValue(f.city))]
      + ([("notes", notes), ("items", items), ("total", JNum(Cart.Total(cart)))] + [("date", JStr(date))]), k)
      == if k == "fullName" then FormValue(f.fullName) else if k == "phone" then FormValue(f.phone)
         else if k == "city" then FormValue(f.city) else if k == "notes" then notes
         else if k == "items" then items else if k == "total" then JNum(Cart.Total(cart))
         else if k == "date" then JStr(date) else JUndef
  {
    var rest := [("notes", notes), ("items", items), ("total", JNum(Cart.Total(cart)))] + [("date", JStr(date))];
    Lookup3("fullName", FormValue(f.fullName), "phone", FormValue(f.phone), "city", FormValue(f.city), rest, k);
    Lookup3("notes", notes, "items", items, "total", JNum(Cart.Total(cart)), [("date", JStr(date))], k);
    LookupCons(("date", JStr(date)), [], k);
    assert [("date", JStr(date))] == [("date", JStr(date))] + [];
  }

  /** The line `formatOrderItems` writes for one item: name, colour (a dash when it has none), the
      size when there is one, the quantity and the line price. `None` is the `TypeError` of reading
      a property of `null` or `undefined`. */
  function ItemLine(item: Json): (r: Option<string>)
    ensures r.None? <==> IsNullish(item)
    ensures r.Some? ==> StartsWith(r.value, ItemHead(item)) && EndsWith(r.value, " MAD")
  {
    if IsNullish(item) then None
    else
      AppendBounds3(ItemHead(item), ItemDetails(item), " MAD");
      Some(ItemHead(item) + ItemDetails(item) + " MAD")
  }

  /** `item.name + ' - Color: '`. */
  function ItemHead(item: Json): string {
    ToJsString(Field(item, "name")) + " - Color: "
  }

  /** The rest of an item's line up to its currency: colour, size, quantity and price. */
  function ItemDetails(item: Json): string {
    var size := Or(Field(item, "sizeName"), Field(item, "size"));
    var quantity := Field(item, "quantity");
    ToJsString(Or(Field(item, "color"), JStr("—")))
    + (if Truthy(size) then ", Size: " + ToJsString(size) else "")
    + ", Quantity: " + ToJsString(quantity)
    + ", Price: " + NumText(Mul(ToNumber(Field(item, "price")), ToNumber(quantity)))
  }

  /** The lines of all the items, or `None` when one of them throws. */
  function ItemLines(items: seq<Json>): (r: Option<seq<string>>)
    ensures r.Some? ==> |r.value| == |items|
    ensures r.Some? <==> forall i :: 0 <= i < |items| ==> !IsNullish(items[i])
    ensures r.Some? ==> forall i :: 0 <= i < |items| ==> ItemLine(items[i]) == Some(r.value[i])
  {
    if forall i :: 0 <= i < |items| ==> !IsNullish(items[i]) then
      Some(seq(|items|, i requires 0 <= i < |items| => ItemLine(items[i]).value))
    else None
  }

  /** `formatOrderItems(items || [])`: one line per item joined by newlines. A truthy value that is
      not an array has no `map`, so that is a `TypeError` too. */
  function FormatOrderItems(items: Json): (r: Option<string>)
    ensures !Truthy(items) ==> r == Some("")
    ensures Truthy(items) && !items.JArr? ==> r.None?
    ensures items.JArr? ==> (r.Some? <==> ItemLines(items.items).Some?)
  {
    if !Truthy(items) then Some("")
    else if !items.JArr? then None
    else
      match ItemLines(items.items)
      case None => None
      case Some(lines) => Some(Join(lines, "\n"))
  }

  /** Splitting the items text at newlines gives back one line per item, when no field put a
      newline inside a line. */
  lemma ItemsTextSplits(items: seq<Json>)
    requires |items| >= 1 && ItemLines(items).Some?
    requires forall i :: 0 <= i < |items| ==> '\n' !in ItemLines(items).value[i]
    ensures var text := FormatOrderItems(JArr(items));
      text.Some? && Split(text.value, '\n') == ItemLines(items).value
  {
    var lines := ItemLines(items).value;
    assert FormatOrderItems(JArr(items)) == Some(Join(lines, "\n"));
    assert "\n" == ['\n'];
    SplitJoin(lines, '\n');
  }

  /** The entries of the message that are not empty strings, in order. */
  function NonEmpty(lines: seq<string>): seq<string> {
    if lines == [] then []
    else (if lines[0] == "" then [] else [lines[0]]) + NonEmpty(lines[1..])
  }

  /** Filtering one entry off the front. */
  lemma NonEmptyCons(a: string, rest: seq<string>)
    ensures NonEmpty([a] + rest) == (if a == "" then [] else [a]) + NonEmpty(rest)
  {
    assert ([a] + rest)[1..] == rest;
  }

  /** The array `buildOrderMessage` fills, one entry per line in the source's order, with the
      field values already turned into text: `notes` and `total` are absent when the source leaves
      them out. */
  function MessageLines(name: string, phone: string, city: string, notes: Option<string>,
                        itemsText: string, total: Option<string>): seq<string>
  {
    var notesLine := if notes.Some? then "Notes: " + notes.value else "";
    var totalLines := if total.Some? then ["", "Total: " + total.value + " MAD"] else [];
    ["*New order*"] + ([""] + (["Name: " + name] + (["Phone: " + phone] + (["City: " + city]
      + ([notesLine] + ([""] + (["Items:"] + ([itemsText] + totalLines))))))))
  }

  /** The message's lines written out directly: heading, contact lines, notes only when there are
      any, the items heading, the items text only when it is not empty, and the total only when
      there is one. */
  function ReferenceLines(name: string, phone: string, city: string, notes: Option<string>,
                          itemsText: string, total: Option<string>): seq<string>
  {
    ["*New order*"] + (["Name: " + name] + (["Phone: " + phone] + (["City: " + city]
      + ((if notes.Some? then ["Notes: " + notes.value] else [])
      + (["Items:"] + ((if itemsText != "" then [itemsText] else [])
      + (if total.Some? then ["Total: " + total.value + " MAD"] else [])))))))
  }

  /** Dropping the blank entries of the source's array leaves exactly the reference lines. */
  lemma MessageLinesFiltered(name: string, phone: string, city: string, notes: Option<string>,
                             itemsText: string, total: Option<string>)
    ensures NonEmpty(MessageLines(name, phone, city, notes, itemsText, total))
         == ReferenceLines(name, phone, city, notes, itemsText, total)
  {
    var notesLine := if notes.Some? then "Notes: " + notes.value else "";
    var tail := if total.Some? then ["", "Total: " + total.value + " MAD"] else [];
    var t := if total.Some? then ["Total: " + total.value + " MAD"] else [];
    if total.Some? {
      BlankThenLine("Total: " + total.value + " MAD");
    }
    FilterShape("*New order*", "Name: " + name, "Phone: " + phone, "City: " + city, notesLine, "Items:", itemsText, tail, t);
  }

  lemma BlankThenLine(x: string)
    requires x != ""
    ensures NonEmpty(["", x]) == [x]
  {
    NonEmptyCons("", [x]);
    NonEmptyCons(x, []);
    assert [""] + [x] == ["", x];
  }

  /** The shape of the message array with its lines as variables: the four fixed lines and the
      items heading are never blank, so only the blanks, the notes line, the items text and the
      total's own blank are filtered. */
  lemma {:induction false} FilterShape(h: string, nm: string, ph: string, ci: string, notesLine: string,
                                       ih: string, itemsText: string, tail: seq<string>, t: seq<string>)
    requires h != "" && nm != "" && ph != "" && ci != "" && ih != ""
    requires NonEmpty(tail) == t
    ensures NonEmpty([h] + ([""] + ([nm] + ([ph] + ([ci] + ([notesLine] + ([""] + ([ih] + ([itemsText] + tail)))))))))
      == [h] + ([nm] + ([ph] + ([ci] + ((if notesLine != "" then [notesLine] else [])
         + ([ih] + ((if itemsText != "" then [itemsText] else []) + t))))))
  {
    var rest := [notesLine] + ([""] + ([ih] + ([itemsText] + tail)));
    FilterTail(notesLine, ih, itemsText, tail, t);
    FilterHead(h, nm, ph, ci, rest, NonEmpty(rest));
  }

  /** The four fixed lines and the blank under the heading. */
  lemma {:induction false} FilterHead(h: string, nm: string, ph: string, ci: string, rest: seq<string>, u: seq<string>)
    requires h != "" && nm != "" && ph != "" && ci != ""
    requires NonEmpty(rest) == u
    ensures NonEmpty([h] + ([""] + ([nm] + ([ph] + ([ci] + rest))))) == [h] + ([nm] + ([ph] + ([ci] + u)))
  {
    var r4 := [ci] + rest;
    NonEmptyCons(ci, rest);
    var r3 := [ph] + r4;
    NonEmptyCons(ph, r4);
    var r2 := [nm] + r3;
    NonEmptyCons(nm, r3);
    var r1 := [""] + r2;
    NonEmptyCons("", r2);
    NonEmptyCons(h, r1);
  }

  /** The notes line, the blank before the items, the items heading and the items text. */
  lemma {:induction false} FilterTail(notesLine: string, ih: string, itemsText: string, tail: seq<string>, t: seq<string>)
    requires ih != ""
    requires NonEmpty(tail) == t
    ensures NonEmpty([notesLine] + ([""] + ([ih] + ([itemsText] + tail))))
      == (if notesLine != "" then [notesLine] else []) + ([ih] + ((if itemsText != "" then [itemsText] else []) + t))
  {
    var r8 := [itemsText] + tail;
    NonEmptyCons(itemsText, tail);
    var r7 := [ih] + r8;
    NonEmptyCons(ih, r8);
    var r6 := [""] + r7;
    NonEmptyCons("", r7);
    NonEmptyCons(notesLine, r6);
  }

  /** `buildOrderMessage`: a heading, the contact lines, the notes when there are any, the items
      under a heading and the total when there is one, each on its own line with blank lines
      dropped. `None` when formatting the items throws. */
  function BuildOrderMessage(order: seq<(string, Json)>): (r: Option<string>)
    ensures r.Some? <==> FormatOrderItems(Or(Lookup(order, "items"), JArr([]))).Some?
    ensures r.Some? ==> r.value == Join(ReferenceLines(
      ToJsString(Or(Lookup(order, "fullName"), JStr(""))),
      ToJsString(Or(Lookup(order, "phone"), JStr(""))),
      ToJsString(Or(Lookup(order, "city"), JStr(""))),
      NotesText(Lookup(order, "notes")),
      FormatOrderItems(Or(Lookup(order, "items"), JArr([]))).value,
      TotalText(Lookup(order, "total"))), "\n")
  {
    match FormatOrderItems(Or(Lookup(order, "items"), JArr([])))
    case None => None
    case Some(itemsText) =>
      var name := ToJsString(Or(Lookup(order, "fullName"), JStr("")));
      var phone := ToJsString(Or(Lookup(order, "phone"), JStr("")));
      var city := ToJsString(Or(Lookup(order, "city"), JStr("")));
      var notes := NotesText(Lookup(order, "notes"));
      var total := TotalText(Lookup(order, "total"));
      MessageLinesFiltered(name, phone, city, notes, itemsText, total);
      Some(Join(NonEmpty(MessageLines(name, phone, city, notes, itemsText, total)), "\n"))
  }

  /** `orderData.notes ? ... : ''`: the notes when truthy. */
  function NotesText(notes: Json): (r: Option<string>)
    ensures r.Some? <==> Truthy(notes)
  {
    if Truthy(notes) then Some(ToJsString(notes)) else None
  }

  /** `orderData.total != null`: the total's text unless it is `null` or `undefined`. */
  function TotalText(total: Json): (r: Option<string>)
    ensures r.Some? <==> !IsNullish(total)
  {
    if IsNullish(total) then None else Some(ToJsString(total))
  }

  /** What a cart line looks like in the message, written out from the line itself: the colour or
      a dash, the size name or else the size when either is set, the quantity and the line price. */
  lemma ItemLineOfCartLine(l: Cart.Line)
    ensures var size := if l.sizeName.Some? && l.sizeName.value != "" then l.sizeName
                        else if l.size.Some? && l.size.value != "" then l.size else None;
      var details := (if l.color != "" then l.color else "—")
        + (if size.Some? then ", Size: " + size.value else "")
        + ", Quantity: " + IntToString(l.quantity)
        + ", Price: " + IntToString(l.price * l.quantity);
      ItemLine(Cart.LineJson(l)) == Some(l.name + " - Color: " + details + " MAD")
  {
    CartLineDetails(l);
    Cart.LineJsonFields(l);
    assert ItemHead(Cart.LineJson(l)) == l.name + " - Color: ";
  }

  /** The text between the colour label and the currency for a cart line. */
  lemma CartLineDetails(l: Cart.Line)
    ensures var size := if l.sizeName.Some? && l.sizeName.value != "" then l.sizeName
                        else if l.size.Some? && l.size.value != "" then l.size else None;
      ItemDetails(Cart.LineJson(l)) == (if l.color != "" then l.color else "—")
        + (if size.Some? then ", Size: " + size.value else "")
        + ", Quantity: " + IntToString(l.quantity)
        + ", Price: " + IntToString(l.price * l.quantity)
  {
    var item := Cart.LineJson(l);
    CartLineFields(l);
    var size := if l.sizeName.Some? && l.sizeName.value != "" then l.sizeName
                else if l.size.Some? && l.size.value != "" then l.size else None;
    var js := Or(Field(item, "sizeName"), Field(item, "size"));
    assert (if Truthy(js) then ", Size: " + ToJsString(js) else "") == (if size.Some? then ", Size: " + size.value else "");
  }

  lemma CartLineFields(l: Cart.Line)
    ensures var item := Cart.LineJson(l);
      var size := if l.sizeName.Some? && l.sizeName.value != "" then l.sizeName
                  else if l.size.Some? && l.size.value != "" then l.size else None;
      var js := Or(Field(item, "sizeName"), Field(item, "size"));
      && ToJsString(Or(Field(item, "color"), JStr("—"))) == (if l.color != "" then l.color else "—")
      && ToJsString(Field(item, "quantity")) == IntToString(l.quantity)
      && NumText(Mul(ToNumber(Field(item, "price")), ToNumber(Field(item, "quantity")))) == IntToString(l.price * l.quantity)
      && (Truthy(js) <==> size.Some?)
      && (size.Some? ==> ToJsString(js) == size.value)
  {
    var item := Cart.LineJson(l);
    Cart.LineJsonFields(l);
    CartLineSize(l, Field(item, "sizeName"), Field(item, "size"));
    CartLineText(l, Field(item, "color"), Field(item, "quantity"), Field(item, "price"));
  }

  lemma CartLineText(l: Cart.Line, color: Json, quantity: Json, price: Json)
    requires color == JStr(l.color) && quantity == JNum(l.quantity) && price == JNum(l.price)
    ensures ToJsString(Or(color, JStr("—"))) == (if l.color != "" then l.color else "—")
    ensures ToJsString(quantity) == IntToString(l.quantity)
    ensures NumText(Mul(ToNumber(price), ToNumber(quantity))) == IntToString(l.price * l.quantity)
  {
  }

  lemma CartLineSize(l: Cart.Line, sizeName: Json, size: Json)
    requires sizeName == Cart.OptionalText(l.sizeName) && size == Cart.OptionalText(l.size)
    ensures var s := if l.sizeName.Some? && l.sizeName.value != "" then l.sizeName
                     else if l.size.Some? && l.size.value != "" then l.size else None;
      (Truthy(Or(sizeName, size)) <==> s.Some?) && (s.Some? ==> ToJsString(Or(sizeName, size)) == s.value)
  {
  }

  /** The checkout page: whether a submission is waiting for the store, the order it will send,
      the local store, the persistent cart, the session's checkout copy of the cart, where the
      browser was sent and the last alert shown. */
  datatype Page = Page(
    inProgress: bool, pending: Option<seq<(string, Json)>>, store: Storage, cart: seq<Cart.Line>,
    checkoutCart: Option<string>, location: Option<string>, alert: Option<string>)

  /** A submission is in progress exactly when an order is waiting to be sent. */
  predicate Consistent(p: Page) {
    p.inProgress <==> p.pending.Some?
  }

  /** `handleSubmit` up to the point where it waits for the store: ignored while a submission is in
      progress; a refused form shows its alert; an accepted one is turned into the pending order
      and the page goes busy. Nothing is saved, cleared or opened yet. */
  function Submit(p: Page, form: Option<Form>, parse: string -> Option<Json>, date: string): (r: Page)
    ensures p.inProgress ==> r == p
    ensures r.store == p.store && r.cart == p.cart && r.checkoutCart == p.checkoutCart && r.location == p.location
    ensures !p.inProgress ==> (r.inProgress <==> Validate(form, CheckoutItems(p.checkoutCart, parse)).None?)
    ensures !p.inProgress && r.inProgress ==>
      r.pending == Some(Payload(form, CheckoutItems(p.checkoutCart, parse), p.cart, date)) && r.alert == p.alert
    ensures !p.inProgress && !r.inProgress ==>
      r.pending == p.pending
      && (r.alert == p.alert <==> Validate(form, CheckoutItems(p.checkoutCart, parse)) == Some(NoForm) || AlertOf(Validate(form, CheckoutItems(p.checkoutCart, parse)).value) == p.alert)
      && (form.Some? ==> r.alert.Some?)
    ensures !p.inProgress && form.Some? && Validate(form, CheckoutItems(p.checkoutCart, parse)).Some? ==>
      r.alert == AlertOf(Validate(form, CheckoutItems(p.checkoutCart, parse)).value)
    ensures !p.inProgress && form.None? ==> r == p
  {
    if p.inProgress then p
    else
      var items := CheckoutItems(p.checkoutCart, parse);
      match Validate(form, items)
      case Some(e) => p.(alert := if e.NoForm? then p.alert else AlertOf(e))
      case None => p.(inProgress := true, pending := Some(Payload(form, items, p.cart, date)))
  }

  /** The link the browser is sent to. */
  function WhatsappUrl(digits: string, message: string, encode: string -> string): (url: string)
    ensures StartsWith(url, WaPrefix + digits + "?text=")
    ensures EndsWith(url, encode(message))
  {
    AppendBounds(WaPrefix + digits + "?text=", encode(message));
    WaPrefix + digits + "?text=" + encode(message)
  }

  /** The number the page dials: the store's number with every non-digit removed, `None` where
      reading it throws. */
  function DialledNumber(st: Storage): (r: Option<string>)
    ensures r.Some? ==> AllDigits(r.value)
    ensures r.None? <==> Store.WhatsappNumber(st).None?
  {
    match Store.WhatsappNumber(st)
    case None => None
    case Some(n) => Some(Digits(n))
  }

  /** The whole of the submit flow finishes normally: the store is ready, a number is set and the
      message can be built. */
  predicate Sends(p: Page, ready: bool) {
    p.pending.Some? && ready && DialledNumber(p.store).Some? && DialledNumber(p.store).value != ""
    && BuildOrderMessage(p.pending.value).Some?
  }

  /** The continuation after `Store.ready`. A rejected wait, a failing number lookup or a failing
      message end in the generic alert; a missing number ends in its own alert with nothing saved or
      cleared; otherwise the order is saved to the store (a failure to save is swallowed), the cart
      and the checkout copy are cleared and the browser is sent to WhatsApp. Every path clears the
      busy flag. `ready` is whether `Store.ready` resolved; `encode` is `encodeURIComponent`. */
  function Resume(p: Page, ready: bool, encode: string -> string, now: nat, fits: Quota): (r: Page)
    ensures p.pending.None? ==> r == p
    ensures p.pending.Some? ==> !r.inProgress && r.pending.None?
    ensures !Sends(p, ready) ==> r.store == p.store && r.cart == p.cart && r.checkoutCart == p.checkoutCart && r.location == p.location
    ensures !Sends(p, ready) && p.pending.Some? ==> r.alert.Some?
    ensures p.pending.Some? && ready && DialledNumber(p.store) == Some("") ==> r.alert == Some(NotConfiguredAlert)
    ensures Sends(p, ready) ==>
      r.cart == [] && r.checkoutCart.None? && r.alert == p.alert
      && r.location == Some(WhatsappUrl(DialledNumber(p.store).value, BuildOrderMessage(p.pending.value).value, encode))
    ensures Sends(p, ready) && Store.AddOrder(p.store, p.pending.value, now, fits).Some? ==>
      r.store == Store.AddOrder(p.store, p.pending.value, now, fits).value.0
    ensures Sends(p, ready) && Store.AddOrder(p.store, p.pending.value, now, fits).None? ==> r.store == p.store
  {
    if p.pending.None? then p
    else
      var failed := p.(inProgress := false, pending := None, alert := Some(SomethingWrongAlert));
      if !ready then failed
      else
        match DialledNumber(p.store)
        case None => failed
        case Some(digits) =>
          if digits == "" then p.(inProgress := false, pending := None, alert := Some(NotConfiguredAlert))
          else
            match BuildOrderMessage(p.pending.value)
            case None => failed
            case Some(message) =>
              var store := match Store.AddOrder(p.store, p.pending.value, now, fits)
                case None => p.store
                case Some(saved) => saved.0;
              Page(false, None, store, Cart.ClearCart(p.cart), None, Some(WhatsappUrl(digits, message, encode)), p.alert)
  }

  /** Both handlers keep the busy flag and the pending order in step. */
  lemma HandlersKeepConsistent(p: Page, form: Option<Form>, parse: string -> Option<Json>, date: string,
                               ready: bool, encode: string -> string, now: nat, fits: Quota)
    requires Consistent(p)
    ensures Consistent(Submit(p, form, parse, date))
    ensures Consistent(Resume(p, ready, encode, now, fits))
  {
  }

  /** A second submit before the store answers changes nothing: only one order is ever pending. */
  lemma DoubleSubmitIgnored(p: Page, form: Option<Form>, form2: Option<Form>, parse: string -> Option<Json>,
                            date: string, date2: string)
    requires Submit(p, form, parse, date).inProgress
    ensures Submit(Submit(p, form, parse, date), form2, parse, date2) == Submit(p, form, parse, date)
  {
  }

  /** The full flow on a valid form and a configured number: the order placed is the payload of the
      form, it reaches the front of the stored orders under its new id when the orders slot holds an
      array with room for it, the cart is emptied and the message carries the contact lines. */
  lemma SubmitThenSend(p: Page, form: Option<Form>, parse: string -> Option<Json>, date: string,
                       encode: string -> string, now: nat, fits: Quota)
    requires !p.inProgress
    requires Validate(form, CheckoutItems(p.checkoutCart, parse)).None?
    requires Sends(Submit(p, form, parse, date), true)
    requires Get(p.store, OrdersKey, JArr([])).JArr?
    requires fits(p.store, OrdersKey,
      JArr([Store.PlacedOrder(Payload(form, CheckoutItems(p.checkoutCart, parse), p.cart, date), Store.OrderId(now))]
        + Get(p.store, OrdersKey, JArr([])).items))
    ensures var order := Payload(form, CheckoutItems(p.checkoutCart, parse), p.cart, date);
      var r := Resume(Submit(p, form, parse, date), true, encode, now, fits);
      Store.OrderById(r.store, JStr(Store.OrderId(now))) == Some(Some(Store.PlacedOrder(order, Store.OrderId(now))))
      && Cart.Total(r.cart) == 0 && r.checkoutCart.None? && !r.inProgress
  {
    var order := Payload(form, CheckoutItems(p.checkoutCart, parse), p.cart, date);
    Store.AddOrderThenFind(p.store, order, now, fits);
  }

  /** Without a number nothing is saved, cleared or opened, whatever the form said. */
  lemma NoNumberNoEffects(p: Page, encode: string -> string, now: nat, fits: Quota)
    requires p.pending.Some? && DialledNumber(p.store) == Some("")
    ensures var r := Resume(p, true, encode, now, fits);
      r == p.(inProgress := false, pending := None, alert := Some(NotConfiguredAlert))
  {
  }
}

=== FILE: floating_contact.dfy ===
/** The floating contact button: the link it points to, and whether it is drawn at all, read
    from the admin's `floatingContact` settings object. */
module FloatingContact {
  import opened Wrappers
  import opened JsText
  import opened JsonValue

  const DefaultMessage: string := "Hi, I'd like to get in touch."

  /** `getPhoneDigits`: the digits of `String(phone || '')`. */
  function PhoneDigits(phone: Json): (r: string)
    ensures AllDigits(r)
    ensures !Truthy(phone) ==> r == ""
    ensures phone.JStr? ==> r == Digits(phone.s)
  {
    Digits(if Truthy(phone) then ToJsString(phone) else "")
  }

  /** Feeding the extracted digits back in gives the same digits. */
  lemma PhoneDigitsIdempotent(phone: Json)
    ensures PhoneDigits(JStr(PhoneDigits(phone))) == PhoneDigits(phone)
  {
    DigitsOfDigits(PhoneDigits(phone));
  }

  /** `settings.buttonType || 'whatsapp'`. */
  function ButtonType(settings: Json): (t: Json)
    ensures Truthy(t)
    ensures !Truthy(Field(settings, "buttonType")) ==> t == JStr("whatsapp")
  {
    var t := Field(settings, "buttonType");
    if Truthy(t) then t else JStr("whatsapp")
  }

  /** The text handed to `encodeURIComponent`: the configured message, or the fixed greeting. */
  function MessageText(settings: Json): (m: string)
    ensures Field(settings, "defaultMessage").JStr? && Truthy(Field(settings, "defaultMessage")) ==>
      m == Field(settings, "defaultMessage").s
    ensures !Truthy(Field(settings, "defaultMessage")) ==> m == DefaultMessage
  {
    var d := Field(settings, "defaultMessage");
    if Truthy(d) then ToJsString(d) else DefaultMessage
  }

  /** Where each kind of link puts the phone digits. */
  function LinkPrefix(t: Json): string {
    if t == JStr("phone") then "tel:+"
    else if t == JStr("telegram") then "https://t.me/+"
    else "https://wa.me/"
  }

  /** `buildHref`. Instagram links to the trimmed profile URL, or `#` when that is blank; every other
      type links to its prefix, the phone digits and, except for `tel:`, the encoded message as
      `?text=`, which whatsapp and telegram omit when the encoding is empty. `None` stands for the
      `TypeError` `.trim()` throws on a truthy non-string URL. `encode` is `encodeURIComponent`. */
  function BuildHref(settings: Json, encode: string -> string): (r: Option<string>)
    ensures r.None? <==> ButtonType(settings) == JStr("instagram") && TrimmedOrEmpty(Field(settings, "instagramUrl")).None?
    ensures r.Some? ==> r.value != ""
    ensures r.Some? && ButtonType(settings) == JStr("instagram") ==>
      var url := TrimmedOrEmpty(Field(settings, "instagramUrl")).value;
      r.value == (if url == "" then "#" else url)
    ensures r.Some? && ButtonType(settings) != JStr("instagram") ==>
      var t := ButtonType(settings);
      r.value == LinkPrefix(t) + PhoneDigits(Field(settings, "phoneNumber")) + Query(t, encode(MessageText(settings)))
  {
    var t := ButtonType(settings);
    if t == JStr("instagram") then
      match TrimmedOrEmpty(Field(settings, "instagramUrl"))
      case None => None
      case Some(url) => Some(if url == "" then "#" else url)
    else
      var digits := PhoneDigits(Field(settings, "phoneNumber"));
      Some(LinkPrefix(t) + digits + Query(t, encode(MessageText(settings))))
  }

  /** What follows the digits: nothing for `tel:`, `?text=<msg>` otherwise, except that whatsapp and
      telegram drop it for an empty encoded message while an unknown type keeps even `?text=`. */
  function Query(t: Json, msg: string): (q: string)
    ensures q == "" || q[0] == '?'
    ensures q == "" <==> t == JStr("phone") || (msg == "" && (t == JStr("whatsapp") || t == JStr("telegram")))
    ensures q != "" ==> q == "?text=" + msg
  {
    if t == JStr("phone") then ""
    else if (t == JStr("whatsapp") || t == JStr("telegram")) && msg == "" then ""
    else "?text=" + msg
  }

  /** The phone number a link dials: the digit run right after the prefix. */
  function DialledDigits(href: string, prefix: string): string
    requires StartsWith(href, prefix)
  {
    LeadingDigits(href[|prefix|..])
  }

  /** The longest run of digits at the start of `s`. */
  function LeadingDigits(s: string): (r: string)
    ensures AllDigits(r) && StartsWith(s, r)
  {
    if s == [] || !IsDigit(s[0]) then "" else [s[0]] + LeadingDigits(s[1..])
  }

  lemma {:induction false} LeadingDigitsOf(d: string, tail: string)
    requires AllDigits(d) && (tail == "" || tail[0] == '?')
    ensures LeadingDigits(d + tail) == d
  {
    if d != [] {
      assert (d + tail)[1..] == d[1..] + tail;
      LeadingDigitsOf(d[1..], tail);
    }
  }

  /** Every phone-style link dials exactly the digits of the configured number: the query string
      can never run into them. */
  lemma HrefDialsPhone(settings: Json, encode: string -> string)
    requires ButtonType(settings) != JStr("instagram")
    ensures var r := BuildHref(settings, encode);
      r.Some? && StartsWith(r.value, LinkPrefix(ButtonType(settings)))
      && DialledDigits(r.value, LinkPrefix(ButtonType(settings))) == PhoneDigits(Field(settings, "phoneNumber"))
  {
    var r := BuildHref(settings, encode).value;
    var p := LinkPrefix(ButtonType(settings));
    var digits := PhoneDigits(Field(settings, "phoneNumber"));
    var tail := Query(ButtonType(settings), encode(MessageText(settings)));
    DialsDigits(p, digits, tail);
  }

  lemma DialsDigits(p: string, d: string, tail: string)
    requires AllDigits(d) && (tail == "" || tail[0] == '?')
    ensures StartsWith(p + d + tail, p) && DialledDigits(p + d + tail, p) == d
  {
    var r := p + d + tail;
    assert r[..|p|] == p;
    assert r[|p|..] == d + tail;
    LeadingDigitsOf(d, tail);
  }

  /** What `renderFab` produces: a thrown `TypeError`, nothing, or a button. */
  datatype Fab =
    | FabError
    | NoFab
    | Button(href: string, typeName: string, position: string, ariaLabel: string)

  /** `LABELS[type] || LABELS.whatsapp`. */
  function Label(t: Json): (l: string)
    ensures l != ""
  {
    if t == JStr("phone") then "Call us"
    else if t == JStr("telegram") then "Chat on Telegram"
    else if t == JStr("instagram") then "Follow us on Instagram"
    else "Chat on WhatsApp"
  }

  /** `renderFab`: nothing when the button is disabled, when an instagram button has a blank URL, or
      when any other button has no phone number; otherwise a button on the left only for
      `position === 'left'`. */
  function RenderFab(settings: Json, encode: string -> string): (r: Fab)
    ensures r.NoFab? <==>
      !Truthy(Field(settings, "enabled"))
      || (ButtonType(settings) == JStr("instagram") && TrimmedOrEmpty(Field(settings, "instagramUrl")) == Some(""))
      || (ButtonType(settings) != JStr("instagram") && !Truthy(Field(settings, "phoneNumber")))
    ensures r.FabError? <==>
      Truthy(Field(settings, "enabled")) && ButtonType(settings) == JStr("instagram")
      && TrimmedOrEmpty(Field(settings, "instagramUrl")).None?
    ensures r.Button? ==>
      Some(r.href) == BuildHref(settings, encode)
      && (r.position == "left" <==> Field(settings, "position") == JStr("left"))
      && (r.position == "left" || r.position == "right")
      && r.ariaLabel == Label(ButtonType(settings))
  {
    if !Truthy(Field(settings, "enabled")) then NoFab
    else
      var t := ButtonType(settings);
      var gate :=
        if t == JStr("instagram") then
          match TrimmedOrEmpty(Field(settings, "instagramUrl"))
          case None => None
          case Some(url) => Some(url != "")
        else Some(Truthy(Field(settings, "phoneNumber")));
      match gate
      case None => FabError
      case Some(false) => NoFab
      case Some(true) =>
        var href := BuildHref(settings, encode).value;
        var pos := if Field(settings, "position") == JStr("left") then "left" else "right";
        Button(href, ToJsString(t), pos, Label(t))
  }

  /** A drawn instagram button never falls back to the `#` placeholder unless the URL itself is
      `#`: it links to the trimmed URL. */
  lemma InstagramButtonLinksProfile(settings: Json, encode: string -> string)
    requires ButtonType(settings) == JStr("instagram") && RenderFab(settings, encode).Button?
    ensures Field(settings, "instagramUrl").JStr?
    ensures RenderFab(settings, encode).href == Trim(Field(settings, "instagramUrl").s) != ""
  {
  }
}

=== FILE: js_text.dfy ===
/** The JavaScript string primitives the storefront leans on: `trim`, `\d` / `\D`
    filtering, decimal rendering of integers, prefix and substring tests. */
module JsText {

  /** `\d`: an ASCII decimal digit. */
  predicate IsDigit(c: char) {
    '0' <= c <= '9'
  }

  /** `\s`, and the set `String.prototype.trim` strips: WhiteSpace plus LineTerminator. */
  predicate IsSpace(c: char) {
    || c == ' ' || c == '\t' || c == '\n' || c == '\r' || c == '\U{B}' || c == '\U{C}'
    || c == '\U{A0}' || c == '\U{1680}' || ('\U{2000}' <= c <= '\U{200A}')
    || c == '\U{2028}' || c == '\U{2029}' || c == '\U{202F}' || c == '\U{205F}'
    || c == '\U{3000}' || c == '\U{FEFF}'
  }

  predicate AllDigits(s: string) {
    forall i :: 0 <= i < |s| ==> IsDigit(s[i])
  }

  predicate AllSpace(s: string) {
    forall i :: 0 <= i < |s| ==> IsSpace(s[i])
  }

  /** Leading white space removed (`trimStart`). */
  function TrimStart(s: string): (r: string)
    ensures |r| <= |s|
    ensures r == [] || !IsSpace(r[0])
  {
    if s == [] || !IsSpace(s[0]) then s else TrimStart(s[1..])
  }

  /** What `trimStart` keeps is a suffix of its input. */
  lemma {:induction false} TrimStartSuffix(s: string)
    ensures TrimStart(s) == s[|s| - |TrimStart(s)|..]
  {
    if s != [] && IsSpace(s[0]) {
      TrimStartSuffix(s[1..]);
      assert s[1..][|s| - 1 - |TrimStart(s[1..])|..] == s[|s| - |TrimStart(s)|..];
    }
  }

  /** Only white space goes. */
  lemma {:induction false} TrimStartSpace(s: string)
    ensures AllSpace(s[..|s| - |TrimStart(s)|])
  {
    if s != [] && IsSpace(s[0]) {
      TrimStartSpace(s[1..]);
      TrimStartSuffix(s[1..]);
      assert s[..|s| - |TrimStart(s)|] == [s[0]] + s[1..][..|s| - 1 - |TrimStart(s[1..])|];
    }
  }

  /** Trailing white space removed (`trimEnd`). */
  function TrimEnd(s: string): (r: string)
    ensures |r| <= |s|
    ensures r == [] || !IsSpace(r[|r| - 1])
  {
    if s == [] || !IsSpace(s[|s| - 1]) then s else TrimEnd(s[..|s| - 1])
  }

  /** What `trimEnd` keeps is a prefix of its input. */
  lemma {:induction false} TrimEndPrefix(s: string)
    ensures TrimEnd(s) == s[..|TrimEnd(s)|]
  {
    if s != [] && IsSpace(s[|s| - 1]) {
      TrimEndPrefix(s[..|s| - 1]);
      assert s[..|s| - 1][..|TrimEnd(s[..|s| - 1])|] == s[..|TrimEnd(s)|];
    }
  }

  lemma {:induction false} TrimEndSpace(s: string)
    ensures AllSpace(s[|TrimEnd(s)|..])
  {
    if s != [] && IsSpace(s[|s| - 1]) {
      TrimEndSpace(s[..|s| - 1]);
      TrimEndPrefix(s[..|s| - 1]);
      assert s[|TrimEnd(s)|..] == s[..|s| - 1][|TrimEnd(s[..|s| - 1])|..] + [s[|s| - 1]];
    }
  }

  /** `String.prototype.trim`: leading and trailing white space removed. */
  function Trim(s: string): (r: string)
    ensures Trimmed(r)
    ensures |r| <= |s|
    ensures r == [] <==> AllSpace(s)
  {
    TrimEmpty(s);
    TrimEndPrefix(TrimStart(s));
    TrimEnd(TrimStart(s))
  }

  /** What `trim` keeps is the infix of the input that starts where `trimStart` stopped, with
      only white space on either side of it. */
  lemma TrimIsInfix(s: string)
    ensures var r := TrimEnd(TrimStart(s));
      var i := |s| - |TrimStart(s)|;
      i + |r| <= |s| && r == s[i..i + |r|] && AllSpace(s[..i]) && AllSpace(s[i + |r|..])
  {
    TrimStartSpace(s);
    TrimStartSuffix(s);
    TrimParts(s, TrimStart(s));
  }

  /** The `trimEnd` half of `TrimIsInfix`, with the `trimStart` result as a plain value. */
  lemma TrimParts(s: string, t: string)
    requires |t| <= |s| && t == s[|s| - |t|..] && AllSpace(s[..|s| - |t|])
    ensures var r := TrimEnd(t);
      |s| - |t| + |r| <= |s| && r == s[|s| - |t|..|s| - |t| + |r|]
      && AllSpace(s[..|s| - |t|]) && AllSpace(s[|s| - |t| + |r|..])
  {
    TrimEndSpace(t);
    TrimEndPrefix(t);
    InfixAt(s, t, TrimEnd(t));
  }

  /** A prefix `r` of a suffix `t` of `s` sits in `s` where `t` starts. */
  lemma InfixAt(s: string, t: string, r: string)
    requires |t| <= |s| && |r| <= |t|
    requires t == s[|s| - |t|..] && r == t[..|r|]
    requires AllSpace(s[..|s| - |t|]) && AllSpace(t[|r|..])
    ensures |s| - |t| + |r| <= |s| && r == s[|s| - |t|..|s| - |t| + |r|]
    ensures AllSpace(s[..|s| - |t|]) && AllSpace(s[|s| - |t| + |r|..])
  {
    assert s[|s| - |t| + |r|..] == t[|r|..];
  }

  /** `trim` leaves nothing exactly of an all-white-space string. */
  lemma TrimEmpty(s: string)
    ensures TrimEnd(TrimStart(s)) == [] <==> AllSpace(s)
  {
    var t := TrimStart(s);
    if TrimEnd(t) == [] {
      var i := |s| - |t|;
      TrimStartSpace(s);
      TrimEndSpace(t);
      TrimStartSuffix(s);
      assert s == s[..i] + t;
      AllSpaceAppend(s[..i], t);
    }
  }

  lemma AllSpaceAppend(a: string, b: string)
    requires AllSpace(a) && AllSpace(b)
    ensures AllSpace(a + b)
  {
  }

  /** Neither starts nor ends with white space. */
  predicate Trimmed(s: string) {
    s == [] || (!IsSpace(s[0]) && !IsSpace(s[|s| - 1]))
  }

  /** `trim` leaves a trimmed string alone, and only a trimmed string. */
  lemma TrimOfTrimmed(s: string)
    ensures Trim(s) == s <==> Trimmed(s)
  {
    if Trimmed(s) && s != [] {
      assert TrimStart(s) == s;
      assert TrimEnd(s) == s;
    }
  }

  /** `s.replace(/\D/g, '')`: the digits of `s`, in order. */
  function Digits(s: string): (r: string)
    ensures AllDigits(r)
    ensures |r| <= |s|
    ensures forall c :: IsDigit(c) ==> multiset(r)[c] == multiset(s)[c]
  {
    if s == [] then []
    else
      assert s == [s[0]] + s[1..];
      (if IsDigit(s[0]) then [s[0]] else []) + Digits(s[1..])
  }

  /** Filtering digits distributes over concatenation, so it keeps their order. */
  lemma {:induction false} DigitsAppend(a: string, b: string)
    ensures Digits(a + b) == Digits(a) + Digits(b)
  {
    if a == [] {
      assert a + b == b;
    } else {
      assert (a + b)[1..] == a[1..] + b;
      DigitsAppend(a[1..], b);
    }
  }

  /** A string of digits is its own digit filter; in particular filtering is idempotent. */
  lemma {:induction false} DigitsOfDigits(s: string)
    requires AllDigits(s)
    ensures Digits(s) == s
  {
    if s != [] {
      DigitsOfDigits(s[1..]);
    }
  }

  lemma {:induction false} DigitsOfSpace(s: string)
    requires AllSpace(s)
    ensures Digits(s) == []
  {
    if s != [] {
      DigitsOfSpace(s[1..]);
    }
  }

  /** Trimming never changes the digits of a string. */
  lemma DigitsOfTrim(s: string)
    ensures Digits(Trim(s)) == Digits(s)
  {
    var t := TrimStart(s);
    var r := TrimEnd(t);
    TrimStartSpace(s);
    TrimEndSpace(t);
    TrimStartSuffix(s);
    TrimEndPrefix(t);
    var a, b := s[..|s| - |t|], t[|r|..];
    assert s == a + (r + b) by {
      assert t == r + b;
    }
    DigitsAround(a, r, b);
  }

  lemma DigitsAround(a: string, m: string, b: string)
    requires AllSpace(a) && AllSpace(b)
    ensures Digits(a + (m + b)) == Digits(m)
  {
    DigitsAppend(a, m + b);
    DigitsAppend(m, b);
    DigitsOfSpace(a);
    DigitsOfSpace(b);
  }

  function DigitChar(d: nat): (c: char)
    requires d < 10
    ensures IsDigit(c)
  {
    ('0' as int + d) as char
  }

  function DigitValue(c: char): (d: nat)
    requires IsDigit(c)
    ensures d < 10 && DigitChar(d) == c
  {
    c as int - '0' as int
  }

  /** The value of a run of decimal digits, most significant first. */
  function DecimalValue(s: string): nat
    requires AllDigits(s)
  {
    if s == [] then 0 else DecimalValue(s[..|s| - 1]) * 10 + DigitValue(s[|s| - 1])
  }

  /** `String(n)` for a non-negative integer: shortest decimal rendering. */
  function NatToString(n: nat): (r: string)
    ensures |r| >= 1 && AllDigits(r)
    ensures r[0] == '0' ==> n == 0
  {
    if n < 10 then [DigitChar(n)] else NatToString(n / 10) + [DigitChar(n % 10)]
  }

  /** Reading back a rendered number gives the number. */
  lemma {:induction false} NatToStringRoundTrip(n: nat)
    ensures DecimalValue(NatToString(n)) == n
  {
    if n >= 10 {
      var r := NatToString(n);
      assert r[..|r| - 1] == NatToString(n / 10);
      NatToStringRoundTrip(n / 10);
    }
  }

  /** Distinct numbers render as distinct strings (so `'ord-' + now` ids differ for different clocks). */
  lemma NatToStringInjective(m: nat, n: nat)
    requires NatToString(m) == NatToString(n)
    ensures m == n
  {
    NatToStringRoundTrip(m);
    NatToStringRoundTrip(n);
  }

  /** `String(i)` for any integer. */
  function IntToString(i: int): (r: string)
    ensures |r| >= 1
    ensures i >= 0 ==> AllDigits(r)
    ensures i < 0 ==> r[0] == '-' && AllDigits(r[1..])
  {
    if i < 0 then "-" + NatToString(-i) else NatToString(i)
  }

  predicate StartsWith(s: string, p: string) {
    |p| <= |s| && s[..|p|] == p
  }

  lemma FirstCharBlocksPrefix(s: string, p: string)
    requires s != [] && p != [] && s[0] != p[0]
    ensures !StartsWith(s, p)
  {
    if |p| <= |s| {
      assert s[..|p|][0] == s[0];
    }
  }

  predicate EndsWith(s: string, p: string) {
    |p| <= |s| && s[|s| - |p|..] == p
  }

  /** `s.indexOf(p) !== -1`. */
  predicate Contains(s: string, p: string) {
    StartsWith(s, p) || (s != [] && Contains(s[1..], p))
  }

  /** A string contains `p` only if it holds `p`'s first character somewhere. */
  lemma {:induction false} ContainsFirstChar(s: string, p: string)
    requires p != [] && Contains(s, p)
    ensures exists i :: 0 <= i < |s| && s[i] == p[0]
  {
    if StartsWith(s, p) {
      assert s[..|p|][0] == s[0];
    } else {
      ContainsFirstChar(s[1..], p);
      var i :| 0 <= i < |s[1..]| && s[1..][i] == p[0];
      assert s[i + 1] == p[0];
    }
  }

  /** A string containing `p` still contains it once something is appended. */
  lemma {:induction false} ContainsAppend(a: string, b: string, p: string)
    requires Contains(a, p)
    ensures Contains(a + b, p)
  {
    if StartsWith(a, p) {
      assert (a + b)[..|p|] == a[..|p|];
    } else {
      assert (a + b)[1..] == a[1..] + b;
      ContainsAppend(a[1..], b, p);
    }
  }

  function LowerChar(c: char): char {
    if 'A' <= c <= 'Z' then (c as int + 32) as char else c
  }

  /** `toLowerCase` restricted to ASCII letters. */
  function ToLowerAscii(s: string): (r: string)
    ensures |r| == |s|
    ensures forall i :: 0 <= i < |s| ==> r[i] == LowerChar(s[i])
  {
    seq(|s|, i requires 0 <= i < |s| => LowerChar(s[i]))
  }

  /** Lower-casing ASCII twice is lower-casing once. */
  lemma ToLowerIdempotent(s: string)
    ensures ToLowerAscii(ToLowerAscii(s)) == ToLowerAscii(s)
  {
  }

  /** `/mobile|android|iphone|ipad|webos|blackberry/i.test(ua)`: the user agent names one of these
      words, in any mix of cases (the case-insensitive flag folds ASCII letters only here, since
      the pattern is ASCII). */
  predicate MentionsMobile(ua: string) {
    var l := ToLowerAscii(ua);
    Contains(l, "mobile") || Contains(l, "android") || Contains(l, "iphone") || Contains(l, "ipad")
    || Contains(l, "webos") || Contains(l, "blackberry")
  }

  /** The test ignores case: lower-casing the user agent first changes nothing. */
  lemma MentionsMobileIgnoresCase(ua: string)
    ensures MentionsMobile(ToLowerAscii(ua)) == MentionsMobile(ua)
  {
    ToLowerIdempotent(ua);
  }

  /** The pattern is unanchored: text appended to a matching user agent keeps it matching. */
  lemma MentionsMobileAppend(a: string, b: string)
    requires MentionsMobile(a)
    ensures MentionsMobile(a + b)
  {
    var l := ToLowerAscii(a);
    assert ToLowerAscii(a + b) == l + ToLowerAscii(b);
    var w :| w in ["mobile", "android", "iphone", "ipad", "webos", "blackberry"] && Contains(l, w);
    ContainsAppend(l, ToLowerAscii(b), w);
  }

  /** `parts.join(sep)`. */
  function Join(parts: seq<string>, sep: string): string {
    if parts == [] then ""
    else if |parts| == 1 then parts[0]
    else parts[0] + sep + Join(parts[1..], sep)
  }

  /** `s.split(sep)` for a one-character separator: the pieces between separators, at least one. */
  function Split(s: string, sep: char): (r: seq<string>)
    ensures |r| >= 1
  {
    if s == [] then [""]
    else
      var rest := Split(s[1..], sep);
      if s[0] == sep then [""] + rest else [[s[0]] + rest[0]] + rest[1..]
  }

  /** Text without the separator joins onto the first piece of what follows it. */
  lemma {:induction false} SplitPrefix(a: string, rest: string, sep: char)
    requires sep !in a
    ensures Split(a + rest, sep) == [a + Split(rest, sep)[0]] + Split(rest, sep)[1..]
  {
    if a != [] {
      assert (a + rest)[1..] == a[1..] + rest;
      SplitPrefix(a[1..], rest, sep);
      assert [a[0]] + (a[1..] + Split(rest, sep)[0]) == a + Split(rest, sep)[0];
    } else {
      var r := Split(rest, sep);
      assert a + rest == rest && a + r[0] == r[0];
      assert r == [r[0]] + r[1..];
    }
  }

  /** Splitting undoes joining, when no piece holds the separator. */
  lemma {:induction false} SplitJoin(parts: seq<string>, sep: char)
    requires |parts| >= 1
    requires forall i :: 0 <= i < |parts| ==> sep !in parts[i]
    ensures Split(Join(parts, [sep]), sep) == parts
  {
    if |parts| == 1 {
      SplitPrefix(parts[0], "", sep);
      assert Split("", sep) == [""];
      assert parts[0] + "" == parts[0];
    } else {
      var tail := Join(parts[1..], [sep]);
      assert Join(parts, [sep]) == parts[0] + ([sep] + tail);
      SplitPrefix(parts[0], [sep] + tail, sep);
      assert ([sep] + tail)[1..] == tail;
      assert Split([sep] + tail, sep) == [""] + Split(tail, sep);
      SplitJoin(parts[1..], sep);
      assert parts[0] + "" == parts[0];
      assert parts == [parts[0]] + parts[1..];
    }
  }

  /** A concatenation starts with its first part and ends with its second. */
  lemma AppendBounds(a: string, b: string)
    ensures StartsWith(a + b, a) && EndsWith(a + b, b)
  {
    assert (a + b)[..|a|] == a;
    assert (a + b)[|a + b| - |b|..] == b;
  }

  /** A concatenation of three parts starts with the first and ends with the last. */
  lemma AppendBounds3(a: string, b: string, c: string)
    ensures StartsWith(a + b + c, a) && EndsWith(a + b + c, c)
  {
    AppendBounds(a + b, c);
    AppendBounds(a, b + c);
    assert a + b + c == a + (b + c);
  }
}

=== FILE: json.dfy ===
/** Already-parsed JavaScript values, and the coercions the source applies to them:
    truthiness, property lookup, `String(x)` and the `(x || '').trim()` idiom. */
module JsonValue {
  import opened Wrappers
  import opened JsText
  import NumParse

  /** A JavaScript value as it appears after `JSON.parse`, plus `undefined` (what a missing
      property reads as). Numbers are integers; objects keep their entries in insertion order,
      with distinct keys. */
  datatype Json =
    | JUndef
    | JNull
    | JBool(b: bool)
    | JNum(n: int)
    | JStr(s: string)
    | JArr(items: seq<Json>)
    | JObj(entries: seq<(string, Json)>)

  /** JavaScript truthiness. */
  predicate Truthy(j: Json) {
    match j
    case JUndef => false
    case JNull => false
    case JBool(b) => b
    case JNum(n) => n != 0
    case JStr(s) => s != ""
    case _ => true
  }

  /** `typeof j === 'object' && j !== null`: arrays count as objects. */
  predicate IsObject(j: Json) {
    j.JArr? || j.JObj?
  }

  /** `x || y`. */
  function Or(x: Json, y: Json): (r: Json)
    ensures Truthy(x) ==> r == x
    ensures !Truthy(x) ==> r == y
  {
    if Truthy(x) then x else y
  }

  /** `a === b` between separately parsed values: primitives compare by value, while objects and
      arrays compare by reference, so two of them are never identical. */
  predicate StrictEq(a: Json, b: Json) {
    a == b && !IsObject(a)
  }

  predicate IsNullish(j: Json) {
    j.JUndef? || j.JNull?
  }

  predicate HasKey(entries: seq<(string, Json)>, k: string) {
    exists i :: 0 <= i < |entries| && entries[i].0 == k
  }

  /** `j.hasOwnProperty(k)` for a parsed object. */
  predicate HasOwn(j: Json, k: string) {
    j.JObj? && HasKey(j.entries, k)
  }

  /** The value stored under `k`, or `undefined`. */
  function Lookup(entries: seq<(string, Json)>, k: string): (v: Json)
    ensures !HasKey(entries, k) ==> v == JUndef
    ensures HasKey(entries, k) ==> exists i :: 0 <= i < |entries| && entries[i] == (k, v)
  {
    if entries == [] then JUndef
    else if entries[0].0 == k then entries[0].1
    else Lookup(entries[1..], k)
  }

  /** `j[k]` for a property of a plain object; every other value reads as `undefined`. */
  function Field(j: Json, k: string): (v: Json)
    ensures !HasOwn(j, k) ==> v == JUndef
  {
    if j.JObj? then Lookup(j.entries, k) else JUndef
  }

  /** `o[k] = v` on the entries of an object: an existing key keeps its position. */
  function SetEntry(entries: seq<(string, Json)>, k: string, v: Json): (r: seq<(string, Json)>)
    ensures Lookup(r, k) == v
    ensures forall k' :: k' != k ==> Lookup(r, k') == Lookup(entries, k')
    ensures HasKey(entries, k) ==> |r| == |entries|
    ensures !HasKey(entries, k) ==> r == entries + [(k, v)]
  {
    if entries == [] then [(k, v)]
    else if entries[0].0 == k then [(k, v)] + entries[1..]
    else [entries[0]] + SetEntry(entries[1..], k, v)
  }

  /** No key occurs twice, as in any JavaScript object. */
  predicate DistinctKeys(entries: seq<(string, Json)>) {
    forall i, j :: 0 <= i < j < |entries| ==> entries[i].0 != entries[j].0
  }

  /** Every entry after setting a property was there before or is the new one. */
  lemma {:induction false} SetEntryFrom(entries: seq<(string, Json)>, k: string, v: Json)
    ensures forall p :: p in SetEntry(entries, k, v) ==> p in entries || p == (k, v)
  {
    if entries != [] && entries[0].0 != k {
      SetEntryFrom(entries[1..], k, v);
    }
  }

  /** Setting a property adds its key and no other. */
  lemma {:induction false} SetEntryKeys(entries: seq<(string, Json)>, k: string, v: Json)
    ensures forall k' :: HasKey(SetEntry(entries, k, v), k') <==> HasKey(entries, k') || k' == k
  {
    var r := SetEntry(entries, k, v);
    if entries != [] && entries[0].0 != k {
      SetEntryKeys(entries[1..], k, v);
      KeysOfCons(entries[0], entries[1..]);
      KeysOfCons(entries[0], SetEntry(entries[1..], k, v));
    } else if entries != [] {
      KeysOfCons((k, v), entries[1..]);
      KeysOfCons(entries[0], entries[1..]);
    }
  }

  lemma KeysOfCons(p: (string, Json), rest: seq<(string, Json)>)
    ensures forall k' :: HasKey([p] + rest, k') <==> p.0 == k' || HasKey(rest, k')
  {
    forall k' | HasKey([p] + rest, k') ensures p.0 == k' || HasKey(rest, k') {
      var m :| 0 <= m < |[p] + rest| && ([p] + rest)[m].0 == k';
      if m > 0 {
        assert rest[m - 1].0 == k';
      }
    }
    forall k' | HasKey(rest, k') ensures HasKey([p] + rest, k') {
      var m :| 0 <= m < |rest| && rest[m].0 == k';
      assert ([p] + rest)[m + 1].0 == k';
    }
    assert ([p] + rest)[0].0 == p.0;
  }

  /** Setting a property never creates a second entry for a key. */
  lemma {:induction false} SetEntryKeepsDistinct(entries: seq<(string, Json)>, k: string, v: Json)
    requires DistinctKeys(entries)
    ensures DistinctKeys(SetEntry(entries, k, v))
  {
    if entries != [] && entries[0].0 != k {
      SetEntryKeepsDistinct(entries[1..], k, v);
      SetEntryKeys(entries[1..], k, v);
      var t := SetEntry(entries[1..], k, v);
      assert !HasKey(entries[1..], entries[0].0);
      assert !HasKey(t, entries[0].0);
      ConsDistinct(entries[0], t);
    } else if entries != [] {
      assert SetEntry(entries, k, v) == [(k, v)] + entries[1..];
    }
  }

  lemma ConsDistinct(p: (string, Json), rest: seq<(string, Json)>)
    requires DistinctKeys(rest) && !HasKey(rest, p.0)
    ensures DistinctKeys([p] + rest)
  {
    var r := [p] + rest;
    forall i, j | 0 <= i < j < |r| ensures r[i].0 != r[j].0 {
      if i == 0 {
        assert r[j] == rest[j - 1];
      } else {
        assert r[i] == rest[i - 1] && r[j] == rest[j - 1];
      }
    }
  }

  /** With distinct keys, reading a key gives the value stored with it. */
  lemma {:induction false} LookupAt(entries: seq<(string, Json)>, i: nat)
    requires DistinctKeys(entries) && i < |entries|
    ensures Lookup(entries, entries[i].0) == entries[i].1
  {
    if i > 0 {
      assert entries[0].0 != entries[i].0;
      LookupAt(entries[1..], i - 1);
    }
  }

  /** Reading a key gives the value of its first entry. */
  lemma {:induction false} LookupFirst(entries: seq<(string, Json)>, k: string, i: nat)
    requires i < |entries| && entries[i].0 == k
    requires forall j :: 0 <= j < i ==> entries[j].0 != k
    ensures Lookup(entries, k) == entries[i].1
  {
    if i > 0 {
      assert entries[1..][i - 1] == entries[i];
      LookupFirst(entries[1..], k, i - 1);
    }
  }

  /** Reading past the first entry of an object. */
  lemma LookupCons(p: (string, Json), rest: seq<(string, Json)>, k: string)
    ensures Lookup([p] + rest, k) == if p.0 == k then p.1 else Lookup(rest, k)
  {
    assert ([p] + rest)[1..] == rest;
  }

  /** Reading an object whose first three entries are written out. */
  lemma Lookup3(k1: string, v1: Json, k2: string, v2: Json, k3: string, v3: Json, rest: seq<(string, Json)>, k: string)
    ensures Lookup([(k1, v1), (k2, v2), (k3, v3)] + rest, k) ==
      if k1 == k then v1 else if k2 == k then v2 else if k3 == k then v3 else Lookup(rest, k)
  {
    assert [(k1, v1), (k2, v2), (k3, v3)] + rest == [(k1, v1)] + ([(k2, v2)] + ([(k3, v3)] + rest));
    LookupCons((k1, v1), [(k2, v2)] + ([(k3, v3)] + rest), k);
    LookupCons((k2, v2), [(k3, v3)] + rest, k);
    LookupCons((k3, v3), rest, k);
  }

  /** `delete o[k]` on the entries of an object. */
  function RemoveEntry(entries: seq<(string, Json)>, k: string): (r: seq<(string, Json)>)
    ensures !HasKey(r, k)
    ensures forall k' :: k' != k ==> Lookup(r, k') == Lookup(entries, k')
    ensures |r| <= |entries|
  {
    if entries == [] then []
    else if entries[0].0 == k then RemoveEntry(entries[1..], k)
    else [entries[0]] + RemoveEntry(entries[1..], k)
  }

  /** `String(j)`; an array joins its elements with `,`, rendering `null`/`undefined` elements as empty. */
  function ToJsString(j: Json): string
    decreases j, 0
  {
    match j
    case JUndef => "undefined"
    case JNull => "null"
    case JBool(b) => if b then "true" else "false"
    case JNum(n) => IntToString(n)
    case JStr(s) => s
    case JArr(items) => Join(seq(|items|, i requires 0 <= i < |items| => ElementString(items[i])), ",")
    case JObj(_) => "[object Object]"
  }

  function ElementString(j: Json): string
    decreases j, 1
  {
    if IsNullish(j) then "" else ToJsString(j)
  }

  /** `(j || '').trim()` for a value the source expects to be a string: `None` when `j` is
      truthy but not a string, where the source's `.trim()` would throw a `TypeError`. */
  function TrimmedOrEmpty(j: Json): (r: Option<string>)
    ensures !Truthy(j) ==> r == Some("")
    ensures j.JStr? ==> r == Some(Trim(j.s))
    ensures r.None? <==> Truthy(j) && !j.JStr?
  {
    if !Truthy(j) then Some("") else if j.JStr? then Some(Trim(j.s)) else None
  }

  // Numbers

  /** A JavaScript number in this model: an integer, or `NaN`. */
  datatype Num = NaN | Int(i: int)

  /** A numeral's value as a number of this model: `NaN` unless it is an integer. */
  function FloatValue(f: NumParse.Float): (r: Num)
    requires f.Finite? ==> f.num.Valid()
    ensures r.Int? ==> f.Finite? && r.i as real == NumParse.RealValue(f.num)
  {
    match f
    case Finite(d) =>
      var v := NumParse.RealValue(d);
      if v.Floor as real == v then Int(v.Floor) else NaN
    case _ => NaN
  }

  /** `Number(s)`: blank text is 0; otherwise the trimmed text must be a whole numeric
      literal. */
  function StringToNumber(s: string): (r: Num)
    ensures AllSpace(s) ==> r == Int(0)
  {
    var t := Trim(s);
    if t == [] then Int(0) else FloatValue(NumParse.NumericLiteral(t))
  }

  /** The numeric coercion `*` applies to its operands: `undefined` is `NaN`, `null` is 0,
      booleans are 0 or 1, text goes through `Number`, and an array through the text `join`
      makes of it; a plain object's text `[object Object]` is never a number. */
  function ToNumber(j: Json): (r: Num)
    ensures j.JNum? ==> r == Int(j.n)
    ensures j.JStr? ==> r == StringToNumber(j.s)
    ensures j.JArr? ==> r == StringToNumber(ToJsString(j))
    ensures j.JUndef? || j.JObj? ==> r == NaN
  {
    match j
    case JUndef => NaN
    case JNull => Int(0)
    case JBool(b) => Int(if b then 1 else 0)
    case JNum(n) => Int(n)
    case JStr(s) => StringToNumber(s)
    case JArr(_) => StringToNumber(ToJsString(j))
    case JObj(_) => NaN
  }

  /** A numeral without fraction or exponent is worth its digits. */
  lemma WholeNumeral(negative: bool, digits: string)
    requires AllDigits(digits)
    ensures var v: int := DecimalValue(digits);
      FloatValue(NumParse.Finite(NumParse.Decimal(negative, digits, "", 0))) == Int(if negative then -v else v)
  {
    var v: int := DecimalValue(digits);
    assert NumParse.MantissaValue(digits, "") == v as real;
    assert NumParse.RealValue(NumParse.Decimal(negative, digits, "", 0)) == (if negative then -v else v) as real;
  }

  /** `Number` reads an optional sign and a run of digits as that integer. */
  lemma StringToNumberOfInteger(negative: bool, plus: bool, digits: string)
    requires digits != [] && AllDigits(digits) && !(negative && plus)
    ensures var v: int := DecimalValue(digits);
      StringToNumber((if negative then "-" else if plus then "+" else "") + digits) == Int(if negative then -v else v)
  {
    var t := (if negative then "-" else if plus then "+" else "") + digits;
    assert Trimmed(t) by {
      assert IsDigit(t[|t| - 1]);
      assert IsDigit(t[0]) || t[0] == '-' || t[0] == '+';
    }
    TrimOfTrimmed(t);
    NumParse.IntegerLiteral(negative, plus, digits);
    WholeNumeral(negative, digits);
  }

  /** A rendered integer reads back as that integer. */
  lemma ToNumberOfIntToString(n: int)
    ensures ToNumber(JStr(IntToString(n))) == Int(n)
  {
    var d := NatToString(if n < 0 then -n else n);
    assert IntToString(n) == (if n < 0 then "-" else "") + d;
    StringToNumberOfInteger(n < 0, false, d);
    NatToStringRoundTrip(if n < 0 then -n else n);
  }

  /** `Number` reads `0x`, `0o` and `0b` integers in their base. */
  lemma StringToNumberOfRadix(t: string)
    requires NumParse.IsRadixLiteral(t)
    ensures StringToNumber(t) == Int(NumParse.RadixValue(t[2..], NumParse.RadixOf(t[1])))
  {
    var v := NumParse.RadixValue(t[2..], NumParse.RadixOf(t[1]));
    assert t[|t| - 1] == t[2..][|t| - 3];
    assert Trimmed(t);
    TrimOfTrimmed(t);
    WholeNumeral(false, NatToString(v));
    NatToStringRoundTrip(v);
  }

  /** `Number` reads digits followed by a point and zeros as the integer before the point. */
  lemma StringToNumberOfWholeFraction(a: string, zeros: string)
    requires |a| >= 1 && AllDigits(a) && NumParse.AllZeros(zeros)
    ensures StringToNumber(a + "." + zeros) == Int(DecimalValue(a))
  {
    var t := a + "." + zeros;
    assert IsDigit(t[0]) && (t[|t| - 1] == '.' || t[|t| - 1] == '0');
    assert Trimmed(t);
    TrimOfTrimmed(t);
    NumParse.FractionOfZeros(zeros);
    NumParse.FractionLiteral(a, zeros);
    assert NumParse.RealValue(NumParse.Decimal(false, a, zeros, 0)) == DecimalValue(a) as real;
  }

  /** `Number` reads digits with a non-negative exponent as an integer. */
  lemma StringToNumberOfExponent(a: string, x: string)
    requires |a| >= 1 && AllDigits(a) && |x| >= 1 && AllDigits(x)
    ensures StringToNumber(a + "e" + x) == Int(DecimalValue(a) * NumParse.Pow10(DecimalValue(x)))
  {
    var t := a + "e" + x;
    assert IsDigit(t[0]) && t[|t| - 1] == x[|x| - 1] && IsDigit(t[|t| - 1]);
    assert Trimmed(t);
    TrimOfTrimmed(t);
    NumParse.ExponentLiteral(a, x);
    var e := DecimalValue(x);
    NumParse.ScaleUp(DecimalValue(a), e);
    assert NumParse.MantissaValue(a, "") == DecimalValue(a) as real;
    var v := (DecimalValue(a) * NumParse.Pow10(e)) as real;
    assert NumParse.RealValue(NumParse.Decimal(false, a, "", e)) == v;
    assert v.Floor as real == v;
    assert FloatValue(NumParse.Finite(NumParse.Decimal(false, a, "", e))) == Int(DecimalValue(a) * NumParse.Pow10(e));
  }

  /** `"1.0"`: a point followed by zeros. */
  lemma OnePointZero()
    ensures StringToNumber("1.0") == Int(1)
  {
    StringToNumberOfWholeFraction("1", "0");
    assert "1" + "." + "0" == "1.0";
  }

  /** `"1e3"`: an exponent. */
  lemma OneEThree()
    ensures StringToNumber("1e3") == Int(1000)
  {
    var a, x := "1", "3";
    assert "1e3" == a + "e" + x;
    assert StringToNumber(a + "e" + x) == Int(1000) by {
      assert DecimalValue(a) == 1 && DecimalValue(x) == 3 by {
        assert a[..0] == "" && x[..0] == "";
      }
      assert NumParse.Pow10(3) == 1000;
      StringToNumberOfExponent(a, x);
    }
  }

  /** `"0x1F"`: a hexadecimal literal. */
  lemma HexOneF()
    ensures StringToNumber("0x1F") == Int(31)
  {
    assert "0x1F"[2..] == "1F";
    assert NumParse.IsRadixLiteral("0x1F");
    StringToNumberOfRadix("0x1F");
    assert NumParse.RadixValue("1F", 16) == 31 by {
      assert "1F"[..1] == "1";
      assert NumParse.RadixValue("1", 16) == 1 by {
        assert "1"[..0] == "";
      }
    }
  }

  /** `[5]`: an array's text is its one element's. */
  lemma ArrayOfFive()
    ensures ToNumber(JArr([JNum(5)])) == Int(5)
  {
    assert ToJsString(JArr([JNum(5)])) == IntToString(5);
    ToNumberOfIntToString(5);
  }

  /** `["7"]`. */
  lemma ArrayOfSevenText()
    ensures ToNumber(JArr([JStr("7")])) == Int(7)
  {
    assert ToJsString(JArr([JStr("7")])) == "7";
    StringToNumberOfInteger(false, false, "7");
    assert "" + "7" == "7";
  }

  /** `a * b`. */
  function Mul(a: Num, b: Num): (r: Num)
    ensures r.Int? <==> a.Int? && b.Int?
  {
    if a.Int? && b.Int? then Int(a.i * b.i) else NaN
  }

  /** `a + b` on numbers. */
  function Add(a: Num, b: Num): (r: Num)
    ensures r.Int? <==> a.Int? && b.Int?
  {
    if a.Int? && b.Int? then Int(a.i + b.i) else NaN
  }

  /** `String(x)` of a number. */
  function NumText(x: Num): string {
    match x
    case NaN => "NaN"
    case Int(i) => IntToString(i)
  }
}

=== FILE: maps_url.dfy ===
/** The admin's "paste a Google Maps link" helper: reading a latitude, longitude and zoom out of
    a place link (`/@lat,lng,17z`), a query link (`?q=lat,lng`) or an embed link
    (`pb=…!3dlat!4dlng…`), and validating the three map fields typed by hand.

    The regular expressions are modelled the way a backtracking engine walks the text: a pattern
    is tried at each suffix of the link in turn, and the first suffix it matches supplies the
    capture groups. */
module MapsUrl {
  import opened Wrappers
  import opened JsText
  import opened JsonValue
  import opened NumParse

  const DefaultZoom: int := 17
  const MinZoom: int := 1
  const MaxZoom: int := 21

  datatype MapPoint = MapPoint(lat: real, lng: real, zoom: int)

  /** A point the admin may store: coordinates on the globe and a zoom Google Maps accepts. */
  predicate InBounds(p: MapPoint) {
    -90.0 <= p.lat <= 90.0 && -180.0 <= p.lng <= 180.0 && MinZoom <= p.zoom <= MaxZoom
  }

  /** `Math.min(21, Math.max(1, zoom))`. */
  function ClampZoom(zoom: int): (r: int)
    ensures MinZoom <= r <= MaxZoom
    ensures MinZoom <= zoom <= MaxZoom ==> r == zoom
    ensures zoom < MinZoom ==> r == MinZoom
    ensures zoom > MaxZoom ==> r == MaxZoom
  {
    if zoom < MinZoom then MinZoom else if zoom > MaxZoom then MaxZoom else zoom
  }

  // ---- numbers inside a link ----

  /** `\d*` at the front of `u`: the longest run of digits, and the text after it. */
  function DigitSpan(u: string): (r: (string, string))
    ensures AllDigits(r.0) && r.0 + r.1 == u
    ensures r.1 == [] || !IsDigit(r.1[0])
  {
    if u != [] && IsDigit(u[0]) then
      var (d, rest) := DigitSpan(u[1..]);
      assert [u[0]] + d + rest == u;
      ([u[0]] + d, rest)
    else ([], u)
  }

  /** A run of digits followed by a non-digit is exactly what `\d*` takes. */
  lemma {:induction false} DigitSpanOf(d: string, rest: string)
    requires AllDigits(d) && (rest == [] || !IsDigit(rest[0]))
    ensures DigitSpan(d + rest) == (d, rest)
  {
    if d == [] {
      assert d + rest == rest;
    } else {
      assert IsDigit(d[0]);
      assert (d + rest)[1..] == d[1..] + rest;
      DigitSpanOf(d[1..], rest);
      assert [d[0]] + d[1..] == d;
    }
  }

  /** The greedy match of `-?\d+\.?\d*` at the front of `u`: the number token and the text after
      it, or `None` when no digit follows the optional sign. */
  function NumberAt(u: string): (r: Option<(Token, string)>)
    ensures r.Some? ==> r.value.0.Valid() && |r.value.1| < |u|
  {
    var neg := u != [] && u[0] == '-';
    var v := if neg then u[1..] else u;
    var (a, r1) := DigitSpan(v);
    if a == [] then None
    else if r1 != [] && r1[0] == '.' then
      var (f, r2) := DigitSpan(r1[1..]);
      Some((Token(neg, a, true, f), r2))
    else Some((Token(neg, a, false, ""), r1))
  }

  /** What follows a token's integer digits: its `.` and fraction, then `rest`. */
  function AfterInteger(t: Token, rest: string): string {
    if t.dot then "." + (t.fracDigits + rest) else rest
  }

  lemma TextAppend(t: Token, rest: string)
    ensures t.Text() + rest == (if t.negative then "-" else "") + (t.intDigits + AfterInteger(t, rest))
  {
  }

  /** What the number pattern consumes is the text of the token it captures, so what the source
      hands to `parseFloat` reads as that token's numeral. */
  lemma NumberAtText(u: string)
    requires NumberAt(u).Some?
    ensures NumberAt(u).value.0.Text() + NumberAt(u).value.1 == u
    ensures ParseFloat(NumberAt(u).value.0.Text()) == Finite(NumberAt(u).value.0.Numeral())
  {
    var t, rest := NumberAt(u).value.0, NumberAt(u).value.1;
    var v := if t.negative then u[1..] else u;
    assert u == (if t.negative then "-" else "") + v;
    var (a, r1) := DigitSpan(v);
    if t.dot {
      var (f, r2) := DigitSpan(r1[1..]);
      assert r1 == "." + (f + r2);
    }
    assert v == t.intDigits + AfterInteger(t, rest);
    TextAppend(t, rest);
    ParseFloatOfToken(t);
  }

  /** The text after token `t` cannot extend it. */
  predicate Delimits(rest: string, t: Token) {
    rest == [] || (!IsDigit(rest[0]) && (t.dot || rest[0] != '.'))
  }

  /** A number token followed by a delimiter is exactly what `-?\d+\.?\d*` takes. */
  lemma NumberAtToken(t: Token, rest: string)
    requires t.Valid() && Delimits(rest, t)
    ensures NumberAt(t.Text() + rest) == Some((t, rest))
  {
    var u := t.Text() + rest;
    var after := AfterInteger(t, rest);
    TextAppend(t, rest);
    assert IsDigit(t.intDigits[0]);
    if t.negative {
      assert u[0] == '-' && u[1..] == t.intDigits + after;
    } else {
      assert u == t.intDigits + after;
      assert u[0] == t.intDigits[0];
    }
    if t.dot {
      assert after[0] == '.' && after[1..] == t.fracDigits + rest;
      DigitSpanOf(t.fracDigits, rest);
    }
    DigitSpanOf(t.intDigits, after);
  }

  // ---- the four patterns ----

  /** The four patterns the link reader uses. `QueryForm(backtracks)` is the query pattern with the
      source's trailing `(?:[^&\d]|$)` (when `backtracks`) or with the intended "the number ends here". */
  datatype Form = AtForm | QueryForm(backtracks: bool) | EmbedForm | EmbedZoomForm

  /** The capture groups of a match: two coordinates (and the zoom digits of a place link), or the
      digits of an embed zoom. */
  datatype Groups = Coords(lat: Token, lng: Token, zoom: Option<string>) | ZoomDigits(digits: string)

  /** The shape of the groups each form captures. */
  predicate Captures(f: Form, g: Groups) {
    match g
    case Coords(lat, lng, zoom) =>
      f != EmbedZoomForm && lat.Valid() && lng.Valid()
      && (zoom.Some? <==> f == AtForm) && (zoom.Some? ==> |zoom.value| >= 1 && AllDigits(zoom.value))
    case ZoomDigits(d) => f == EmbedZoomForm && |d| >= 1 && AllDigits(d)
  }

  /** The characters a match of each form can start with. */
  predicate Starter(f: Form, c: char) {
    match f
    case AtForm => c == '@'
    case QueryForm(_) => c == '?' || c == '&'
    case _ => c == '!'
  }

  /** `@(-?\d+\.?\d*),(-?\d+\.?\d*),(\d+)[zm]` with the `i` flag, at the front of `u`. */
  function AtMatch(u: string): (r: Option<Groups>)
    ensures r.Some? ==> Captures(AtForm, r.value)
  {
    if u == [] || u[0] != '@' then None
    else
      match NumberAt(u[1..])
      case None => None
      case Some((lat, r1)) =>
        if r1 == [] || r1[0] != ',' then None
        else
          match NumberAt(r1[1..])
          case None => None
          case Some((lng, r2)) =>
            if r2 == [] || r2[0] != ',' then None
            else
              var (z, r3) := DigitSpan(r2[1..]);
              if z != [] && r3 != [] && (LowerChar(r3[0]) == 'z' || LowerChar(r3[0]) == 'm')
              then Some(Coords(lat, lng, Some(z)))
              else None
  }

  /** `[?&]q=(-?\d+\.?\d*),(-?\d+\.?\d*)` followed by `(?:[^&\d]|$)` when `backtracks`, at the front
      of `u`. After the greedy longitude nothing but `&` or the end can follow (it is maximal), so on
      `&` the engine backtracks: giving up fraction digits leaves a digit next, but giving up the `.`
      as well leaves the `.` next, which `[^&\d]` accepts. A longitude without a `.` has no such
      retreat, and the pattern fails here. */
  function QueryMatch(u: string, backtracks: bool): (r: Option<Groups>)
    ensures r.Some? ==> Captures(QueryForm(backtracks), r.value)
  {
    if |u| < 3 || !(u[0] == '?' || u[0] == '&') || u[1] != 'q' || u[2] != '=' then None
    else
      match NumberAt(u[3..])
      case None => None
      case Some((lat, r1)) =>
        if r1 == [] || r1[0] != ',' then None
        else
          match NumberAt(r1[1..])
          case None => None
          case Some((lng, r2)) =>
            if backtracks && r2 != [] && r2[0] == '&' then
              if lng.dot then Some(Coords(lat, IntegerPart(lng), None)) else None
            else Some(Coords(lat, lng, None))
  }

  /** `!3d(-?\d+\.?\d*)!4d(-?\d+\.?\d*)` at the front of `u`. */
  function EmbedMatch(u: string): (r: Option<Groups>)
    ensures r.Some? ==> Captures(EmbedForm, r.value)
  {
    if |u| < 3 || u[0] != '!' || u[1] != '3' || u[2] != 'd' then None
    else
      match NumberAt(u[3..])
      case None => None
      case Some((lat, r1)) =>
        if |r1| < 3 || r1[0] != '!' || r1[1] != '4' || r1[2] != 'd' then None
        else
          match NumberAt(r1[3..])
          case None => None
          case Some((lng, _)) => Some(Coords(lat, lng, None))
  }

  /** `!2d(\d+)` at the front of `u`. */
  function EmbedZoomMatch(u: string): (r: Option<Groups>)
    ensures r.Some? ==> Captures(EmbedZoomForm, r.value)
  {
    if |u| < 3 || u[0] != '!' || u[1] != '2' || u[2] != 'd' then None
    else
      var (z, _) := DigitSpan(u[3..]);
      if z == [] then None else Some(ZoomDigits(z))
  }

  /** The groups of form `f` matched at the front of `u`. */
  function MatchHere(f: Form, u: string): (r: Option<Groups>)
    ensures r.Some? ==> Captures(f, r.value) && u != [] && Starter(f, u[0])
  {
    match f
    case AtForm => AtMatch(u)
    case QueryForm(b) => QueryMatch(u, b)
    case EmbedForm => EmbedMatch(u)
    case EmbedZoomForm => EmbedZoomMatch(u)
  }

  /** `s.match(re)` for a non-global pattern: the groups of the match at the leftmost position. */
  function FirstMatch(f: Form, s: string): (r: Option<Groups>)
    ensures r.Some? ==> Captures(f, r.value)
  {
    if s == [] then None
    else if MatchHere(f, s).Some? then MatchHere(f, s)
    else FirstMatch(f, s[1..])
  }

  /** No character of `p` can start a match of `f`. */
  predicate NoStarter(f: Form, p: string) {
    forall k :: 0 <= k < |p| ==> !Starter(f, p[k])
  }

  /** The search passes over text in which no match can start. */
  lemma {:induction false} FirstMatchSkip(f: Form, p: string, r: string)
    requires NoStarter(f, p)
    ensures FirstMatch(f, p + r) == FirstMatch(f, r)
  {
    if p != [] {
      assert !Starter(f, p[0]);
      assert (p + r)[1..] == p[1..] + r;
      FirstMatchSkip(f, p[1..], r);
    } else {
      assert p + r == r;
    }
  }

  /** A pattern none of whose starting characters occur finds nothing. */
  lemma FirstMatchNone(f: Form, s: string)
    requires NoStarter(f, s)
    ensures FirstMatch(f, s).None?
  {
    FirstMatchSkip(f, s, []);
    assert s + [] == s;
  }

  /** `c !in p` as the absence of a starting character. */
  lemma NoStarterOf(f: Form, p: string, c: char)
    requires c !in p
    requires forall d :: Starter(f, d) ==> d == c
    ensures NoStarter(f, p)
  {
    forall k | 0 <= k < |p|
      ensures !Starter(f, p[k])
    {
      assert p[k] in p;
    }
  }

  // ---- choosing a pattern and reading the result ----

  /** Which form supplies the coordinates: a place link wins; a query is tried only in a link with
      a `?`; an embed pattern only in a link mentioning `embed` or `pb=`, taking its zoom from the
      first `!2d` anywhere in the link. */
  function Locate(s: string, backtracks: bool): (r: Option<Groups>)
    ensures r.Some? ==> r.value.Coords? && r.value.lat.Valid() && r.value.lng.Valid()
    ensures r.Some? && r.value.zoom.Some? ==> |r.value.zoom.value| >= 1 && AllDigits(r.value.zoom.value)
  {
    match FirstMatch(AtForm, s)
    case Some(g) => Some(g)
    case None =>
      var q := if '?' in s then FirstMatch(QueryForm(backtracks), s) else None;
      if q.Some? then q
      else if Contains(s, "embed") || Contains(s, "pb=") then
        match FirstMatch(EmbedForm, s)
        case None => None
        case Some(g) =>
          var z := FirstMatch(EmbedZoomForm, s);
          Some(g.(zoom := if z.Some? then Some(z.value.digits) else None))
      else None
  }

  /** The zoom read from the link, 17 when there is none. */
  function ZoomOf(z: Option<string>): int {
    match z
    case None => DefaultZoom
    case Some(d) => ParseInt(d).GetOr(DefaultZoom)
  }

  /** The value a number token spells: what `parseFloat` reads from it. */
  function Value(t: Token): real
    requires t.Valid()
  {
    RealValue(t.Numeral())
  }

  /** The token with its `.` and fraction dropped. */
  function IntegerPart(t: Token): (r: Token)
    ensures t.Valid() ==> r.Valid()
    ensures r.negative == t.negative && r.intDigits == t.intDigits && !r.dot
  {
    Token(t.negative, t.intDigits, false, "")
  }

  /** What a link naming `lat`, `lng` and `zoom` should yield: the point, with the zoom clamped into
      `[1, 21]`, or `null` when a coordinate is off the globe. */
  function Expected(lat: Token, lng: Token, zoom: int): (r: Option<MapPoint>)
    requires lat.Valid() && lng.Valid()
    ensures r.Some? <==> -90.0 <= Value(lat) <= 90.0 && -180.0 <= Value(lng) <= 180.0
    ensures r.Some? ==> InBounds(r.value) && r.value.lat == Value(lat) && r.value.lng == Value(lng)
    ensures r.Some? ==> r.value.zoom == ClampZoom(zoom)
  {
    if -90.0 <= Value(lat) <= 90.0 && -180.0 <= Value(lng) <= 180.0
    then Some(MapPoint(Value(lat), Value(lng), ClampZoom(zoom)))
    else None
  }

  function ParseWith(url: Json, backtracks: bool): (r: Option<MapPoint>)
    ensures !url.JStr? || AllSpace(url.s) ==> r.None?
    ensures r.Some? ==> InBounds(r.value)
  {
    if !url.JStr? || url.s == "" then None
    else
      var s := Trim(url.s);
      if s == "" then None
      else
        match Locate(s, backtracks)
        case None => None
        case Some(g) => Expected(g.lat, g.lng, ZoomOf(g.zoom))
  }

  /** `parseGoogleMapsUrl`, with the query pattern reading the whole longitude. */
  function ParseGoogleMapsUrl(url: Json): (r: Option<MapPoint>)
    ensures !url.JStr? || AllSpace(url.s) ==> r.None?
    ensures r.Some? ==> InBounds(r.value)
  {
    ParseWith(url, false)
  }

  /** `parseGoogleMapsUrl` exactly as its query pattern is written. */
  function ParseGoogleMapsUrlAsWritten(url: Json): (r: Option<MapPoint>)
    ensures !url.JStr? || AllSpace(url.s) ==> r.None?
    ensures r.Some? ==> InBounds(r.value)
  {
    ParseWith(url, true)
  }

  /** A link without surrounding white space reads as the groups the patterns pick. */
  lemma ParseOfLocate(s: string, backtracks: bool, lat: Token, lng: Token, zoom: Option<string>)
    requires s != [] && Trimmed(s) && Locate(s, backtracks) == Some(Coords(lat, lng, zoom))
    ensures lat.Valid() && lng.Valid()
    ensures ParseWith(JStr(s), backtracks) == Expected(lat, lng, ZoomOf(zoom))
  {
    TrimOfTrimmed(s);
  }

  lemma LocateAt(s: string, backtracks: bool, g: Groups)
    requires FirstMatch(AtForm, s) == Some(g)
    ensures Locate(s, backtracks) == Some(g)
  {
  }

  lemma LocateQuery(s: string, backtracks: bool, g: Groups)
    requires FirstMatch(AtForm, s).None? && '?' in s
    requires FirstMatch(QueryForm(backtracks), s) == Some(g)
    ensures Locate(s, backtracks) == Some(g)
  {
  }

  lemma LocateEmbed(s: string, backtracks: bool, lat: Token, lng: Token, z: Option<Groups>)
    requires FirstMatch(AtForm, s).None? && '?' !in s && (Contains(s, "embed") || Contains(s, "pb="))
    requires FirstMatch(EmbedForm, s) == Some(Coords(lat, lng, None))
    requires FirstMatch(EmbedZoomForm, s) == z
    ensures Locate(s, backtracks) == Some(Coords(lat, lng, if z.Some? then Some(z.value.digits) else None))
  {
  }

  // ---- place links ----

  /** The text of a place link: `prefix@lat,lng,NN<unit>suffix`. */
  function AtLink(prefix: string, lat: Token, lng: Token, zoom: string, unit: char, suffix: string): string {
    prefix + ("@" + (lat.Text() + ("," + (lng.Text() + ("," + (zoom + ([unit] + suffix)))))))
  }

  predicate ZoomUnit(c: char) {
    c == 'z' || c == 'm' || c == 'Z' || c == 'M'
  }

  /** The place pattern picks out exactly the two coordinates and the zoom a place link names. */
  lemma AtLinkGroups(prefix: string, lat: Token, lng: Token, zoom: string, unit: char, suffix: string)
    requires '@' !in prefix
    requires lat.Valid() && lng.Valid() && |zoom| >= 1 && AllDigits(zoom) && ZoomUnit(unit)
    ensures FirstMatch(AtForm, AtLink(prefix, lat, lng, zoom, unit, suffix)) == Some(Coords(lat, lng, Some(zoom)))
  {
    var r0 := "@" + (lat.Text() + ("," + (lng.Text() + ("," + (zoom + ([unit] + suffix))))));
    AtMatchHere(lat, lng, zoom, unit, suffix, r0);
    NoStarterOf(AtForm, prefix, '@');
    FirstMatchSkip(AtForm, prefix, r0);
  }

  /** The place pattern matches at the `@`. */
  lemma AtMatchHere(lat: Token, lng: Token, zoom: string, unit: char, suffix: string, r0: string)
    requires lat.Valid() && lng.Valid() && |zoom| >= 1 && AllDigits(zoom) && ZoomUnit(unit)
    requires r0 == "@" + (lat.Text() + ("," + (lng.Text() + ("," + (zoom + ([unit] + suffix))))))
    ensures MatchHere(AtForm, r0) == Some(Coords(lat, lng, Some(zoom)))
  {
    var r3 := zoom + ([unit] + suffix);
    var r2 := "," + r3;
    var r1 := "," + (lng.Text() + r2);
    NumberAtToken(lat, r1);
    NumberAtToken(lng, r2);
    assert r0[1..] == lat.Text() + r1;
    assert r1[1..] == lng.Text() + r2;
    assert r2[1..] == r3;
    DigitSpanOf(zoom, [unit] + suffix);
  }

  /** A place link `…@lat,lng,NNz…` reads back as the coordinates it names with the zoom clamped,
      whatever the rest of the link holds, and by both readers; out-of-range coordinates give `null`. */
  lemma AtLinkRoundTrip(prefix: string, lat: Token, lng: Token, zoom: string, unit: char, suffix: string)
    requires '@' !in prefix
    requires lat.Valid() && lng.Valid() && |zoom| >= 1 && AllDigits(zoom) && ZoomUnit(unit)
    requires Trimmed(AtLink(prefix, lat, lng, zoom, unit, suffix))
    ensures ParseGoogleMapsUrl(JStr(AtLink(prefix, lat, lng, zoom, unit, suffix))) == Expected(lat, lng, DecimalValue(zoom))
    ensures ParseGoogleMapsUrlAsWritten(JStr(AtLink(prefix, lat, lng, zoom, unit, suffix))) == Expected(lat, lng, DecimalValue(zoom))
  {
    var s := AtLink(prefix, lat, lng, zoom, unit, suffix);
    AtLinkGroups(prefix, lat, lng, zoom, unit, suffix);
    ParseIntOfDigits(zoom);
    LocateAt(s, false, Coords(lat, lng, Some(zoom)));
    LocateAt(s, true, Coords(lat, lng, Some(zoom)));
    ParseOfLocate(s, false, lat, lng, Some(zoom));
    ParseOfLocate(s, true, lat, lng, Some(zoom));
  }

  // ---- query links ----

  /** The text of a query link: `prefix?q=lat,lngsuffix`. */
  function QueryLink(prefix: string, lat: Token, lng: Token, suffix: string): string {
    prefix + ("?q=" + (lat.Text() + ("," + (lng.Text() + suffix))))
  }

  /** Where the longitude is followed by `&`, the pattern as written keeps only its integer part. */
  function QueryLongitude(lng: Token, suffix: string, backtracks: bool): (r: Token)
    ensures lng.Valid() ==> r.Valid()
  {
    if backtracks && suffix != [] && suffix[0] == '&' then IntegerPart(lng) else lng
  }

  /** The query pattern picks out the two coordinates of a query link; as written, it loses the
      longitude's fraction when `&` follows. */
  lemma QueryLinkGroups(prefix: string, lat: Token, lng: Token, suffix: string, backtracks: bool)
    requires '?' !in prefix && '&' !in prefix
    requires lat.Valid() && lng.Valid() && Delimits(suffix, lng)
    requires backtracks && suffix != [] && suffix[0] == '&' ==> lng.dot
    ensures FirstMatch(QueryForm(backtracks), QueryLink(prefix, lat, lng, suffix))
         == Some(Coords(lat, QueryLongitude(lng, suffix, backtracks), None))
  {
    var r1 := "," + (lng.Text() + suffix);
    var r0 := "?q=" + (lat.Text() + r1);
    NumberAtToken(lat, r1);
    NumberAtToken(lng, suffix);
    assert r0[3..] == lat.Text() + r1;
    assert r1[1..] == lng.Text() + suffix;
    assert MatchHere(QueryForm(backtracks), r0) == Some(Coords(lat, QueryLongitude(lng, suffix, backtracks), None));
    forall k | 0 <= k < |prefix|
      ensures !Starter(QueryForm(backtracks), prefix[k])
    {
      assert prefix[k] in prefix;
    }
    FirstMatchSkip(QueryForm(backtracks), prefix, r0);
  }

  /** A query link `…?q=lat,lng…` without `@` reads back as the coordinates it names at zoom 17.
      The reader as written agrees unless `&` follows the longitude, where it drops the fraction. */
  lemma QueryLinkRoundTrip(prefix: string, lat: Token, lng: Token, suffix: string)
    requires '?' !in prefix && '&' !in prefix && '@' !in QueryLink(prefix, lat, lng, suffix)
    requires lat.Valid() && lng.Valid() && Delimits(suffix, lng)
    requires Trimmed(QueryLink(prefix, lat, lng, suffix))
    ensures ParseGoogleMapsUrl(JStr(QueryLink(prefix, lat, lng, suffix))) == Expected(lat, lng, DefaultZoom)
    ensures lng.dot || suffix == [] || suffix[0] != '&' ==>
      ParseGoogleMapsUrlAsWritten(JStr(QueryLink(prefix, lat, lng, suffix)))
        == Expected(lat, QueryLongitude(lng, suffix, true), DefaultZoom)
  {
    var s := QueryLink(prefix, lat, lng, suffix);
    assert s[|prefix|] == '?';
    NoStarterOf(AtForm, s, '@');
    FirstMatchNone(AtForm, s);
    QueryLinkGroups(prefix, lat, lng, suffix, false);
    LocateQuery(s, false, Coords(lat, lng, None));
    ParseOfLocate(s, false, lat, lng, None);
    if lng.dot || suffix == [] || suffix[0] != '&' {
      var lng' := QueryLongitude(lng, suffix, true);
      QueryLinkGroups(prefix, lat, lng, suffix, true);
      LocateQuery(s, true, Coords(lat, lng', None));
      ParseOfLocate(s, true, lat, lng', None);
    }
  }

  /** The link `?q=1,2.5&z=3` names longitude 2.5; the query pattern as written reads 2. */
  lemma QueryFractionDropped()
    ensures ParseGoogleMapsUrlAsWritten(JStr("?q=1,2.5&z=3")) == Some(MapPoint(1.0, 2.0, DefaultZoom))
    ensures ParseGoogleMapsUrl(JStr("?q=1,2.5&z=3")) == Some(MapPoint(1.0, 2.5, DefaultZoom))
  {
    var lat := Token(false, "1", false, "");
    var lng := Token(false, "2", true, "5");
    FractionLink();
    QueryLinkRoundTrip("", lat, lng, "&z=3");
    FractionValues();
  }

  /** The link of the example, spelled as a query link. */
  lemma FractionLink()
    ensures QueryLink("", Token(false, "1", false, ""), Token(false, "2", true, "5"), "&z=3") == "?q=1,2.5&z=3"
    ensures '@' !in "?q=1,2.5&z=3" && Trimmed("?q=1,2.5&z=3")
    ensures Token(false, "1", false, "").Valid() && Token(false, "2", true, "5").Valid()
    ensures Delimits("&z=3", Token(false, "2", true, "5"))
  {
  }

  /** The values of the example's tokens. */
  lemma FractionValues()
    ensures Value(Token(false, "1", false, "")) == 1.0
    ensures Value(Token(false, "2", true, "5")) == 2.5
    ensures Value(Token(false, "2", false, "")) == 2.0
  {
    assert DecimalValue("1") == 1 by { assert "1"[..0] == ""; }
    assert DecimalValue("2") == 2 by { assert "2"[..0] == ""; }
    assert FractionValue("5") == 0.5 by { assert "5"[1..] == ""; }
  }

  /** The link `?q=1,2&z=3` names longitude 2. The query pattern as written cannot end an integer
      longitude before `&`, so that reader finds nothing; the corrected reader reads the point. */
  lemma QueryIntegerRejected()
    ensures ParseGoogleMapsUrlAsWritten(JStr("?q=1,2&z=3")).None?
    ensures ParseGoogleMapsUrl(JStr("?q=1,2&z=3")) == Some(MapPoint(1.0, 2.0, DefaultZoom))
  {
    IntegerLink();
    QueryLinkRoundTrip("", Token(false, "1", false, ""), Token(false, "2", false, ""), "&z=3");
    FractionValues();
    IntegerLocateNone();
    TrimOfTrimmed("?q=1,2&z=3");
  }

  /** As written, no pattern locates coordinates in the integer example. */
  lemma IntegerLocateNone()
    ensures Locate("?q=1,2&z=3", true).None?
  {
    IntegerQueryNoMatch();
    IntegerOtherFormsAbsent();
    LocateNothing("?q=1,2&z=3", true);
  }

  /** The integer example has no `@`, and mentions neither `embed` nor `pb=`. */
  lemma IntegerOtherFormsAbsent()
    ensures FirstMatch(AtForm, "?q=1,2&z=3").None?
    ensures !Contains("?q=1,2&z=3", "embed") && !Contains("?q=1,2&z=3", "pb=")
  {
    var s := "?q=1,2&z=3";
    NoStarterOf(AtForm, s, '@');
    FirstMatchNone(AtForm, s);
    LacksFirstChar(s, "embed");
    LacksFirstChar(s, "pb=");
  }

  /** A link in which no pattern matches locates nothing. */
  lemma LocateNothing(s: string, backtracks: bool)
    requires FirstMatch(AtForm, s).None? && FirstMatch(QueryForm(backtracks), s).None?
    requires !Contains(s, "embed") && !Contains(s, "pb=")
    ensures Locate(s, backtracks).None?
  {
  }

  /** Text without `p`'s first character does not contain `p`. */
  lemma LacksFirstChar(s: string, p: string)
    requires p != [] && p[0] !in s
    ensures !Contains(s, p)
  {
    if Contains(s, p) {
      ContainsFirstChar(s, p);
    }
  }

  /** As written, the query pattern finds nothing in the integer example. */
  lemma IntegerQueryNoMatch()
    ensures FirstMatch(QueryForm(true), "?q=1,2&z=3").None?
  {
    IntegerLink();
    AmpZoomNoMatch();
    QueryLinkIntegerAmp("", Token(false, "1", false, ""), Token(false, "2", false, ""), "&z=3");
  }

  /** The tail `&z=3` holds no query match. */
  lemma AmpZoomNoMatch()
    ensures FirstMatch(QueryForm(true), "&z=3").None?
  {
    assert MatchHere(QueryForm(true), "&z=3").None?;
    assert "&z=3"[1..] == "z=3";
    NoQueryStarter("z=3");
    FirstMatchNone(QueryForm(true), "z=3");
  }

  /** As written, the query pattern fails on a query link whose integer longitude meets `&`, and
      so finds nothing unless the rest of the link holds another query. */
  lemma QueryLinkIntegerAmp(prefix: string, lat: Token, lng: Token, suffix: string)
    requires '?' !in prefix && '&' !in prefix
    requires lat.Valid() && lng.Valid() && !lng.dot && suffix != [] && suffix[0] == '&'
    requires FirstMatch(QueryForm(true), suffix).None?
    ensures FirstMatch(QueryForm(true), QueryLink(prefix, lat, lng, suffix)).None?
  {
    var r0 := "?q=" + (lat.Text() + ("," + (lng.Text() + suffix)));
    assert MatchHere(QueryForm(true), r0).None? by {
      QueryFailsAtAmp(lat, lng, suffix, r0);
    }
    assert FirstMatch(QueryForm(true), r0[1..]).None? by {
      SkipToSuffix(lat, lng, suffix, r0);
    }
    NoQueryStarter(prefix);
    FirstMatchSkip(QueryForm(true), prefix, r0);
  }

  /** Past the `?`, the search for a query runs on to the text after the longitude. */
  lemma SkipToSuffix(lat: Token, lng: Token, suffix: string, r0: string)
    requires lat.Valid() && lng.Valid()
    requires r0 == "?q=" + (lat.Text() + ("," + (lng.Text() + suffix)))
    ensures FirstMatch(QueryForm(true), r0[1..]) == FirstMatch(QueryForm(true), suffix)
  {
    var mid := "q=" + (lat.Text() + ("," + lng.Text()));
    assert r0[1..] == mid + suffix;
    MidNoQueryStarter(lat, lng);
    FirstMatchSkip(QueryForm(true), mid, suffix);
  }

  /** At the `?` of such a link, the longitude cannot end before the `&`. */
  lemma QueryFailsAtAmp(lat: Token, lng: Token, suffix: string, r0: string)
    requires lat.Valid() && lng.Valid() && !lng.dot && suffix != [] && suffix[0] == '&'
    requires r0 == "?q=" + (lat.Text() + ("," + (lng.Text() + suffix)))
    ensures QueryMatch(r0, true).None?
  {
    var r1 := "," + (lng.Text() + suffix);
    NumberAtToken(lat, r1);
    NumberAtToken(lng, suffix);
    assert r0[3..] == lat.Text() + r1;
    assert r1[1..] == lng.Text() + suffix;
  }

  /** The text between `?` and the longitude's end holds no start of a query match. */
  lemma MidNoQueryStarter(lat: Token, lng: Token)
    requires lat.Valid() && lng.Valid()
    ensures NoStarter(QueryForm(true), "q=" + (lat.Text() + ("," + lng.Text())))
  {
    TextNoQueryStarter(lat);
    TextNoQueryStarter(lng);
    NoQueryStarter("q=");
    NoQueryStarter(",");
    NoStarterAppend(QueryForm(true), ",", lng.Text());
    NoStarterAppend(QueryForm(true), lat.Text(), "," + lng.Text());
    NoStarterAppend(QueryForm(true), "q=", lat.Text() + ("," + lng.Text()));
  }

  /** A number token's text holds no start of a query match. */
  lemma TextNoQueryStarter(t: Token)
    requires t.Valid()
    ensures NoStarter(QueryForm(true), t.Text())
  {
    var u := t.Unsigned();
    var sign := if t.negative then "-" else "";
    assert t.Text() == sign + u;
    forall k | 0 <= k < |t.Text()|
      ensures !Starter(QueryForm(true), t.Text()[k])
    {
      if k >= |sign| {
        var j := k - |sign|;
        assert t.Text()[k] == u[j];
        if j < |t.intDigits| {
          assert u[j] == t.intDigits[j];
          assert IsDigit(t.intDigits[j]);
        } else if j > |t.intDigits| {
          assert u[j] == t.fracDigits[j - |t.intDigits| - 1];
          assert IsDigit(t.fracDigits[j - |t.intDigits| - 1]);
        }
      }
    }
  }

  /** No start of a match in either part means none in the whole. */
  lemma NoStarterAppend(f: Form, a: string, b: string)
    requires NoStarter(f, a) && NoStarter(f, b)
    ensures NoStarter(f, a + b)
  {
    forall k | 0 <= k < |a + b|
      ensures !Starter(f, (a + b)[k])
    {
      if k < |a| {
        assert (a + b)[k] == a[k];
      } else {
        assert (a + b)[k] == b[k - |a|];
      }
    }
  }

  /** Text without `?` and `&` holds no start of a query match. */
  lemma NoQueryStarter(p: string)
    requires '?' !in p && '&' !in p
    ensures NoStarter(QueryForm(true), p)
  {
    forall k | 0 <= k < |p|
      ensures !Starter(QueryForm(true), p[k])
    {
      assert p[k] in p;
    }
  }

  /** The link of the integer example, spelled as a query link. */
  lemma IntegerLink()
    ensures QueryLink("", Token(false, "1", false, ""), Token(false, "2", false, ""), "&z=3") == "?q=1,2&z=3"
    ensures '@' !in "?q=1,2&z=3" && Trimmed("?q=1,2&z=3")
    ensures Token(false, "1", false, "").Valid() && Token(false, "2", false, "").Valid()
    ensures Delimits("&z=3", Token(false, "2", false, ""))
  {
  }

  // ---- embed links ----

  /** The text of an embed link: `prefix!3dlat!4dlng[!2dNN]suffix`. */
  function EmbedLink(prefix: string, lat: Token, lng: Token, zoom: Option<string>, suffix: string): string {
    prefix + ("!3d" + (lat.Text() + ("!4d" + (lng.Text() + (ZoomPart(zoom) + suffix)))))
  }

  function ZoomPart(zoom: Option<string>): string {
    if zoom.Some? then "!2d" + zoom.value else ""
  }

  /** A number token holds nothing but a sign, digits and a `.`, so no embed match starts inside it. */
  lemma TextNoBang(t: Token, f: Form)
    requires t.Valid() && (f == EmbedForm || f == EmbedZoomForm)
    ensures NoStarter(f, t.Text())
  {
    var sign := if t.negative then "-" else "";
    var tail := if t.dot then "." + t.fracDigits else "";
    var x := t.Text();
    assert x == sign + (t.intDigits + tail);
    forall k | 0 <= k < |x|
      ensures x[k] != '!'
    {
      if k < |sign| {
      } else if k < |sign| + |t.intDigits| {
        assert x[k] == t.intDigits[k - |sign|];
        assert IsDigit(t.intDigits[k - |sign|]);
      } else if k > |sign| + |t.intDigits| {
        assert x[k] == t.fracDigits[k - |sign| - |t.intDigits| - 1];
        assert IsDigit(t.fracDigits[k - |sign| - |t.intDigits| - 1]);
      }
    }
  }

  /** The zoom pattern skips a `!3d`/`!4d` marker and the number after it. */
  lemma ZoomSkipsCoordinate(marker: char, t: Token, r: string)
    requires (marker == '3' || marker == '4') && t.Valid()
    ensures FirstMatch(EmbedZoomForm, "!" + ([marker, 'd'] + (t.Text() + r))) == FirstMatch(EmbedZoomForm, r)
  {
    var u := "!" + ([marker, 'd'] + (t.Text() + r));
    assert MatchHere(EmbedZoomForm, u).None?;
    assert u[1..] == [marker, 'd'] + (t.Text() + r);
    FirstMatchSkip(EmbedZoomForm, [marker, 'd'], t.Text() + r);
    TextNoBang(t, EmbedZoomForm);
    FirstMatchSkip(EmbedZoomForm, t.Text(), r);
  }

  /** The embed pattern picks out the two coordinates of an embed link. */
  lemma EmbedLinkCoords(prefix: string, lat: Token, lng: Token, zoom: Option<string>, suffix: string)
    requires '!' !in prefix
    requires lat.Valid() && lng.Valid()
    requires zoom.None? ==> Delimits(suffix, lng)
    ensures FirstMatch(EmbedForm, EmbedLink(prefix, lat, lng, zoom, suffix)) == Some(Coords(lat, lng, None))
  {
    var tail := ZoomPart(zoom) + suffix;
    var r1 := "!4d" + (lng.Text() + tail);
    var r0 := "!3d" + (lat.Text() + r1);
    NumberAtToken(lat, r1);
    assert zoom.Some? ==> tail[0] == '!';
    NumberAtToken(lng, tail);
    assert r0[3..] == lat.Text() + r1;
    assert r1[3..] == lng.Text() + tail;
    assert MatchHere(EmbedForm, r0) == Some(Coords(lat, lng, None));
    NoStarterOf(EmbedForm, prefix, '!');
    FirstMatchSkip(EmbedForm, prefix, r0);
  }

  /** The zoom pattern finds the `!2d` digits of an embed link, and nothing when it has none: the
      only `!` in the link are those of `!3d`, `!4d` and `!2d`. */
  lemma EmbedLinkZoom(prefix: string, lat: Token, lng: Token, zoom: Option<string>, suffix: string)
    requires '!' !in prefix && '!' !in suffix
    requires lat.Valid() && lng.Valid()
    requires zoom.Some? ==> |zoom.value| >= 1 && AllDigits(zoom.value) && (suffix == [] || !IsDigit(suffix[0]))
    ensures FirstMatch(EmbedZoomForm, EmbedLink(prefix, lat, lng, zoom, suffix))
         == if zoom.Some? then Some(ZoomDigits(zoom.value)) else None
  {
    var tail := ZoomPart(zoom) + suffix;
    var r1 := "!4d" + (lng.Text() + tail);
    var r0 := "!3d" + (lat.Text() + r1);
    NoStarterOf(EmbedZoomForm, prefix, '!');
    FirstMatchSkip(EmbedZoomForm, prefix, r0);
    assert r0 == "!" + (['3', 'd'] + (lat.Text() + r1));
    ZoomSkipsCoordinate('3', lat, r1);
    assert r1 == "!" + (['4', 'd'] + (lng.Text() + tail));
    ZoomSkipsCoordinate('4', lng, tail);
    if zoom.Some? {
      ZoomMarker(zoom.value, suffix);
    } else {
      assert tail == suffix;
      NoStarterOf(EmbedZoomForm, suffix, '!');
      FirstMatchNone(EmbedZoomForm, suffix);
    }
  }

  /** `!2dNN` followed by a non-digit is where the zoom pattern matches. */
  lemma ZoomMarker(d: string, suffix: string)
    requires |d| >= 1 && AllDigits(d) && (suffix == [] || !IsDigit(suffix[0]))
    ensures FirstMatch(EmbedZoomForm, "!2d" + d + suffix) == Some(ZoomDigits(d))
  {
    var u := "!2d" + d + suffix;
    assert u[3..] == d + suffix;
    DigitSpanOf(d, suffix);
    assert MatchHere(EmbedZoomForm, u) == Some(ZoomDigits(d));
  }

  /** An embed link `…pb=…!3dlat!4dlng[!2dNN]…` without `@` or `?` reads back as the coordinates it
      names, with the `!2d` zoom clamped or 17 when there is none, by both readers. */
  lemma EmbedLinkRoundTrip(prefix: string, lat: Token, lng: Token, zoom: Option<string>, suffix: string)
    requires Contains(prefix, "embed") || Contains(prefix, "pb=")
    requires '!' !in prefix && '!' !in suffix
    requires '@' !in EmbedLink(prefix, lat, lng, zoom, suffix) && '?' !in EmbedLink(prefix, lat, lng, zoom, suffix)
    requires lat.Valid() && lng.Valid()
    requires zoom.Some? ==> |zoom.value| >= 1 && AllDigits(zoom.value) && (suffix == [] || !IsDigit(suffix[0]))
    requires zoom.None? ==> Delimits(suffix, lng)
    requires Trimmed(EmbedLink(prefix, lat, lng, zoom, suffix))
    ensures ParseGoogleMapsUrl(JStr(EmbedLink(prefix, lat, lng, zoom, suffix)))
         == Expected(lat, lng, if zoom.Some? then DecimalValue(zoom.value) else DefaultZoom)
    ensures ParseGoogleMapsUrlAsWritten(JStr(EmbedLink(prefix, lat, lng, zoom, suffix)))
         == Expected(lat, lng, if zoom.Some? then DecimalValue(zoom.value) else DefaultZoom)
  {
    var s := EmbedLink(prefix, lat, lng, zoom, suffix);
    EmbedLocate(prefix, lat, lng, zoom, suffix, false);
    EmbedLocate(prefix, lat, lng, zoom, suffix, true);
    ParseOfLocate(s, false, lat, lng, zoom);
    ParseOfLocate(s, true, lat, lng, zoom);
    if zoom.Some? {
      ParseIntOfDigits(zoom.value);
    }
  }

  /** Both readers locate the coordinates and the `!2d` digits of an embed link. */
  lemma EmbedLocate(prefix: string, lat: Token, lng: Token, zoom: Option<string>, suffix: string, backtracks: bool)
    requires Contains(prefix, "embed") || Contains(prefix, "pb=")
    requires '!' !in prefix && '!' !in suffix
    requires '@' !in EmbedLink(prefix, lat, lng, zoom, suffix) && '?' !in EmbedLink(prefix, lat, lng, zoom, suffix)
    requires lat.Valid() && lng.Valid()
    requires zoom.Some? ==> |zoom.value| >= 1 && AllDigits(zoom.value) && (suffix == [] || !IsDigit(suffix[0]))
    requires zoom.None? ==> Delimits(suffix, lng)
    ensures Locate(EmbedLink(prefix, lat, lng, zoom, suffix), backtracks) == Some(Coords(lat, lng, zoom))
  {
    var s := EmbedLink(prefix, lat, lng, zoom, suffix);
    EmbedContains(prefix, "!3d" + (lat.Text() + ("!4d" + (lng.Text() + (ZoomPart(zoom) + suffix)))));
    NoStarterOf(AtForm, s, '@');
    FirstMatchNone(AtForm, s);
    EmbedLinkCoords(prefix, lat, lng, zoom, suffix);
    EmbedLinkZoom(prefix, lat, lng, zoom, suffix);
    LocateEmbed(s, backtracks, lat, lng, FirstMatch(EmbedZoomForm, s));
  }

  /** A link whose start mentions `embed` or `pb=` mentions it. */
  lemma EmbedContains(prefix: string, rest: string)
    requires Contains(prefix, "embed") || Contains(prefix, "pb=")
    ensures Contains(prefix + rest, "embed") || Contains(prefix + rest, "pb=")
  {
    if Contains(prefix, "embed") {
      ContainsAppend(prefix, rest, "embed");
    } else {
      ContainsAppend(prefix, rest, "pb=");
    }
  }

  // ---- the three map fields ----

  /** `validateMapFields`: both coordinates numbers within range and the zoom an integer in
      `[1, 21]` — no clamping here. */
  function ValidateMapFields(latVal: string, lngVal: string, zoomVal: string): (ok: bool)
    ensures ok ==> ParseInt(zoomVal).Some? && MinZoom <= ParseInt(zoomVal).value <= MaxZoom
    ensures ok ==> ParseFloat(latVal).Finite? && ParseFloat(lngVal).Finite?
  {
    var lat := ParseFloat(latVal);
    var lng := ParseFloat(lngVal);
    var zoom := ParseInt(zoomVal);
    if lat.NaN? || lng.NaN? || zoom.None? then false
    else if !InRange(lat, 90.0) || !InRange(lng, 180.0) then false
    else MinZoom <= zoom.value <= MaxZoom
  }

  /** `parseFloat(x)` lies within `[-bound, bound]` (an infinity never does). */
  predicate InRange(f: Float, bound: real)
    requires f.Finite? ==> f.num.Valid()
  {
    f.Finite? && -bound <= RealValue(f.num) <= bound
  }

  /** Fields typed as the text of two number tokens and a run of digits pass validation exactly when
      the coordinates lie on the globe and the zoom is in `[1, 21]`. */
  lemma ValidateTokens(lat: Token, lng: Token, zoom: string)
    requires lat.Valid() && lng.Valid() && |zoom| >= 1 && AllDigits(zoom)
    ensures ValidateMapFields(lat.Text(), lng.Text(), zoom)
        <==> -90.0 <= Value(lat) <= 90.0 && -180.0 <= Value(lng) <= 180.0 && MinZoom <= DecimalValue(zoom) <= MaxZoom
  {
    ParseFloatOfToken(lat);
    ParseFloatOfToken(lng);
    ParseIntOfDigits(zoom);
    ValidateParsed(lat.Text(), lng.Text(), zoom, lat.Numeral(), lng.Numeral(), DecimalValue(zoom));
  }

  lemma ValidateParsed(latVal: string, lngVal: string, zoomVal: string, lat: Decimal, lng: Decimal, zoom: int)
    requires lat.Valid() && lng.Valid()
    requires ParseFloat(latVal) == Finite(lat) && ParseFloat(lngVal) == Finite(lng) && ParseInt(zoomVal) == Some(zoom)
    ensures ValidateMapFields(latVal, lngVal, zoomVal)
        <==> -90.0 <= RealValue(lat) <= 90.0 && -180.0 <= RealValue(lng) <= 180.0 && MinZoom <= zoom <= MaxZoom
  {
  }

  /** The fields of a place link pass validation exactly when the link itself parses and its zoom
      needed no clamping. */
  lemma ValidateAgreesWithAtLink(prefix: string, lat: Token, lng: Token, zoom: string, unit: char, suffix: string)
    requires '@' !in prefix
    requires lat.Valid() && lng.Valid() && |zoom| >= 1 && AllDigits(zoom) && ZoomUnit(unit)
    requires Trimmed(AtLink(prefix, lat, lng, zoom, unit, suffix))
    ensures ValidateMapFields(lat.Text(), lng.Text(), zoom)
        <==> ParseGoogleMapsUrl(JStr(AtLink(prefix, lat, lng, zoom, unit, suffix))).Some?
             && MinZoom <= DecimalValue(zoom) <= MaxZoom
  {
    AtLinkRoundTrip(prefix, lat, lng, zoom, unit, suffix);
    ValidateTokens(lat, lng, zoom);
  }
}

=== FILE: num_parse.dfy ===
/** `parseInt(x, 10)` and `parseFloat(x)` on strings, read with exact arithmetic. */
module NumParse {
  import opened Wrappers
  import opened JsText

  /** A decimal numeral `[-]intDigits.fracDigits × 10^exponent`, kept as text so that parsing
      involves no arithmetic. */
  datatype Decimal = Decimal(negative: bool, intDigits: string, fracDigits: string, exponent: int) {
    predicate Valid() {
      AllDigits(intDigits) && AllDigits(fracDigits)
    }
  }

  /** Result of `parseFloat`: not a number, an infinity, or a finite decimal (read exactly:
      IEEE rounding is not modelled). */
  datatype Float = NaN | Infinity(negative: bool) | Finite(num: Decimal)

  /** Length of the run of decimal digits starting at index `i`. */
  function DigitRun(s: string, i: nat): (n: nat)
    requires i <= |s|
    ensures i + n <= |s|
    ensures AllDigits(s[i..i + n])
    ensures i + n == |s| || !IsDigit(s[i + n])
    decreases |s| - i
  {
    if i < |s| && IsDigit(s[i]) then
      var n := 1 + DigitRun(s, i + 1);
      assert s[i..i + n] == [s[i]] + s[i + 1..i + n];
      n
    else 0
  }

  /** A maximal run of digits is found whatever follows it. */
  lemma {:induction false} DigitRunIs(s: string, i: nat, n: nat)
    requires i + n <= |s|
    requires AllDigits(s[i..i + n])
    requires i + n == |s| || !IsDigit(s[i + n])
    ensures DigitRun(s, i) == n
    decreases n
  {
    if n > 0 {
      assert s[i..i + n][0] == s[i];
      assert s[i + 1..i + n] == s[i..i + n][1..];
      DigitRunIs(s, i + 1, n - 1);
    }
  }

  /** `parseInt(s, 10)`: leading white space, an optional sign, then the longest run of digits;
      `None` (NaN) when there is no digit. */
  function ParseInt(s: string): (r: Option<int>)
    ensures r.Some? <==>
      var t := TrimStart(s);
      var k := if t != [] && (t[0] == '-' || t[0] == '+') then 1 else 0;
      k < |t| && IsDigit(t[k])
  {
    ReadInteger(TrimStart(s))
  }

  /** The sign and digit part of `parseInt`, on text that no longer starts with white space. */
  function ReadInteger(t: string): (r: Option<int>)
    ensures r.Some? <==>
      var k := if t != [] && (t[0] == '-' || t[0] == '+') then 1 else 0;
      k < |t| && IsDigit(t[k])
  {
    var k := if t != [] && (t[0] == '-' || t[0] == '+') then 1 else 0;
    var n := DigitRun(t, k);
    if n == 0 then None
    else
      var v: int := DecimalValue(t[k..k + n]);
      Some(if t != [] && t[0] == '-' then -v else v)
  }

  /** Reading back `String(i)` with `parseInt` gives `i`. */
  lemma ParseIntOfIntToString(i: int)
    ensures ParseInt(IntToString(i)) == Some(i)
  {
    var n: nat := if i < 0 then -i else i;
    assert IntToString(i) == (if i < 0 then "-" else "") + NatToString(n);
    NatToStringRoundTrip(n);
    ParseIntOfSigned(i < 0, NatToString(n));
  }

  /** `parseInt` reads an optional minus sign and a run of digits as their value. */
  lemma ParseIntOfSigned(negative: bool, d: string)
    requires |d| >= 1 && AllDigits(d)
    ensures ParseInt((if negative then "-" else "") + d)
         == Some(if negative then -(DecimalValue(d) as int) else DecimalValue(d) as int)
  {
    var s := (if negative then "-" else "") + d;
    assert IsDigit(d[0]);
    assert s[0] == (if negative then '-' else d[0]);
    TrimStartNoSpace(s);
    ReadSigned(negative, d, s);
  }

  lemma ReadSigned(negative: bool, d: string, s: string)
    requires |d| >= 1 && AllDigits(d) && s == (if negative then "-" else "") + d
    ensures ReadInteger(s) == Some(if negative then -(DecimalValue(d) as int) else DecimalValue(d) as int)
  {
    if negative {
      ReadNegative(d, s);
    } else {
      assert s == d;
      ReadUnsigned(d);
    }
  }

  lemma ReadUnsigned(d: string)
    requires |d| >= 1 && AllDigits(d)
    ensures ReadInteger(d) == Some(DecimalValue(d) as int)
  {
    assert IsDigit(d[0]) && d[0] != '-' && d[0] != '+';
    DigitRunAll(d);
    assert d[0..|d|] == d;
  }

  lemma ReadNegative(d: string, s: string)
    requires |d| >= 1 && AllDigits(d) && s == ['-'] + d
    ensures ReadInteger(s) == Some(-(DecimalValue(d) as int))
  {
    assert s != [] && s[0] == '-';
    assert s[1..] == d;
    DigitRunShift(s, 1, d);
    assert IsDigit(s[1]);
  }

  /** `v * 10^e` for any integer exponent, one power of ten at a time. */
  function Scale(v: real, e: int): real
    decreases if e >= 0 then e else -e
  {
    if e == 0 then v else if e > 0 then Scale(v * 10.0, e - 1) else Scale(v / 10.0, e + 1)
  }

  /** The value of the digits after a decimal point: `0.d1d2…`. */
  function FractionValue(f: string): (v: real)
    requires AllDigits(f)
    ensures 0.0 <= v <= 1.0
  {
    if f == [] then 0.0 else (DigitValue(f[0]) as real + FractionValue(f[1..])) / 10.0
  }

  /** The value of `intDigits.fracDigits`. */
  function MantissaValue(intDigits: string, fracDigits: string): real
    requires AllDigits(intDigits) && AllDigits(fracDigits)
  {
    DecimalValue(intDigits) as real + FractionValue(fracDigits)
  }

  /** The real number a decimal numeral denotes. */
  function RealValue(d: Decimal): real
    requires d.Valid()
  {
    var v := Scale(MantissaValue(d.intDigits, d.fracDigits), d.exponent);
    if d.negative then -v else v
  }

  /** The exponent part (`e`/`E`, optional sign, at least one digit) starting at `m`; `0` when
      there is none, since `parseFloat` then stops before the `e`. */
  function ExponentAt(u: string, m: nat): int
    requires m <= |u|
  {
    if m < |u| && (u[m] == 'e' || u[m] == 'E') then
      var p := m + 1;
      var signed := p < |u| && (u[p] == '+' || u[p] == '-');
      var q := if signed then p + 1 else p;
      var d := DigitRun(u, q);
      if d == 0 then 0
      else
        var e: int := DecimalValue(u[q..q + d]);
        if signed && u[p] == '-' then -e else e
    else 0
  }

  /** The unsigned part of `parseFloat`: the longest prefix of `u` of the shape
      `digits[.digits][exponent]` or `.digits[exponent]`; `None` (NaN) when there is none. */
  function ParseUnsigned(u: string, negative: bool): (r: Option<Decimal>)
    ensures r.Some? ==> r.value.Valid() && r.value.negative == negative
    ensures r.Some? <==> (u != [] && IsDigit(u[0])) || (|u| >= 2 && u[0] == '.' && IsDigit(u[1]))
  {
    var a := DigitRun(u, 0);
    var hasDot := a < |u| && u[a] == '.';
    var b := if hasDot then DigitRun(u, a + 1) else 0;
    if a + b == 0 then None
    else
      var m := if hasDot then a + 1 + b else a;
      Some(Decimal(negative, u[..a], if hasDot then u[a + 1..a + 1 + b] else "", ExponentAt(u, m)))
  }

  /** `parseFloat(s)`: leading white space, an optional sign, then `Infinity` or an unsigned
      decimal prefix. */
  function ParseFloat(s: string): (r: Float)
    ensures r.Finite? ==> r.num.Valid()
  {
    var t := TrimStart(s);
    var neg := t != [] && t[0] == '-';
    var k := if t != [] && (t[0] == '-' || t[0] == '+') then 1 else 0;
    var u := t[k..];
    if StartsWith(u, "Infinity") then Infinity(neg)
    else
      match ParseUnsigned(u, neg)
      case None => NaN
      case Some(d) => Finite(d)
  }

  /** A decimal number as the map-link patterns capture it, `-?\d+(\.\d*)?`, split into its parts. */
  datatype Token = Token(negative: bool, intDigits: string, dot: bool, fracDigits: string) {
    predicate Valid() {
      |intDigits| >= 1 && AllDigits(intDigits) && AllDigits(fracDigits) && (!dot ==> fracDigits == "")
    }

    /** The text after the sign. */
    function Unsigned(): string {
      intDigits + (if dot then "." + fracDigits else "")
    }

    function Text(): string {
      (if negative then "-" else "") + Unsigned()
    }

    /** The numeral the token spells. */
    function Numeral(): Decimal {
      Decimal(negative, intDigits, fracDigits, 0)
    }
  }

  /** Where the parts of `digits.fraction` sit. */
  lemma SplitAtDot(a: string, f: string, u: string)
    requires |a| >= 1 && AllDigits(a) && AllDigits(f) && u == a + "." + f
    ensures |u| == |a| + 1 + |f| && u[..|a|] == a && u[|a|] == '.' && u[|a| + 1..|a| + 1 + |f|] == f
    ensures DigitRun(u, 0) == |a| && DigitRun(u, |a| + 1) == |f|
  {
    assert u[..|a|] == a;
    DigitRunIs(u, 0, |a|);
    assert u[|a| + 1..|a| + 1 + |f|] == f;
    DigitRunIs(u, |a| + 1, |f|);
  }

  lemma UnsignedOfToken(t: Token)
    requires t.Valid()
    ensures ParseUnsigned(t.Unsigned(), t.negative) == Some(t.Numeral())
  {
    if t.dot {
      UnsignedWithDot(t.intDigits, t.fracDigits, t.Unsigned(), t.negative);
    } else {
      assert t.Unsigned() == t.intDigits;
      UnsignedDigits(t.intDigits, t.negative);
    }
  }

  lemma UnsignedDigits(a: string, negative: bool)
    requires |a| >= 1 && AllDigits(a)
    ensures ParseUnsigned(a, negative) == Some(Decimal(negative, a, "", 0))
  {
    DigitRunAll(a);
    assert a[..|a|] == a;
    assert ExponentAt(a, |a|) == 0;
  }

  lemma UnsignedWithDot(a: string, f: string, u: string, negative: bool)
    requires |a| >= 1 && AllDigits(a) && AllDigits(f) && u == a + "." + f
    ensures ParseUnsigned(u, negative) == Some(Decimal(negative, a, f, 0))
  {
    SplitAtDot(a, f, u);
    UnsignedRuns(u, |a|, |f|, negative);
  }

  /** `ParseUnsigned` once the two digit runs around the dot are known. */
  lemma UnsignedRuns(u: string, n: nat, k: nat, negative: bool)
    requires n >= 1 && |u| == n + 1 + k && u[n] == '.'
    requires DigitRun(u, 0) == n && DigitRun(u, n + 1) == k
    ensures ParseUnsigned(u, negative) == Some(Decimal(negative, u[..n], u[n + 1..], 0))
  {
    UnsignedRunsFields(u, n, k, negative);
    SomeDecimal(ParseUnsigned(u, negative), Decimal(negative, u[..n], u[n + 1..], 0));
  }

  lemma UnsignedRunsFields(u: string, n: nat, k: nat, negative: bool)
    requires n >= 1 && |u| == n + 1 + k && u[n] == '.'
    requires DigitRun(u, 0) == n && DigitRun(u, n + 1) == k
    ensures var r := ParseUnsigned(u, negative);
      r.Some? && r.value.negative == negative && r.value.intDigits == u[..n]
      && r.value.fracDigits == u[n + 1..] && r.value.exponent == 0
  {
    var r := ParseUnsigned(u, negative);
    assert r.Some? && r.value.intDigits == u[..n];
    assert r.value.fracDigits == u[n + 1..n + 1 + k] == u[n + 1..];
    assert r.value.exponent == ExponentAt(u, |u|) == 0;
  }

  /** Two numerals with the same parts are the same numeral. */
  lemma SomeDecimal(r: Option<Decimal>, d: Decimal)
    requires r.Some? && r.value.negative == d.negative && r.value.intDigits == d.intDigits
    requires r.value.fracDigits == d.fracDigits && r.value.exponent == d.exponent
    ensures r == Some(d)
  {
  }

  /** Where the sign and the unsigned part of a token's text sit. */
  lemma TextSplit(t: Token)
    requires t.Valid()
    ensures |t.Text()| >= 1 && t.Unsigned() != [] && t.Unsigned()[0] == t.intDigits[0]
    ensures t.Text()[0] == (if t.negative then '-' else t.intDigits[0])
    ensures t.Text()[if t.negative then 1 else 0..] == t.Unsigned()
  {
    assert t.Unsigned()[0] == t.intDigits[0];
  }

  /** A string that does not start with white space is its own `trimStart`. */
  lemma TrimStartNoSpace(s: string)
    requires s == [] || !IsSpace(s[0])
    ensures TrimStart(s) == s
  {
  }

  /** `parseFloat` reads a decimal token as exactly the numeral it spells (never NaN). */
  lemma ParseFloatOfToken(t: Token)
    requires t.Valid()
    ensures ParseFloat(t.Text()) == Finite(t.Numeral())
  {
    TextSplit(t);
    assert IsDigit(t.intDigits[0]);
    assert (t.Text()[0] == '-' || t.Text()[0] == '+') == t.negative;
    TrimStartNoSpace(t.Text());
    FirstCharBlocksPrefix(t.Unsigned(), "Infinity");
    UnsignedOfToken(t);
  }

  /** `parseInt` reads a run of digits as its decimal value. */
  lemma ParseIntOfDigits(d: string)
    requires |d| >= 1 && AllDigits(d)
    ensures ParseInt(d) == Some(DecimalValue(d))
  {
    assert IsDigit(d[0]);
    TrimStartNoSpace(d);
    ReadIntegerOfDigits(d);
  }

  /** The sign-and-digits step of `ParseIntOfDigits`. */
  lemma ReadIntegerOfDigits(d: string)
    requires |d| >= 1 && AllDigits(d)
    ensures ReadInteger(d) == Some(DecimalValue(d))
  {
    assert IsDigit(d[0]) && d[0] != '-' && d[0] != '+';
    DigitRunAll(d);
    assert d[0..|d|] == d;
  }

  /** A digit run read at `k` of `s` is the run of the suffix starting there. */
  lemma DigitRunShift(s: string, k: nat, d: string)
    requires k <= |s| && s[k..] == d && AllDigits(d)
    ensures DigitRun(s, k) == |d| && s[k..k + |d|] == d
  {
    assert s[k..k + |d|] == d;
    DigitRunIs(s, k, |d|);
  }

  lemma DigitRunAll(d: string)
    requires AllDigits(d)
    ensures DigitRun(d, 0) == |d|
  {
    assert d[0..|d|] == d;
    DigitRunIs(d, 0, |d|);
  }

  // `Number(text)`: StringToNumber, section 7.1.4.1.1 of ECMAScript 2024

  /** The base a `0x`, `0o` or `0b` prefix letter selects; 0 for any other character. */
  function RadixOf(c: char): nat {
    if c == 'x' || c == 'X' then 16 else if c == 'o' || c == 'O' then 8 else if c == 'b' || c == 'B' then 2 else 0
  }

  /** The value of a digit or letter in bases up to 36; 36 for anything that is no digit. */
  function DigitOf(c: char): nat {
    if '0' <= c <= '9' then c as nat - '0' as nat
    else if 'a' <= c <= 'z' then c as nat - 'a' as nat + 10
    else if 'A' <= c <= 'Z' then c as nat - 'A' as nat + 10
    else 36
  }

  predicate RadixDigits(s: string, base: nat) {
    forall i :: 0 <= i < |s| ==> DigitOf(s[i]) < base
  }

  /** The value of a run of digits in base `base`, most significant first. */
  function RadixValue(s: string, base: nat): nat {
    if s == [] then 0 else RadixValue(s[..|s| - 1], base) * base + DigitOf(s[|s| - 1])
  }

  /** `0x`/`0o`/`0b` followed by at least one digit of that base, and nothing else. */
  predicate IsRadixLiteral(t: string) {
    |t| >= 3 && t[0] == '0' && RadixOf(t[1]) != 0 && RadixDigits(t[2..], RadixOf(t[1]))
  }

  /** The exponent of a literal that must end at or after `m`: 0 when `m` is the end, the
      value of `e`/`E`, an optional sign and digits reaching exactly to the end, else `None`. */
  function WholeExponent(u: string, m: nat): (r: Option<int>)
    requires m <= |u|
    ensures r.Some? ==> r.value == ExponentAt(u, m)
  {
    if m == |u| then Some(0)
    else if u[m] == 'e' || u[m] == 'E' then
      var p := m + 1;
      var signed := p < |u| && (u[p] == '+' || u[p] == '-');
      var q := if signed then p + 1 else p;
      var d := DigitRun(u, q);
      if d == 0 || q + d != |u| then None
      else
        var e: int := DecimalValue(u[q..q + d]);
        Some(if signed && u[p] == '-' then -e else e)
    else None
  }

  /** The whole of `u` as `digits[.digits][exponent]` or `.digits[exponent]`. */
  function DecimalLiteral(u: string, negative: bool): (r: Option<Decimal>)
    ensures r.Some? ==> r.value.Valid() && r.value.negative == negative
    ensures r.Some? ==> |u| >= 1 && (IsDigit(u[0]) || u[0] == '.')
  {
    var a := DigitRun(u, 0);
    var hasDot := a < |u| && u[a] == '.';
    var b := if hasDot then DigitRun(u, a + 1) else 0;
    var m := if hasDot then a + 1 + b else a;
    if a + b == 0 then None
    else
      match WholeExponent(u, m)
      case None => None
      case Some(e) => Some(Decimal(negative, u[..a], if hasDot then u[a + 1..a + 1 + b] else "", e))
  }

  /** A whole decimal literal is what `parseFloat`'s unsigned reader takes from the same text. */
  lemma DecimalLiteralIsParseUnsigned(u: string, negative: bool)
    requires DecimalLiteral(u, negative).Some?
    ensures ParseUnsigned(u, negative) == DecimalLiteral(u, negative)
  {
    var a := DigitRun(u, 0);
    var hasDot := a < |u| && u[a] == '.';
    var b := if hasDot then DigitRun(u, a + 1) else 0;
    var m := if hasDot then a + 1 + b else a;
    var d := DecimalLiteral(u, negative).value;
    assert WholeExponent(u, m) == Some(d.exponent);
    assert ExponentAt(u, m) == d.exponent;
    SomeDecimal(ParseUnsigned(u, negative), d);
  }

  /** The whole of `t` as a StringNumericLiteral: a radix integer, an optional sign and
      `Infinity`, or an optional sign and a decimal literal. `t` is already trimmed and not
      blank; anything else is NaN. */
  function NumericLiteral(t: string): (r: Float)
    ensures r.Finite? ==> r.num.Valid()
    ensures IsRadixLiteral(t) ==> r == Finite(Decimal(false, NatToString(RadixValue(t[2..], RadixOf(t[1]))), "", 0))
  {
    if |t| >= 3 && t[0] == '0' && RadixOf(t[1]) != 0 then
      var base := RadixOf(t[1]);
      if RadixDigits(t[2..], base) then Finite(Decimal(false, NatToString(RadixValue(t[2..], base)), "", 0))
      else NaN
    else
      var neg := t != [] && t[0] == '-';
      var k := if t != [] && (t[0] == '-' || t[0] == '+') then 1 else 0;
      var u := t[k..];
      if u == "Infinity" then Infinity(neg)
      else
        match DecimalLiteral(u, neg)
        case None => NaN
        case Some(d) => Finite(d)
  }

  /** Where `Number` reads a decimal literal (not a radix one), `parseFloat` reads the same
      numeral: the literal is then exactly the prefix `parseFloat` stops after. */
  lemma NumericLiteralIsParseFloat(t: string)
    requires t != [] && !IsSpace(t[0])
    requires !(|t| >= 3 && t[0] == '0' && RadixOf(t[1]) != 0)
    requires NumericLiteral(t).Finite?
    ensures ParseFloat(t) == NumericLiteral(t)
  {
    TrimStartNoSpace(t);
    var k := if t[0] == '-' || t[0] == '+' then 1 else 0;
    var u := t[k..];
    assert u != "Infinity";
    assert DecimalLiteral(u, t[0] == '-').Some?;
    assert !StartsWith(u, "Infinity") by {
      assert u[0] != 'I';
      FirstCharBlocksPrefix(u, "Infinity");
    }
    DecimalLiteralIsParseUnsigned(u, t[0] == '-');
  }

  /** An optional sign and a run of digits is read as that integer. */
  lemma IntegerLiteral(negative: bool, plus: bool, digits: string)
    requires digits != [] && AllDigits(digits)
    requires !(negative && plus)
    ensures var t := (if negative then "-" else if plus then "+" else "") + digits;
      NumericLiteral(t) == Finite(Decimal(negative, digits, "", 0))
  {
    var t := (if negative then "-" else if plus then "+" else "") + digits;
    var k := if negative || plus then 1 else 0;
    assert t[k..] == digits;
    assert t[0] == (if negative then '-' else if plus then '+' else digits[0]);
    assert |t| >= 3 && t[0] == '0' ==> t[1] == digits[1];
    DigitsLiteral(digits, negative);
    SignedLiteral(t, k, digits, negative);
  }

  /** A run of digits is a whole decimal literal. */
  lemma DigitsLiteral(digits: string, negative: bool)
    requires digits != [] && AllDigits(digits)
    ensures digits != "Infinity" && DecimalLiteral(digits, negative) == Some(Decimal(negative, digits, "", 0))
  {
    assert IsDigit(digits[0]) && !IsDigit('I');
    DigitRunAll(digits);
    assert digits[..|digits|] == digits;
  }

  /** `NumericLiteral` of a non-radix text whose unsigned part is a whole decimal literal. */
  lemma SignedLiteral(t: string, k: nat, u: string, negative: bool)
    requires k <= 1 && k <= |t| && t[k..] == u && u != "Infinity"
    requires k == 1 <==> t != [] && (t[0] == '-' || t[0] == '+')
    requires negative <==> t != [] && t[0] == '-'
    requires !(|t| >= 3 && t[0] == '0' && RadixOf(t[1]) != 0)
    requires DecimalLiteral(u, negative).Some?
    ensures NumericLiteral(t) == Finite(DecimalLiteral(u, negative).value)
  {
  }

  function Pow10(e: nat): nat {
    if e == 0 then 1 else 10 * Pow10(e - 1)
  }

  /** A non-negative exponent multiplies an integer by a power of ten. */
  lemma {:induction false} ScaleUp(k: int, e: nat)
    ensures Scale(k as real, e) == (k * Pow10(e)) as real
    decreases e
  {
    if e > 0 {
      assert k as real * 10.0 == (k * 10) as real;
      ScaleUp(k * 10, e - 1);
      assert k * 10 * Pow10(e - 1) == k * Pow10(e);
    }
  }

  predicate AllZeros(f: string) {
    forall i :: 0 <= i < |f| ==> f[i] == '0'
  }

  /** Trailing zeros after the point add nothing. */
  lemma {:induction false} FractionOfZeros(f: string)
    requires AllZeros(f)
    ensures AllDigits(f) && FractionValue(f) == 0.0
  {
    if f != [] {
      FractionOfZeros(f[1..]);
    }
  }

  /** `digits.digits` is read whole, with no exponent. */
  lemma FractionLiteral(a: string, f: string)
    requires |a| >= 1 && AllDigits(a) && AllDigits(f)
    ensures NumericLiteral(a + "." + f) == Finite(Decimal(false, a, f, 0))
  {
    var t := a + "." + f;
    SplitAtDot(a, f, t);
    assert IsDigit(t[0]) && !IsDigit('I');
    assert |t| >= 3 && t[0] == '0' ==> t[1] == '.' || IsDigit(t[1]);
    assert t[0..] == t;
    FractionDecimal(a, f, t);
    SignedLiteral(t, 0, t, false);
  }

  lemma FractionDecimal(a: string, f: string, t: string)
    requires |a| >= 1 && AllDigits(a) && AllDigits(f) && |t| == |a| + 1 + |f|
    requires t[..|a|] == a && t[|a|] == '.' && t[|a| + 1..|a| + 1 + |f|] == f
    requires DigitRun(t, 0) == |a| && DigitRun(t, |a| + 1) == |f|
    ensures DecimalLiteral(t, false) == Some(Decimal(false, a, f, 0))
  {
    assert WholeExponent(t, |t|) == Some(0);
  }

  /** `digits` `e` `digits` is read whole, with that exponent. */
  lemma ExponentLiteral(a: string, x: string)
    requires |a| >= 1 && AllDigits(a) && |x| >= 1 && AllDigits(x)
    ensures NumericLiteral(a + "e" + x) == Finite(Decimal(false, a, "", DecimalValue(x)))
  {
    var t := a + "e" + x;
    ExponentRuns(a, x);
    assert t[..|a|] == a;
    LiteralOfRuns(t, a, DecimalValue(x));
  }

  /** A literal starting with a digit run `a` that an exponent ends. */
  lemma LiteralOfRuns(t: string, a: string, e: int)
    requires |a| >= 1 && AllDigits(a) && |a| < |t| && t[..|a|] == a && t[|a|] == 'e'
    requires DigitRun(t, 0) == |a| && WholeExponent(t, |a|) == Some(e)
    ensures NumericLiteral(t) == Finite(Decimal(false, a, "", e))
  {
    assert IsDigit(t[0]) by {
      assert t[0] == a[0];
    }
    assert RadixOf(t[1]) == 0 by {
      if |a| > 1 {
        assert t[1] == a[1];
      }
    }
    assert t[0..] == t;
    assert t != "Infinity" by {
      assert !IsDigit('I');
    }
    assert DecimalLiteral(t, false) == Some(Decimal(false, a, "", e));
  }

  /** The digit run and the exponent of `digits` `e` `digits`. */
  lemma ExponentRuns(a: string, x: string)
    requires |a| >= 1 && AllDigits(a) && |x| >= 1 && AllDigits(x)
    ensures var t := a + "e" + x;
      IsDigit(t[0]) && DigitRun(t, 0) == |a| && t[|a|] == 'e' && WholeExponent(t, |a|) == Some(DecimalValue(x) as int)
  {
    var t := a + "e" + x;
    assert t[0..|a|] == a && t[|a|] == 'e' && t[|a| + 1..] == x;
    assert IsDigit(t[0]) by {
      assert t[0] == a[0];
    }
    ExponentRunsOf(t, a, x);
  }

  lemma ExponentRunsOf(t: string, a: string, x: string)
    requires |a| >= 1 && AllDigits(a) && |x| >= 1 && AllDigits(x)
    requires |t| == |a| + 1 + |x| && t[0..|a|] == a && t[|a|] == 'e' && t[|a| + 1..] == x
    ensures DigitRun(t, 0) == |a| && WholeExponent(t, |a|) == Some(DecimalValue(x) as int)
  {
    DigitRunIs(t, 0, |a|);
    ExponentDigits(t, |a|, x);
  }

  /** An `e`, no sign, and digits to the end make a whole exponent. */
  lemma ExponentDigits(t: string, m: nat, x: string)
    requires |x| >= 1 && AllDigits(x)
    requires |t| == m + 1 + |x| && t[m] == 'e' && t[m + 1..] == x
    ensures WholeExponent(t, m) == Some(DecimalValue(x) as int)
  {
    DigitRunShift(t, m + 1, x);
    assert t[m + 1] == x[0] && IsDigit(t[m + 1]);
  }
}

=== FILE: order_page.dfy ===
/** The Next.js checkout page: it reads the checkout copy of the cart once mounted, totals it, checks
    the form and sends the order through the client of the orders API, then either goes home or
    shows the error it was given. React state is a value and each handler is a transition on it. */
module OrderPage {
  import opened Wrappers
  import opened JsText
  import opened JsonValue
  import Cart
  import Checkout
  import SubmitOrder
  import OrdersApi
  import Store

  const FieldsAlert: string := "Please enter full name, phone, and city."
  const PhoneAlert: string := "Please enter a valid phone number."
  const EmptyCartAlert: string := "Your cart is empty. Add products before checkout."
  const NotSavedAlert: string := "Order could not be saved. Please try again or contact us."
  const NetworkAlert: string := "Network error. Please try again."
  const SubmittedAlert: string := "Order submitted successfully! We will contact you soon."
  const TimeoutMs: int := 20000

  /** `getCartFromStorage`: nothing without a `window`; otherwise the session's checkout copy, read
      the same way as on the static checkout page. */
  function CartFromStorage(hasWindow: bool, slot: Option<string>, parse: string -> Option<Json>): (items: Json)
    ensures !hasWindow ==> items == JArr([])
    ensures hasWindow ==> items == Checkout.CheckoutItems(slot, parse)
  {
    if hasWindow then Checkout.CheckoutItems(slot, parse) else JArr([])
  }

  /** The reducer's running sum over the remaining items: `sum + (item.price || 0) * (item.quantity
      || 0)`, with `None` for the `TypeError` of reading a property of a missing item. */
  function SumFrom(items: seq<Json>, sum: Num): Option<Num> {
    if items == [] then Some(sum)
    else if IsNullish(items[0]) then None
    else SumFrom(items[1..], Add(sum, Term(items[0])))
  }

  /** The reduction throws exactly when some item is missing. */
  lemma {:induction false} SumFromFails(items: seq<Json>, sum: Num)
    ensures SumFrom(items, sum).None? <==> exists i :: 0 <= i < |items| && IsNullish(items[i])
  {
    if items != [] && !IsNullish(items[0]) {
      SumFromFails(items[1..], Add(sum, Term(items[0])));
      assert forall i :: 1 <= i < |items| ==> items[i] == items[1..][i - 1];
      if SumFrom(items, sum).None? {
        var j :| 0 <= j < |items[1..]| && IsNullish(items[1..][j]);
        assert IsNullish(items[j + 1]);
      }
    }
  }

  /** `(item.price || 0) * (item.quantity || 0)`. */
  function Term(item: Json): Num {
    Mul(ToNumber(Or(Field(item, "price"), JNum(0))), ToNumber(Or(Field(item, "quantity"), JNum(0))))
  }

  /** `getCartTotal`: `(items || []).reduce(...)` from 0. A truthy value that is not an array has
      no `reduce`, so that throws too. */
  function CartTotal(items: Json): (r: Option<Num>)
    ensures !Truthy(items) ==> r == Some(Int(0))
    ensures Truthy(items) && !items.JArr? ==> r.None?
  {
    if !Truthy(items) then Some(Int(0))
    else if !items.JArr? then None
    else SumFrom(items.items, Int(0))
  }

  /** The stored form of a cart. */
  function CartJson(cart: seq<Cart.Line>): (j: Json)
    ensures j.JArr? && |j.items| == |cart|
    ensures forall i :: 0 <= i < |cart| ==> j.items[i] == Cart.LineJson(cart[i])
  {
    JArr(seq(|cart|, i requires 0 <= i < |cart| => Cart.LineJson(cart[i])))
  }

  /** Each item is present and contributes its line's price times quantity. */
  predicate TermsMatch(items: seq<Json>, cart: seq<Cart.Line>) {
    |items| == |cart|
    && forall i :: 0 <= i < |items| ==> !IsNullish(items[i]) && Term(items[i]) == Int(cart[i].price * cart[i].quantity)
  }

  /** Summing items whose terms are the lines' price times quantity adds the lines' total. */
  lemma {:induction false} SumFromLines(items: seq<Json>, cart: seq<Cart.Line>, sum: Num)
    requires sum.Int? && TermsMatch(items, cart)
    ensures SumFrom(items, sum) == Some(Int(sum.i + Cart.Total(cart)))
  {
    if cart != [] {
      var next := Int(sum.i + cart[0].price * cart[0].quantity);
      assert Add(sum, Term(items[0])) == next;
      assert SumFrom(items, sum) == SumFrom(items[1..], next);
      assert TermsMatch(items[1..], cart[1..]);
      SumFromLines(items[1..], cart[1..], next);
    }
  }

  /** The reducer's term for a stored line is its price times its quantity. */
  lemma LineTerm(l: Cart.Line)
    ensures var item := Cart.LineJson(l);
      !IsNullish(item) && Term(item) == Int(l.price * l.quantity)
  {
    Cart.LineJsonFields(l);
  }

  /** The page's total of a stored cart is the cart's own total: the two pages agree on what is
      owed. */
  lemma CartTotalOfStoredCart(cart: seq<Cart.Line>)
    ensures CartTotal(CartJson(cart)) == Some(Int(Cart.Total(cart)))
  {
    StoredTerms(cart);
    TotalOfTerms(CartJson(cart), cart);
  }

  lemma StoredTerms(cart: seq<Cart.Line>)
    ensures TermsMatch(CartJson(cart).items, cart)
  {
    var items := CartJson(cart).items;
    forall i | 0 <= i < |items|
      ensures !IsNullish(items[i]) && Term(items[i]) == Int(cart[i].price * cart[i].quantity)
    {
      LineTerm(cart[i]);
    }
  }

  /** An array whose terms match the lines totals to the lines' total. */
  lemma TotalOfTerms(j: Json, cart: seq<Cart.Line>)
    requires j.JArr? && TermsMatch(j.items, cart)
    ensures CartTotal(j) == Some(Int(Cart.Total(cart)))
  {
    SumFromLines(j.items, cart, Int(0));
    TotalOfSum(j, Cart.Total(cart));
  }

  lemma TotalOfSum(j: Json, t: int)
    requires j.JArr? && SumFrom(j.items, Int(0)) == Some(Int(Int(0).i + t))
    ensures CartTotal(j) == Some(Int(t))
  {
  }

  /** The page's state: mounted, the items and total read on mount, whether a submission is in
      flight and the order it sends, the error shown, the session slot, where the router went and
      the last alert. */
  datatype State = State(
    mounted: bool, cartItems: Json, total: Num, submitting: bool, pending: Option<seq<(string, Json)>>,
    error: Json, checkoutCart: Option<string>, route: Option<string>, alert: Option<string>)

  /** The state on first render: an empty cart, nothing in flight, no error. */
  function Initial(checkoutCart: Option<string>): (s: State)
    ensures !s.mounted && !s.submitting && s.error == JNull && s.cartItems == JArr([])
  {
    State(false, JArr([]), Int(0), false, None, JNull, checkoutCart, None, None)
  }

  /** The two mount effects: the items are read from the session and totalled. `None` is the
      effect throwing while totalling. */
  function Mount(s: State, hasWindow: bool, parse: string -> Option<Json>): (r: Option<State>)
    ensures r.Some? ==> r.value.mounted && r.value.cartItems == CartFromStorage(hasWindow, s.checkoutCart, parse)
    ensures r.Some? <==> CartTotal(CartFromStorage(hasWindow, s.checkoutCart, parse)).Some?
    ensures r.Some? ==> r.value.total == CartTotal(r.value.cartItems).value
  {
    var items := CartFromStorage(hasWindow, s.checkoutCart, parse);
    match CartTotal(items)
    case None => None
    case Some(total) => Some(s.(mounted := true, cartItems := items, total := total))
  }

  /** The form's inputs; a missing input reads as the empty string. */
  datatype Form = Form(fullName: Option<string>, phone: Option<string>, city: Option<string>, notes: Option<string>)

  /** `(input && input.value || '').trim()`. */
  function Entered(field: Option<string>): (r: string)
    ensures Trimmed(r)
    ensures field.Some? ==> r == Trim(field.value)
  {
    Checkout.Entered(field)
  }

  /** How the total travels in the request body: `JSON.stringify` writes `NaN` as `null`. */
  function TotalJson(total: Num): (j: Json)
    ensures total.Int? ==> j == JNum(total.i)
    ensures total.NaN? ==> j == JNull
  {
    if total.Int? then JNum(total.i) else JNull
  }

  /** The order object the handler sends: trimmed contact fields and notes, the items and total
      read on mount, and the timestamp. */
  function OrderData(f: Form, items: Json, total: Num, date: string): (order: seq<(string, Json)>)
    ensures |order| == 7
    ensures order[0] == ("fullName", JStr(Entered(f.fullName))) && order[1] == ("phone", JStr(Entered(f.phone)))
    ensures order[2] == ("city", JStr(Entered(f.city))) && order[3] == ("notes", JStr(Entered(f.notes)))
    ensures order[4] == ("items", items) && order[5] == ("total", TotalJson(total)) && order[6] == ("date", JStr(date))
  {
    [("fullName", JStr(Entered(f.fullName))), ("phone", JStr(Entered(f.phone))), ("city", JStr(Entered(f.city))),
     ("notes", JStr(Entered(f.notes))), ("items", items), ("total", TotalJson(total)), ("date", JStr(date))]
  }

  /** The three required contact fields are non-empty once trimmed. */
  predicate FieldsGiven(f: Form) {
    Entered(f.fullName) != "" && Entered(f.phone) != "" && Entered(f.city) != ""
  }

  /** `handleSubmit` up to the request: ignored while submitting; the contact fields are required,
      the phone must match the pattern and the cart must have a length. Reading the length of a
      missing cart throws, which is `None`. An accepted form clears the error and goes in flight. */
  function Submit(s: State, f: Form, date: string): (r: Option<State>)
    ensures s.submitting ==> r == Some(s)
    ensures r.None? <==> !s.submitting && Entered(f.fullName) != "" && Entered(f.phone) != "" && Entered(f.city) != ""
                         && Checkout.PhoneLike(Entered(f.phone)) && IsNullish(s.cartItems)
    ensures r.Some? ==> r.value.checkoutCart == s.checkoutCart && r.value.route == s.route && r.value.cartItems == s.cartItems
    ensures r.Some? && !s.submitting && (Entered(f.fullName) == "" || Entered(f.phone) == "" || Entered(f.city) == "") ==>
      r.value == s.(error := JStr(FieldsAlert))
    ensures r.Some? && !s.submitting && r.value.submitting ==>
      Entered(f.fullName) != "" && Checkout.PhoneLike(Entered(f.phone)) && Entered(f.city) != ""
      && Truthy(Store.JsLength(s.cartItems)) && r.value.error == JNull
      && r.value.pending == Some(OrderData(f, s.cartItems, s.total, date))
    ensures !s.submitting && FieldsGiven(f) && !Checkout.PhoneLike(Entered(f.phone)) ==>
      r == Some(s.(error := JStr(PhoneAlert)))
    ensures !s.submitting && FieldsGiven(f) && Checkout.PhoneLike(Entered(f.phone))
            && !IsNullish(s.cartItems) && !Truthy(Store.JsLength(s.cartItems)) ==>
      r == Some(s.(error := JStr(EmptyCartAlert)))
    ensures !s.submitting && FieldsGiven(f) && Checkout.PhoneLike(Entered(f.phone))
            && !IsNullish(s.cartItems) && Truthy(Store.JsLength(s.cartItems)) ==>
      r == Some(s.(error := JNull, submitting := true, pending := Some(OrderData(f, s.cartItems, s.total, date))))
  {
    if s.submitting then Some(s)
    else
      var name := Entered(f.fullName);
      var phone := Entered(f.phone);
      var city := Entered(f.city);
      if name == "" || phone == "" || city == "" then Some(s.(error := JStr(FieldsAlert)))
      else if !Checkout.PhoneLike(phone) then Some(s.(error := JStr(PhoneAlert)))
      else if IsNullish(s.cartItems) then None
      else if !Truthy(Store.JsLength(s.cartItems)) then Some(s.(error := JStr(EmptyCartAlert)))
      else Some(s.(error := JNull, submitting := true, pending := Some(OrderData(f, s.cartItems, s.total, date))))
  }

  /** The request body for the pending order: the order with the client's device attached, since the
      page always asks for the debug field. */
  function RequestBody(order: seq<(string, Json)>, apiBase: string, device: string): (body: seq<(string, Json)>)
    ensures Lookup(body, "_debugDevice") == JStr(device)
    ensures forall k :: k != "_debugDevice" ==> Lookup(body, k) == Lookup(order, k)
  {
    SubmitOrder.OrderPayload(order, JBool(true), apiBase, device).body
  }

  /** What awaiting `submitOrder` gave: its result, or the rejection it threw with that error's
      message. */
  datatype Settled = Resolved(result: SubmitOrder.Submitted) | Rejected(message: string)

  /** The rest of `handleSubmit`: a result with success and an id clears the session copy, thanks
      the customer and goes home; any other result shows its error or a fixed message; a rejection
      shows its message or the network message. The `finally` always ends the submission. */
  function Finish(s: State, settled: Settled): (r: State)
    ensures !r.submitting && r.pending.None?
    ensures r.cartItems == s.cartItems && r.total == s.total
    ensures r.route == Some("/") <==> s.route == Some("/") || (settled.Resolved? && settled.result.success && Truthy(settled.result.id))
    ensures settled.Resolved? && settled.result.success && Truthy(settled.result.id) ==>
      r.checkoutCart.None? && r.alert == Some(SubmittedAlert) && r.error == s.error
    ensures settled.Resolved? && !(settled.result.success && Truthy(settled.result.id)) ==>
      r.error == Or(settled.result.error, JStr(NotSavedAlert)) && r.checkoutCart == s.checkoutCart
    ensures settled.Rejected? ==>
      r.error == JStr(if settled.message != "" then settled.message else NetworkAlert) && r.checkoutCart == s.checkoutCart
  {
    var done := s.(submitting := false, pending := None);
    match settled
    case Resolved(result) =>
      if result.success && Truthy(result.id) then
        done.(checkoutCart := None, alert := Some(SubmittedAlert), route := Some("/"))
      else done.(error := Or(result.error, JStr(NotSavedAlert)))
    case Rejected(message) =>
      done.(error := JStr(if message != "" then message else NetworkAlert))
  }

  /** How a settled submission reaches the page: the client's result, or, when the client itself
      rejects, the engine's message. */
  function SettledOf(result: Option<SubmitOrder.Submitted>, rejectMessage: string): (st: Settled)
    ensures result.Some? ==> st == Resolved(result.value)
    ensures result.None? ==> st == Rejected(rejectMessage)
  {
    if result.Some? then Resolved(result.value) else Rejected(rejectMessage)
  }

  /** A submission in flight ignores a second submit, so at most one order is sent per click
      sequence the page sees. */
  lemma SecondSubmitIgnored(s: State, f: Form, g: Form, date: string, date2: string)
    requires Submit(s, f, date).Some? && Submit(s, f, date).value.submitting
    ensures Submit(Submit(s, f, date).value, g, date2) == Submit(s, f, date)
  {
  }

  /** The page is in flight exactly when it holds an order to send, before and after each handler. */
  predicate Consistent(s: State) {
    s.submitting <==> s.pending.Some?
  }

  lemma HandlersKeepConsistent(s: State, f: Form, date: string, settled: Settled)
    requires Consistent(s)
    ensures Submit(s, f, date).Some? ==> Consistent(Submit(s, f, date).value)
    ensures Consistent(Finish(s, settled))
  {
  }

  /** Any order the server accepts sends the customer home with the session copy cleared: the
      server's reply, read by the client, passes the page's own test. */
  lemma AcceptedOrderGoesHome(s: State, req: OrdersApi.Request, env: OrdersApi.Env, now: nat,
                              parse: string -> Option<Json>, fetched: Option<Json>, written: bool,
                              detail: Json, nullRead: string)
    requires OrdersApi.Handle(req, env, now, parse, fetched, written).Accepted?
    ensures var reply := OrdersApi.Handle(req, env, now, parse, fetched, written);
      var result := SubmitOrder.SubmitResult(
        SubmitOrder.Responded(OrdersApi.Ok(reply), OrdersApi.Status(reply), OrdersApi.ReplyBody(reply, detail)), nullRead);
      var r := Finish(s, SettledOf(result, ""));
      r.route == Some("/") && r.checkoutCart.None? && !r.submitting
  {
    OrdersApi.ClientSeesSaved(req, env, now, parse, fetched, written, detail, nullRead);
    OrdersApi.AcceptedIdTruthy(req, env, now, parse, fetched, written);
  }

  /** A refusal from the server is shown to the customer word for word, and the cart stays. */
  lemma RefusalShown(s: State, status: int, error: string, detail: Json, nullRead: string)
    requires status < 200 || 299 < status
    requires error != ""
    ensures var reply := OrdersApi.Refused(status, error);
      var result := SubmitOrder.SubmitResult(
        SubmitOrder.Responded(OrdersApi.Ok(reply), OrdersApi.Status(reply), OrdersApi.ReplyBody(reply, detail)), nullRead);
      var r := Finish(s, SettledOf(result, ""));
      r.error == JStr(error) && r.checkoutCart == s.checkoutCart
  {
    OrdersApi.ClientSeesRefusal(status, error, detail, nullRead);
  }
}

=== FILE: orders_api.dfy ===
/** The server's order intake, `POST /api/orders`: CORS headers, the request checks in their order,
    body parsing, filling in the order's id and status, and how the order is added to the stored
    document. Reading and writing that document through the GitHub contents API, the e-mail
    notice and the logging are outside the model: the fetched document and the outcome of the
    write are inputs. */
module OrdersApi {
  import opened Wrappers
  import opened JsText
  import opened JsonValue
  import SubmitOrder

  // CORS

  /** `corsHeaders(origin)`: the four CORS headers, allowing any origin when none is given. */
  function CorsHeaders(origin: string): (h: seq<(string, string)>)
    ensures |h| == 4
    ensures h[0].0 == "Access-Control-Allow-Origin"
    ensures origin != "" ==> h[0].1 == origin
    ensures origin == "" ==> h[0].1 == "*"
  {
    [("Access-Control-Allow-Origin", if origin != "" then origin else "*"),
     ("Access-Control-Allow-Methods", "GET, POST, OPTIONS"),
     ("Access-Control-Allow-Headers", "Content-Type, Accept, X-Requested-With"),
     ("Access-Control-Max-Age", "86400")]
  }

  /** The `Referer` header as `new URL(referer)` sees it: missing or empty, not a valid URL (the
      constructor throws a `TypeError`), or a valid URL with its origin. */
  datatype Referer = NoReferer | InvalidReferer | RefererFrom(origin: string)

  /** The origin the handler answers to: the `Origin` header, else the origin of the `Referer`,
      else `*`. `None` is the `TypeError` of an unparsable `Referer`, which is only read when the
      `Origin` header is missing. */
  function ResponseOrigin(originHeader: string, referer: Referer): (o: Option<string>)
    ensures o.None? <==> originHeader == "" && referer.InvalidReferer?
    ensures originHeader != "" ==> o == Some(originHeader)
    ensures originHeader == "" && referer.RefererFrom? ==> o == Some(referer.origin)
    ensures originHeader == "" && referer.NoReferer? ==> o == Some("*")
  {
    if originHeader != "" then Some(originHeader)
    else match referer
      case NoReferer => Some("*")
      case InvalidReferer => None
      case RefererFrom(ro) => Some(ro)
  }

  /** The device the server logs: `mobile` when the user agent (`(none)` when missing) names a
      mobile platform. */
  function ServerDevice(userAgent: string): (d: string)
    ensures userAgent != "" ==> (d == "mobile" <==> MentionsMobile(userAgent))
    ensures d == "mobile" || d == "desktop"
  {
    if MentionsMobile(if userAgent != "" then userAgent else "(none)") then "mobile" else "desktop"
  }

  // HTML escaping

  /** `str.replace(/c/g, rep)`. */
  function ReplaceAll(s: string, c: char, rep: string): (r: string)
  {
    if s == [] then []
    else (if s[0] == c then rep else [s[0]]) + ReplaceAll(s[1..], c, rep)
  }

  lemma {:induction false} ReplaceAllAppend(a: string, b: string, c: char, rep: string)
    ensures ReplaceAll(a + b, c, rep) == ReplaceAll(a, c, rep) + ReplaceAll(b, c, rep)
  {
    if a == [] {
      assert a + b == b;
    } else {
      assert (a + b)[0] == a[0] && (a + b)[1..] == a[1..] + b;
      ReplaceAllAppend(a[1..], b, c, rep);
    }
  }

  /** The characters `escapeHtml` replaces, in the order of its replacements: `&` first. */
  function Special(i: nat): char
    requires i < 5
  {
    ['&', '<', '>', '"', '\''][i]
  }

  /** The replacements of `escapeHtml` from the `from`-th on, each of all occurrences at once. */
  function EscapeFrom(s: string, from: nat): string
    decreases 5 - from
  {
    if from >= 5 then s
    else EscapeFrom(ReplaceAll(s, Special(from), EscapeChar(Special(from))), from + 1)
  }

  /** The chain of five replacements. */
  function EscapeText(s: string): string {
    EscapeFrom(s, 0)
  }

  /** The entity one character becomes. */
  function EscapeChar(c: char): string {
    if c == '&' then "&amp;"
    else if c == '<' then "&lt;"
    else if c == '>' then "&gt;"
    else if c == '"' then "&quot;"
    else if c == '\'' then "&#39;"
    else [c]
  }

  /** The reference definition: every character replaced by its entity, independently. */
  function EscapeEach(s: string): string {
    if s == [] then [] else EscapeChar(s[0]) + EscapeEach(s[1..])
  }

  lemma ReplaceAllOne(c: char, d: char, rep: string)
    ensures ReplaceAll([c], d, rep) == if c == d then rep else [c]
  {
    assert [c][1..] == [];
  }

  /** Replacing a character the text does not hold changes nothing. */
  lemma {:induction false} ReplaceAbsent(s: string, d: char, rep: string)
    requires forall i :: 0 <= i < |s| ==> s[i] != d
    ensures ReplaceAll(s, d, rep) == s
  {
    if s != [] {
      ReplaceAbsent(s[1..], d, rep);
      assert s == [s[0]] + s[1..];
    }
  }

  /** An entity holds none of the characters replaced after its own. */
  lemma EntityClean(i: nat, j: nat)
    requires i < j < 5
    ensures forall k :: 0 <= k < |EscapeChar(Special(i))| ==> EscapeChar(Special(i))[k] != Special(j)
  {
    var e := EscapeChar(Special(i));
    if i == 0 {
      assert e == ['&', 'a', 'm', 'p', ';'];
    } else if i == 1 {
      assert e == ['&', 'l', 't', ';'];
    } else if i == 2 {
      assert e == ['&', 'g', 't', ';'];
    } else {
      assert e == ['&', 'q', 'u', 'o', 't', ';'];
    }
  }

  /** Once an entity is written, the remaining replacements leave it alone. */
  lemma {:induction false} EntityKept(i: nat, from: nat)
    requires i < from <= 5
    ensures EscapeFrom(EscapeChar(Special(i)), from) == EscapeChar(Special(i))
    decreases 5 - from
  {
    if from < 5 {
      EntityClean(i, from);
      ReplaceAbsent(EscapeChar(Special(i)), Special(from), EscapeChar(Special(from)));
      EntityKept(i, from + 1);
    }
  }

  /** A character that is not special passes all the replacements. */
  lemma {:induction false} PlainKept(c: char, from: nat)
    requires from <= 5
    requires forall i :: 0 <= i < 5 ==> c != Special(i)
    ensures EscapeFrom([c], from) == [c]
    decreases 5 - from
  {
    if from < 5 {
      ReplaceAllOne(c, Special(from), EscapeChar(Special(from)));
      PlainKept(c, from + 1);
    }
  }

  /** A special character passes the replacements before its own unchanged. */
  lemma {:induction false} SpecialReached(i: nat, from: nat)
    requires from <= i < 5
    ensures EscapeFrom([Special(i)], from) == EscapeChar(Special(i))
    decreases i - from
  {
    ReplaceAllOne(Special(i), Special(from), EscapeChar(Special(from)));
    if from < i {
      SpecialReached(i, from + 1);
    } else {
      EntityKept(i, i + 1);
    }
  }

  lemma EscapeTextOfChar(c: char)
    ensures EscapeText([c]) == EscapeChar(c)
  {
    if c == '&' {
      SpecialReached(0, 0);
    } else if c == '<' {
      SpecialReached(1, 0);
    } else if c == '>' {
      SpecialReached(2, 0);
    } else if c == '"' {
      SpecialReached(3, 0);
    } else if c == '\'' {
      SpecialReached(4, 0);
    } else {
      PlainKept(c, 0);
    }
  }

  lemma {:induction false} EscapeFromAppend(a: string, b: string, from: nat)
    requires from <= 5
    ensures EscapeFrom(a + b, from) == EscapeFrom(a, from) + EscapeFrom(b, from)
    decreases 5 - from
  {
    if from < 5 {
      var d, rep := Special(from), EscapeChar(Special(from));
      ReplaceAllAppend(a, b, d, rep);
      EscapeFromAppend(ReplaceAll(a, d, rep), ReplaceAll(b, d, rep), from + 1);
    }
  }

  lemma EscapeTextAppend(a: string, b: string)
    ensures EscapeText(a + b) == EscapeText(a) + EscapeText(b)
  {
    EscapeFromAppend(a, b, 0);
  }

  /** Replacing `&` first makes the chain of replacements act on each character alone: no
      entity written by a later step is escaped again. */
  lemma {:induction false} EscapeTextIsEach(s: string)
    ensures EscapeText(s) == EscapeEach(s)
  {
    if s == [] {
    } else {
      assert s == [s[0]] + s[1..];
      EscapeTextAppend([s[0]], s[1..]);
      EscapeTextOfChar(s[0]);
      EscapeTextIsEach(s[1..]);
    }
  }

  predicate HtmlSafe(s: string) {
    forall i :: 0 <= i < |s| ==> s[i] != '<' && s[i] != '>' && s[i] != '"' && s[i] != '\''
  }

  lemma {:induction false} EscapeEachSafe(s: string)
    ensures HtmlSafe(EscapeEach(s))
  {
    if s != [] {
      EscapeEachSafe(s[1..]);
      var e := EscapeChar(s[0]);
      assert HtmlSafe(e);
      assert EscapeEach(s) == e + EscapeEach(s[1..]);
    }
  }

  /** `escapeHtml(s)`: `''` for `null` and `undefined`, otherwise `String(s)` escaped. The result
      never contains `<`, `>`, `"` or `'`. */
  function EscapeHtml(v: Json): (r: string)
    ensures IsNullish(v) ==> r == ""
    ensures HtmlSafe(r)
  {
    if IsNullish(v) then ""
    else
      var s := ToJsString(v);
      EscapeTextIsEach(s);
      EscapeEachSafe(s);
      EscapeText(s)
  }

  /** Reading entities back: each of the five entities stands for its character. */
  function Unescape(s: string): string
    decreases |s|
  {
    if s == [] then []
    else if s[0] != '&' then [s[0]] + Unescape(s[1..])
    else if StartsWith(s, "&amp;") then "&" + Unescape(s[5..])
    else if StartsWith(s, "&lt;") then "<" + Unescape(s[4..])
    else if StartsWith(s, "&gt;") then ">" + Unescape(s[4..])
    else if StartsWith(s, "&quot;") then "\"" + Unescape(s[6..])
    else if StartsWith(s, "&#39;") then "'" + Unescape(s[5..])
    else [s[0]] + Unescape(s[1..])
  }

  lemma EntityPrefix(e: string, rest: string)
    ensures StartsWith(e + rest, e) && (e + rest)[|e|..] == rest
  {
    assert (e + rest)[..|e|] == e;
  }

  /** Two texts that differ in their second character do not start with one another. */
  lemma SecondCharDiffers(s: string, p: string)
    requires |s| >= 2 && |p| >= 2 && s[1] != p[1]
    ensures !StartsWith(s, p)
  {
    if |p| <= |s| {
      assert s[..|p|][1] == s[1];
    }
  }

  lemma UnescapeChar(c: char, rest: string)
    ensures Unescape(EscapeChar(c) + rest) == [c] + Unescape(rest)
  {
    var s := EscapeChar(c) + rest;
    if c == '&' {
      EntityPrefix("&amp;", rest);
    } else if c == '<' {
      SecondCharDiffers(s, "&amp;");
      EntityPrefix("&lt;", rest);
    } else if c == '>' {
      SecondCharDiffers(s, "&amp;");
      SecondCharDiffers(s, "&lt;");
      EntityPrefix("&gt;", rest);
    } else if c == '"' {
      SecondCharDiffers(s, "&amp;");
      SecondCharDiffers(s, "&lt;");
      SecondCharDiffers(s, "&gt;");
      EntityPrefix("&quot;", rest);
    } else if c == '\'' {
      SecondCharDiffers(s, "&amp;");
      SecondCharDiffers(s, "&lt;");
      SecondCharDiffers(s, "&gt;");
      SecondCharDiffers(s, "&quot;");
      EntityPrefix("&#39;", rest);
    } else {
      assert s[0] == c && s[1..] == rest;
    }
  }

  /** Escaping loses nothing: the entities read back to the original text. */
  lemma {:induction false} UnescapeEscape(s: string)
    ensures Unescape(EscapeText(s)) == s
  {
    EscapeTextIsEach(s);
    UnescapeEach(s);
  }

  lemma {:induction false} UnescapeEach(s: string)
    ensures Unescape(EscapeEach(s)) == s
  {
    if s != [] {
      UnescapeChar(s[0], EscapeEach(s[1..]));
      UnescapeEach(s[1..]);
    }
  }

  // Request body

  /** Why `parseBody` throws. */
  datatype BodyError = InvalidJson | UnsupportedBody

  /** `parseBody(req)`: `null` without a body; a plain object as it is; a blank string as `{}`;
      another string through `JSON.parse`, given here as `parse` (`None` for a syntax error);
      an array or any other value is refused. */
  function ParseBody(raw: Json, parse: string -> Option<Json>): (r: Result<Json, BodyError>)
    ensures IsNullish(raw) ==> r == Success(JNull)
    ensures raw.JObj? ==> r == Success(raw)
    ensures raw.JStr? && AllSpace(raw.s) ==> r == Success(JObj([]))
    ensures raw.JStr? && !AllSpace(raw.s) ==>
      (r.Success? <==> parse(raw.s).Some?) && (r.Success? ==> r.value == parse(raw.s).value)
      && (r.Failure? ==> r.error == InvalidJson)
    ensures raw.JArr? || raw.JNum? || raw.JBool? ==> r == Failure(UnsupportedBody)
  {
    match raw
    case JUndef => Success(JNull)
    case JNull => Success(JNull)
    case JObj(_) => Success(raw)
    case JStr(s) =>
      if Trim(s) == "" then Success(JObj([]))
      else (
        match parse(s)
        case None => Failure(InvalidJson)
        case Some(v) => Success(v))
    case _ => Failure(UnsupportedBody)
  }

  // The handler

  /** The parts of the request the handler reads. `contentType` and `originHeader` are `""` when
      the header is missing. */
  datatype Request = Request(verb: string, contentType: string, body: Json, originHeader: string, referer: Referer)

  /** The environment: a variable that is unset reads as `""`. */
  datatype Env = Env(token: string, owner: string, repo: string, branch: string)

  /** What the handler answers. `Refused` carries the status and the `error` of a
      `{ error, success: false }` body; `Failed` is the 500 of the handler's outer `catch`;
      `Accepted` carries the order's id and the document it wrote. `Threw` is the handler
      throwing before its `try`, so that it sends no reply of its own: what the framework then
      sends is outside the model and is taken to be a 500 whose body is not JSON. */
  datatype Reply =
    | NoContent
    | Refused(status: int, error: string)
    | Failed
    | Accepted(id: Json, written: Json)
    | Threw

  function Status(r: Reply): int {
    match r
    case NoContent => 204
    case Refused(status, _) => status
    case Failed => 500
    case Accepted(_, _) => 200
    case Threw => 500
  }

  const MethodNotAllowed: string := "Method not allowed"
  const NotJson: string := "Content-Type must be application/json"
  const NotConfigured: string := "Orders API not configured (missing env)"
  const InvalidBody: string := "Invalid JSON body"
  const NotAnObject: string := "Request body must be a JSON object"
  const NoContact: string := "Order must include fullName and phone"

  /** The content type check: the trimmed, lower-cased header is `application/json`, possibly
      followed by parameters after `;`. */
  predicate IsJsonContentType(header: string) {
    var ct := ToLowerAscii(Trim(header));
    ct == "application/json" || StartsWith(ct, "application/json;")
  }

  /** The branch written to: `(GITHUB_BRANCH || 'main').trim() || 'main'`. */
  function Branch(env: Env): (b: string)
    ensures b != "" && Trimmed(b)
    ensures Trim(env.branch) != "" ==> b == Trim(env.branch)
  {
    var t := Trim(if env.branch != "" then env.branch else "main");
    if t != "" then t
    else
      assert Trimmed("main") by {
        assert "main"[0] == 'm' && "main"[3] == 'n';
      }
      "main"
  }

  /** `order.id = order.id || 'ord-' + now; order.status = order.status || 'pending'`. */
  function Complete(order: seq<(string, Json)>, now: nat): (r: seq<(string, Json)>)
    ensures Truthy(Lookup(order, "id")) ==> Lookup(r, "id") == Lookup(order, "id")
    ensures !Truthy(Lookup(order, "id")) ==> Lookup(r, "id") == JStr(OrderIdAt(now))
    ensures Truthy(Lookup(order, "status")) ==> Lookup(r, "status") == Lookup(order, "status")
    ensures !Truthy(Lookup(order, "status")) ==> Lookup(r, "status") == JStr("pending")
    ensures forall k :: k != "id" && k != "status" ==> Lookup(r, k) == Lookup(order, k)
  {
    var withId := SetEntry(order, "id", Or(Lookup(order, "id"), JStr(OrderIdAt(now))));
    assert "id" != "status";
    SetEntry(withId, "status", Or(Lookup(withId, "status"), JStr("pending")))
  }

  function OrderIdAt(now: nat): string {
    "ord-" + NatToString(now)
  }

  /** The stored copy of the order: every field but `_debugDevice`. */
  function ForDb(order: seq<(string, Json)>): (r: Json)
    ensures r.JObj? && !HasKey(r.entries, "_debugDevice")
    ensures forall k :: k != "_debugDevice" ==> Field(r, k) == Lookup(order, k)
  {
    JObj(RemoveEntry(order, "_debugDevice"))
  }

  /** `data.orders`, or `[]` when it is not an array. */
  function OrdersOf(doc: Json): seq<Json> {
    var o := Field(doc, "orders");
    if o.JArr? then o.items else []
  }

  /** Adding the stored copy to the document: put first in `orders`, which is created when it is
      not an array. An array document keeps the new property out of its JSON text, so it is
      written back unchanged; `None` is the `TypeError` of a `null` or primitive document. */
  function AddToDocument(doc: Json, stored: Json): (r: Option<Json>)
    ensures r.Some? <==> IsObject(doc)
    ensures doc.JArr? ==> r == Some(doc)
    ensures doc.JObj? ==> r.Some? && r.value.JObj?
    ensures doc.JObj? ==> Field(r.value, "orders") == JArr([stored] + OrdersOf(doc))
    ensures doc.JObj? ==> forall k :: k != "orders" ==> Field(r.value, k) == Field(doc, k)
  {
    match doc
    case JObj(entries) => Some(JObj(SetEntry(entries, "orders", JArr([stored] + OrdersOf(doc)))))
    case JArr(_) => Some(doc)
    case _ => None
  }

  /** The checks of `handler` up to the point where the document is fetched: `Success` holds the
      completed order, `Failure` the reply. */
  function Admit(req: Request, env: Env, now: nat, parse: string -> Option<Json>): (r: Result<seq<(string, Json)>, Reply>)
    ensures r == Failure(NoContent) <==> req.verb == "OPTIONS"
    ensures r == Failure(Refused(405, MethodNotAllowed)) <==> req.verb != "OPTIONS" && req.verb != "POST"
    ensures r == Failure(Refused(415, NotJson)) <==> req.verb == "POST" && !IsJsonContentType(req.contentType)
    ensures r == Failure(Refused(500, NotConfigured)) <==>
      req.verb == "POST" && IsJsonContentType(req.contentType)
      && (env.token == "" || env.owner == "" || env.repo == "")
    ensures r.Failure? ==> r.error.NoContent? || r.error.Refused?
  {
    if req.verb == "OPTIONS" then Failure(NoContent)
    else if req.verb != "POST" then Failure(Refused(405, MethodNotAllowed))
    else if !IsJsonContentType(req.contentType) then Failure(Refused(415, NotJson))
    else if env.token == "" || env.owner == "" || env.repo == "" then Failure(Refused(500, NotConfigured))
    else
      match ParseBody(req.body, parse)
      case Failure(_) => Failure(Refused(400, InvalidBody))
      case Success(order) =>
        if !Truthy(order) || !IsObject(order) then Failure(Refused(400, NotAnObject))
        else if !Truthy(Field(order, "fullName")) && !Truthy(Field(order, "phone")) then Failure(Refused(400, NoContact))
        else
          assert order.JObj?;
          Success(Complete(order.entries, now))
  }

  /** `handler(req, res)`. The response origin is worked out first, outside the `try`, so an
      unparsable `Referer` without an `Origin` header throws before any check, `OPTIONS` included.
      `fetched` is the parsed document read from the repository (`None` when the read fails or its
      text is not JSON) and `written` whether the write succeeds; either failure, or a document the
      order cannot be added to, is the 500 of the outer `catch`. */
  function Handle(req: Request, env: Env, now: nat, parse: string -> Option<Json>, fetched: Option<Json>, written: bool): (r: Reply)
    ensures r.Threw? <==> ResponseOrigin(req.originHeader, req.referer).None?
    ensures r.Accepted? ==> Admit(req, env, now, parse).Success?
    ensures ResponseOrigin(req.originHeader, req.referer).Some? && Admit(req, env, now, parse).Failure? ==>
      r == Admit(req, env, now, parse).error
    ensures ResponseOrigin(req.originHeader, req.referer).Some? && Admit(req, env, now, parse).Success? ==>
      var stored := ForDb(Admit(req, env, now, parse).value);
      (r.Accepted? <==> fetched.Some? && AddToDocument(fetched.value, stored).Some? && written)
      && (!r.Accepted? ==> r == Failed)
    ensures r.Accepted? ==>
      r.id == Lookup(Admit(req, env, now, parse).value, "id")
      && fetched.Some? && AddToDocument(fetched.value, ForDb(Admit(req, env, now, parse).value)) == Some(r.written)
  {
    if ResponseOrigin(req.originHeader, req.referer).None? then Threw
    else
      match Admit(req, env, now, parse)
      case Failure(reply) => reply
      case Success(order) =>
        match fetched
        case None => Failed
        case Some(doc) =>
          match AddToDocument(doc, ForDb(order))
          case None => Failed
          case Some(newDoc) => if written then Accepted(Lookup(order, "id"), newDoc) else Failed
  }

  /** The order in an accepted request had a name or a phone, and the reply carries its id: the
      client's own when truthy, else `ord-<now>`. */
  lemma AcceptedOrder(req: Request, env: Env, now: nat, parse: string -> Option<Json>, fetched: Option<Json>, written: bool)
    requires Handle(req, env, now, parse, fetched, written).Accepted?
    ensures var body := ParseBody(req.body, parse);
      body.Success? && body.value.JObj?
      && (Truthy(Field(body.value, "fullName")) || Truthy(Field(body.value, "phone")))
    ensures var body := ParseBody(req.body, parse).value;
      var id := Handle(req, env, now, parse, fetched, written).id;
      (Truthy(Field(body, "id")) ==> id == Field(body, "id"))
      && (!Truthy(Field(body, "id")) ==> id == JStr(OrderIdAt(now)))
  {
  }

  /** Either a name or a phone is enough for a well-formed request to pass the checks. */
  lemma EitherContactAdmitted(req: Request, env: Env, now: nat, parse: string -> Option<Json>)
    requires req.verb == "POST" && IsJsonContentType(req.contentType)
    requires env.token != "" && env.owner != "" && env.repo != ""
    requires req.body.JObj?
    requires Truthy(Field(req.body, "fullName")) || Truthy(Field(req.body, "phone"))
    ensures Admit(req, env, now, parse) == Success(Complete(req.body.entries, now))
  {
  }

  /** An order with a name or a phone, sent as JSON to a configured server from a page whose
      origin can be worked out, is saved whenever the stored document is an object and the write
      succeeds: the reply is the 200 carrying the order's id, and the written document holds the
      order first. */
  lemma GoodOrderAccepted(req: Request, env: Env, now: nat, parse: string -> Option<Json>, doc: Json)
    requires req.originHeader != "" || !req.referer.InvalidReferer?
    requires req.verb == "POST" && IsJsonContentType(req.contentType)
    requires env.token != "" && env.owner != "" && env.repo != ""
    requires req.body.JObj? && (Truthy(Field(req.body, "fullName")) || Truthy(Field(req.body, "phone")))
    requires doc.JObj?
    ensures var r := Handle(req, env, now, parse, Some(doc), true);
      var order := Complete(req.body.entries, now);
      r.Accepted? && r.id == Lookup(order, "id")
      && Field(r.written, "orders") == JArr([ForDb(order)] + OrdersOf(doc))
  {
    EitherContactAdmitted(req, env, now, parse);
  }

  /** The configuration is checked before the body is looked at: with a variable missing, every
      body gets the same 500. */
  lemma ConfigBeforeBody(req: Request, body: Json, env: Env, now: nat, parse: string -> Option<Json>)
    requires req.verb == "POST" && IsJsonContentType(req.contentType)
    requires env.token == "" || env.owner == "" || env.repo == ""
    ensures Admit(req, env, now, parse) == Admit(req.(body := body), env, now, parse) == Failure(Refused(500, NotConfigured))
  {
  }

  /** Every body `parseBody` refuses, and every body that is not a non-array object, ends in a
      400. */
  lemma BadBodyIs400(req: Request, env: Env, now: nat, parse: string -> Option<Json>)
    requires req.verb == "POST" && IsJsonContentType(req.contentType)
    requires env.token != "" && env.owner != "" && env.repo != ""
    requires ParseBody(req.body, parse).Failure? || !ParseBody(req.body, parse).value.JObj?
    ensures Admit(req, env, now, parse).Failure? && Status(Admit(req, env, now, parse).error) == 400
  {
    var b := ParseBody(req.body, parse);
    if b.Success? && b.value.JArr? {
      assert Field(b.value, "fullName") == JUndef && Field(b.value, "phone") == JUndef;
    }
  }

  /** The document an accepted order is written into has that order first in `orders`, without
      `_debugDevice`, and every other top-level field as it was. */
  lemma WrittenDocument(req: Request, env: Env, now: nat, parse: string -> Option<Json>, doc: Json)
    requires Handle(req, env, now, parse, Some(doc), true).Accepted? && doc.JObj?
    ensures var order := Admit(req, env, now, parse).value;
      var w := Handle(req, env, now, parse, Some(doc), true).written;
      Field(w, "orders") == JArr([ForDb(order)] + OrdersOf(doc))
      && (forall k :: k != "orders" ==> Field(w, k) == Field(doc, k))
      && !HasKey(ForDb(order).entries, "_debugDevice")
  {
  }

  // The reply as the client reads it

  const FailedMessage: string := "Failed to process order"

  /** The JSON body sent with each reply; `detail` is the message of the error the outer `catch`
      caught. An empty 204 has no body, read here as `undefined`; the framework's answer to a
      handler that threw is not JSON, and `submitOrder` reads it as the `{}` of its `catch`. */
  function ReplyBody(r: Reply, detail: Json): Json {
    match r
    case NoContent => JUndef
    case Refused(_, error) => JObj([("error", JStr(error)), ("success", JBool(false))])
    case Failed => JObj([("error", JStr(FailedMessage)), ("detail", detail), ("success", JBool(false))])
    case Accepted(id, _) => JObj([("success", JBool(true)), ("ok", JBool(true)), ("id", id)])
    case Threw => JObj([])
  }

  /** Whether `fetch` reports the reply as `ok`. */
  predicate Ok(r: Reply) {
    200 <= Status(r) <= 299
  }

  /** An accepted order always has a truthy id. */
  lemma AcceptedIdTruthy(req: Request, env: Env, now: nat, parse: string -> Option<Json>, fetched: Option<Json>, written: bool)
    requires Handle(req, env, now, parse, fetched, written).Accepted?
    ensures Truthy(Handle(req, env, now, parse, fetched, written).id)
  {
    var order := Admit(req, env, now, parse).value;
    var body := ParseBody(req.body, parse).value;
    assert Lookup(order, "id") == Or(Field(body, "id"), JStr(OrderIdAt(now)));
    assert OrderIdAt(now) != "" by { assert |OrderIdAt(now)| >= 4; }
  }

  /** A request without a user agent is logged as coming from a desktop. */
  lemma NoAgentIsDesktop()
    ensures ServerDevice("") == "desktop"
  {
    NoneMentionsNothing();
  }

  lemma NotContained(s: string, chars: set<char>, w: string)
    requires forall i :: 0 <= i < |s| ==> s[i] in chars
    requires w != [] && w[0] !in chars
    ensures !Contains(s, w)
  {
    if Contains(s, w) {
      ContainsFirstChar(s, w);
    }
  }

  /** The stand-in `(none)` names no mobile platform: it holds none of the words' first letters. */
  lemma NoneMentionsNothing()
    ensures !MentionsMobile("(none)")
  {
    var l := ToLowerAscii("(none)");
    var chars := {'(', 'n', 'o', 'e', ')'};
    assert forall i :: 0 <= i < |l| ==> l[i] in chars by {
      forall i | 0 <= i < 6 ensures l[i] == "(none)"[i] {
      }
    }
    NotContained(l, chars, "mobile");
    NotContained(l, chars, "android");
    NotContained(l, chars, "iphone");
    NotContained(l, chars, "ipad");
    NotContained(l, chars, "webos");
    NotContained(l, chars, "blackberry");
  }

  /** The server and the client agree on success: a saved order is reported saved by
      `submitOrder`, with the id the server gave it. */
  lemma ClientSeesSaved(req: Request, env: Env, now: nat, parse: string -> Option<Json>, fetched: Option<Json>, written: bool, detail: Json, nullRead: string)
    requires Handle(req, env, now, parse, fetched, written).Accepted?
    ensures var reply := Handle(req, env, now, parse, fetched, written);
      SubmitOrder.SubmitResult(SubmitOrder.Responded(Ok(reply), Status(reply), ReplyBody(reply, detail)), nullRead)
        == Some(SubmitOrder.Submitted(true, reply.id, JUndef))
  {
    var reply := Handle(req, env, now, parse, fetched, written);
    AcceptedIdTruthy(req, env, now, parse, fetched, written);
    AcceptedBody(reply.id, reply.written, detail);
  }

  lemma AcceptedBody(id: Json, written: Json, detail: Json)
    ensures var body := ReplyBody(Accepted(id, written), detail);
      Field(body, "success") == JBool(true) && Field(body, "id") == id && Field(body, "error") == JUndef
      && !IsNullish(body)
  {
    var entries := [("success", JBool(true)), ("ok", JBool(true)), ("id", id)];
    assert entries + [] == entries;
    Lookup3("success", JBool(true), "ok", JBool(true), "id", id, [], "success");
    Lookup3("success", JBool(true), "ok", JBool(true), "id", id, [], "id");
    Lookup3("success", JBool(true), "ok", JBool(true), "id", id, [], "error");
  }

  /** A refused request is reported as failed by `submitOrder`, with the server's message. */
  lemma ClientSeesRefusal(status: int, error: string, detail: Json, nullRead: string)
    requires status < 200 || 299 < status
    requires error != ""
    ensures var reply := Refused(status, error);
      SubmitOrder.SubmitResult(SubmitOrder.Responded(Ok(reply), Status(reply), ReplyBody(reply, detail)), nullRead)
        == Some(SubmitOrder.Submitted(false, JUndef, JStr(error)))
  {
    var entries := [("error", JStr(error)), ("success", JBool(false))];
    LookupCons(("error", JStr(error)), [("success", JBool(false))], "error");
  }

  /** A request whose `Referer` cannot be parsed and that has no `Origin` header reaches the
      client as a failure naming the status, whatever its verb or body. */
  lemma ClientSeesThrow(req: Request, env: Env, now: nat, parse: string -> Option<Json>, fetched: Option<Json>, written: bool, detail: Json, nullRead: string)
    requires req.originHeader == "" && req.referer.InvalidReferer?
    ensures var reply := Handle(req, env, now, parse, fetched, written);
      SubmitOrder.SubmitResult(SubmitOrder.Responded(Ok(reply), Status(reply), ReplyBody(reply, detail)), nullRead)
        == Some(SubmitOrder.Submitted(false, JUndef, JStr("Request failed (" + IntToString(500) + ")")))
  {
    var reply := Handle(req, env, now, parse, fetched, written);
    assert reply == Threw;
  }

  /** Every refusal the handler sends is a client or server error with a message. */
  lemma RefusalsAreErrors(req: Request, env: Env, now: nat, parse: string -> Option<Json>, fetched: Option<Json>, written: bool)
    requires Handle(req, env, now, parse, fetched, written).Refused?
    ensures var r := Handle(req, env, now, parse, fetched, written);
      400 <= r.status <= 599 && r.error != "" && !Ok(r)
  {
  }
}

=== FILE: orders_merge.dfy ===
/** `mergeOrders`: the orders pulled from the published store document are combined with the
    orders kept in the browser, keyed by order id, and listed newest first. */
module OrdersMerge {
  import opened Wrappers
  import opened JsText
  import opened JsonValue
  import opened OwnKeys

  /** The property key `byId[o.id]` uses, for a record that is truthy and has a truthy id. */
  function OrderKey(o: Json): (k: Option<string>)
    ensures k.Some? ==> o.JObj? && Truthy(o)
  {
    if Truthy(o) && Truthy(Field(o, "id")) then Some(ToJsString(Field(o, "id"))) else None
  }

  /** The remote pass: every keyed record is written under its key, so a later one replaces an
      earlier one in place. */
  function IndexRemote(byId: seq<(string, Json)>, remote: seq<Json>): seq<(string, Json)>
    decreases |remote|
  {
    if remote == [] then byId
    else
      var next := match OrderKey(remote[0]) case None => byId case Some(k) => SetEntry(byId, k, remote[0]);
      IndexRemote(next, remote[1..])
  }

  /** The local pass: a keyed record is written only when `byId[o.id]` is still falsy. */
  function IndexLocal(byId: seq<(string, Json)>, local: seq<Json>): seq<(string, Json)>
    decreases |local|
  {
    if local == [] then byId else IndexLocal(LocalStep(byId, local[0]), local[1..])
  }

  /** The last record of `rs` with key `k`. */
  function LastRecord(rs: seq<Json>, k: string): (r: Option<Json>)
    ensures r.Some? ==> r.value in rs && OrderKey(r.value) == Some(k)
  {
    if rs == [] then None
    else
      var later := LastRecord(rs[1..], k);
      if later.Some? then later else if OrderKey(rs[0]) == Some(k) then Some(rs[0]) else None
  }

  /** The first record of `rs` with key `k`. */
  function FirstRecord(rs: seq<Json>, k: string): (r: Option<Json>)
    ensures r.Some? ==> r.value in rs && OrderKey(r.value) == Some(k)
  {
    if rs == [] then None
    else if OrderKey(rs[0]) == Some(k) then Some(rs[0])
    else FirstRecord(rs[1..], k)
  }

  /** The record the merge keeps for key `k`: the last remote one, else the first local one. */
  function Chosen(remote: seq<Json>, local: seq<Json>, k: string): Option<Json> {
    var r := LastRecord(remote, k);
    if r.Some? then r else FirstRecord(local, k)
  }

  /** Every entry of the index is stored under its own record's key. */
  predicate Keyed(byId: seq<(string, Json)>) {
    forall i :: 0 <= i < |byId| ==> OrderKey(byId[i].1) == Some(byId[i].0)
  }

  lemma SetEntryKeyed(byId: seq<(string, Json)>, k: string, o: Json)
    requires Keyed(byId) && DistinctKeys(byId) && OrderKey(o) == Some(k)
    ensures Keyed(SetEntry(byId, k, o)) && DistinctKeys(SetEntry(byId, k, o))
    ensures forall k' :: HasKey(SetEntry(byId, k, o), k') <==> HasKey(byId, k') || k' == k
  {
    SetEntryFrom(byId, k, o);
    SetEntryKeys(byId, k, o);
    SetEntryKeepsDistinct(byId, k, o);
    var r := SetEntry(byId, k, o);
    forall i | 0 <= i < |r| ensures OrderKey(r[i].1) == Some(r[i].0) {
      assert r[i] in r;
      if r[i] != (k, o) {
        var m :| 0 <= m < |byId| && byId[m] == r[i];
      }
    }
  }

  /** In a keyed index a key is present exactly when reading it gives a truthy record. */
  lemma KeyedLookup(byId: seq<(string, Json)>, k: string)
    requires Keyed(byId) && DistinctKeys(byId)
    ensures Truthy(Lookup(byId, k)) <==> HasKey(byId, k)
    ensures HasKey(byId, k) ==> OrderKey(Lookup(byId, k)) == Some(k)
  {
    if HasKey(byId, k) {
      var m :| 0 <= m < |byId| && byId[m].0 == k;
      LookupAt(byId, m);
    }
  }

  /** After the remote pass, a key holds the last remote record with that key, and keys no remote
      record names are untouched. */
  lemma {:induction false} IndexRemoteLookup(byId: seq<(string, Json)>, remote: seq<Json>)
    requires Keyed(byId) && DistinctKeys(byId)
    ensures var r := IndexRemote(byId, remote);
      Keyed(r) && DistinctKeys(r)
      && (forall k :: (HasKey(r, k) <==> HasKey(byId, k) || LastRecord(remote, k).Some?)
            && Lookup(r, k) == (if LastRecord(remote, k).Some? then LastRecord(remote, k).value else Lookup(byId, k)))
    decreases |remote|
  {
    if remote != [] {
      var next := match OrderKey(remote[0]) case None => byId case Some(k) => SetEntry(byId, k, remote[0]);
      if OrderKey(remote[0]).Some? {
        SetEntryKeyed(byId, OrderKey(remote[0]).value, remote[0]);
      }
      IndexRemoteLookup(next, remote[1..]);
    }
  }

  /** One step of the local pass: `o` is written under its key when that key is still absent. */
  function LocalStep(byId: seq<(string, Json)>, o: Json): seq<(string, Json)> {
    match OrderKey(o)
    case None => byId
    case Some(k) => if !Truthy(Lookup(byId, k)) then SetEntry(byId, k, o) else byId
  }

  lemma LocalStepLookup(byId: seq<(string, Json)>, o: Json)
    requires Keyed(byId) && DistinctKeys(byId)
    ensures var next := LocalStep(byId, o);
      Keyed(next) && DistinctKeys(next)
      && (forall k :: (HasKey(next, k) <==> HasKey(byId, k) || OrderKey(o) == Some(k))
            && (HasKey(byId, k) ==> Lookup(next, k) == Lookup(byId, k))
            && (!HasKey(byId, k) && OrderKey(o) == Some(k) ==> Lookup(next, k) == o))
  {
    if OrderKey(o).Some? {
      var k0 := OrderKey(o).value;
      KeyedLookup(byId, k0);
      if !HasKey(byId, k0) {
        SetEntryKeyed(byId, k0, o);
      }
    }
  }

  /** After the local pass, keys already present keep their record, and a new key holds the first
      local record with that key. */
  lemma {:induction false} IndexLocalLookup(byId: seq<(string, Json)>, local: seq<Json>)
    requires Keyed(byId) && DistinctKeys(byId)
    ensures var r := IndexLocal(byId, local);
      Keyed(r) && DistinctKeys(r)
      && (forall k :: (HasKey(r, k) <==> HasKey(byId, k) || FirstRecord(local, k).Some?)
            && (HasKey(byId, k) ==> Lookup(r, k) == Lookup(byId, k))
            && (!HasKey(byId, k) && FirstRecord(local, k).Some? ==> Lookup(r, k) == FirstRecord(local, k).value))
    decreases |local|
  {
    if local != [] {
      var next := LocalStep(byId, local[0]);
      LocalStepLookup(byId, local[0]);
      IndexLocalLookup(next, local[1..]);
    }
  }

  /** The finished index: one entry per key some record carries, holding the chosen record. */
  function ById(remote: seq<Json>, local: seq<Json>): seq<(string, Json)> {
    IndexLocal(IndexRemote([], remote), local)
  }

  lemma ByIdContents(remote: seq<Json>, local: seq<Json>)
    ensures var b := ById(remote, local);
      Keyed(b) && DistinctKeys(b)
      && (forall k :: (HasKey(b, k) <==> Chosen(remote, local, k).Some?)
            && (HasKey(b, k) ==> Lookup(b, k) == Chosen(remote, local, k).value))
  {
    IndexRemoteLookup([], remote);
    IndexLocalLookup(IndexRemote([], remote), local);
  }

  /** The index as `Object.values` walks it: ids that are array indices first, ascending, then
      the others in the order they were first written. */
  function Listing(remote: seq<Json>, local: seq<Json>): seq<(string, Json)> {
    PropertyOrder(ById(remote, local))
  }

  /** Two lists of the same entries, each with distinct keys, read alike. */
  lemma SameEntriesLookup(a: seq<(string, Json)>, b: seq<(string, Json)>, k: string)
    requires DistinctKeys(a) && DistinctKeys(b) && forall q :: q in a <==> q in b
    ensures Lookup(a, k) == Lookup(b, k)
  {
    SameEntriesSameKeys(a, b);
    if HasKey(a, k) {
      var i :| 0 <= i < |a| && a[i].0 == k;
      assert a[i] in b;
      var j :| 0 <= j < |b| && b[j] == a[i];
      LookupAt(a, i);
      LookupAt(b, j);
    }
  }

  /** Listing the index changes only the order: the listing holds one entry per key some record
      carries, with the chosen record. */
  lemma ListingContents(remote: seq<Json>, local: seq<Json>)
    ensures var l := Listing(remote, local);
      Keyed(l) && DistinctKeys(l)
      && (forall k :: (HasKey(l, k) <==> Chosen(remote, local, k).Some?)
            && (HasKey(l, k) ==> Lookup(l, k) == Chosen(remote, local, k).value))
  {
    var b := ById(remote, local);
    var l := Listing(remote, local);
    ByIdContents(remote, local);
    PropertyOrderDistinct(b);
    SameEntriesSameKeys(l, b);
    forall i | 0 <= i < |l| ensures OrderKey(l[i].1) == Some(l[i].0) {
      assert l[i] in b;
      var j :| 0 <= j < |b| && b[j] == l[i];
    }
    forall k ensures Lookup(l, k) == Lookup(b, k) {
      SameEntriesLookup(l, b, k);
    }
  }


  /** `(o.date && new Date(o.date).getTime()) || 0`; `time` is the date constructor's reading of a
      value, `None` for an invalid date (`NaN`). */
  function Stamp(o: Json, time: Json -> Option<int>): int {
    var d := Field(o, "date");
    if !Truthy(d) then 0 else time(d).GetOr(0)
  }

  /** Newest first. */
  predicate SortedByDate(s: seq<Json>, time: Json -> Option<int>) {
    forall i, j :: 0 <= i < j < |s| ==> Stamp(s[i], time) >= Stamp(s[j], time)
  }

  /** The records with a given stamp, in order. */
  function WithStamp(s: seq<Json>, t: int, time: Json -> Option<int>): seq<Json> {
    if s == [] then [] else (if Stamp(s[0], time) == t then [s[0]] else []) + WithStamp(s[1..], t, time)
  }

  /** A record no older than any of a sorted list may go in front of it. */
  lemma ConsSorted(a: Json, t: seq<Json>, time: Json -> Option<int>)
    requires SortedByDate(t, time) && forall y :: y in t ==> Stamp(a, time) >= Stamp(y, time)
    ensures SortedByDate([a] + t, time)
  {
    var r := [a] + t;
    forall i, j | 0 <= i < j < |r| ensures Stamp(r[i], time) >= Stamp(r[j], time) {
      assert r[j] == t[j - 1];
      if i > 0 {
        assert r[i] == t[i - 1];
      }
    }
  }

  /** The head of a sorted list is no older than anything after it, nor than an older `x`. */
  lemma HeadNewest(x: Json, s: seq<Json>, t: seq<Json>, time: Json -> Option<int>)
    requires s != [] && SortedByDate(s, time) && Stamp(x, time) < Stamp(s[0], time)
    requires multiset(t) == multiset(s[1..]) + multiset{x}
    ensures forall y :: y in t ==> Stamp(s[0], time) >= Stamp(y, time)
  {
    forall y | y in t ensures Stamp(s[0], time) >= Stamp(y, time) {
      assert y in multiset(t);
      if y != x {
        assert y in multiset(s[1..]);
        var m :| 0 <= m < |s[1..]| && s[1..][m] == y;
        assert s[m + 1] == y;
      }
    }
  }

  /** `x` placed before the first record that is not newer than it. */
  function Insert(x: Json, s: seq<Json>, time: Json -> Option<int>): (r: seq<Json>)
    ensures multiset(r) == multiset(s) + multiset{x}
    ensures SortedByDate(s, time) ==> SortedByDate(r, time)
  {
    if s == [] || Stamp(x, time) >= Stamp(s[0], time) then
      var r := [x] + s;
      assert SortedByDate(s, time) ==> SortedByDate(r, time) by {
        if SortedByDate(s, time) && s != [] {
          forall y | y in s ensures Stamp(x, time) >= Stamp(y, time) {
            var m :| 0 <= m < |s| && s[m] == y;
          }
          ConsSorted(x, s, time);
        }
      }
      r
    else
      var t := Insert(x, s[1..], time);
      assert s == [s[0]] + s[1..];
      var r := [s[0]] + t;
      assert SortedByDate(s, time) ==> SortedByDate(r, time) by {
        if SortedByDate(s, time) {
          assert SortedByDate(s[1..], time) by {
            forall i, j | 0 <= i < j < |s[1..]| ensures Stamp(s[1..][i], time) >= Stamp(s[1..][j], time) {
              assert s[1..][i] == s[i + 1] && s[1..][j] == s[j + 1];
            }
          }
          HeadNewest(x, s, t, time);
          ConsSorted(s[0], t, time);
        }
      }
      r
  }

  /** The sort `Array.prototype.sort` performs with the comparator `db - da`: newest first, and
      records with equal stamps kept in their original order. */
  function SortByDate(v: seq<Json>, time: Json -> Option<int>): (r: seq<Json>)
    ensures multiset(r) == multiset(v)
    ensures SortedByDate(r, time)
  {
    if v == [] then []
    else
      assert v == [v[0]] + v[1..];
      Insert(v[0], SortByDate(v[1..], time), time)
  }

  lemma {:induction false} InsertStable(x: Json, s: seq<Json>, t: int, time: Json -> Option<int>)
    ensures WithStamp(Insert(x, s, time), t, time) == (if Stamp(x, time) == t then [x] else []) + WithStamp(s, t, time)
  {
    var px := if Stamp(x, time) == t then [x] else [];
    if s == [] || Stamp(x, time) >= Stamp(s[0], time) {
      assert Insert(x, s, time) == [x] + s;
      WithStampCons(x, s, t, time);
    } else {
      var rest := Insert(x, s[1..], time);
      var p0 := if Stamp(s[0], time) == t then [s[0]] else [];
      assert Insert(x, s, time) == [s[0]] + rest;
      InsertStable(x, s[1..], t, time);
      WithStampCons(s[0], rest, t, time);
      assert WithStamp(s, t, time) == p0 + WithStamp(s[1..], t, time);
      ConcatSwap(p0, px, WithStamp(s[1..], t, time));
    }
  }

  /** Two pieces of which one is empty may be swapped. */
  lemma ConcatSwap<T>(a: seq<T>, b: seq<T>, c: seq<T>)
    requires a == [] || b == []
    ensures a + (b + c) == b + (a + c)
  {
    if a == [] {
      assert a + (b + c) == b + c && a + c == c;
    } else {
      assert b + c == c && b + (a + c) == a + c;
    }
  }

  lemma WithStampCons(y: Json, rest: seq<Json>, t: int, time: Json -> Option<int>)
    ensures WithStamp([y] + rest, t, time) == (if Stamp(y, time) == t then [y] else []) + WithStamp(rest, t, time)
  {
    assert ([y] + rest)[1..] == rest;
  }

  /** Records with the same stamp keep the order `Object.values` gave them. */
  lemma {:induction false} SortStable(v: seq<Json>, t: int, time: Json -> Option<int>)
    ensures WithStamp(SortByDate(v, time), t, time) == WithStamp(v, t, time)
  {
    if v != [] {
      SortStable(v[1..], t, time);
      InsertStable(v[0], SortByDate(v[1..], time), t, time);
    }
  }

  /** A newest-first order that keeps equal stamps in their original order is unique, so any
      stable sort with this comparator (ECMAScript requires `sort` to be stable) yields the list
      `SortByDate` computes. */
  lemma {:induction false} StableSortUnique(a: seq<Json>, b: seq<Json>, time: Json -> Option<int>)
    requires SortedByDate(a, time) && SortedByDate(b, time)
    requires forall t :: WithStamp(a, t, time) == WithStamp(b, t, time)
    ensures a == b
  {
    WithStampHead(a, time);
    WithStampHead(b, time);
    if a != [] && b != [] {
      var ta, tb := Stamp(a[0], time), Stamp(b[0], time);
      WithStampBound(b, ta, time);
      WithStampBound(a, tb, time);
      assert ta == tb;
      assert WithStamp(a, ta, time)[0] == a[0];
      assert WithStamp(b, tb, time)[0] == b[0];
      assert a[0] == b[0];
      forall t ensures WithStamp(a[1..], t, time) == WithStamp(b[1..], t, time) {
        var p := if Stamp(a[0], time) == t then [a[0]] else [];
        assert WithStamp(a, t, time) == p + WithStamp(a[1..], t, time);
        assert WithStamp(b, t, time) == p + WithStamp(b[1..], t, time);
        assert WithStamp(a[1..], t, time) == WithStamp(a, t, time)[|p|..];
        assert WithStamp(b[1..], t, time) == WithStamp(b, t, time)[|p|..];
      }
      SortedTail(a, time);
      SortedTail(b, time);
      StableSortUnique(a[1..], b[1..], time);
      assert a == [a[0]] + a[1..] && b == [b[0]] + b[1..];
    }
  }

  lemma WithStampHead(s: seq<Json>, time: Json -> Option<int>)
    ensures s != [] ==> WithStamp(s, Stamp(s[0], time), time) != []
  {
  }

  /** In a newest-first list nothing has a stamp above the head's. */
  lemma {:induction false} WithStampBound(s: seq<Json>, t: int, time: Json -> Option<int>)
    requires SortedByDate(s, time) && s != [] && WithStamp(s, t, time) != []
    ensures t <= Stamp(s[0], time)
  {
    if Stamp(s[0], time) != t {
      SortedTail(s, time);
      WithStampBound(s[1..], t, time);
      if |s| > 1 {
        assert Stamp(s[1], time) <= Stamp(s[0], time);
      }
    }
  }

  lemma SortedTail(s: seq<Json>, time: Json -> Option<int>)
    requires SortedByDate(s, time) && s != []
    ensures SortedByDate(s[1..], time)
  {
    forall i, j | 0 <= i < j < |s| - 1 ensures Stamp(s[1..][i], time) >= Stamp(s[1..][j], time) {
      assert s[1..][i] == s[i + 1] && s[1..][j] == s[j + 1];
    }
  }

  /** `mergeOrders(remote, local)`: without a remote array the local array (or `[]`) comes back as
      it is; without a local array the remote array comes back as it is, unsorted; otherwise the
      chosen record of every key, newest first. */
  function MergeOrders(remote: Json, local: Json, time: Json -> Option<int>): (r: Json)
    ensures !remote.JArr? ==> r == (if local.JArr? then local else JArr([]))
    ensures remote.JArr? && !local.JArr? ==> r == remote
    ensures remote.JArr? && local.JArr? ==> r.JArr? && SortedByDate(r.items, time)
  {
    if !remote.JArr? then (if local.JArr? then local else JArr([]))
    else if !local.JArr? then remote
    else JArr(SortByDate(Values(Listing(remote.items, local.items)), time))
  }

  /** Every record the merge returns carries an id and is the record chosen for its key. */
  lemma MergeKeepsOnlyChosen(remote: seq<Json>, local: seq<Json>, time: Json -> Option<int>)
    ensures forall x :: x in MergeOrders(JArr(remote), JArr(local), time).items ==>
      OrderKey(x).Some? && Chosen(remote, local, OrderKey(x).value) == Some(x)
  {
    var b := Listing(remote, local);
    ListingContents(remote, local);
    var vs := Values(b);
    var r := SortByDate(vs, time);
    forall x | x in r ensures OrderKey(x).Some? && Chosen(remote, local, OrderKey(x).value) == Some(x) {
      assert x in multiset(vs);
      var m :| 0 <= m < |vs| && vs[m] == x;
      LookupAt(b, m);
      assert HasKey(b, b[m].0);
    }
  }

  /** Every key some record carries is represented in the merge. */
  lemma MergeKeepsEveryChosen(remote: seq<Json>, local: seq<Json>, time: Json -> Option<int>, k: string)
    requires Chosen(remote, local, k).Some?
    ensures Chosen(remote, local, k).value in MergeOrders(JArr(remote), JArr(local), time).items
  {
    var b := Listing(remote, local);
    ListingContents(remote, local);
    var vs := Values(b);
    var r := SortByDate(vs, time);
    assert HasKey(b, k);
    var m :| 0 <= m < |b| && b[m].0 == k;
    LookupAt(b, m);
    assert vs[m] in multiset(r);
  }

  /** No id appears twice in the merge. */
  lemma MergeKeysDistinct(remote: seq<Json>, local: seq<Json>, time: Json -> Option<int>)
    ensures KeysDistinct(MergeOrders(JArr(remote), JArr(local), time).items)
  {
    ListingContents(remote, local);
    ValuesDistinct(Listing(remote, local));
    SortKeepsDistinct(Values(Listing(remote, local)), time);
  }

  /** No two records share a key. */
  predicate KeysDistinct(s: seq<Json>) {
    forall i, j :: 0 <= i < j < |s| ==> OrderKey(s[i]) != OrderKey(s[j])
  }

  lemma ValuesDistinct(b: seq<(string, Json)>)
    requires Keyed(b) && DistinctKeys(b)
    ensures KeysDistinct(Values(b))
  {
  }

  lemma {:induction false} SortKeepsDistinct(v: seq<Json>, time: Json -> Option<int>)
    requires KeysDistinct(v)
    ensures KeysDistinct(SortByDate(v, time))
  {
    if v != [] {
      var t := SortByDate(v[1..], time);
      SortKeepsDistinct(v[1..], time);
      forall y | y in t ensures OrderKey(y) != OrderKey(v[0]) {
        assert y in multiset(v[1..]);
        var m :| 0 <= m < |v[1..]| && v[1..][m] == y;
        assert v[m + 1] == y;
      }
      InsertKeepsDistinct(v[0], t, time);
    }
  }

  /** A record whose key no other record has may go in front. */
  lemma ConsKeysDistinct(a: Json, s: seq<Json>)
    requires KeysDistinct(s) && forall y :: y in s ==> OrderKey(y) != OrderKey(a)
    ensures KeysDistinct([a] + s)
  {
    var r := [a] + s;
    forall i, j | 0 <= i < j < |r| ensures OrderKey(r[i]) != OrderKey(r[j]) {
      assert r[j] == s[j - 1];
      if i > 0 {
        assert r[i] == s[i - 1];
      }
    }
  }

  /** Insertion adds `x` and nothing else. */
  lemma InsertMembers(x: Json, s: seq<Json>, time: Json -> Option<int>)
    ensures forall y :: y in Insert(x, s, time) ==> y == x || y in s
  {
    forall y | y in Insert(x, s, time) ensures y == x || y in s {
      assert y in multiset(Insert(x, s, time));
    }
  }

  lemma {:induction false} InsertKeepsDistinct(x: Json, s: seq<Json>, time: Json -> Option<int>)
    requires KeysDistinct(s) && forall y :: y in s ==> OrderKey(y) != OrderKey(x)
    ensures KeysDistinct(Insert(x, s, time))
  {
    if s == [] || Stamp(x, time) >= Stamp(s[0], time) {
      ConsKeysDistinct(x, s);
    } else {
      var t := Insert(x, s[1..], time);
      assert KeysDistinct(s[1..]) by {
        forall i, j | 0 <= i < j < |s[1..]| ensures OrderKey(s[1..][i]) != OrderKey(s[1..][j]) {
          assert s[1..][i] == s[i + 1] && s[1..][j] == s[j + 1];
        }
      }
      InsertKeepsDistinct(x, s[1..], time);
      forall y | y in t ensures OrderKey(y) != OrderKey(s[0]) {
        InsertMembers(x, s[1..], time);
        if y != x {
          var m :| 0 <= m < |s[1..]| && s[1..][m] == y;
          assert s[m + 1] == y;
        }
      }
      ConsKeysDistinct(s[0], t);
      assert Insert(x, s, time) == [s[0]] + t;
    }
  }

  /** The remote list has the last word: its last record for an id is what the merge keeps. */
  lemma RemoteWins(remote: seq<Json>, local: seq<Json>, time: Json -> Option<int>, k: string)
    requires LastRecord(remote, k).Some?
    ensures LastRecord(remote, k).value in MergeOrders(JArr(remote), JArr(local), time).items
    ensures forall x :: x in MergeOrders(JArr(remote), JArr(local), time).items && OrderKey(x) == Some(k) ==>
      x == LastRecord(remote, k).value
  {
    var r := MergeOrders(JArr(remote), JArr(local), time).items;
    assert Chosen(remote, local, k) == LastRecord(remote, k);
    MergeKeepsEveryChosen(remote, local, time, k);
    MergeKeepsOnlyChosen(remote, local, time);
  }

  /** A just-placed order the published document does not know yet survives the merge. */
  lemma LocalKept(remote: seq<Json>, local: seq<Json>, time: Json -> Option<int>, o: Json)
    requires o in local && OrderKey(o).Some? && LastRecord(remote, OrderKey(o).value).None?
    requires FirstRecord(local, OrderKey(o).value) == Some(o)
    ensures o in MergeOrders(JArr(remote), JArr(local), time).items
  {
    assert Chosen(remote, local, OrderKey(o).value) == Some(o);
    MergeKeepsEveryChosen(remote, local, time, OrderKey(o).value);
  }

  /** Records with equal stamps appear in the order `Object.values` lists the index: ids that
      are array indices first, ascending, then the others in the order they were first written. */
  lemma MergeOrdersStable(remote: seq<Json>, local: seq<Json>, time: Json -> Option<int>, t: int)
    ensures WithStamp(MergeOrders(JArr(remote), JArr(local), time).items, t, time)
         == WithStamp(Values(PropertyOrder(ById(remote, local))), t, time)
  {
    SortStable(Values(Listing(remote, local)), t, time);
  }

  // The index as written: `const byId = {}` is an ordinary object whose prototype is
  // Object.prototype, so ids that name an inherited property read as taken, and the id
  // `__proto__` goes to the inherited setter instead of becoming a property.

  /** The properties of Object.prototype (section 20.1.3 of ECMAScript 2024, with the annex B
      accessors and `__proto__`); each reads as a truthy function or object. */
  predicate InheritedName(k: string) {
    k == "constructor" || k == "hasOwnProperty" || k == "isPrototypeOf" || k == "propertyIsEnumerable"
    || k == "toLocaleString" || k == "toString" || k == "valueOf" || k == "__proto__"
    || k == "__defineGetter__" || k == "__defineSetter__" || k == "__lookupGetter__" || k == "__lookupSetter__"
  }

  /** A plain `{}` used as an index: its own entries, and the parsed order that replaced its
      prototype through the `__proto__` setter, if one did (whose own prototype is again
      Object.prototype). */
  datatype ProtoIndex = ProtoIndex(own: seq<(string, Json)>, proto: Option<Json>)

  /** Whether `byId[k]` is truthy: an own property, else a property of the replacing prototype,
      else an Object.prototype member. */
  predicate Occupied(ix: ProtoIndex, k: string) {
    if HasKey(ix.own, k) then Truthy(Lookup(ix.own, k))
    else if ix.proto.Some? && HasOwn(ix.proto.value, k) then Truthy(Field(ix.proto.value, k))
    else InheritedName(k)
  }

  /** `byId[k] = o`. Assigning `__proto__` while nothing on the way shadows the inherited
      accessor calls its setter: an object becomes the new prototype and no property appears.
      Any other assignment writes an own property. */
  function Assign(ix: ProtoIndex, k: string, o: Json): (r: ProtoIndex)
    ensures k != "__proto__" ==> r == ProtoIndex(SetEntry(ix.own, k, o), ix.proto)
  {
    if k == "__proto__" && !HasKey(ix.own, k) && !(ix.proto.Some? && HasOwn(ix.proto.value, k)) then
      if IsObject(o) then ProtoIndex(ix.own, Some(o)) else ix
    else ProtoIndex(SetEntry(ix.own, k, o), ix.proto)
  }

  function RemotePassAsWritten(ix: ProtoIndex, remote: seq<Json>): ProtoIndex
    decreases |remote|
  {
    if remote == [] then ix
    else
      var next := match OrderKey(remote[0]) case None => ix case Some(k) => Assign(ix, k, remote[0]);
      RemotePassAsWritten(next, remote[1..])
  }

  function LocalPassAsWritten(ix: ProtoIndex, local: seq<Json>): ProtoIndex
    decreases |local|
  {
    if local == [] then ix
    else
      var next := match OrderKey(local[0])
        case None => ix
        case Some(k) => if !Occupied(ix, k) then Assign(ix, k, local[0]) else ix;
      LocalPassAsWritten(next, local[1..])
  }

  /** `mergeOrders` exactly as store.js writes it, with the index an ordinary `{}`. */
  function MergeOrdersAsWritten(remote: Json, local: Json, time: Json -> Option<int>): (r: Json)
    ensures !remote.JArr? || !local.JArr? ==> r == MergeOrders(remote, local, time)
  {
    if !remote.JArr? then (if local.JArr? then local else JArr([]))
    else if !local.JArr? then remote
    else
      var ix := LocalPassAsWritten(RemotePassAsWritten(ProtoIndex([], None), remote.items), local.items);
      JArr(SortByDate(Values(PropertyOrder(ix.own)), time))
  }

  /** No record's key is an Object.prototype name. */
  predicate PlainKeys(rs: seq<Json>) {
    forall i :: 0 <= i < |rs| && OrderKey(rs[i]).Some? ==> !InheritedName(OrderKey(rs[i]).value)
  }

  lemma {:induction false} RemotePassAgrees(b: seq<(string, Json)>, remote: seq<Json>)
    requires PlainKeys(remote)
    ensures RemotePassAsWritten(ProtoIndex(b, None), remote) == ProtoIndex(IndexRemote(b, remote), None)
    decreases |remote|
  {
    if remote != [] {
      assert PlainKeys(remote[1..]) by {
        forall i | 0 <= i < |remote[1..]| && OrderKey(remote[1..][i]).Some? ensures !InheritedName(OrderKey(remote[1..][i]).value) {
          assert remote[1..][i] == remote[i + 1];
        }
      }
      var next := match OrderKey(remote[0]) case None => b case Some(k) => SetEntry(b, k, remote[0]);
      RemotePassAgrees(next, remote[1..]);
    }
  }

  lemma {:induction false} LocalPassAgrees(b: seq<(string, Json)>, local: seq<Json>)
    requires PlainKeys(local)
    ensures LocalPassAsWritten(ProtoIndex(b, None), local) == ProtoIndex(IndexLocal(b, local), None)
    decreases |local|
  {
    if local != [] {
      assert PlainKeys(local[1..]) by {
        forall i | 0 <= i < |local[1..]| && OrderKey(local[1..][i]).Some? ensures !InheritedName(OrderKey(local[1..][i]).value) {
          assert local[1..][i] == local[i + 1];
        }
      }
      match OrderKey(local[0])
      case None =>
        LocalPassAgrees(b, local[1..]);
      case Some(k) =>
        assert Occupied(ProtoIndex(b, None), k) == Truthy(Lookup(b, k));
        LocalPassAgrees(LocalStep(b, local[0]), local[1..]);
    }
  }

  /** While no id names an Object.prototype member, the program's index and an index without a
      prototype agree. */
  lemma MergeAgreesOffPrototype(remote: seq<Json>, local: seq<Json>, time: Json -> Option<int>)
    requires PlainKeys(remote) && PlainKeys(local)
    ensures MergeOrdersAsWritten(JArr(remote), JArr(local), time) == MergeOrders(JArr(remote), JArr(local), time)
  {
    RemotePassAgrees([], remote);
    LocalPassAgrees(IndexRemote([], remote), local);
  }

  /** A browser-only order whose id is `toString` is dropped as written, because
      `byId["toString"]` is the inherited method; the corrected index keeps it. */
  lemma InheritedIdLost(time: Json -> Option<int>)
    ensures var o := JObj([("id", JStr("toString"))]);
      MergeOrdersAsWritten(JArr([]), JArr([o]), time) == JArr([])
      && o in MergeOrders(JArr([]), JArr([o]), time).items
  {
    var o := JObj([("id", JStr("toString"))]);
    assert OrderKey(o) == Some("toString");
    assert [o][1..] == [];
    assert LocalPassAsWritten(ProtoIndex([], None), [o]) == ProtoIndex([], None);
    assert FirstRecord([o], "toString") == Some(o);
    LocalKept([], [o], time, o);
  }

  /** A published order whose id is `__proto__` becomes the index's prototype as written and so
      is missing from the merge; the corrected index keeps it. */
  lemma ProtoIdLost(time: Json -> Option<int>)
    ensures var o := JObj([("id", JStr("__proto__"))]);
      MergeOrdersAsWritten(JArr([o]), JArr([]), time) == JArr([])
      && o in MergeOrders(JArr([o]), JArr([]), time).items
  {
    var o := JObj([("id", JStr("__proto__"))]);
    assert OrderKey(o) == Some("__proto__");
    assert [o][1..] == [];
    assert RemotePassAsWritten(ProtoIndex([], None), [o]) == ProtoIndex([], Some(o));
    assert LastRecord([o], "__proto__") == Some(o);
    RemoteWins([o], [], time, "__proto__");
  }
}

=== FILE: own_keys.dfy ===
/** The order in which `Object.keys`, `Object.values` and `Object.entries` list the own
    properties of an ordinary object (OrdinaryOwnPropertyKeys, section 10.1.11.1 of ECMAScript
    2024): first the keys that are array indices, in ascending numeric order, then every other
    string key in the order the properties were created. An object's entries in this model are
    kept in creation order; enumeration goes through `PropertyOrder`. */
module OwnKeys {
  import opened JsText
  import opened JsonValue

  /** 2^32 - 1: an array index is below it. */
  const ArrayIndexBound: nat := 0x1_0000_0000 - 1

  /** A key that is an array index: the canonical decimal text (no leading zero) of an integer
      below 2^32 - 1. */
  predicate IsArrayIndex(k: string) {
    k != [] && AllDigits(k) && (k[0] != '0' || k == "0") && DecimalValue(k) < ArrayIndexBound
  }

  /** The numeric value of an array-index key, by which such keys are ordered. */
  function IndexValue(k: string): nat {
    if k != [] && AllDigits(k) then DecimalValue(k) else 0
  }

  /** The entries whose keys are array indices, in creation order. */
  function IndexEntries(e: seq<(string, Json)>): (r: seq<(string, Json)>)
    ensures forall p :: p in r <==> p in e && IsArrayIndex(p.0)
    ensures forall k :: HasKey(r, k) ==> HasKey(e, k)
  {
    if e == [] then []
    else
      var rest := IndexEntries(e[1..]);
      KeysOfCons(e[0], rest);
      KeysOfCons(e[0], e[1..]);
      assert e == [e[0]] + e[1..];
      if IsArrayIndex(e[0].0) then [e[0]] + rest else rest
  }

  /** The entries whose keys are not array indices, in creation order. */
  function NamedEntries(e: seq<(string, Json)>): (r: seq<(string, Json)>)
    ensures forall p :: p in r <==> p in e && !IsArrayIndex(p.0)
    ensures forall k :: HasKey(r, k) ==> HasKey(e, k)
  {
    if e == [] then []
    else
      var rest := NamedEntries(e[1..]);
      KeysOfCons(e[0], rest);
      KeysOfCons(e[0], e[1..]);
      assert e == [e[0]] + e[1..];
      if !IsArrayIndex(e[0].0) then [e[0]] + rest else rest
  }

  /** Ascending by index value. */
  predicate Ascending(s: seq<(string, Json)>) {
    forall i, j :: 0 <= i < j < |s| ==> IndexValue(s[i].0) <= IndexValue(s[j].0)
  }

  /** `p` placed before the first entry whose index value is not below its own. */
  function InsertByIndex(p: (string, Json), s: seq<(string, Json)>): (r: seq<(string, Json)>)
    ensures forall q :: q in r <==> q == p || q in s
    ensures |r| == |s| + 1
  {
    if s == [] || IndexValue(p.0) <= IndexValue(s[0].0) then [p] + s
    else
      assert s == [s[0]] + s[1..];
      [s[0]] + InsertByIndex(p, s[1..])
  }

  /** An insertion sort by index value; entries with equal values keep their order. */
  function SortByIndex(s: seq<(string, Json)>): (r: seq<(string, Json)>)
    ensures forall q :: q in r <==> q in s
    ensures |r| == |s|
  {
    if s == [] then []
    else
      assert s == [s[0]] + s[1..];
      InsertByIndex(s[0], SortByIndex(s[1..]))
  }

  /** Two listings of the same entries have the same keys. */
  lemma SameEntriesSameKeys(a: seq<(string, Json)>, b: seq<(string, Json)>)
    requires forall q :: q in a <==> q in b
    ensures forall k :: HasKey(a, k) <==> HasKey(b, k)
  {
    forall k ensures HasKey(a, k) ==> HasKey(b, k) {
      if HasKey(a, k) {
        var i :| 0 <= i < |a| && a[i].0 == k;
        assert a[i] in b;
      }
    }
    forall k ensures HasKey(b, k) ==> HasKey(a, k) {
      if HasKey(b, k) {
        var i :| 0 <= i < |b| && b[i].0 == k;
        assert b[i] in a;
      }
    }
  }

  /** The tail of a list with distinct keys has distinct keys, none of them the head's. */
  lemma DistinctTail(s: seq<(string, Json)>)
    requires s != [] && DistinctKeys(s)
    ensures DistinctKeys(s[1..]) && !HasKey(s[1..], s[0].0)
  {
    forall i | 0 <= i < |s[1..]| ensures s[1..][i].0 != s[0].0 {
      assert s[1..][i] == s[i + 1];
    }
    forall i, j | 0 <= i < j < |s[1..]| ensures s[1..][i].0 != s[1..][j].0 {
      assert s[1..][i] == s[i + 1] && s[1..][j] == s[j + 1];
    }
  }

  /** An entry no greater than anything in an ascending list may go in front of it. */
  lemma ConsAscending(a: (string, Json), t: seq<(string, Json)>)
    requires Ascending(t) && forall q :: q in t ==> IndexValue(a.0) <= IndexValue(q.0)
    ensures Ascending([a] + t)
  {
    forall i, j | 0 <= i < j < |[a] + t| ensures IndexValue(([a] + t)[i].0) <= IndexValue(([a] + t)[j].0) {
      assert ([a] + t)[j] == t[j - 1] && t[j - 1] in t;
      if i > 0 {
        assert ([a] + t)[i] == t[i - 1];
      }
    }
  }

  /** Inserting into an ascending list keeps it ascending. */
  lemma {:induction false} InsertByIndexAscending(p: (string, Json), s: seq<(string, Json)>)
    requires Ascending(s)
    ensures Ascending(InsertByIndex(p, s))
  {
    if s == [] || IndexValue(p.0) <= IndexValue(s[0].0) {
      forall q | q in s ensures IndexValue(p.0) <= IndexValue(q.0) {
        var j :| 0 <= j < |s| && s[j] == q;
        assert IndexValue(s[0].0) <= IndexValue(s[j].0);
      }
      ConsAscending(p, s);
    } else {
      var rest := InsertByIndex(p, s[1..]);
      assert Ascending(s[1..]) by {
        forall i, j | 0 <= i < j < |s[1..]| ensures IndexValue(s[1..][i].0) <= IndexValue(s[1..][j].0) {
          assert s[1..][i] == s[i + 1] && s[1..][j] == s[j + 1];
        }
      }
      InsertByIndexAscending(p, s[1..]);
      forall q | q in rest ensures IndexValue(s[0].0) <= IndexValue(q.0) {
        if q != p {
          var j :| 0 <= j < |s[1..]| && s[1..][j] == q;
          assert s[j + 1] == q;
        }
      }
      ConsAscending(s[0], rest);
    }
  }

  lemma {:induction false} SortByIndexAscending(s: seq<(string, Json)>)
    ensures Ascending(SortByIndex(s))
  {
    if s != [] {
      SortByIndexAscending(s[1..]);
      InsertByIndexAscending(s[0], SortByIndex(s[1..]));
    }
  }

  /** Inserting an entry with a new key keeps the keys distinct. */
  lemma {:induction false} InsertByIndexDistinct(p: (string, Json), s: seq<(string, Json)>)
    requires DistinctKeys(s) && !HasKey(s, p.0)
    ensures DistinctKeys(InsertByIndex(p, s))
  {
    if s == [] || IndexValue(p.0) <= IndexValue(s[0].0) {
      ConsDistinct(p, s);
    } else {
      DistinctTail(s);
      assert !HasKey(s[1..], p.0) by {
        KeysOfCons(s[0], s[1..]);
        assert s == [s[0]] + s[1..];
      }
      InsertByIndexDistinct(p, s[1..]);
      var rest := InsertByIndex(p, s[1..]);
      assert s[0] != p && s[0].0 != p.0 by {
        assert HasKey(s, s[0].0);
      }
      SameEntriesSameKeys(rest, [p] + s[1..]);
      KeysOfCons(p, s[1..]);
      ConsDistinct(s[0], rest);
    }
  }

  /** Sorting keeps the keys distinct. */
  lemma {:induction false} SortByIndexDistinct(s: seq<(string, Json)>)
    requires DistinctKeys(s)
    ensures DistinctKeys(SortByIndex(s))
  {
    if s != [] {
      DistinctTail(s);
      SortByIndexDistinct(s[1..]);
      SameEntriesSameKeys(SortByIndex(s[1..]), s[1..]);
      InsertByIndexDistinct(s[0], SortByIndex(s[1..]));
    }
  }

  /** A subsequence chosen by a test on the key keeps the keys distinct. */
  lemma {:induction false} IndexEntriesDistinct(e: seq<(string, Json)>)
    requires DistinctKeys(e)
    ensures DistinctKeys(IndexEntries(e)) && DistinctKeys(NamedEntries(e))
  {
    if e != [] {
      DistinctTail(e);
      IndexEntriesDistinct(e[1..]);
      if IsArrayIndex(e[0].0) {
        ConsDistinct(e[0], IndexEntries(e[1..]));
      } else {
        ConsDistinct(e[0], NamedEntries(e[1..]));
      }
    }
  }

  /** `Object.values` / `Object.entries` order: array-index keys ascending, then the rest in
      creation order. */
  function PropertyOrder(e: seq<(string, Json)>): (r: seq<(string, Json)>)
    ensures forall p :: p in r <==> p in e
  {
    SortByIndex(IndexEntries(e)) + NamedEntries(e)
  }

  /** The listing has three parts: the array-index keys come first and ascend, and after them
      come the other keys, exactly in creation order. */
  lemma PropertyOrderShape(e: seq<(string, Json)>)
    ensures var r, n := PropertyOrder(e), |SortByIndex(IndexEntries(e))|;
      n <= |r|
      && (forall i :: 0 <= i < n ==> IsArrayIndex(r[i].0))
      && (forall i, j :: 0 <= i < j < n ==> IndexValue(r[i].0) <= IndexValue(r[j].0))
      && r[n..] == NamedEntries(e)
  {
    var s := SortByIndex(IndexEntries(e));
    var r := PropertyOrder(e);
    SortByIndexAscending(IndexEntries(e));
    forall i | 0 <= i < |s| ensures IsArrayIndex(r[i].0) {
      assert r[i] == s[i] && s[i] in IndexEntries(e);
    }
    assert r[|s|..] == NamedEntries(e);
  }

  /** The values of a listing, as `Object.values` returns them. */
  function Values(listed: seq<(string, Json)>): (vs: seq<Json>)
    ensures |vs| == |listed| && forall i :: 0 <= i < |listed| ==> vs[i] == listed[i].1
  {
    seq(|listed|, i requires 0 <= i < |listed| => listed[i].1)
  }

  /** Every entry is listed once: the listing is as long as the object. */
  lemma {:induction false} PropertyOrderLength(e: seq<(string, Json)>)
    ensures |PropertyOrder(e)| == |e|
  {
    SplitLength(e);
  }

  lemma {:induction false} SplitLength(e: seq<(string, Json)>)
    ensures |IndexEntries(e)| + |NamedEntries(e)| == |e|
  {
    if e != [] {
      SplitLength(e[1..]);
    }
  }

  /** Listing an object never puts one key twice. */
  lemma PropertyOrderDistinct(e: seq<(string, Json)>)
    requires DistinctKeys(e)
    ensures DistinctKeys(PropertyOrder(e))
  {
    IndexEntriesDistinct(e);
    var a: seq<(string, Json)>, b: seq<(string, Json)> := SortByIndex(IndexEntries(e)), NamedEntries(e);
    SortByIndexDistinct(IndexEntries(e));
    forall i, j | 0 <= i < j < |a + b| ensures (a + b)[i].0 != (a + b)[j].0 {
      if i < |a| && j >= |a| {
        assert (a + b)[i] == a[i] && a[i] in a;
        assert (a + b)[j] == b[j - |a|] && b[j - |a|] in b;
      } else if i < |a| {
        assert (a + b)[i] == a[i] && (a + b)[j] == a[j];
      } else {
        assert (a + b)[i] == b[i - |a|] && (a + b)[j] == b[j - |a|];
      }
    }
  }

  /** An object none of whose keys is an array index is listed in creation order. */
  lemma {:induction false} PropertyOrderNoIndex(e: seq<(string, Json)>)
    requires forall i :: 0 <= i < |e| ==> !IsArrayIndex(e[i].0)
    ensures PropertyOrder(e) == e
  {
    NoIndexEntries(e);
  }

  lemma {:induction false} NoIndexEntries(e: seq<(string, Json)>)
    requires forall i :: 0 <= i < |e| ==> !IsArrayIndex(e[i].0)
    ensures IndexEntries(e) == [] && NamedEntries(e) == e
  {
    if e != [] {
      assert forall i :: 0 <= i < |e[1..]| ==> e[1..][i] == e[i + 1];
      NoIndexEntries(e[1..]);
      assert e == [e[0]] + e[1..];
    }
  }

  /** A key with a `|` in it is never an array index. */
  lemma PipeKeyNotIndex(k: string)
    requires '|' in k
    ensures !IsArrayIndex(k)
  {
    var i :| 0 <= i < |k| && k[i] == '|';
  }
}

=== FILE: store.dfy ===
/** The `Store` object the storefront and the admin share: pulling the published document into
    storage, the payload the admin publishes, the orders API URL and WhatsApp number settings,
    placing an order, the visible catalog and a product's stock. */
module Store {
  import opened Wrappers
  import opened JsText
  import opened JsonValue
  import opened StoreData
  import opened OrdersMerge
  import opened OwnKeys

  const LowStockThreshold: int := 5

  /** What a key holds: `None` when it is absent. */
  function Slot(st: Storage, k: string): Option<Json> {
    if k in st then Some(st[k]) else None
  }

  /** `v && typeof v === 'object'`. */
  predicate IsDocument(v: Json) {
    Truthy(v) && IsObject(v)
  }

  /** The keys a published document can update. The admin record is not one of them. */
  const RemoteKeys: set<string> :=
    {ProductsKey, OrdersKey, ContentKey, DesignKey, FloatingContactKey, SizesKey, OrdersApiUrlKey, WhatsappNumberKey}

  /** The remote `orders` as `mergeOrders` receives it: the array, or `[]` for anything else. */
  function RemoteOrders(data: Json): (o: Json)
    ensures o.JArr?
  {
    var o := Field(data, "orders");
    if o.JArr? then o else JArr([])
  }

  /** `data.hasOwnProperty('orders')` is reached only when `orders` is not an array, and throws a
      `TypeError` when the document has an own `hasOwnProperty` field: a parsed value is never a
      function. */
  predicate OrdersCheckThrows(data: Json) {
    !Field(data, "orders").JArr? && HasOwn(data, "hasOwnProperty")
  }

  /** The writes `applyRemoteData` attempts, in its order: each key with the value it stores, or
      `None` when the document's field fails that key's guard. `local` is the stored order list.
      When the `orders` check throws, the products write has happened and nothing after it does. */
  function Incoming(data: Json, local: Json, time: Json -> Option<int>): (ws: seq<(string, Option<Json>)>)
    ensures |ws| == 8
  {
    var guarded := Guarded(data, local, time);
    if OrdersCheckThrows(data) then Writes(guarded[0].1, None, None, None, None, None, None, None)
    else guarded
  }

  /** Each key with the value it stores when its guard passes, as if every guard were reached. */
  function Guarded(data: Json, local: Json, time: Json -> Option<int>): (ws: seq<(string, Option<Json>)>)
    ensures |ws| == 8
  {
    Writes(IfList(Field(data, "products")),
           if Field(data, "orders").JArr? || HasOwn(data, "orders") then Some(MergeOrders(RemoteOrders(data), local, time)) else None,
           IfDocument(Field(data, "content")),
           IfDocument(Field(data, "design")),
           IfDocument(Field(data, "floatingContact")),
           IfList(Field(data, "sizes")),
           IfText(Field(data, "ordersApiUrl"), false),
           IfText(Field(data, "whatsappNumber"), true))
  }

  /** `Array.isArray(v)` as a guard. */
  function IfList(v: Json): (r: Option<Json>)
    ensures r == (if v.JArr? then Some(v) else None)
  {
    if v.JArr? then Some(v) else None
  }

  /** `v && typeof v === 'object'` as a guard. */
  function IfDocument(v: Json): (r: Option<Json>)
    ensures r == (if IsDocument(v) then Some(v) else None)
  {
    if IsDocument(v) then Some(v) else None
  }

  /** A string that is not blank once trimmed, stored trimmed, and reduced to its digits when
      `digits` is set. */
  function IfText(v: Json, digits: bool): (r: Option<Json>)
    ensures r == (if v.JStr? && Trim(v.s) != "" then Some(JStr(if digits then Digits(Trim(v.s)) else Trim(v.s))) else None)
  {
    if v.JStr? && Trim(v.s) != "" then Some(JStr(if digits then Digits(Trim(v.s)) else Trim(v.s))) else None
  }

  /** The eight published keys, in `applyRemoteData`'s order, paired with their values. */
  function Writes(products: Option<Json>, orders: Option<Json>, content: Option<Json>, design: Option<Json>,
                  floating: Option<Json>, sizes: Option<Json>, url: Option<Json>, number: Option<Json>): (ws: seq<(string, Option<Json>)>)
    ensures |ws| == 8
  {
    [(ProductsKey, products), (OrdersKey, orders), (ContentKey, content), (DesignKey, design),
     (FloatingContactKey, floating), (SizesKey, sizes), (OrdersApiUrlKey, url), (WhatsappNumberKey, number)]
  }

  /** Whatever the values, the eight keys are distinct published keys. */
  lemma WritesDistinct(products: Option<Json>, orders: Option<Json>, content: Option<Json>, design: Option<Json>,
                       floating: Option<Json>, sizes: Option<Json>, url: Option<Json>, number: Option<Json>)
    ensures var ws := Writes(products, orders, content, design, floating, sizes, url, number);
      DistinctWrites(ws) && forall i :: 0 <= i < 8 ==> ws[i].0 in RemoteKeys
  {
    KeyTags();
  }

  /** The value a list of writes stores under `k`: the first write for `k`, if any. */
  function Pending(ws: seq<(string, Option<Json>)>, k: string): Option<Json> {
    if ws == [] then None
    else if ws[0].0 == k then ws[0].1
    else Pending(ws[1..], k)
  }

  /** A key no write names has nothing pending. */
  lemma {:induction false} PendingMissing(ws: seq<(string, Option<Json>)>, k: string)
    requires forall i :: 0 <= i < |ws| ==> ws[i].0 != k
    ensures Pending(ws, k).None?
  {
    if ws != [] {
      assert ws[0].0 != k;
      assert forall i :: 0 <= i < |ws[1..]| ==> ws[1..][i] == ws[i + 1];
      PendingMissing(ws[1..], k);
    }
  }

  /** A key whose every write carries no value has nothing pending. */
  lemma {:induction false} PendingNoValue(ws: seq<(string, Option<Json>)>, k: string)
    requires forall i :: 0 <= i < |ws| && ws[i].0 == k ==> ws[i].1.None?
    ensures Pending(ws, k).None?
  {
    if ws != [] && ws[0].0 != k {
      assert forall i :: 0 <= i < |ws[1..]| ==> ws[1..][i] == ws[i + 1];
      PendingNoValue(ws[1..], k);
    }
  }

  predicate DistinctWrites(ws: seq<(string, Option<Json>)>) {
    forall i, j :: 0 <= i < j < |ws| ==> ws[i].0 != ws[j].0
  }

  /** Each write in turn through `set`; one the quota refuses changes nothing. */
  function WriteAll(st: Storage, ws: seq<(string, Option<Json>)>, fits: Quota): Storage
    decreases |ws|
  {
    if ws == [] then st
    else
      var next := if ws[0].1.Some? then Set(st, ws[0].0, ws[0].1.value, fits).0 else st;
      WriteAll(next, ws[1..], fits)
  }

  /** The later writes of a distinct list never name the first write's key. */
  lemma FirstNotPendingLater(ws: seq<(string, Option<Json>)>)
    requires DistinctWrites(ws) && ws != []
    ensures DistinctWrites(ws[1..])
    ensures Pending(ws[1..], ws[0].0).None?
  {
    assert forall i :: 0 <= i < |ws[1..]| ==> ws[1..][i] == ws[i + 1];
    PendingMissing(ws[1..], ws[0].0);
  }

  /** With distinct keys, a key ends up either as it was or holding its pending value. */
  lemma {:induction false} WriteAllSlot(st: Storage, ws: seq<(string, Option<Json>)>, fits: Quota, k: string)
    requires DistinctWrites(ws)
    ensures var r := WriteAll(st, ws, fits);
      Slot(r, k) == Slot(st, k) || (Pending(ws, k).Some? && Slot(r, k) == Pending(ws, k))
    decreases |ws|
  {
    if ws != [] {
      var next := if ws[0].1.Some? then Set(st, ws[0].0, ws[0].1.value, fits).0 else st;
      FirstNotPendingLater(ws);
      WriteAllSlot(next, ws[1..], fits, k);
      if ws[0].0 != k {
        assert Slot(next, k) == Slot(st, k);
      }
    }
  }

  /** With room for everything, every pending value is stored and nothing else changes. */
  lemma {:induction false} WriteAllFit(st: Storage, ws: seq<(string, Option<Json>)>, fits: Quota, k: string)
    requires DistinctWrites(ws)
    requires forall s, k, v :: fits(s, k, v)
    ensures Slot(WriteAll(st, ws, fits), k) == (if Pending(ws, k).Some? then Pending(ws, k) else Slot(st, k))
    decreases |ws|
  {
    if ws != [] {
      var next := if ws[0].1.Some? then Set(st, ws[0].0, ws[0].1.value, fits).0 else st;
      FirstNotPendingLater(ws);
      WriteAllFit(next, ws[1..], fits, k);
    }
  }

  lemma {:induction false} PendingAt(ws: seq<(string, Option<Json>)>, i: nat)
    requires DistinctWrites(ws) && i < |ws|
    ensures Pending(ws, ws[i].0) == ws[i].1
  {
    if i > 0 {
      assert ws[0].0 != ws[i].0;
      assert ws[1..][i - 1] == ws[i];
      PendingAt(ws[1..], i - 1);
    }
  }

  /** The value `applyRemoteData` would store under `k`. */
  function RemoteValue(st: Storage, data: Json, time: Json -> Option<int>, k: string): Option<Json> {
    Pending(Incoming(data, Get(st, OrdersKey, JArr([])), time), k)
  }

  lemma IncomingDistinct(data: Json, local: Json, time: Json -> Option<int>)
    ensures DistinctWrites(Incoming(data, local, time))
    ensures forall i :: 0 <= i < 8 ==> Incoming(data, local, time)[i].0 in RemoteKeys
  {
    var ws := Incoming(data, local, time);
    WritesDistinct(ws[0].1, ws[1].1, ws[2].1, ws[3].1, ws[4].1, ws[5].1, ws[6].1, ws[7].1);
    assert ws == Writes(ws[0].1, ws[1].1, ws[2].1, ws[3].1, ws[4].1, ws[5].1, ws[6].1, ws[7].1);
  }

  /** `applyRemoteData(data)`. Nothing happens unless `data` is an object; what happens to each key
      otherwise is stated by the lemmas below, one key at a time. */
  function ApplyRemoteData(st: Storage, data: Json, time: Json -> Option<int>, fits: Quota): (r: Storage)
    ensures !IsDocument(data) ==> r == st
  {
    if !IsDocument(data) then st
    else WriteAll(st, Incoming(data, Get(st, OrdersKey, JArr([])), time), fits)
  }

  /** Every key outside the eight published ones keeps its value. */
  lemma ApplyRemoteOutside(st: Storage, data: Json, time: Json -> Option<int>, fits: Quota, k: string)
    requires k !in RemoteKeys
    ensures Slot(ApplyRemoteData(st, data, time, fits), k) == Slot(st, k)
  {
    if IsDocument(data) {
      var ws := Incoming(data, Get(st, OrdersKey, JArr([])), time);
      IncomingDistinct(data, Get(st, OrdersKey, JArr([])), time);
      PendingMissing(ws, k);
      WriteAllSlot(st, ws, fits, k);
    }
  }

  /** Each of the eight keeps its value or takes the one the document supplies for it. */
  lemma ApplyRemoteSlot(st: Storage, data: Json, time: Json -> Option<int>, fits: Quota, k: string)
    ensures var r := ApplyRemoteData(st, data, time, fits);
      Slot(r, k) == Slot(st, k) || (RemoteValue(st, data, time, k).Some? && Slot(r, k) == RemoteValue(st, data, time, k))
  {
    if IsDocument(data) {
      IncomingDistinct(data, Get(st, OrdersKey, JArr([])), time);
      WriteAllSlot(st, Incoming(data, Get(st, OrdersKey, JArr([])), time), fits, k);
    }
  }

  /** With room for everything, each published value that passes its guard is stored. */
  lemma ApplyRemoteAllFit(st: Storage, data: Json, time: Json -> Option<int>, fits: Quota, k: string)
    requires IsDocument(data)
    requires forall s, k, v :: fits(s, k, v)
    ensures Slot(ApplyRemoteData(st, data, time, fits), k) ==
      (if RemoteValue(st, data, time, k).Some? then RemoteValue(st, data, time, k) else Slot(st, k))
  {
    IncomingDistinct(data, Get(st, OrdersKey, JArr([])), time);
    WriteAllFit(st, Incoming(data, Get(st, OrdersKey, JArr([])), time), fits, k);
  }

  /** The orders slot takes the corrected merge; when no id, remote or local, names an
      `Object.prototype` member or `__proto__`, that is exactly what `mergeOrders` computes on its
      plain `{}` index as written. */
  lemma ApplyRemoteOrdersAsWritten(st: Storage, data: Json, time: Json -> Option<int>, fits: Quota)
    requires IsDocument(data) && HasOwn(data, "orders") && !OrdersCheckThrows(data)
    requires forall s, k, v :: fits(s, k, v)
    requires PlainKeys(RemoteOrders(data).items)
    requires var local := Get(st, OrdersKey, JArr([])); local.JArr? ==> PlainKeys(local.items)
    ensures Slot(ApplyRemoteData(st, data, time, fits), OrdersKey)
      == Some(MergeOrdersAsWritten(RemoteOrders(data), Get(st, OrdersKey, JArr([])), time))
  {
    var local := Get(st, OrdersKey, JArr([]));
    assert Slot(ApplyRemoteData(st, data, time, fits), OrdersKey) == Some(MergeOrders(RemoteOrders(data), local, time)) by {
      ApplyRemoteAllFit(st, data, time, fits, OrdersKey);
      IncomingDistinct(data, local, time);
      PendingAt(Incoming(data, local, time), 1);
    }
    if local.JArr? {
      MergeAgreesOffPrototype(RemoteOrders(data).items, local.items, time);
    }
  }

  /** When the `orders` check throws, the products write is the only one made: every other key
      keeps its value, and with room the products field that passes its guard is stored. */
  lemma ApplyRemoteThrows(st: Storage, data: Json, time: Json -> Option<int>, fits: Quota, k: string)
    requires IsDocument(data) && OrdersCheckThrows(data)
    ensures k != ProductsKey ==> Slot(ApplyRemoteData(st, data, time, fits), k) == Slot(st, k)
    ensures (forall s, k, v :: fits(s, k, v)) && Field(data, "products").JArr? ==>
      Slot(ApplyRemoteData(st, data, time, fits), ProductsKey) == Some(Field(data, "products"))
  {
    var local := Get(st, OrdersKey, JArr([]));
    var ws := Incoming(data, local, time);
    IncomingDistinct(data, local, time);
    if k != ProductsKey {
      WriteAllSlot(st, ws, fits, k);
      var first := Guarded(data, local, time)[0].1;
      assert ws == Writes(first, None, None, None, None, None, None, None);
      OnlyFirstWrite(first, k);
    }
    if (forall s, k, v :: fits(s, k, v)) && Field(data, "products").JArr? {
      WriteAllFit(st, ws, fits, ProductsKey);
      PendingAt(ws, 0);
    }
  }

  /** With only the products write carrying a value, nothing else is pending. */
  lemma OnlyFirstWrite(products: Option<Json>, k: string)
    requires k != ProductsKey
    ensures Pending(Writes(products, None, None, None, None, None, None, None), k).None?
  {
    var ws := Writes(products, None, None, None, None, None, None, None);
    assert forall i :: 0 <= i < |ws| && ws[i].0 == k ==> ws[i].1.None?;
    PendingNoValue(ws, k);
  }

  /** A document with an `orders` field never loses an order placed locally whose id the remote
      list does not know: the stored list after the pull still holds it. */
  lemma ApplyRemoteKeepsLocalOrder(st: Storage, data: Json, time: Json -> Option<int>, fits: Quota, o: Json)
    requires IsDocument(data) && HasOwn(data, "orders")
    requires forall s, k, v :: fits(s, k, v)
    requires Get(st, OrdersKey, JArr([])).JArr?
    requires var local := Get(st, OrdersKey, JArr([])).items;
      o in local && OrderKey(o).Some? && FirstRecord(local, OrderKey(o).value) == Some(o)
      && LastRecord(RemoteOrders(data).items, OrderKey(o).value).None?
    ensures var stored := Get(ApplyRemoteData(st, data, time, fits), OrdersKey, JArr([]));
      stored.JArr? && o in stored.items
  {
    var local := Get(st, OrdersKey, JArr([]));
    if OrdersCheckThrows(data) {
      KeyTags();
      ApplyRemoteThrows(st, data, time, fits, OrdersKey);
      assert Get(ApplyRemoteData(st, data, time, fits), OrdersKey, JArr([])) == local;
    } else {
      var merged := MergeOrders(RemoteOrders(data), local, time);
      assert Slot(ApplyRemoteData(st, data, time, fits), OrdersKey) == Some(merged) by {
        ApplyRemoteAllFit(st, data, time, fits, OrdersKey);
        IncomingDistinct(data, local, time);
        PendingAt(Incoming(data, local, time), 1);
      }
      assert merged.JArr? && o in merged.items by {
        LocalKept(RemoteOrders(data).items, local.items, time, o);
      }
    }
  }

  /** The entries of the published document, given the trimmed URL and the number's digits. */
  function PublishedEntries(st: Storage, d: Defaults, url: string, digits: string): seq<(string, Json)> {
    [("products", Get(st, ProductsKey, JArr([]))),
     ("orders", Get(st, OrdersKey, JArr([]))),
     ("content", Get(st, ContentKey, d.content)),
     ("design", Get(st, DesignKey, d.design)),
     ("floatingContact", Get(st, FloatingContactKey, DefaultFloatingContact)),
     ("sizes", Get(st, SizesKey, DefaultSizes)),
     ("ordersApiUrl", if url == "" then JUndef else JStr(url)),
     ("whatsappNumber", if digits == "" then JUndef else JStr(digits))]
  }

  lemma PublishedKeys(st: Storage, d: Defaults, url: string, digits: string)
    ensures DistinctKeys(PublishedEntries(st, d, url, digits))
    ensures !HasKey(PublishedEntries(st, d, url, digits), "admin")
    ensures !HasKey(PublishedEntries(st, d, url, digits), "hasOwnProperty")
  {
  }

  /** Each published field reads back as the stored value it was taken from. */
  lemma PublishedField(st: Storage, d: Defaults, url: string, digits: string, i: nat)
    requires i < 8
    ensures var e := PublishedEntries(st, d, url, digits); Lookup(e, e[i].0) == e[i].1
  {
    PublishedKeys(st, d, url, digits);
    LookupAt(PublishedEntries(st, d, url, digits), i);
  }

  /** The trimmed URL `getPayloadForSync` reads; `None` is the `TypeError` of `.trim()` on a stored
      value that is truthy but not a string. */
  function PublishedUrl(st: Storage): Option<string> {
    TrimmedOrEmpty(Get(st, OrdersApiUrlKey, JStr("")))
  }

  /** The digits of the trimmed stored WhatsApp number, under the same condition. */
  function PublishedDigits(st: Storage): Option<string> {
    match TrimmedOrEmpty(Get(st, WhatsappNumberKey, JStr("")))
    case None => None
    case Some(n) => Some(Digits(n))
  }

  /** `getPayloadForSync`: the published fields read from storage, with a blank URL or number left
      `undefined`. `None` is the `TypeError` of `.trim()` on either stored value. */
  function PayloadForSync(st: Storage, d: Defaults): (p: Option<Json>)
    ensures p.None? <==>
      TrimmedOrEmpty(Get(st, OrdersApiUrlKey, JStr(""))).None? || TrimmedOrEmpty(Get(st, WhatsappNumberKey, JStr(""))).None?
    ensures p.Some? ==> p.value.JObj?
  {
    var url := PublishedUrl(st);
    var digits := PublishedDigits(st);
    if url.None? || digits.None? then None
    else Some(JObj(PublishedEntries(st, d, url.value, digits.value)))
  }

  /** The published document never carries the admin record (its password hash stays local). */
  lemma PayloadOmitsAdmin(st: Storage, d: Defaults)
    requires PayloadForSync(st, d).Some?
    ensures !HasOwn(PayloadForSync(st, d).value, "admin")
  {
    PublishedKeys(st, d, PublishedUrl(st).value, PublishedDigits(st).value);
  }

  /** Pulling a published document never reaches the throwing `hasOwnProperty` call. */
  lemma PayloadNeverThrows(st: Storage, d: Defaults)
    requires PayloadForSync(st, d).Some?
    ensures !OrdersCheckThrows(PayloadForSync(st, d).value)
  {
    PublishedKeys(st, d, PublishedUrl(st).value, PublishedDigits(st).value);
  }

  /** The published URL is `undefined` exactly when `getOrdersApiUrl` reads `null`, and otherwise
      the same non-blank trimmed string it reads. */
  lemma PayloadUrl(st: Storage, d: Defaults)
    requires PayloadForSync(st, d).Some?
    ensures var u := Field(PayloadForSync(st, d).value, "ordersApiUrl");
      (u == JUndef <==> OrdersApiUrl(st) == Some(JNull))
      && (u != JUndef ==> OrdersApiUrl(st) == Some(u) && u.JStr? && u.s != "" && Trimmed(u.s))
  {
    var url := PublishedUrl(st).value;
    var digits := PublishedDigits(st).value;
    assert PayloadForSync(st, d).value == JObj(PublishedEntries(st, d, url, digits));
    PublishedField(st, d, url, digits, 6);
  }

  /** The published number is `undefined` when the stored one has no digits, and otherwise those
      digits. */
  lemma PayloadNumber(st: Storage, d: Defaults)
    requires PayloadForSync(st, d).Some?
    ensures var w := Field(PayloadForSync(st, d).value, "whatsappNumber");
      (w == JUndef <==> PublishedDigits(st).value == "")
      && (w != JUndef ==> w == JStr(PublishedDigits(st).value) && AllDigits(w.s))
  {
    var url := PublishedUrl(st).value;
    var digits := PublishedDigits(st).value;
    assert PayloadForSync(st, d).value == JObj(PublishedEntries(st, d, url, digits));
    PublishedField(st, d, url, digits, 7);
  }

  /** What is published does not depend on the admin record. */
  lemma PayloadIgnoresAdmin(st: Storage, d: Defaults, admin: Json)
    ensures PayloadForSync(st[AdminKey := admin], d) == PayloadForSync(st, d)
  {
    var st2 := st[AdminKey := admin];
    assert Get(st2, ProductsKey, JArr([])) == Get(st, ProductsKey, JArr([]));
    assert Get(st2, OrdersKey, JArr([])) == Get(st, OrdersKey, JArr([]));
    assert Get(st2, ContentKey, d.content) == Get(st, ContentKey, d.content);
    assert Get(st2, DesignKey, d.design) == Get(st, DesignKey, d.design);
    assert Get(st2, FloatingContactKey, DefaultFloatingContact) == Get(st, FloatingContactKey, DefaultFloatingContact);
    assert Get(st2, SizesKey, DefaultSizes) == Get(st, SizesKey, DefaultSizes);
    assert PublishedUrl(st2) == PublishedUrl(st) by {
      assert Get(st2, OrdersApiUrlKey, JStr("")) == Get(st, OrdersApiUrlKey, JStr(""));
    }
    assert PublishedDigits(st2) == PublishedDigits(st) by {
      assert Get(st2, WhatsappNumberKey, JStr("")) == Get(st, WhatsappNumberKey, JStr(""));
    }
  }

  /** The field of a document that `applyRemoteData` stores for the `i`-th key, with room for it. */
  lemma {:induction false} PulledValue(st: Storage, data: Json, time: Json -> Option<int>, fits: Quota, i: nat)
    requires IsDocument(data) && i < 8
    requires forall s, k, v :: fits(s, k, v)
    ensures var w := Incoming(data, Get(st, OrdersKey, JArr([])), time)[i];
      w.1.Some? ==> Slot(ApplyRemoteData(st, data, time, fits), w.0) == w.1
  {
    var ws := Incoming(data, Get(st, OrdersKey, JArr([])), time);
    ApplyRemoteAllFit(st, data, time, fits, ws[i].0);
    IncomingDistinct(data, Get(st, OrdersKey, JArr([])), time);
    PendingAt(ws, i);
  }

  /** A published document, as `getPayloadForSync` builds it. */
  lemma PayloadIs(st: Storage, d: Defaults)
    requires PayloadForSync(st, d).Some?
    ensures PublishedUrl(st).Some? && PublishedDigits(st).Some?
    ensures PayloadForSync(st, d).value == JObj(PublishedEntries(st, d, PublishedUrl(st).value, PublishedDigits(st).value))
  {
  }

  /** The fields of a published document. */
  lemma PayloadFields(st: Storage, d: Defaults)
    requires PayloadForSync(st, d).Some?
    ensures var p := PayloadForSync(st, d).value;
      var url, digits := PublishedUrl(st).value, PublishedDigits(st).value;
      IsDocument(p)
      && Field(p, "products") == Get(st, ProductsKey, JArr([]))
      && Field(p, "orders") == Get(st, OrdersKey, JArr([]))
      && Field(p, "content") == Get(st, ContentKey, d.content)
      && Field(p, "design") == Get(st, DesignKey, d.design)
      && Field(p, "floatingContact") == Get(st, FloatingContactKey, DefaultFloatingContact)
      && Field(p, "sizes") == Get(st, SizesKey, DefaultSizes)
      && Field(p, "ordersApiUrl") == (if url == "" then JUndef else JStr(url))
      && Field(p, "whatsappNumber") == (if digits == "" then JUndef else JStr(digits))
  {
    var p := PayloadForSync(st, d).value;
    PayloadIs(st, d);
    EntriesFields(st, d, PublishedUrl(st).value, PublishedDigits(st).value, p);
  }

  lemma EntriesFields(st: Storage, d: Defaults, url: string, digits: string, p: Json)
    requires p == JObj(PublishedEntries(st, d, url, digits))
    ensures IsDocument(p)
      && Field(p, "products") == Get(st, ProductsKey, JArr([]))
      && Field(p, "orders") == Get(st, OrdersKey, JArr([]))
      && Field(p, "content") == Get(st, ContentKey, d.content)
      && Field(p, "design") == Get(st, DesignKey, d.design)
      && Field(p, "floatingContact") == Get(st, FloatingContactKey, DefaultFloatingContact)
      && Field(p, "sizes") == Get(st, SizesKey, DefaultSizes)
      && Field(p, "ordersApiUrl") == (if url == "" then JUndef else JStr(url))
      && Field(p, "whatsappNumber") == (if digits == "" then JUndef else JStr(digits))
  {
    EntriesFieldsLow(st, d, url, digits);
    EntriesFieldsHigh(st, d, url, digits);
  }

  lemma EntriesFieldsLow(st: Storage, d: Defaults, url: string, digits: string)
    ensures var p := JObj(PublishedEntries(st, d, url, digits));
      Field(p, "products") == Get(st, ProductsKey, JArr([]))
      && Field(p, "orders") == Get(st, OrdersKey, JArr([]))
      && Field(p, "content") == Get(st, ContentKey, d.content)
      && Field(p, "design") == Get(st, DesignKey, d.design)
  {
    PublishedField(st, d, url, digits, 0);
    PublishedField(st, d, url, digits, 1);
    PublishedField(st, d, url, digits, 2);
    PublishedField(st, d, url, digits, 3);
  }

  lemma EntriesFieldsHigh(st: Storage, d: Defaults, url: string, digits: string)
    ensures var p := JObj(PublishedEntries(st, d, url, digits));
      Field(p, "floatingContact") == Get(st, FloatingContactKey, DefaultFloatingContact)
      && Field(p, "sizes") == Get(st, SizesKey, DefaultSizes)
      && Field(p, "ordersApiUrl") == (if url == "" then JUndef else JStr(url))
      && Field(p, "whatsappNumber") == (if digits == "" then JUndef else JStr(digits))
  {
    PublishedField(st, d, url, digits, 4);
    PublishedField(st, d, url, digits, 5);
    PublishedField(st, d, url, digits, 6);
    PublishedField(st, d, url, digits, 7);
  }

  /** The writes `applyRemoteData` derives from a document's fields, key by key. */
  lemma IncomingShape(data: Json, local: Json, time: Json -> Option<int>)
    ensures var ws := Incoming(data, local, time);
      var products, content, design := Field(data, "products"), Field(data, "content"), Field(data, "design");
      var floating, sizes := Field(data, "floatingContact"), Field(data, "sizes");
      var url, number := Field(data, "ordersApiUrl"), Field(data, "whatsappNumber");
      ws[0] == (ProductsKey, if products.JArr? then Some(products) else None)
      && (!OrdersCheckThrows(data) ==>
        ws[2] == (ContentKey, if IsDocument(content) then Some(content) else None)
        && ws[3] == (DesignKey, if IsDocument(design) then Some(design) else None)
        && ws[4] == (FloatingContactKey, if IsDocument(floating) then Some(floating) else None)
        && ws[5] == (SizesKey, if sizes.JArr? then Some(sizes) else None)
        && ws[6] == (OrdersApiUrlKey, if url.JStr? && Trim(url.s) != "" then Some(JStr(Trim(url.s))) else None)
        && ws[7] == (WhatsappNumberKey, if number.JStr? && Trim(number.s) != "" then Some(JStr(Digits(Trim(number.s)))) else None))
  {
    IncomingDocuments(data, local, time);
    IncomingTexts(data, local, time);
  }

  lemma IncomingDocuments(data: Json, local: Json, time: Json -> Option<int>)
    ensures var ws := Incoming(data, local, time);
      var products, content, design := Field(data, "products"), Field(data, "content"), Field(data, "design");
      var floating, sizes := Field(data, "floatingContact"), Field(data, "sizes");
      ws[0] == (ProductsKey, if products.JArr? then Some(products) else None)
      && (!OrdersCheckThrows(data) ==>
        ws[2] == (ContentKey, if IsDocument(content) then Some(content) else None)
        && ws[3] == (DesignKey, if IsDocument(design) then Some(design) else None)
        && ws[4] == (FloatingContactKey, if IsDocument(floating) then Some(floating) else None)
        && ws[5] == (SizesKey, if sizes.JArr? then Some(sizes) else None))
  {
    IncomingProducts(data, local, time);
    if !OrdersCheckThrows(data) {
      IncomingObjects(data, local, time);
    }
  }

  lemma IncomingProducts(data: Json, local: Json, time: Json -> Option<int>)
    ensures var products := Field(data, "products");
      Incoming(data, local, time)[0] == (ProductsKey, if products.JArr? then Some(products) else None)
  {
    GuardedProducts(data, local, time);
  }

  lemma GuardedProducts(data: Json, local: Json, time: Json -> Option<int>)
    ensures var products := Field(data, "products");
      Guarded(data, local, time)[0] == (ProductsKey, if products.JArr? then Some(products) else None)
  {
  }

  lemma IncomingObjects(data: Json, local: Json, time: Json -> Option<int>)
    requires !OrdersCheckThrows(data)
    ensures var ws := Incoming(data, local, time);
      var content, design := Field(data, "content"), Field(data, "design");
      var floating, sizes := Field(data, "floatingContact"), Field(data, "sizes");
      ws[2] == (ContentKey, if IsDocument(content) then Some(content) else None)
      && ws[3] == (DesignKey, if IsDocument(design) then Some(design) else None)
      && ws[4] == (FloatingContactKey, if IsDocument(floating) then Some(floating) else None)
      && ws[5] == (SizesKey, if sizes.JArr? then Some(sizes) else None)
  {
    GuardedObjects(data, local, time);
  }

  lemma GuardedObjects(data: Json, local: Json, time: Json -> Option<int>)
    ensures var ws := Guarded(data, local, time);
      var content, design := Field(data, "content"), Field(data, "design");
      var floating, sizes := Field(data, "floatingContact"), Field(data, "sizes");
      ws[2] == (ContentKey, if IsDocument(content) then Some(content) else None)
      && ws[3] == (DesignKey, if IsDocument(design) then Some(design) else None)
      && ws[4] == (FloatingContactKey, if IsDocument(floating) then Some(floating) else None)
      && ws[5] == (SizesKey, if sizes.JArr? then Some(sizes) else None)
  {
    GuardedLooks(data, local, time);
    GuardedLists(data, local, time);
  }

  lemma GuardedLooks(data: Json, local: Json, time: Json -> Option<int>)
    ensures var ws := Guarded(data, local, time);
      var content, design := Field(data, "content"), Field(data, "design");
      ws[2] == (ContentKey, if IsDocument(content) then Some(content) else None)
      && ws[3] == (DesignKey, if IsDocument(design) then Some(design) else None)
  {
    var ws := Guarded(data, local, time);
    assert ws[2] == (ContentKey, IfDocument(Field(data, "content")));
    assert ws[3] == (DesignKey, IfDocument(Field(data, "design")));
  }

  lemma GuardedLists(data: Json, local: Json, time: Json -> Option<int>)
    ensures var ws := Guarded(data, local, time);
      var floating, sizes := Field(data, "floatingContact"), Field(data, "sizes");
      ws[4] == (FloatingContactKey, if IsDocument(floating) then Some(floating) else None)
      && ws[5] == (SizesKey, if sizes.JArr? then Some(sizes) else None)
  {
  }

  lemma IncomingTexts(data: Json, local: Json, time: Json -> Option<int>)
    ensures var ws := Incoming(data, local, time);
      var url, number := Field(data, "ordersApiUrl"), Field(data, "whatsappNumber");
      !OrdersCheckThrows(data) ==>
        ws[6] == (OrdersApiUrlKey, if url.JStr? && Trim(url.s) != "" then Some(JStr(Trim(url.s))) else None)
        && ws[7] == (WhatsappNumberKey, if number.JStr? && Trim(number.s) != "" then Some(JStr(Digits(Trim(number.s)))) else None)
  {
    GuardedTexts(data, local, time);
  }

  lemma GuardedTexts(data: Json, local: Json, time: Json -> Option<int>)
    ensures var ws := Guarded(data, local, time);
      var url, number := Field(data, "ordersApiUrl"), Field(data, "whatsappNumber");
      ws[6] == (OrdersApiUrlKey, if url.JStr? && Trim(url.s) != "" then Some(JStr(Trim(url.s))) else None)
      && ws[7] == (WhatsappNumberKey, if number.JStr? && Trim(number.s) != "" then Some(JStr(Digits(Trim(number.s)))) else None)
  {
  }

  /** A write that passes its guard, pulled with room for everything, is stored. */
  lemma PulledAt(other: Storage, p: Json, time: Json -> Option<int>, fits: Quota, i: nat, k: string, v: Json)
    requires forall s, k, v :: fits(s, k, v)
    requires IsDocument(p) && i < 8 && Incoming(p, Get(other, OrdersKey, JArr([])), time)[i] == (k, Some(v))
    ensures Slot(ApplyRemoteData(other, p, time, fits), k) == Some(v)
  {
    PulledValue(other, p, time, fits, i);
  }

  /** Publishing and pulling into another browser carries the product list over unchanged. */
  lemma PublishThenPullProducts(st: Storage, other: Storage, d: Defaults, time: Json -> Option<int>, fits: Quota)
    requires forall s, k, v :: fits(s, k, v)
    requires PayloadForSync(st, d).Some? && Get(st, ProductsKey, JArr([])).JArr?
    ensures Slot(ApplyRemoteData(other, PayloadForSync(st, d).value, time, fits), ProductsKey) == Some(Get(st, ProductsKey, JArr([])))
  {
    var p := PayloadForSync(st, d).value;
    PayloadFields(st, d);
    PayloadNeverThrows(st, d);
    IncomingShape(p, Get(other, OrdersKey, JArr([])), time);
    PulledAt(other, p, time, fits, 0, ProductsKey, Get(st, ProductsKey, JArr([])));
  }

  /** … and the site content, when it is an object. */
  lemma PublishThenPullContent(st: Storage, other: Storage, d: Defaults, time: Json -> Option<int>, fits: Quota)
    requires forall s, k, v :: fits(s, k, v)
    requires PayloadForSync(st, d).Some? && IsDocument(Get(st, ContentKey, d.content))
    ensures Slot(ApplyRemoteData(other, PayloadForSync(st, d).value, time, fits), ContentKey) == Some(Get(st, ContentKey, d.content))
  {
    var p := PayloadForSync(st, d).value;
    PayloadFields(st, d);
    PayloadNeverThrows(st, d);
    IncomingShape(p, Get(other, OrdersKey, JArr([])), time);
    PulledAt(other, p, time, fits, 2, ContentKey, Get(st, ContentKey, d.content));
  }

  /** … and the design settings, when they are an object. */
  lemma PublishThenPullDesign(st: Storage, other: Storage, d: Defaults, time: Json -> Option<int>, fits: Quota)
    requires forall s, k, v :: fits(s, k, v)
    requires PayloadForSync(st, d).Some? && IsDocument(Get(st, DesignKey, d.design))
    ensures Slot(ApplyRemoteData(other, PayloadForSync(st, d).value, time, fits), DesignKey) == Some(Get(st, DesignKey, d.design))
  {
    var p := PayloadForSync(st, d).value;
    PayloadFields(st, d);
    PayloadNeverThrows(st, d);
    IncomingShape(p, Get(other, OrdersKey, JArr([])), time);
    PulledAt(other, p, time, fits, 3, DesignKey, Get(st, DesignKey, d.design));
  }

  /** … and the floating contact settings, when they are an object. */
  lemma PublishThenPullContact(st: Storage, other: Storage, d: Defaults, time: Json -> Option<int>, fits: Quota)
    requires forall s, k, v :: fits(s, k, v)
    requires PayloadForSync(st, d).Some? && IsDocument(Get(st, FloatingContactKey, DefaultFloatingContact))
    ensures Slot(ApplyRemoteData(other, PayloadForSync(st, d).value, time, fits), FloatingContactKey)
      == Some(Get(st, FloatingContactKey, DefaultFloatingContact))
  {
    var p := PayloadForSync(st, d).value;
    PayloadFields(st, d);
    PayloadNeverThrows(st, d);
    IncomingShape(p, Get(other, OrdersKey, JArr([])), time);
    PulledAt(other, p, time, fits, 4, FloatingContactKey, Get(st, FloatingContactKey, DefaultFloatingContact));
  }

  /** … and the size list. */
  lemma PublishThenPullSizes(st: Storage, other: Storage, d: Defaults, time: Json -> Option<int>, fits: Quota)
    requires forall s, k, v :: fits(s, k, v)
    requires PayloadForSync(st, d).Some? && Get(st, SizesKey, DefaultSizes).JArr?
    ensures Slot(ApplyRemoteData(other, PayloadForSync(st, d).value, time, fits), SizesKey) == Some(Get(st, SizesKey, DefaultSizes))
  {
    var p := PayloadForSync(st, d).value;
    PayloadFields(st, d);
    PayloadNeverThrows(st, d);
    IncomingShape(p, Get(other, OrdersKey, JArr([])), time);
    PulledAt(other, p, time, fits, 5, SizesKey, Get(st, SizesKey, DefaultSizes));
  }

  /** A non-blank published URL is stored as it was published. */
  lemma PublishThenPullUrlSlot(st: Storage, other: Storage, d: Defaults, time: Json -> Option<int>, fits: Quota)
    requires forall s, k, v :: fits(s, k, v)
    requires PayloadForSync(st, d).Some? && PublishedUrl(st).value != ""
    ensures Slot(ApplyRemoteData(other, PayloadForSync(st, d).value, time, fits), OrdersApiUrlKey)
      == Some(JStr(PublishedUrl(st).value))
  {
    var p := PayloadForSync(st, d).value;
    var url := PublishedUrl(st).value;
    TrimOfTrimmed(url);
    PayloadFields(st, d);
    PayloadNeverThrows(st, d);
    IncomingShape(p, Get(other, OrdersKey, JArr([])), time);
    PulledAt(other, p, time, fits, 6, OrdersApiUrlKey, JStr(url));
  }

  /** A stored non-blank trimmed URL reads back unchanged. */
  lemma OrdersApiUrlOfTrimmed(st: Storage, url: string)
    requires Slot(st, OrdersApiUrlKey) == Some(JStr(url)) && url != "" && Trimmed(url)
    ensures OrdersApiUrl(st) == Some(JStr(url))
  {
    TrimOfTrimmed(url);
    assert Get(st, OrdersApiUrlKey, JStr("")) == JStr(url);
  }

  /** Publishing and pulling carries over a non-blank orders API URL: the other browser reads
      back the same URL. */
  lemma PublishThenPullUrl(st: Storage, other: Storage, d: Defaults, time: Json -> Option<int>, fits: Quota)
    requires forall s, k, v :: fits(s, k, v)
    requires PayloadForSync(st, d).Some? && OrdersApiUrl(st) != Some(JNull)
    ensures OrdersApiUrl(ApplyRemoteData(other, PayloadForSync(st, d).value, time, fits)) == OrdersApiUrl(st)
  {
    var url := PublishedUrl(st).value;
    assert url != "" && Trimmed(url);
    PublishThenPullUrlSlot(st, other, d, time, fits);
    OrdersApiUrlOfTrimmed(ApplyRemoteData(other, PayloadForSync(st, d).value, time, fits), url);
  }

  /** A published number with digits is stored as it was published. */
  lemma PublishThenPullNumberSlot(st: Storage, other: Storage, d: Defaults, time: Json -> Option<int>, fits: Quota)
    requires forall s, k, v :: fits(s, k, v)
    requires PayloadForSync(st, d).Some? && PublishedDigits(st).value != ""
    ensures Slot(ApplyRemoteData(other, PayloadForSync(st, d).value, time, fits), WhatsappNumberKey)
      == Some(JStr(PublishedDigits(st).value))
  {
    var p := PayloadForSync(st, d).value;
    var digits := PublishedDigits(st).value;
    DigitsAreTrimmed(digits);
    DigitsOfDigits(digits);
    PayloadFields(st, d);
    PayloadNeverThrows(st, d);
    IncomingShape(p, Get(other, OrdersKey, JArr([])), time);
    PulledAt(other, p, time, fits, 7, WhatsappNumberKey, JStr(digits));
  }

  /** A stored number made only of digits, and not empty, reads back unchanged. */
  lemma WhatsappNumberOfDigits(st: Storage, digits: string)
    requires Slot(st, WhatsappNumberKey) == Some(JStr(digits)) && digits != "" && AllDigits(digits)
    ensures WhatsappNumber(st) == Some(digits)
  {
    DigitsAreTrimmed(digits);
    DigitsOfDigits(digits);
    assert Get(st, WhatsappNumberKey, JStr("")) == JStr(digits);
  }

  /** Publishing and pulling carries over a WhatsApp number that has digits: the other browser
      reads back the same number. */
  lemma PublishThenPullNumber(st: Storage, other: Storage, d: Defaults, time: Json -> Option<int>, fits: Quota)
    requires forall s, k, v :: fits(s, k, v)
    requires PayloadForSync(st, d).Some? && PublishedDigits(st).value != ""
    ensures WhatsappNumber(ApplyRemoteData(other, PayloadForSync(st, d).value, time, fits)) == WhatsappNumber(st)
  {
    var digits := PublishedDigits(st).value;
    PublishThenPullNumberSlot(st, other, d, time, fits);
    WhatsappNumberOfDigits(ApplyRemoteData(other, PayloadForSync(st, d).value, time, fits), digits);
  }

  /** `getOrdersApiUrl`: the trimmed stored URL, or `null` when it is blank. */
  function OrdersApiUrl(st: Storage): (r: Option<Json>)
    ensures r.None? <==> TrimmedOrEmpty(Get(st, OrdersApiUrlKey, JStr(""))).None?
    ensures r.Some? ==> r.value == JNull || (r.value.JStr? && r.value.s != "" && Trimmed(r.value.s))
  {
    match TrimmedOrEmpty(Get(st, OrdersApiUrlKey, JStr("")))
    case None => None
    case Some(u) => Some(if u == "" then JNull else JStr(u))
  }

  /** `setOrdersApiUrl(url)`: the trimmed URL, or the empty string when it is blank. `None` is the
      `TypeError` of `.trim()` on a truthy non-string. */
  function SetOrdersApiUrl(st: Storage, url: Json, fits: Quota): (r: Option<Storage>)
    ensures r.None? <==> Truthy(url) && !url.JStr?
    ensures r.Some? ==> forall k :: k != OrdersApiUrlKey ==> Slot(r.value, k) == Slot(st, k)
  {
    match TrimmedOrEmpty(url)
    case None => None
    case Some(u) => Some(Set(st, OrdersApiUrlKey, JStr(u), fits).0)
  }

  /** Setting a URL and reading it back gives its trimmed form, or `null` for a blank one. */
  lemma OrdersApiUrlRoundTrip(st: Storage, u: string, fits: Quota)
    requires fits(st, OrdersApiUrlKey, JStr(Trim(u)))
    ensures SetOrdersApiUrl(st, JStr(u), fits).Some?
    ensures OrdersApiUrl(SetOrdersApiUrl(st, JStr(u), fits).value) == Some(if Trim(u) == "" then JNull else JStr(Trim(u)))
  {
    var t := Trim(u);
    assert TrimmedOrEmpty(JStr(u)) == Some(t);
    var st2 := st[OrdersApiUrlKey := JStr(t)];
    assert SetOrdersApiUrl(st, JStr(u), fits) == Some(st2);
    assert Get(st2, OrdersApiUrlKey, JStr("")) == JStr(t);
    TrimOfTrimmed(t);
    assert TrimmedOrEmpty(JStr(t)) == Some(t);
  }

  /** `getWhatsappNumber`: the stored number's digits, or else the digits of the admin record's
      `whatsapp`, or else the empty string. */
  function WhatsappNumber(st: Storage): (r: Option<string>)
    ensures r.None? <==> TrimmedOrEmpty(Get(st, WhatsappNumberKey, JStr(""))).None?
    ensures r.Some? ==> AllDigits(r.value)
    ensures r.Some? && Digits(TrimmedOrEmpty(Get(st, WhatsappNumberKey, JStr(""))).value) != "" ==>
      r.value == Digits(TrimmedOrEmpty(Get(st, WhatsappNumberKey, JStr(""))).value)
    ensures r.Some? && Digits(TrimmedOrEmpty(Get(st, WhatsappNumberKey, JStr(""))).value) == "" ==>
      r.value == AdminNumber(st)
  {
    match TrimmedOrEmpty(Get(st, WhatsappNumberKey, JStr("")))
    case None => None
    case Some(raw) =>
      var digits := Digits(raw);
      if digits != "" then Some(digits)
      else
        var admin := Get(st, AdminKey, JNull);
        if Truthy(admin) && Truthy(Field(admin, "whatsapp")) then Some(Digits(ToJsString(Field(admin, "whatsapp"))))
        else Some("")
  }

  /** The fallback number: the digits of the admin record's truthy `whatsapp`, or else the empty
      string. */
  function AdminNumber(st: Storage): (r: string)
    ensures AllDigits(r)
    ensures !Truthy(Get(st, AdminKey, JNull)) || !Truthy(Field(Get(st, AdminKey, JNull), "whatsapp")) ==> r == ""
    ensures Truthy(Get(st, AdminKey, JNull)) && Field(Get(st, AdminKey, JNull), "whatsapp").JStr? ==>
      r == Digits(Field(Get(st, AdminKey, JNull), "whatsapp").s)
  {
    var admin := Get(st, AdminKey, JNull);
    if Truthy(admin) && Truthy(Field(admin, "whatsapp")) then Digits(ToJsString(Field(admin, "whatsapp"))) else ""
  }

  /** `setWhatsappNumber(num)`: the digits of `String(num).trim()`, or the empty string for a
      falsy or blank number. */
  function SetWhatsappNumber(st: Storage, num: Json, fits: Quota): (r: Storage)
    ensures forall k :: k != WhatsappNumberKey ==> Slot(r, k) == Slot(st, k)
    ensures Slot(r, WhatsappNumberKey) == Slot(st, WhatsappNumberKey)
         || (Slot(r, WhatsappNumberKey).Some? && Slot(r, WhatsappNumberKey).value.JStr?
             && AllDigits(Slot(r, WhatsappNumberKey).value.s))
  {
    var s := ToJsString(num);
    var digits := if Truthy(num) && Trim(s) != "" then Digits(Trim(s)) else "";
    Set(st, WhatsappNumberKey, JStr(digits), fits).0
  }

  /** An all-digit string is its own trim. */
  lemma DigitsAreTrimmed(s: string)
    requires AllDigits(s)
    ensures Trim(s) == s
  {
    TrimOfTrimmed(s);
  }

  /** A number that has digits reads back as exactly those digits. */
  lemma WhatsappNumberRoundTrip(st: Storage, num: Json, fits: Quota)
    requires Truthy(num) && Digits(ToJsString(num)) != ""
    requires fits(st, WhatsappNumberKey, JStr(Digits(Trim(ToJsString(num)))))
    ensures WhatsappNumber(SetWhatsappNumber(st, num, fits)) == Some(Digits(ToJsString(num)))
  {
    var s := ToJsString(num);
    var t := Trim(s);
    DigitsOfTrim(s);
    assert t != "";
    var d := Digits(t);
    var st2 := st[WhatsappNumberKey := JStr(d)];
    assert SetWhatsappNumber(st, num, fits) == st2;
    assert Get(st2, WhatsappNumberKey, JStr("")) == JStr(d);
    DigitsAreTrimmed(d);
    assert TrimmedOrEmpty(JStr(d)) == Some(d);
    DigitsOfDigits(d);
  }

  /** Setting a number without digits (falsy, blank or all punctuation) clears it, so the number
      read back is the admin record's. */
  lemma WhatsappNumberClearedFallsBack(st: Storage, num: Json, fits: Quota)
    requires !Truthy(num) || Digits(ToJsString(num)) == ""
    requires fits(st, WhatsappNumberKey, JStr(""))
    ensures WhatsappNumber(SetWhatsappNumber(st, num, fits)) == Some(AdminNumber(st))
  {
    var s := ToJsString(num);
    DigitsOfTrim(s);
    var st2 := st[WhatsappNumberKey := JStr("")];
    assert SetWhatsappNumber(st, num, fits) == st2;
    assert Get(st2, WhatsappNumberKey, JStr("")) == JStr("");
    assert TrimmedOrEmpty(JStr("")) == Some("");
    assert Digits("") == "";
    assert WhatsappNumber(st2) == Some(AdminNumber(st2));
    assert AdminNumber(st2) == AdminNumber(st) by {
      KeyTags();
      assert AdminKey != WhatsappNumberKey by { assert AdminKey[5] != WhatsappNumberKey[5]; }
      assert Get(st2, AdminKey, JNull) == Get(st, AdminKey, JNull);
      SameAdminNumber(st, st2);
    }
  }

  /** The fallback number depends on the admin record alone. */
  lemma SameAdminNumber(st: Storage, st2: Storage)
    requires Get(st, AdminKey, JNull) == Get(st2, AdminKey, JNull)
    ensures AdminNumber(st) == AdminNumber(st2)
  {
  }

  /** `arr.find(x => x.id === id)`: the first element with that id. `None` is the `TypeError` of
      reading `id` of a `null` element met before any match. */
  function FindById(items: seq<Json>, id: Json): (r: Option<Option<Json>>)
    ensures r.Some? && r.value.Some? ==> r.value.value in items && StrictEq(Field(r.value.value, "id"), id)
    ensures r == Some(None) ==> forall x :: x in items ==> !IsNullish(x) && !StrictEq(Field(x, "id"), id)
    ensures r.None? ==> exists i :: 0 <= i < |items| && IsNullish(items[i])
  {
    if items == [] then Some(None)
    else if IsNullish(items[0]) then None
    else if StrictEq(Field(items[0], "id"), id) then Some(Some(items[0]))
    else
      var r := FindById(items[1..], id);
      assert r.None? ==> exists i :: 0 <= i < |items| && IsNullish(items[i]) by {
        if r.None? {
          var i :| 0 <= i < |items[1..]| && IsNullish(items[1..][i]);
          assert IsNullish(items[i + 1]);
        }
      }
      r
  }

  /** The search stops at the first element that is `null`/`undefined` or has the id: it throws at
      the first, and returns the second. */
  lemma {:induction false} FindByIdStopsAt(items: seq<Json>, id: Json, i: nat)
    requires i < |items|
    requires forall j :: 0 <= j < i ==> !IsNullish(items[j]) && !StrictEq(Field(items[j], "id"), id)
    ensures IsNullish(items[i]) ==> FindById(items, id).None?
    ensures !IsNullish(items[i]) && StrictEq(Field(items[i], "id"), id) ==> FindById(items, id) == Some(Some(items[i]))
  {
    if i > 0 {
      assert !IsNullish(items[0]) && !StrictEq(Field(items[0], "id"), id);
      FindByIdStopsAt(items[1..], id, i - 1);
    }
  }

  /** `getOrderById(id)`; `None` also when the stored orders are not an array. */
  function OrderById(st: Storage, id: Json): (r: Option<Option<Json>>)
    ensures !Get(st, OrdersKey, JArr([])).JArr? ==> r.None?
  {
    var orders := Get(st, OrdersKey, JArr([]));
    if orders.JArr? then FindById(orders.items, id) else None
  }

  /** `getProductById(id)`. */
  function ProductById(st: Storage, id: Json): (r: Option<Option<Json>>)
    ensures !Get(st, ProductsKey, JArr([])).JArr? ==> r.None?
  {
    var products := Get(st, ProductsKey, JArr([]));
    if products.JArr? then FindById(products.items, id) else None
  }

  /** The order `addOrder` stores: the caller's fields with `id` and `status` set. */
  function PlacedOrder(order: seq<(string, Json)>, id: string): (o: Json)
    ensures o.JObj? && Field(o, "id") == JStr(id) && Field(o, "status") == JStr("pending")
    ensures forall k :: k != "id" && k != "status" ==> Field(o, k) == Lookup(order, k)
  {
    JObj(SetEntry(SetEntry(order, "id", JStr(id)), "status", JStr("pending")))
  }

  /** The id `addOrder` gives an order placed at time `now`. */
  function OrderId(now: nat): (id: string)
    ensures StartsWith(id, "ord-")
  {
    "ord-" + NatToString(now)
  }

  /** Two orders placed at different milliseconds get different ids. */
  lemma OrderIdsDiffer(m: nat, n: nat)
    requires m != n
    ensures OrderId(m) != OrderId(n)
  {
    if OrderId(m) == OrderId(n) {
      assert NatToString(m) == OrderId(m)[4..] == OrderId(n)[4..] == NatToString(n);
      NatToStringInjective(m, n);
    }
  }

  /** `addOrder(order)`: stamps the order with its id and `pending` status and puts it first.
      The id is returned even when the quota refuses the write. `None` is the `TypeError` of
      `unshift` when the stored orders are not an array. */
  function AddOrder(st: Storage, order: seq<(string, Json)>, now: nat, fits: Quota): (r: Option<(Storage, string)>)
    ensures r.None? <==> !Get(st, OrdersKey, JArr([])).JArr?
    ensures r.Some? ==> r.value.1 == OrderId(now)
    ensures r.Some? ==> forall k :: k != OrdersKey ==> Slot(r.value.0, k) == Slot(st, k)
    ensures r.Some? && fits(st, OrdersKey, JArr([PlacedOrder(order, OrderId(now))] + Get(st, OrdersKey, JArr([])).items)) ==>
      Get(r.value.0, OrdersKey, JArr([])) == JArr([PlacedOrder(order, OrderId(now))] + Get(st, OrdersKey, JArr([])).items)
  {
    var orders := Get(st, OrdersKey, JArr([]));
    if !orders.JArr? then None
    else
      var id := OrderId(now);
      Some((Set(st, OrdersKey, JArr([PlacedOrder(order, id)] + orders.items), fits).0, id))
  }

  /** An order just placed is found again by its id, and carries that id as its merge key. */
  lemma AddOrderThenFind(st: Storage, order: seq<(string, Json)>, now: nat, fits: Quota)
    requires Get(st, OrdersKey, JArr([])).JArr?
    requires fits(st, OrdersKey, JArr([PlacedOrder(order, OrderId(now))] + Get(st, OrdersKey, JArr([])).items))
    ensures var r := AddOrder(st, order, now, fits).value;
      OrderById(r.0, JStr(r.1)) == Some(Some(PlacedOrder(order, OrderId(now))))
      && OrderKey(PlacedOrder(order, OrderId(now))) == Some(r.1)
  {
    var id := OrderId(now);
    var o := PlacedOrder(order, id);
    var items := Get(st, OrdersKey, JArr([])).items;
    var r := AddOrder(st, order, now, fits).value;
    assert r.1 == id;
    assert Get(r.0, OrdersKey, JArr([])) == JArr([o] + items);
    FoundFirst(o, items, JStr(id));
    PlacedOrderKeyed(order, id);
  }

  lemma PlacedOrderKeyed(order: seq<(string, Json)>, id: string)
    requires id != ""
    ensures OrderKey(PlacedOrder(order, id)) == Some(id)
  {
  }

  lemma FoundFirst(o: Json, items: seq<Json>, id: Json)
    requires o.JObj? && Field(o, "id") == id && !IsObject(id)
    ensures FindById([o] + items, id) == Some(Some(o))
  {
  }

  predicate Visible(p: Json) {
    Truthy(Field(p, "visible"))
  }

  /** Strictly increasing indices: catalog order, each product at most once. */
  predicate Increasing(s: seq<nat>) {
    forall a, b :: 0 <= a < b < |s| ==> s[a] < s[b]
  }

  lemma ConsIncreasing(x: nat, t: seq<nat>)
    requires Increasing(t) && forall y :: y in t ==> x < y
    ensures Increasing([x] + t)
  {
    var r := [x] + t;
    forall a, b | 0 <= a < b < |r| ensures r[a] < r[b] {
      assert r[b] == t[b - 1] && t[b - 1] in t;
      if a > 0 {
        assert r[a] == t[a - 1];
      }
    }
  }

  /** The indices from `start` on whose product is visible, in catalog order. */
  function VisibleFrom(ps: seq<Json>, start: nat): (r: seq<nat>)
    requires start <= |ps|
    ensures forall i :: i in r <==> start <= i < |ps| && Visible(ps[i])
    ensures Increasing(r)
    decreases |ps| - start
  {
    if start == |ps| then []
    else
      var tail := VisibleFrom(ps, start + 1);
      if Visible(ps[start]) then
        ConsIncreasing(start, tail);
        [start] + tail
      else tail
  }

  /** The indices of the visible products, in catalog order. */
  function VisibleIndices(ps: seq<Json>): (r: seq<nat>)
    ensures forall i :: i in r <==> 0 <= i < |ps| && Visible(ps[i])
    ensures forall j :: 0 <= j < |r| ==> r[j] < |ps|
    ensures Increasing(r)
  {
    var r := VisibleFrom(ps, 0);
    assert forall j :: 0 <= j < |r| ==> r[j] in r;
    r
  }

  /** `products.find(p => p.id === id)` over the visible products, as an index. */
  function FirstWithId(ps: seq<Json>, vis: seq<nat>, id: Json): (r: Option<nat>)
    requires forall j :: 0 <= j < |vis| ==> vis[j] < |ps|
    ensures r.Some? ==> r.value in vis && r.value < |ps| && StrictEq(Field(ps[r.value], "id"), id)
    ensures r.None? ==> forall j :: 0 <= j < |vis| ==> !StrictEq(Field(ps[vis[j]], "id"), id)
  {
    if vis == [] then None
    else if StrictEq(Field(ps[vis[0]], "id"), id) then Some(vis[0])
    else FirstWithId(ps, vis[1..], id)
  }

  /** `order.map(...).filter(Boolean)`: the product each listed id names, in the listed order. */
  function Picks(ps: seq<Json>, vis: seq<nat>, ids: seq<Json>): (r: seq<nat>)
    requires forall j :: 0 <= j < |vis| ==> vis[j] < |ps|
    ensures forall x :: x in r ==> x in vis
  {
    if ids == [] then []
    else
      match FirstWithId(ps, vis, ids[0])
      case None => Picks(ps, vis, ids[1..])
      case Some(i) => [i] + Picks(ps, vis, ids[1..])
  }

  /** A product is picked exactly when some listed id names it first among the visible ones. */
  lemma {:induction false} PicksNamed(ps: seq<Json>, vis: seq<nat>, ids: seq<Json>, x: nat)
    requires forall j :: 0 <= j < |vis| ==> vis[j] < |ps|
    ensures x in Picks(ps, vis, ids) <==> exists j :: 0 <= j < |ids| && FirstWithId(ps, vis, ids[j]) == Some(x)
  {
    if ids != [] {
      PicksNamed(ps, vis, ids[1..], x);
      if x in Picks(ps, vis, ids[1..]) {
        var j :| 0 <= j < |ids[1..]| && FirstWithId(ps, vis, ids[1..][j]) == Some(x);
        assert ids[j + 1] == ids[1..][j];
      }
      if exists j :: 0 <= j < |ids| && FirstWithId(ps, vis, ids[j]) == Some(x) {
        var j :| 0 <= j < |ids| && FirstWithId(ps, vis, ids[j]) == Some(x);
        if j > 0 {
          assert ids[1..][j - 1] == ids[j];
        }
      }
    }
  }

  /** Picks keep the listed order: the picks of two lists one after the other are the picks of
      the first followed by those of the second. */
  lemma {:induction false} PicksInListOrder(ps: seq<Json>, vis: seq<nat>, ids: seq<Json>, more: seq<Json>)
    requires forall j :: 0 <= j < |vis| ==> vis[j] < |ps|
    ensures Picks(ps, vis, ids + more) == Picks(ps, vis, ids) + Picks(ps, vis, more)
  {
    if ids != [] {
      assert (ids + more)[0] == ids[0] && (ids + more)[1..] == ids[1..] + more;
      PicksInListOrder(ps, vis, ids[1..], more);
    } else {
      assert ids + more == more;
    }
  }

  /** `products.filter(p => !list.includes(p))`: the visible products not already picked, in
      catalog order. */
  function Rest(vis: seq<nat>, picked: seq<nat>): (r: seq<nat>)
    ensures forall x :: x in r <==> x in vis && x !in picked
    ensures Increasing(vis) ==> Increasing(r)
  {
    if vis == [] then []
    else
      var tail := Rest(vis[1..], picked);
      assert forall x :: x in vis[1..] ==> x in vis;
      if vis[0] in picked then tail
      else
        if Increasing(vis) then
          forall x | x in tail ensures vis[0] < x {
            var j :| 0 <= j < |vis[1..]| && vis[1..][j] == x;
            assert vis[j + 1] == x;
          }
          ConsIncreasing(vis[0], tail);
          [vis[0]] + tail
        else [vis[0]] + tail
  }

  /** The design's product order as `getVisibleProducts` reads it: `Some(None)` when there is none
      (no design, or an empty or missing `productOrder`), `None` for the `TypeError` of calling
      `map` on a non-array. */
  function ProductOrder(design: Json): (r: Option<Option<seq<Json>>>)
    ensures r == Some(None) <==> !Truthy(design) || !Truthy(Field(design, "productOrder")) || !Truthy(JsLength(Field(design, "productOrder")))
    ensures r.Some? && r.value.Some? ==> Field(design, "productOrder") == JArr(r.value.value) && r.value.value != []
  {
    var po := Field(design, "productOrder");
    if !Truthy(design) || !Truthy(po) || !Truthy(JsLength(po)) then Some(None)
    else if po.JArr? then Some(Some(po.items))
    else None
  }

  /** `v.length`. */
  function JsLength(v: Json): Json {
    match v
    case JArr(items) => JNum(|items|)
    case JStr(s) => JNum(|s|)
    case JObj(entries) => Lookup(entries, "length")
    case _ => JUndef
  }

  /** `category && category !== 'All'`. */
  predicate Filtering(category: Json) {
    Truthy(category) && category != JStr("All")
  }

  /** `(p.category || '') === category`. */
  predicate InCategory(p: Json, category: Json) {
    StrictEq(Or(Field(p, "category"), JStr("")), category)
  }

  /** A product the storefront lists for `category`. */
  predicate Listed(p: Json, category: Json) {
    Visible(p) && (Filtering(category) ==> InCategory(p, category))
  }

  /** The indices kept by the category filter, in order. */
  function KeepCategory(ps: seq<Json>, idx: seq<nat>, category: Json): (r: seq<nat>)
    requires forall j :: 0 <= j < |idx| ==> idx[j] < |ps|
    ensures forall x :: x in r <==> x in idx && InCategory(ps[x], category)
    ensures forall j :: 0 <= j < |r| ==> r[j] < |ps|
  {
    if idx == [] then []
    else
      var tail := KeepCategory(ps, idx[1..], category);
      assert forall x :: x in idx[1..] ==> x in idx;
      if InCategory(ps[idx[0]], category) then [idx[0]] + tail else tail
  }

  /** The order of the storefront's product list, as indices into the catalog: the products the
      design pins, in its order, then every other visible product in catalog order, filtered by
      category when one other than `All` is chosen. */
  function VisibleOrder(ps: seq<Json>, order: Option<seq<Json>>, category: Json): (r: seq<nat>)
    ensures forall j :: 0 <= j < |r| ==> r[j] < |ps|
    ensures forall i :: i in r <==> 0 <= i < |ps| && Listed(ps[i], category)
  {
    var vis := VisibleIndices(ps);
    var list := match order
      case None => vis
      case Some(ids) => var picked := Picks(ps, vis, ids); picked + Rest(vis, picked);
    assert forall x :: x in list <==> x in vis;
    assert forall j :: 0 <= j < |list| ==> list[j] < |ps| by {
      forall j | 0 <= j < |list| ensures list[j] < |ps| {
        assert list[j] in list;
      }
    }
    if Filtering(category) then KeepCategory(ps, list, category) else list
  }

  /** `getVisibleProducts(category)`. `None` is a thrown `TypeError`: the stored products are not
      an array, one of them is `null`, or the design's `productOrder` is truthy but not an array. */
  function VisibleProducts(st: Storage, d: Defaults, category: Json): (r: Option<seq<Json>>)
    ensures var products := Get(st, ProductsKey, JArr([]));
      r.None? <==> !products.JArr? || (exists i :: 0 <= i < |products.items| && IsNullish(products.items[i]))
                   || ProductOrder(Get(st, DesignKey, d.design)).None?
    ensures r.Some? ==> forall x :: x in r.value ==> x in Get(st, ProductsKey, JArr([])).items && Listed(x, category)
    ensures r.Some? ==> forall p :: p in Get(st, ProductsKey, JArr([])).items && Listed(p, category) ==> p in r.value
  {
    var products := Get(st, ProductsKey, JArr([]));
    if !products.JArr? || (exists i :: 0 <= i < |products.items| && IsNullish(products.items[i])) then None
    else
      match ProductOrder(Get(st, DesignKey, d.design))
      case None => None
      case Some(order) =>
        var ps := products.items;
        var idx := VisibleOrder(ps, order, category);
        var r := seq(|idx|, j requires 0 <= j < |idx| => ps[idx[j]]);
        assert forall p :: p in ps && Listed(p, category) ==> p in r by {
          forall p | p in ps && Listed(p, category) ensures p in r {
            var i :| 0 <= i < |ps| && ps[i] == p;
            assert i in idx;
            var j :| 0 <= j < |idx| && idx[j] == i;
            assert r[j] == p;
          }
        }
        Some(r)
  }

  /** Without a pinned order the list is the visible catalog in catalog order, each product once. */
  lemma UnpinnedKeepsCatalogOrder(ps: seq<Json>, category: Json)
    ensures Increasing(VisibleOrder(ps, None, category))
  {
    var vis := VisibleIndices(ps);
    if Filtering(category) {
      KeepCategoryOrdered(ps, vis, category);
    }
  }

  lemma {:induction false} KeepCategoryOrdered(ps: seq<Json>, idx: seq<nat>, category: Json)
    requires forall j :: 0 <= j < |idx| ==> idx[j] < |ps|
    requires Increasing(idx)
    ensures Increasing(KeepCategory(ps, idx, category))
  {
    if idx != [] {
      KeepCategoryOrdered(ps, idx[1..], category);
      var tail := KeepCategory(ps, idx[1..], category);
      forall x | x in tail ensures idx[0] < x {
        var j :| 0 <= j < |idx[1..]| && idx[1..][j] == x;
        assert idx[j + 1] == x;
      }
      if InCategory(ps[idx[0]], category) {
        ConsIncreasing(idx[0], tail);
      }
    }
  }

  /** With a pinned order and no category, the list opens with the pinned products, in the
      design's order, followed by every other visible product in catalog order. */
  lemma PinnedComeFirst(ps: seq<Json>, ids: seq<Json>)
    ensures var picked := Picks(ps, VisibleIndices(ps), ids);
      var r := VisibleOrder(ps, Some(ids), JUndef);
      |picked| <= |r| && r[..|picked|] == picked
      && Increasing(r[|picked|..])
      && (forall x :: x in r[|picked|..] ==> x !in picked)
  {
    var vis := VisibleIndices(ps);
    var picked := Picks(ps, vis, ids);
    var rest := Rest(vis, picked);
    var r := VisibleOrder(ps, Some(ids), JUndef);
    assert r == picked + rest;
    assert r[..|picked|] == picked;
    assert r[|picked|..] == rest;
  }

  /** `Object.values(inventory)` for each kind of value an inventory can hold: an object's values
      in property order, an array's elements, a string's characters, and nothing for the rest. */
  function InventoryValues(inv: Json): (vs: seq<Json>)
    ensures inv.JObj? ==> |vs| == |inv.entries| && forall v :: v in vs <==> exists k :: (k, v) in inv.entries
    ensures inv.JObj? ==> vs == Values(PropertyOrder(inv.entries))
  {
    match inv
    case JObj(entries) =>
      var listed := PropertyOrder(entries);
      assert forall v :: v in Values(listed) <==> exists k :: (k, v) in entries by {
        forall v ensures v in Values(listed) <==> exists k :: (k, v) in entries {
          if v in Values(listed) {
            var i :| 0 <= i < |listed| && Values(listed)[i] == v;
            assert listed[i] in entries;
          }
          if exists k :: (k, v) in entries {
            var k :| (k, v) in entries;
            assert (k, v) in listed;
            var i :| 0 <= i < |listed| && listed[i] == (k, v);
            assert Values(listed)[i] == v;
          }
        }
      }
      PropertyOrderLength(entries);
      Values(listed)
    case JArr(items) => items
    case JStr(s) => seq(|s|, i requires 0 <= i < |s| => JStr([s[i]]))
    case _ => []
  }

  /** An inventory keyed by colour names, none of them an array index, is listed in the order its
      cells were written. */
  lemma InventoryValuesNoIndex(entries: seq<(string, Json)>)
    requires forall i :: 0 <= i < |entries| ==> !IsArrayIndex(entries[i].0)
    ensures |InventoryValues(JObj(entries))| == |entries|
    ensures forall i :: 0 <= i < |entries| ==> InventoryValues(JObj(entries))[i] == entries[i].1
  {
    PropertyOrderNoIndex(entries);
  }

  /** What `+` yields: a number, or text once either operand has turned into text. */
  datatype PlusValue = Numeric(x: Num) | Text(s: string)

  /** `String(v)` of a `+` result. */
  function PlusText(v: PlusValue): string {
    match v
    case Numeric(x) => NumText(x)
    case Text(s) => s
  }

  /** A value `+` turns into text: a string, or an object or array, whose primitive value is its
      text. */
  predicate TextLike(v: Json) {
    v.JStr? || v.JArr? || v.JObj?
  }

  /** `acc + v` (section 13.15.3 of ECMAScript 2024): when either operand is text the two texts
      are joined; otherwise `v` is read as a number, `undefined` being `NaN`, `null` 0 and a
      boolean 0 or 1. */
  function Plus(acc: PlusValue, v: Json): (r: PlusValue)
    ensures r.Text? <==> acc.Text? || TextLike(v)
  {
    if acc.Text? || TextLike(v) then Text(PlusText(acc) + ToJsString(v))
    else Numeric(Add(acc.x, ToNumber(v)))
  }

  /** `values.reduce((a, b) => a + b, 0)`. */
  function SumValues(vs: seq<Json>): (r: PlusValue)
    ensures r.Numeric? <==> forall i :: 0 <= i < |vs| ==> !TextLike(vs[i])
  {
    if vs == [] then Numeric(Int(0))
    else
      var init := vs[..|vs| - 1];
      assert forall i :: 0 <= i < |init| ==> init[i] == vs[i];
      Plus(SumValues(init), vs[|vs| - 1])
  }

  /** The reference total of a list of numbers. */
  function NumberTotal(vs: seq<Json>): int {
    if vs == [] then 0 else (if vs[0].JNum? then vs[0].n else 0) + NumberTotal(vs[1..])
  }

  lemma {:induction false} NumberTotalSnoc(vs: seq<Json>, v: Json)
    ensures NumberTotal(vs + [v]) == NumberTotal(vs) + (if v.JNum? then v.n else 0)
  {
    if vs != [] {
      assert (vs + [v])[1..] == vs[1..] + [v];
      NumberTotalSnoc(vs[1..], v);
    }
  }

  /** A sum of numbers is their arithmetic total. */
  lemma {:induction false} SumOfNumbers(vs: seq<Json>)
    requires forall i :: 0 <= i < |vs| ==> vs[i].JNum?
    ensures SumValues(vs) == Numeric(Int(NumberTotal(vs)))
  {
    if vs != [] {
      var init, last := vs[..|vs| - 1], vs[|vs| - 1];
      assert forall i :: 0 <= i < |init| ==> init[i].JNum? by {
        forall i | 0 <= i < |init| ensures init[i].JNum? {
          assert init[i] == vs[i];
        }
      }
      SumOfNumbers(init);
      assert vs == init + [last];
      NumberTotalSnoc(init, last);
      assert SumValues(vs) == Plus(SumValues(init), last);
      PlusNumber(NumberTotal(init), last);
    }
  }

  /** Adding a number to a numeric sum adds its value. */
  lemma PlusNumber(acc: int, v: Json)
    requires v.JNum?
    ensures Plus(Numeric(Int(acc)), v) == Numeric(Int(acc + v.n))
  {
    assert !TextLike(v);
    assert ToNumber(v) == Int(v.n);
  }

  /** The texts of `vs`, joined. */
  function JoinedText(vs: seq<Json>): string {
    if vs == [] then "" else JoinedText(vs[..|vs| - 1]) + ToJsString(vs[|vs| - 1])
  }

  /** From the first value that is text on, the sum is text: the number summed so far, followed
      by the text of every remaining value. */
  lemma {:induction false} SumTurnsToText(vs: seq<Json>, k: nat)
    requires k < |vs| && TextLike(vs[k]) && forall i :: 0 <= i < k ==> !TextLike(vs[i])
    ensures SumValues(vs[..k]).Numeric?
    ensures SumValues(vs) == Text(NumText(SumValues(vs[..k]).x) + JoinedText(vs[k..]))
    decreases |vs|
  {
    var head := vs[..k];
    assert forall i :: 0 <= i < |head| ==> !TextLike(head[i]) by {
      forall i | 0 <= i < |head| ensures !TextLike(head[i]) {
        assert head[i] == vs[i];
      }
    }
    if k == |vs| - 1 {
      SumTurnsAtLast(vs);
    } else {
      var init := vs[..|vs| - 1];
      SumTurnsToInit(vs, k);
      SumTurnsToText(init, k);
      assert init[..k] == head;
      SumTurnsLater(vs, k, SumValues(head).x);
    }
  }

  /** The step where the last value is the first text. */
  lemma SumTurnsAtLast(vs: seq<Json>)
    requires vs != [] && TextLike(vs[|vs| - 1]) && SumValues(vs[..|vs| - 1]).Numeric?
    ensures SumValues(vs) == Text(NumText(SumValues(vs[..|vs| - 1]).x) + JoinedText(vs[|vs| - 1..]))
  {
    var last := vs[|vs| - 1];
    var acc := SumValues(vs[..|vs| - 1]);
    assert SumValues(vs) == Text(PlusText(acc) + ToJsString(last)) by {
      SumValuesStep(vs);
      PlusOfText(acc, last);
    }
    assert JoinedText(vs[|vs| - 1..]) == ToJsString(last) by {
      assert vs[|vs| - 1..] == [last];
      JoinedTextStep([last]);
      assert [last][..0] == [];
    }
  }

  /** The step past the first text. */
  lemma SumTurnsLater(vs: seq<Json>, k: nat, x: Num)
    requires k < |vs| - 1
    requires SumValues(vs[..|vs| - 1]) == Text(NumText(x) + JoinedText(vs[..|vs| - 1][k..]))
    ensures SumValues(vs) == Text(NumText(x) + JoinedText(vs[k..]))
  {
    var init, last, tail := vs[..|vs| - 1], vs[|vs| - 1], vs[k..];
    var a, b, c := NumText(x), JoinedText(init[k..]), ToJsString(last);
    assert SumValues(vs) == Text((a + b) + c) by {
      SumValuesStep(vs);
      PlusOfText(SumValues(init), last);
    }
    assert JoinedText(tail) == b + c by {
      assert tail[..|tail| - 1] == init[k..] && tail[|tail| - 1] == last;
      JoinedTextStep(tail);
    }
    JoinAfter(SumValues(vs), JoinedText(tail), a, b, c);
  }

  lemma JoinAfter(sum: PlusValue, joined: string, a: string, b: string, c: string)
    requires sum == Text((a + b) + c) && joined == b + c
    ensures sum == Text(a + joined)
  {
    assert (a + b) + c == a + (b + c);
  }

  lemma SumValuesStep(vs: seq<Json>)
    requires vs != []
    ensures SumValues(vs) == Plus(SumValues(vs[..|vs| - 1]), vs[|vs| - 1])
  {
  }

  lemma JoinedTextStep(vs: seq<Json>)
    requires vs != []
    ensures JoinedText(vs) == JoinedText(vs[..|vs| - 1]) + ToJsString(vs[|vs| - 1])
  {
  }

  lemma PlusOfText(acc: PlusValue, v: Json)
    requires acc.Text? || TextLike(v)
    ensures Plus(acc, v) == Text(PlusText(acc) + ToJsString(v))
  {
  }

  lemma SumTurnsToInit(vs: seq<Json>, k: nat)
    requires k < |vs| - 1 && TextLike(vs[k]) && forall i :: 0 <= i < k ==> !TextLike(vs[i])
    ensures var init := vs[..|vs| - 1]; k < |init| && TextLike(init[k]) && forall i :: 0 <= i < k ==> !TextLike(init[i])
  {
  }

  /** A quantity stored as text is joined to the running total rather than added: a cell
      holding `"5"` makes the total `"05"`. */
  lemma TextQuantityConcatenates()
    ensures TotalStock(JObj([("inventory", JObj([("red", JStr("5"))]))])) == Text("05")
  {
    var cells := [("red", JStr("5"))];
    var p := JObj([("inventory", JObj(cells))]);
    assert Field(p, "inventory") == JObj(cells);
    assert InventoryValues(JObj(cells)) == [JStr("5")] by {
      PropertyOrderNoIndex(cells);
    }
    assert SumValues([JStr("5")]) == Text("05") by {
      assert [JStr("5")][..0] == [];
      assert NumText(Int(0)) == "0";
    }
  }

  /** `getTotalStock(product)`: 0 without a product or inventory, otherwise the `+`-sum of the
      inventory's values, which is text as soon as one value is text and `NaN` after an
      `undefined`. */
  function TotalStock(product: Json): (r: PlusValue)
    ensures !Truthy(product) || !Truthy(Field(product, "inventory")) ==> r == Numeric(Int(0))
    ensures r.Numeric? <==> forall v :: v in InventoryValues(Field(product, "inventory")) ==> !TextLike(v)
  {
    var inv := Field(product, "inventory");
    if !Truthy(product) || !Truthy(inv) then Numeric(Int(0)) else SumValues(InventoryValues(inv))
  }
}

=== FILE: store_data.dfy ===
/** The browser-side data layer: `localStorage` as a map from key to stored JSON value, the
    never-throwing `get` and the boolean `set`, the first-visit defaults, and where the published
    store document is fetched from. */
module StoreData {
  import opened Wrappers
  import opened JsText
  import opened JsonValue

  /** `localStorage`: a key is either absent or holds a value written by `set`. A stored
      `undefined` (what `JSON.stringify(undefined)` leaves) does not parse back. */
  type Storage = map<string, Json>

  /** Whether `localStorage.setItem` accepts a value, given what is already stored (the quota). */
  type Quota = (Storage, string, Json) -> bool

  const ProductsKey: string := "storeProducts"
  const OrdersKey: string := "storeOrders"
  const ContentKey: string := "storeContent"
  const DesignKey: string := "storeDesign"
  const AdminKey: string := "storeAdmin"
  const FloatingContactKey: string := "storeFloatingContact"
  const OrdersApiUrlKey: string := "storeOrdersApiUrl"
  const WhatsappNumberKey: string := "storeWhatsappNumber"
  const SizesKey: string := "storeSizes"

  /** `{ id, name }`. */
  function SizeEntry(id: string, name: string): Json {
    JObj([("id", JStr(id)), ("name", JStr(name))])
  }

  const DefaultSizes: Json := JArr([
    SizeEntry("s", "S"), SizeEntry("m", "M"), SizeEntry("l", "L"), SizeEntry("xl", "XL"),
    SizeEntry("2xl", "2XL"), SizeEntry("3xl", "3XL"), SizeEntry("xxl", "XXL")])

  const DefaultFloatingContact: Json := JObj([
    ("enabled", JBool(true)),
    ("buttonType", JStr("whatsapp")),
    ("phoneNumber", JStr("+212679460301")),
    ("position", JStr("right")),
    ("defaultMessage", JStr("Hi Black T-Shirt, I'd like to order a T-shirt.")),
    ("instagramUrl", JStr(""))])

  /** The first-visit admin record; `YWRtaW4xMjM=` is `btoa('admin123')`. */
  const DefaultAdmin: Json := JObj([("passwordHash", JStr("YWRtaW4xMjM=")), ("whatsapp", JStr("212679460301"))])

  /** The three large default documents (catalog, page content, design settings). */
  datatype Defaults = Defaults(products: Json, content: Json, design: Json)

  /** `get(key, defaultValue)`: the stored value when it parses, otherwise the default, with a
      missing default read as `null`. It never throws. */
  function Get(st: Storage, key: string, default: Json): (v: Json)
    ensures v != JUndef
    ensures key !in st ==> v == (if default == JUndef then JNull else default)
  {
    if key in st && st[key] != JUndef then st[key]
    else if default == JUndef then JNull else default
  }

  /** `set(key, value)`: `true` and the value stored, or `false` and nothing changed when the quota
      refuses it. */
  function Set(st: Storage, key: string, value: Json, fits: Quota): (r: (Storage, bool))
    ensures r.1 == fits(st, key, value)
    ensures r.1 ==> r.0 == st[key := value]
    ensures !r.1 ==> r.0 == st
  {
    if fits(st, key, value) then (st[key := value], true) else (st, false)
  }

  /** Reading back what was stored gives it back, whatever the default. */
  lemma GetAfterSet(st: Storage, key: string, value: Json, default: Json, fits: Quota)
    requires fits(st, key, value) && value != JUndef
    ensures Get(Set(st, key, value, fits).0, key, default) == value
  {
  }

  /** Storing under one key leaves every other key reading as before. */
  lemma GetOtherAfterSet(st: Storage, key: string, value: Json, other: string, default: Json, fits: Quota)
    requires other != key
    ensures Get(Set(st, key, value, fits).0, other, default) == Get(st, other, default)
  {
  }

  /** The keys `ensureDefaults` fills, in its order, each with its default. */
  function DefaultEntries(d: Defaults): seq<(string, Json)> {
    [(ProductsKey, d.products), (OrdersKey, JArr([])), (ContentKey, d.content), (DesignKey, d.design),
     (AdminKey, DefaultAdmin), (FloatingContactKey, DefaultFloatingContact), (SizesKey, DefaultSizes)]
  }

  /** The keys `ensureDefaults` may add. */
  const DefaultKeys: set<string> := {ProductsKey, OrdersKey, ContentKey, DesignKey, AdminKey, FloatingContactKey, SizesKey}

  /** Each missing key of `pairs` is set to its default, in order; a present key is left alone. */
  function FillMissing(st: Storage, pairs: seq<(string, Json)>, fits: Quota): (r: Storage)
    ensures forall k :: k in st ==> k in r && r[k] == st[k]
    ensures forall k :: k in r ==> k in st || exists i :: 0 <= i < |pairs| && pairs[i].0 == k
    decreases |pairs|
  {
    if pairs == [] then st
    else
      var next := if pairs[0].0 in st then st else Set(st, pairs[0].0, pairs[0].1, fits).0;
      var r := FillMissing(next, pairs[1..], fits);
      assert forall k :: k in r ==> k in st || exists i :: 0 <= i < |pairs| && pairs[i].0 == k by {
        forall k | k in r && k !in st ensures exists i :: 0 <= i < |pairs| && pairs[i].0 == k {
          if k !in next {
            var i :| 0 <= i < |pairs[1..]| && pairs[1..][i].0 == k;
            assert pairs[i + 1].0 == k;
          } else {
            assert pairs[0].0 == k;
          }
        }
      }
      r
  }

  /** `ensureDefaults`: every missing key gets its default; nothing already stored is replaced. */
  function EnsureDefaults(st: Storage, d: Defaults, fits: Quota): (r: Storage)
    ensures forall k :: k in st ==> k in r && r[k] == st[k]
    ensures forall k :: k in r && k !in st ==> k in DefaultKeys
  {
    var r := FillMissing(st, DefaultEntries(d), fits);
    assert forall k :: k in r && k !in st ==> exists i :: 0 <= i < 7 && DefaultEntries(d)[i].0 == k;
    r
  }

  /** With room for everything, filling leaves each listed key present, with its default if it
      was missing. The keys are distinct, so no later step undoes an earlier one. */
  lemma {:induction false} FillMissingAllFit(st: Storage, pairs: seq<(string, Json)>, fits: Quota)
    requires forall s, k, v :: fits(s, k, v)
    requires forall i, j :: 0 <= i < j < |pairs| ==> pairs[i].0 != pairs[j].0
    ensures forall i :: 0 <= i < |pairs| ==>
      var k := pairs[i].0;
      k in FillMissing(st, pairs, fits) && FillMissing(st, pairs, fits)[k] == (if k in st then st[k] else pairs[i].1)
    decreases |pairs|
  {
    if pairs != [] {
      var next := if pairs[0].0 in st then st else Set(st, pairs[0].0, pairs[0].1, fits).0;
      FillMissingAllFit(next, pairs[1..], fits);
      var r := FillMissing(st, pairs, fits);
      forall i | 0 <= i < |pairs|
        ensures pairs[i].0 in r && r[pairs[i].0] == (if pairs[i].0 in st then st[pairs[i].0] else pairs[i].1)
      {
        if i > 0 {
          assert pairs[1..][i - 1] == pairs[i];
          assert pairs[i].0 != pairs[0].0;
        }
      }
    }
  }

  /** The character after `store` tells the keys apart, except the two that start `storeOrders`,
      which differ in length. */
  lemma KeyTags()
    ensures ProductsKey[5] == 'P' && OrdersKey[5] == 'O' && ContentKey[5] == 'C' && DesignKey[5] == 'D'
    ensures AdminKey[5] == 'A' && FloatingContactKey[5] == 'F' && SizesKey[5] == 'S'
    ensures OrdersApiUrlKey[5] == 'O' && WhatsappNumberKey[5] == 'W'
    ensures |OrdersKey| == 11 && |OrdersApiUrlKey| == 17
  {
  }

  /** The seven default keys are distinct. */
  lemma DefaultKeysDistinct(d: Defaults)
    ensures forall i, j :: 0 <= i < j < |DefaultEntries(d)| ==> DefaultEntries(d)[i].0 != DefaultEntries(d)[j].0
  {
    KeyTags();
  }

  lemma SevenIn(a: string, b: string, c: string, d: string, e: string, f: string, g: string, s: set<string>)
    requires a in s && b in s && c in s && d in s && e in s && f in s && g in s
    ensures {a, b, c, d, e, f, g} <= s
  {
  }

  /** On a fresh browser with room to spare, exactly the seven defaults are stored afterwards. */
  lemma EnsureDefaultsFresh(d: Defaults, fits: Quota)
    requires forall s, k, v :: fits(s, k, v)
    ensures var r := EnsureDefaults(map[], d, fits);
      r.Keys == DefaultKeys
      && forall i :: 0 <= i < |DefaultEntries(d)| ==>
           DefaultEntries(d)[i].0 in r && r[DefaultEntries(d)[i].0] == DefaultEntries(d)[i].1
  {
    var pairs := DefaultEntries(d);
    var r := EnsureDefaults(map[], d, fits);
    assert forall i :: 0 <= i < 7 ==> pairs[i].0 in r && r[pairs[i].0] == pairs[i].1 by {
      DefaultKeysDistinct(d);
      FillMissingAllFit(map[], pairs, fits);
    }
    assert DefaultKeys <= r.Keys by {
      assert pairs[0].0 == ProductsKey && pairs[1].0 == OrdersKey && pairs[2].0 == ContentKey;
      assert pairs[3].0 == DesignKey && pairs[4].0 == AdminKey && pairs[5].0 == FloatingContactKey;
      assert pairs[6].0 == SizesKey;
      SevenIn(ProductsKey, OrdersKey, ContentKey, DesignKey, AdminKey, FloatingContactKey, SizesKey, r.Keys);
    }
    assert r.Keys <= DefaultKeys by {
      assert forall k :: k in r ==> k in DefaultKeys;
    }
  }

  /** The part of `pathname` before the next `/`. */
  function UpToSlash(p: string): (r: string)
    ensures '/' !in r && StartsWith(p, r)
    ensures r == p || p[|r|] == '/'
  {
    if p == [] || p[0] == '/' then [] else [p[0]] + UpToSlash(p[1..])
  }

  /** `pathname.replace(/\/$/, '').split('/').filter(Boolean)[0]`: the first non-empty segment. */
  function FirstSegment(p: string): (r: Option<string>)
    ensures r.Some? ==> r.value != [] && '/' !in r.value
  {
    if p == [] then None
    else if p[0] == '/' then FirstSegment(p[1..])
    else Some(UpToSlash(p))
  }

  /** The directory the site is served from: the root when there is no first segment, when it is
      one of the site's own `admin`, `assets`, `data` folders, or when it names a file (has a `.`);
      otherwise `/<first>/`. */
  function BasePath(pathname: string): (b: string)
    ensures b == "/" <==>
      FirstSegment(pathname).None? || SiteFolder(FirstSegment(pathname).value) || '.' in FirstSegment(pathname).value
    ensures b != "/" ==> b == "/" + FirstSegment(pathname).value + "/"
  {
    var first := FirstSegment(pathname);
    if first.None? || SiteFolder(first.value) || '.' in first.value then "/"
    else "/" + first.value + "/"
  }

  /** The site's own folders, which are never a shop directory. */
  predicate SiteFolder(seg: string) {
    seg == "admin" || seg == "assets" || seg == "data"
  }

  const DataFile: string := "data/store-data.json"

  /** The browser's `location`, when there is one. */
  datatype Location = Location(pathname: string, origin: string)

  /** `getStoreDataUrl(cacheBust)`: origin, base path and the data file, plus `?t=<now>` when a
      fresh copy is wanted. */
  function StoreDataUrl(location: Option<Location>, cacheBust: Json, now: int): (url: string)
    ensures var origin := if location.Some? then location.value.origin else "";
      var file := origin + BasePath(if location.Some? then location.value.pathname else "") + DataFile;
      |file| <= |url| && url[..|file|] == file
      && (Truthy(cacheBust) <==> |url| != |file|)
      && (Truthy(cacheBust) ==> url[|file|..] == "?t=" + IntToString(now))
  {
    var origin := if location.Some? then location.value.origin else "";
    var base := origin + BasePath(if location.Some? then location.value.pathname else "") + DataFile;
    if Truthy(cacheBust) then base + "?t=" + IntToString(now) else base
  }

  lemma {:induction false} UpToSlashOf(seg: string, rest: string)
    requires '/' !in seg
    ensures UpToSlash(seg + "/" + rest) == seg
  {
    if seg != [] {
      assert (seg + "/" + rest)[1..] == seg[1..] + "/" + rest;
      UpToSlashOf(seg[1..], rest);
    }
  }

  /** The data file's own path is served from the same base: fetching from a page under
      `/<shop>/` and from the data file itself resolve to the same document. */
  lemma BasePathOfDataPath(pathname: string)
    ensures BasePath(BasePath(pathname) + DataFile) == BasePath(pathname)
  {
    var b := BasePath(pathname);
    if b == "/" {
      DataPathAtRoot();
    } else {
      var seg := FirstSegment(pathname).value;
      assert b == "/" + seg + "/";
      DataPathUnderShop(seg);
    }
  }

  lemma DataPathAtRoot()
    ensures BasePath("/" + DataFile) == "/"
  {
    var p := "/" + DataFile;
    assert p[0] == '/' && p[1..] == "data" + "/" + "store-data.json";
    UpToSlashOf("data", "store-data.json");
    assert FirstSegment(p[1..]) == Some("data");
  }

  lemma DataPathUnderShop(seg: string)
    requires seg != [] && '/' !in seg && '.' !in seg && !SiteFolder(seg)
    ensures BasePath("/" + seg + "/" + DataFile) == "/" + seg + "/"
  {
    var p := "/" + seg + "/" + DataFile;
    assert p[0] == '/' && p[1..] == seg + "/" + DataFile;
    UpToSlashOf(seg, DataFile);
    assert (seg + "/" + DataFile)[0] == seg[0] != '/';
    assert FirstSegment(p[1..]) == Some(seg);
  }

  /** Asking for a fresh copy fetches the same document, with only the time appended. */
  lemma CacheBustSameDocument(location: Option<Location>, bust: Json, now: int)
    requires Truthy(bust)
    ensures StoreDataUrl(location, bust, now) == StoreDataUrl(location, JBool(false), 0) + "?t=" + IntToString(now)
  {
  }

  /** A page under a shop directory fetches that directory's data file. */
  lemma ShopDirectoryUrl(seg: string, rest: string, origin: string)
    requires seg != [] && '/' !in seg && '.' !in seg && !SiteFolder(seg)
    ensures StoreDataUrl(Some(Location("/" + seg + "/" + rest, origin)), JBool(false), 0)
         == origin + "/" + seg + "/" + DataFile
  {
    var p := "/" + seg + "/" + rest;
    assert p[0] == '/' && p[1..] == seg + "/" + rest;
    UpToSlashOf(seg, rest);
    assert (seg + "/" + rest)[0] == seg[0] != '/';
    assert FirstSegment(p) == Some(seg);
  }
}

=== FILE: storefront.dfy ===
/** The storefront's pricing rule and size ordering: `discountPercent`, the effective price and
    discount badge of a product card, the size-id comparator and the label and colour fallbacks. */
module Storefront {
  import opened Wrappers
  import opened JsText

  // ---- prices ----

  /** `Math.round`: the nearest integer, halves rounded up. */
  function Round(x: real): (n: int)
    ensures n as real - 0.5 <= x < n as real + 0.5
  {
    (x + 0.5).Floor
  }

  /** The exact share of the regular price the discount saves, in percent. */
  function Saving(regular: int, discount: int): real
    requires regular > 0
  {
    (1.0 - discount as real / regular as real) * 100.0
  }

  /** `discountPercent`: 0 when there is no regular price or no saving; otherwise the saving
      rounded to the nearest percent and kept within `[1, 100]`. */
  function DiscountPercent(regular: int, discount: int): (pct: int)
    ensures pct == 0 <==> regular <= 0 || discount >= regular
    ensures regular > 0 && discount < regular ==> 1 <= pct <= 100
    ensures regular > 0 && discount < regular && 1 < pct < 100 ==>
      pct as real - 0.5 <= Saving(regular, discount) < pct as real + 0.5
    ensures regular > 0 && discount < regular && pct == 1 ==> Saving(regular, discount) < 1.5
    ensures regular > 0 && discount < regular && pct == 100 ==> Saving(regular, discount) >= 99.5
  {
    if regular <= 0 || discount >= regular then 0
    else
      var p := Round(Saving(regular, discount));
      if p < 1 then 1 else if p > 100 then 100 else p
  }

  /** A deeper discount never shows a smaller percentage. */
  lemma DiscountPercentMonotone(regular: int, d1: int, d2: int)
    requires regular > 0 && d1 <= d2 < regular
    ensures DiscountPercent(regular, d1) >= DiscountPercent(regular, d2)
  {
    var r := regular as real;
    assert d1 as real / r <= d2 as real / r by {
      assert d1 as real <= d2 as real;
      DivMonotone(d1 as real, d2 as real, r);
    }
    RoundMonotone(Saving(regular, d2), Saving(regular, d1));
  }

  lemma DivMonotone(a: real, b: real, r: real)
    requires r > 0.0 && a <= b
    ensures a / r <= b / r
  {
    assert b / r - a / r == (b - a) / r;
  }

  lemma RoundMonotone(x: real, y: real)
    requires x <= y
    ensures Round(x) <= Round(y)
  {
  }

  /** A product card's prices: `discountPrice` may be `null`. */
  datatype Pricing = Pricing(regularPrice: int, discountPrice: Option<int>)

  /** The price a card shows and charges: the discount price whenever one is set, even when it is
      not lower than the regular price. */
  function EffectivePrice(p: Pricing): (price: int)
    ensures p.discountPrice.Some? ==> price == p.discountPrice.value
    ensures p.discountPrice.None? ==> price == p.regularPrice
  {
    p.discountPrice.GetOr(p.regularPrice)
  }

  /** `hasDiscount`: a discount price strictly below the regular one. */
  predicate HasDiscount(p: Pricing) {
    p.discountPrice.Some? && p.discountPrice.value < p.regularPrice
  }

  /** The percentage a card's badge shows; no badge when it is 0. */
  function BadgePercent(p: Pricing): (pct: int)
    ensures !HasDiscount(p) ==> pct == 0
    ensures 0 <= pct <= 100
  {
    if HasDiscount(p) then DiscountPercent(p.regularPrice, p.discountPrice.value) else 0
  }

  /** A badge appears exactly when the discount price is set, below the regular price, and the
      regular price is positive; a card with a badge charges the discount price. */
  lemma BadgeShown(p: Pricing)
    ensures BadgePercent(p) > 0 <==>
      p.discountPrice.Some? && p.regularPrice > 0 && p.discountPrice.value < p.regularPrice
    ensures BadgePercent(p) > 0 ==> EffectivePrice(p) < p.regularPrice
  {
  }

  // ---- sizes ----

  /** The canonical size order; ids outside it come after. */
  const SizeOrder: seq<string> := ["s", "m", "l", "xl", "2xl", "3xl", "xxl"]

  /** `sizeOrder.indexOf(id)`. */
  function Rank(id: string): (i: int)
    ensures -1 <= i < |SizeOrder|
    ensures i >= 0 ==> SizeOrder[i] == id
    ensures i == -1 <==> id !in SizeOrder
  {
    if id == "s" then 0 else if id == "m" then 1 else if id == "l" then 2
    else if id == "xl" then 3 else if id == "2xl" then 4 else if id == "3xl" then 5
    else if id == "xxl" then 6 else -1
  }

  /** JavaScript's `a < b` on strings: code-unit-wise lexicographic order. */
  predicate StrLess(a: string, b: string) {
    if b == [] then false
    else if a == [] then true
    else if a[0] != b[0] then a[0] < b[0]
    else StrLess(a[1..], b[1..])
  }

  lemma {:induction false} StrLessIrreflexive(a: string)
    ensures !StrLess(a, a)
  {
    if a != [] {
      StrLessIrreflexive(a[1..]);
    }
  }

  lemma {:induction false} StrLessAsymmetric(a: string, b: string)
    requires StrLess(a, b)
    ensures !StrLess(b, a)
  {
    if a != [] && b != [] && a[0] == b[0] {
      StrLessAsymmetric(a[1..], b[1..]);
    }
  }

  lemma {:induction false} StrLessTotal(a: string, b: string)
    ensures a == b || StrLess(a, b) || StrLess(b, a)
  {
    if a != [] && b != [] && a[0] == b[0] {
      StrLessTotal(a[1..], b[1..]);
      if a[1..] == b[1..] {
        assert a == [a[0]] + a[1..] && b == [b[0]] + b[1..];
      }
    }
  }

  /** String order is transitive, stated on "not after". */
  lemma {:induction false} StrNotLessTransitive(a: string, b: string, c: string)
    requires !StrLess(b, a) && !StrLess(c, b)
    ensures !StrLess(c, a)
  {
    if a != [] && b != [] && c != [] && a[0] == b[0] && b[0] == c[0] {
      StrNotLessTransitive(a[1..], b[1..], c[1..]);
    }
  }

  /** The size comparator: canonical sizes by rank, then every other id, in string order. */
  predicate SizeLess(a: string, b: string) {
    var ia, ib := Rank(a), Rank(b);
    if ia == -1 && ib == -1 then StrLess(a, b)
    else if ia == -1 then false
    else if ib == -1 then true
    else ia < ib
  }

  lemma SizeLessAsymmetric(a: string, b: string)
    requires SizeLess(a, b)
    ensures !SizeLess(b, a)
  {
    if Rank(a) == -1 && Rank(b) == -1 {
      StrLessAsymmetric(a, b);
    }
  }

  lemma SizeLessTotal(a: string, b: string)
    ensures a == b || SizeLess(a, b) || SizeLess(b, a)
  {
    StrLessTotal(a, b);
  }

  /** "Not after" is transitive for the size comparator. */
  lemma SizeNotLessTransitive(a: string, b: string, c: string)
    requires !SizeLess(b, a) && !SizeLess(c, b)
    ensures !SizeLess(c, a)
  {
    if Rank(a) == -1 && Rank(b) == -1 && Rank(c) == -1 {
      StrNotLessTransitive(a, b, c);
    }
  }

  /** Every id is placed no later than the ones after it. */
  predicate SortedSizes(s: seq<string>) {
    forall i, j :: 0 <= i < j < |s| ==> !SizeLess(s[j], s[i])
  }

  /** `x` put before the first id that does not precede it. */
  function InsertSize(x: string, s: seq<string>): (r: seq<string>)
    requires SortedSizes(s)
    ensures SortedSizes(r)
    ensures multiset(r) == multiset(s) + multiset{x}
    ensures forall e :: e in r <==> e == x || e in s
  {
    if s == [] then
      PrependSorted(x, s);
      [x]
    else if !SizeLess(s[0], x) then
      SortedHead(s);
      forall e | e in s ensures !SizeLess(e, x) {
        SizeNotLessTransitive(x, s[0], e);
      }
      PrependSorted(x, s);
      [x] + s
    else
      var rest := InsertSize(x, s[1..]);
      assert s == [s[0]] + s[1..];
      SortedHead(s);
      SizeLessAsymmetric(s[0], x);
      PrependSorted(s[0], rest);
      [s[0]] + rest
  }

  /** No id of a sorted list precedes its head. */
  lemma SortedHead(s: seq<string>)
    requires SortedSizes(s) && s != []
    ensures forall e :: e in s ==> !SizeLess(e, s[0])
  {
    forall e | e in s ensures !SizeLess(e, s[0]) {
      var k :| 0 <= k < |s| && s[k] == e;
      if k == 0 {
        SizeLessIrreflexive(e);
      }
    }
  }

  lemma SizeLessIrreflexive(a: string)
    ensures !SizeLess(a, a)
  {
    StrLessIrreflexive(a);
  }

  /** A head that no id of a sorted list precedes keeps it sorted. */
  lemma PrependSorted(y: string, s: seq<string>)
    requires SortedSizes(s) && forall e :: e in s ==> !SizeLess(e, y)
    ensures SortedSizes([y] + s)
  {
    var r := [y] + s;
    forall i, j | 0 <= i < j < |r| ensures !SizeLess(r[j], r[i]) {
      assert r[j] == s[j - 1];
      if i > 0 {
        assert r[i] == s[i - 1];
      } else {
        assert s[j - 1] in s;
      }
    }
  }

  /** `sortSizeIds`: the ids in comparator order. */
  function SortSizeIds(ids: seq<string>): (r: seq<string>)
    ensures SortedSizes(r)
    ensures multiset(r) == multiset(ids)
    ensures |r| == |ids|
  {
    if ids == [] then []
    else
      assert ids == [ids[0]] + ids[1..];
      InsertSize(ids[0], SortSizeIds(ids[1..]))
  }

  /** There is only one sorted arrangement of a list of ids, so whatever algorithm `Array.prototype.sort`
      uses, a consistent comparator leaves it with the list `SortSizeIds` computes. */
  lemma {:induction false} SortedUnique(a: seq<string>, b: seq<string>)
    requires SortedSizes(a) && SortedSizes(b) && multiset(a) == multiset(b)
    ensures a == b
  {
    if a != [] {
      assert a[0] in multiset(b) && b != [];
      assert b[0] in multiset(a);
      SortedHead(a);
      SortedHead(b);
      SizeLessTotal(a[0], b[0]);
      assert a[0] == b[0];
      assert a == [a[0]] + a[1..] && b == [b[0]] + b[1..];
      assert multiset(a) == multiset([a[0]]) + multiset(a[1..]);
      assert multiset(b) == multiset([b[0]]) + multiset(b[1..]);
      assert multiset(a[1..]) == multiset(a) - multiset([a[0]]);
      assert multiset(b[1..]) == multiset(b) - multiset([b[0]]);
      SortedTail(a);
      SortedTail(b);
      SortedUnique(a[1..], b[1..]);
    }
  }

  lemma SortedTail(s: seq<string>)
    requires SortedSizes(s) && s != []
    ensures SortedSizes(s[1..])
  {
    forall i, j | 0 <= i < j < |s| - 1 ensures !SizeLess(s[1..][j], s[1..][i]) {
      assert s[1..][j] == s[j + 1] && s[1..][i] == s[i + 1];
    }
  }

  /** In the sorted ids, canonical sizes come first by rank, and the other ids follow in string
      order. */
  lemma SortedSizeOrder(ids: seq<string>, i: nat, j: nat)
    requires i < j < |SortSizeIds(ids)|
    ensures var r := SortSizeIds(ids);
      (Rank(r[i]) >= 0 && Rank(r[j]) >= 0 ==> Rank(r[i]) <= Rank(r[j]))
      && (Rank(r[i]) == -1 ==> Rank(r[j]) == -1 && (r[i] == r[j] || StrLess(r[i], r[j])))
  {
    var r := SortSizeIds(ids);
    assert !SizeLess(r[j], r[i]);
    SizeLessTotal(r[i], r[j]);
  }

  /** A size of the catalogue: `{ id, name }`. */
  datatype Size = Size(id: string, name: string)

  /** The label shown for a size id: the name of the first size with that id when it has one,
      otherwise the id itself. */
  function SizeLabel(sizes: seq<Size>, sid: string): (shown: string)
    ensures (forall k :: 0 <= k < |sizes| ==> sizes[k].id != sid) ==> shown == sid
    ensures shown == sid || exists k :: 0 <= k < |sizes| && sizes[k].id == sid && sizes[k].name == shown
    ensures forall k :: FirstWithId(sizes, sid, k) ==> shown == (if sizes[k].name != "" then sizes[k].name else sid)
  {
    if sizes == [] then sid
    else if sizes[0].id == sid then (if sizes[0].name != "" then sizes[0].name else sid)
    else
      var l := SizeLabel(sizes[1..], sid);
      assert l != sid ==> exists k :: 1 <= k < |sizes| && sizes[k].id == sid && sizes[k].name == l by {
        if l != sid {
          var k :| 0 <= k < |sizes[1..]| && sizes[1..][k].id == sid && sizes[1..][k].name == l;
          assert sizes[k + 1] == sizes[1..][k];
        }
      }
      assert forall k :: FirstWithId(sizes, sid, k) ==> FirstWithId(sizes[1..], sid, k - 1) by {
        forall k | FirstWithId(sizes, sid, k) ensures FirstWithId(sizes[1..], sid, k - 1) {
          assert k != 0;
          forall j | 0 <= j < k - 1 ensures sizes[1..][j].id != sid {
            assert sizes[1..][j] == sizes[j + 1];
          }
        }
      }
      l
  }

  /** `k` is the first position of `sizes` whose id is `sid`: what `allSizes.find` returns. */
  predicate FirstWithId(sizes: seq<Size>, sid: string, k: int) {
    0 <= k < |sizes| && sizes[k].id == sid && forall j :: 0 <= j < k ==> sizes[j].id != sid
  }

  /** Sizes with other ids, wherever they are inserted, do not change the label of `sid`. */
  lemma {:induction false} SizeLabelSkipsOthers(before: seq<Size>, other: Size, after: seq<Size>, sid: string)
    requires other.id != sid
    ensures SizeLabel(before + [other] + after, sid) == SizeLabel(before + after, sid)
  {
    var with, without := before + [other] + after, before + after;
    if before == [] {
      assert with[0] == other && with[1..] == after == without;
      assert SizeLabel(with, sid) == SizeLabel(with[1..], sid);
    } else {
      assert with[0] == before[0] == without[0];
      if before[0].id != sid {
        SizeLabelSkipsOthers(before[1..], other, after, sid);
        assert with[1..] == before[1..] + [other] + after;
        assert without[1..] == before[1..] + after;
        assert SizeLabel(with, sid) == SizeLabel(with[1..], sid);
        assert SizeLabel(without, sid) == SizeLabel(without[1..], sid);
      }
    }
  }

  /** A colour swatch of a product. */
  datatype Color = Color(name: string, hex: string)

  /** The colours a card offers: the product's own list when it has one (even an empty one), and a
      single "Deep Black" when the field is missing. */
  function CardColors(colors: Option<seq<Color>>): (r: seq<Color>)
    ensures colors.Some? ==> r == colors.value
    ensures colors.None? ==> |r| == 1 && r[0].name == "Deep Black"
  {
    colors.GetOr([Color("Deep Black", "#000")])
  }
}

=== FILE: submit_order.dfy ===
/** The client side of order submission: the endpoint, the request body and options, and how a
    response or a thrown error becomes the `{ success, id, error }` result callers inspect. The
    `fetch` itself is outside the model; its outcome is an input. */
module SubmitOrder {
  import opened Wrappers
  import opened JsText
  import opened JsonValue

  const DefaultTimeoutMs: int := 20000
  const ApiPath: string := "/api/orders"
  const TimeoutMessage: string := "Request timed out. Check your connection and try again."
  const NetworkMessage: string := "Network error. Please try again."
  const NotSavedMessage: string := "Order could not be saved."

  /** The browser environment `getClientDevice` inspects: `None` when there is no `window` or no
      `navigator`, otherwise the `userAgent` property (`undefined` reads as the empty string). */
  function ClientDevice(navigatorUserAgent: Option<string>): (d: string)
    ensures navigatorUserAgent.None? <==> d == "unknown"
    ensures navigatorUserAgent.Some? ==> (d == "mobile" <==> MentionsMobile(navigatorUserAgent.value))
    ensures d in {"unknown", "mobile", "desktop"}
  {
    match navigatorUserAgent
    case None => "unknown"
    case Some(ua) => if MentionsMobile(ua) then "mobile" else "desktop"
  }

  /** `apiBase.replace(/\/$/, '')`: one trailing slash removed, if there is one. */
  function StripTrailingSlash(s: string): (r: string)
    ensures r == s || r + "/" == s
    ensures EndsWith(s, "/") ==> |r| == |s| - 1
  {
    if s != [] && s[|s| - 1] == '/' then s[..|s| - 1] else s
  }

  /** `getOrderEndpoint`: the API path under the given base, or the same-origin path without one
      (the empty string is falsy). */
  function OrderEndpoint(apiBase: string): (url: string)
    ensures EndsWith(url, ApiPath)
    ensures apiBase == "" ==> url == ApiPath
  {
    if apiBase != "" then
      var u := StripTrailingSlash(apiBase) + ApiPath;
      assert u[|u| - |ApiPath|..] == ApiPath;
      u
    else ApiPath
  }

  /** The base an endpoint was built from, read back: at most one slash is lost, and only a slash. */
  lemma EndpointBase(apiBase: string)
    ensures var url := OrderEndpoint(apiBase);
      var base := url[..|url| - |ApiPath|];
      base == apiBase || base + "/" == apiBase
  {
    var url := OrderEndpoint(apiBase);
    if apiBase != "" {
      assert url[..|url| - |ApiPath|] == StripTrailingSlash(apiBase);
    }
  }

  /** Only one slash is stripped: a base ending in two slashes keeps one of them. */
  lemma EndpointKeepsSecondSlash(b: string)
    ensures OrderEndpoint(b + "//") == b + "/" + ApiPath
  {
    assert (b + "//")[..|b + "//"| - 1] == b + "/";
  }

  /** The `{ body, baseUrl }` pair `getOrderPayload` returns. */
  datatype Payload = Payload(body: seq<(string, Json)>, baseUrl: string)

  /** `getOrderPayload`: a shallow copy of the order's fields, with `_debugDevice` set to the device
      only when `includeDebug` is exactly `true`. The caller's object is a value here, so it cannot
      be changed. */
  function OrderPayload(orderData: seq<(string, Json)>, includeDebug: Json, apiBase: string, device: string): (p: Payload)
    ensures includeDebug != JBool(true) ==> p.body == orderData
    ensures includeDebug == JBool(true) ==> Lookup(p.body, "_debugDevice") == JStr(device)
    ensures forall k :: k != "_debugDevice" ==> Lookup(p.body, k) == Lookup(orderData, k)
    ensures p.baseUrl == apiBase
  {
    var body := if includeDebug == JBool(true) then SetEntry(orderData, "_debugDevice", JStr(device)) else orderData;
    Payload(body, apiBase)
  }

  /** The request options of `getOrderConfig`. */
  datatype Config = Config(headers: seq<(string, string)>, timeout: int)

  /** `getOrderConfig` as `submitOrder` calls it: JSON content type and accept headers, and the
      timeout, which falls back to 20000 ms when the option is `null` or `undefined`. */
  function OrderConfig(timeoutOption: Option<int>): (c: Config)
    ensures c.headers == [("Content-Type", "application/json"), ("Accept", "application/json")]
    ensures timeoutOption.None? ==> c.timeout == DefaultTimeoutMs
    ensures timeoutOption.Some? ==> c.timeout == timeoutOption.value
  {
    Config([("Content-Type", "application/json"), ("Accept", "application/json")], timeoutOption.GetOr(DefaultTimeoutMs))
  }

  /** How the request ended: a response (with its body, or `{}` when it is not JSON), or a thrown
      value. */
  datatype Outcome =
    | Responded(ok: bool, status: int, data: Json)
    | Threw(err: Json)

  /** What `submitOrder` resolves to. `error` is `undefined` on success. */
  datatype Submitted = Submitted(success: bool, id: Json, error: Json)

  /** The error branch: a timeout when the thrown value is named `AbortError` or its message
      mentions `abort`; otherwise its message, or a generic network error. */
  function FromThrown(err: Json): (r: Option<Submitted>)
    ensures IsNullish(err) <==> r.None?
    ensures r.Some? ==> !r.value.success && Truthy(r.value.error)
    ensures r.Some? ==> (r.value.error == JStr(TimeoutMessage) <==>
      IsTimeout(err) || Field(err, "message") == JStr(TimeoutMessage))
  {
    if IsNullish(err) then None
    else
      var message := Field(err, "message");
      Some(Submitted(false, JUndef,
        if IsTimeout(err) then JStr(TimeoutMessage) else Or(message, JStr(NetworkMessage))))
  }

  /** `err && (err.name === 'AbortError' || (err.message && String(err.message).indexOf('abort') !== -1))`. */
  predicate IsTimeout(err: Json) {
    var message := Field(err, "message");
    Truthy(err) && (Field(err, "name") == JStr("AbortError") || (Truthy(message) && Contains(ToJsString(message), "abort")))
  }

  /** The `TypeError` reading a property of `null` raises, with the engine's message. */
  function NullReadError(message: string): Json {
    JObj([("name", JStr("TypeError")), ("message", JStr(message))])
  }

  /** The mapping at the end of `submitOrder`. A non-ok response fails with the body's `error`, else
      its `detail`, else `Request failed (<status>)`; an ok response succeeds exactly when the body
      has a truthy `success` and a truthy `id`, and otherwise fails with the body's `error` or the
      fixed not-saved message. A body that parses to `null` makes the first property read throw
      inside the `try`, so it ends in the error branch with the engine's message `nullRead`. `None`
      is the promise rejecting: a thrown `null` makes the error branch itself throw. */
  function SubmitResult(outcome: Outcome, nullRead: string): (r: Option<Submitted>)
    ensures outcome.Responded? ==> r.Some?
    ensures r.Some? && r.value.success ==>
      outcome.Responded? && outcome.ok && Truthy(Field(outcome.data, "success")) && Truthy(Field(outcome.data, "id"))
      && r.value.id == Field(outcome.data, "id") && r.value.error == JUndef
    ensures outcome.Responded? && outcome.ok && Truthy(Field(outcome.data, "success")) && Truthy(Field(outcome.data, "id")) ==>
      r.Some? && r.value.success
    ensures r.Some? && !r.value.success ==> Truthy(r.value.error)
    ensures (outcome.Responded? && !outcome.ok && !IsNullish(outcome.data)
             && !Truthy(Field(outcome.data, "error")) && !Truthy(Field(outcome.data, "detail"))) ==>
      r == Some(Submitted(false, JUndef, JStr("Request failed (" + IntToString(outcome.status) + ")")))
    ensures (outcome.Responded? && outcome.ok && !IsNullish(outcome.data) && !Truthy(Field(outcome.data, "error"))
             && !(Truthy(Field(outcome.data, "success")) && Truthy(Field(outcome.data, "id")))) ==>
      r == Some(Submitted(false, JUndef, JStr(NotSavedMessage)))
    ensures outcome.Responded? && !outcome.ok && !IsNullish(outcome.data) ==>
      r.Some? && !r.value.success && r.value.error
        == Or(Field(outcome.data, "error"), Or(Field(outcome.data, "detail"),
              JStr("Request failed (" + IntToString(outcome.status) + ")")))
    ensures (outcome.Responded? && outcome.ok && !IsNullish(outcome.data)
             && !(Truthy(Field(outcome.data, "success")) && Truthy(Field(outcome.data, "id")))) ==>
      r == Some(Submitted(false, JUndef, Or(Field(outcome.data, "error"), JStr(NotSavedMessage))))
    ensures outcome.Responded? && IsNullish(outcome.data) ==> r == FromThrown(NullReadError(nullRead))
    ensures outcome.Threw? ==> r == FromThrown(outcome.err)
  {
    match outcome
    case Threw(err) => FromThrown(err)
    case Responded(ok, status, data) =>
      if IsNullish(data) then FromThrown(NullReadError(nullRead))
      else if !ok then
        Some(Submitted(false, JUndef,
          Or(Field(data, "error"), Or(Field(data, "detail"), JStr("Request failed (" + IntToString(status) + ")")))))
      else if Truthy(Field(data, "success")) && Truthy(Field(data, "id")) then
        Some(Submitted(true, Field(data, "id"), JUndef))
      else
        Some(Submitted(false, JUndef, Or(Field(data, "error"), JStr(NotSavedMessage))))
  }

  /** The checkout page's own test, `result.success && result.id`, accepts exactly the results that
      report success: a successful result always carries a truthy id. */
  lemma PageAcceptsExactlySuccess(outcome: Outcome, nullRead: string)
    requires SubmitResult(outcome, nullRead).Some?
    ensures var r := SubmitResult(outcome, nullRead).value;
      (r.success && Truthy(r.id)) <==> r.success
  {
  }
}

=== FILE: wrappers.dfy ===
/** Failure-carrying datatypes shared by every module of the model. */
module Wrappers {

  /** A value that may be absent: JavaScript's `null` / `undefined` results. */
  datatype Option<+T> = None | Some(value: T) {

    /** The wrapped value, or `default` when there is none. */
    function GetOr(default: T): T {
      match this
      case Some(v) => v
      case None => default
    }
  }

  /** The outcome of an operation that either succeeds with a value or fails with an error. */
  datatype Result<+R, +E> = Success(value: R) | Failure(error: E)
}
